=== FILE: README.md ===
# KOReader tools and native helpers: a verified model

This project models, in Dafny, the sequential core of several pieces of the KOReader code base, and
proves properties of each.

- **The logcat filter** (`tools/logcat.py`, class `Logcat`). It reads Android log lines in four
  layouts: threadtime, brief, time, and its own re-display layout. It decides which processes belong
  to the application, from configured packages and tags and from ActivityManager birth and death
  messages. It holds records back until a process is tracked, then replays them. It groups
  consecutive records by (pid, priority, tag) and prints a group only once one of its records is
  interesting. Each record becomes a fixed-column line with optional ANSI colours and highlighted
  package and pid mentions.
  - Python's regular expressions are replaced by hand-written recognisers. Each fixed field has one
    way to match. Two choice points remain: the whitespace run in front of a tag (threadtime and self
    layouts) and the tag's repetition. The recognisers try both longest first, as Python's
    backtracking engine does. For the tag's repetition that order is proved against a depth-first
    search of the pattern; for the whitespace run it is built in and not proved separately.
  - The filter is modelled twice. `LogcatSpec` is a state machine over values. `LogcatObject.Logcat`
    is a class whose methods update its fields in place and end in the state the state machine
    computes.
- **The shell-less popen** (`popen-noshell/popen_noshell.c`). The quote-aware command splitter
  writes tokens in place into a scratch buffer and builds a NULL-terminated argv of pointers into it.
  The model also covers the argv copier and the `"r"`/`"w"` mode check.
- **The integer kernels of k2pdfopt** (`k2pdfopt.c`):
  - the in-place heapsorts;
  - `comma_print`;
  - the row and column gap computation;
  - `trim_to` and `height2_calc`;
  - the bitmap byte-width and row-pointer arithmetic;
  - the grey-palette test;
  - the palette transform;
  - the row black-pixel count.
- **The Japanese keyboard table generator** (`tools/ja_keyboard_generate.py`):
  - Lua string escaping;
  - cycle tables with and without wrap-around;
  - the small-kana maps;
  - the per-key rendering.
- **The PDF backend** (`pdf.c`):
  - the size-accounting allocator hooks;
  - the table-of-contents walk;
  - whitespace word splitting;
  - the 8-bit to 4-bit inverted nibble packing of `drawPage` and `drawReflowedPage`.
- **The e-ink framebuffer driver** (`einkfb.c`, `include/einkfb.h`):
  - the 4-bit to 8-bit expansion into the device framebuffer;
  - the update area;
  - the orientation remapping;
  - the header's macros.
- **The event replayer** (`ev_replay.py`):
  - parsing `|`-separated event-log lines;
  - packing each event as a `struct input_event`;
  - writing the events in order.

A few choices shape the model:

- **Bytes and integers.** Bytes are `bv8`, or a `byte` newtype where values are converted
  arithmetically. Integers are unbounded. Where C's 32-bit or unsigned arithmetic matters, it is
  written out or stated as a precondition.
- **Calls into code that cannot be seen become parameters.** This covers `malloc`/`realloc` results,
  Unicode normalisation, and the ioctl state.
- **Two behaviours of the filter that are easy to miss.**
  - A death message adds the pid but keeps the backlog. So records can stay held back while a pid
    is tracked (`LogcatSpecProps.DeathKeepsBacklog`).
  - In the brief and time layouts, a tag can end with a space. The lookahead of the tag pattern
    accepts the `(` that follows (`LogcatParseProps.BriefTagMayEndWithSpace`).

## Model

| member | source | states |
|---|---|---|
| LogcatParse.SkipSpace | tools/logcat.py:42-57 | `\s*`/`\s+` consume the whole run of whitespace from the position: everything skipped is whitespace and the next character is not |
| LogcatParse.SkipDigits | tools/logcat.py:23 | `\d+` consumes the whole run of the digits `0`-`9` from the position (see "Left out" for other Unicode digits) |
| LogcatParse.DateTimeHead | tools/logcat.py:47 | the `\d+-\d+ \s+ time \s+` head of the threadtime and time layouts ends inside the line, the date before the time before the blanks |
| LogcatParse.TagReach | tools/logcat.py:26-30 | the furthest end the tag repetition can reach: every character before it is admitted by the tag pattern (with its lookahead), the next is not |
| LogcatParse.TagWithinReach | tools/logcat.py:26-30 | every end up to the reach delimits a tag of the allowed shape: no tab, no leading `:` or space, never two separators in a row (so no `": "`, no double space, no `::`) |
| LogcatParse.TailAt | tools/logcat.py:40-59 | the part of each layout after the tag: its text has no newline, the brief/time pid is a non-empty digit run, the self layout's priority is one of `VDIWEF` |
| LogcatParse.RestText | tools/logcat.py:32 | `[ ]? (?P<text>.*)` to the end of the line: the text has no newline |
| LogcatParse.LastTag | tools/logcat.py:30 | the longest tag end at which the rest of the layout matches: the chosen end matches, no longer end does, and none is found only when no end matches |
| LogcatParse.ColonTailSkipsSpace | tools/logcat.py:47 | blanks between tag and colon are absorbed by `\s*` |
| LogcatParse.ColonTagEnd | tools/logcat.py:28-30 | the threadtime tag chosen before `\s* :` never ends with a separator |
| LogcatParse.TagAndTail | tools/logcat.py:42-52 | the tag and continuation the engine picks: the tag lies within the reach, has the allowed shape, and the continuation matches at its end; before a colon the tag has no trailing separator |
| LogcatParse.SpacedTagAndTail | tools/logcat.py:47-57 | `\s+ {tag}`: the same, where the blank run before the tag is also chosen longest first |
| LogcatParse.ThreadtimeIds | tools/logcat.py:47 | the pid, tid and priority fields of the threadtime layout are digit runs and a priority letter, in order inside the line |
| LogcatParse.MatchThreadtime | tools/logcat.py:45-49 | a full match of the threadtime layout yields a well-formed record (priority letter, tag of the allowed shape, text without newline) whose tag has no trailing separator |
| LogcatParse.MatchBrief | tools/logcat.py:40-44 | a full match of the brief layout yields a well-formed record with empty time and tid equal to pid |
| LogcatParse.MatchTime | tools/logcat.py:50-54 | a full match of the time layout yields a well-formed record with tid equal to pid |
| LogcatParse.SelfIds | tools/logcat.py:57 | `{pid} (?: : {tid})?`: digit runs, the tid present only after a colon |
| LogcatParse.MatchSelf | tools/logcat.py:55-59 | a full match of the self layout yields a well-formed record |
| LogcatParse.LayoutMatches | tools/logcat.py:60-65 | the four layouts in their fixed order, each match well-formed |
| LogcatParse.FirstSome | tools/logcat.py:188-194 | `_first_match`: the first layout that matches, none exactly when no layout matches |
| LogcatParse.ParseLine | tools/logcat.py:282-288 | the record of the first fully matching layout is well-formed |
| LogcatParse.RStripNewlines | tools/logcat.py:278 | `rstrip('\n')`: a prefix of the line without trailing newline, everything removed being newlines |
| LogcatParse.ClassifyLine | tools/logcat.py:275-288 | a line is skipped exactly when it starts with the beginning-of-log marker or is blank after the strip; otherwise it is the parsed record or, when no layout matches, the unrecognised line |
| LogcatParseProps.TagDfsDescending | tools/logcat.py:30 | the backtracking engine tries the ends of the tag repetition in strictly decreasing order, from the reach down to the start |
| LogcatParseProps.LastTagIsFirstDescending | tools/logcat.py:30 | the recogniser's choice equals the first end, in the engine's order, at which the continuation matches |
| LogcatParseProps.TagAndTailIsEngineChoice | tools/logcat.py:30-42 | the recogniser's tag and continuation are exactly what the depth-first regex search returns |
| LogcatParseProps.BriefTagMayEndWithSpace | tools/logcat.py:40-44 | the brief line `V/a (1): x` parses with tag `"a "`: a tag can end with a space before `(` |
| LogcatParseProps.BriefExample | tools/logcat.py:40-44 | the brief layout alone yields that record for that line |
| LogcatRoundTrip.BriefRoundTrip | tools/logcat.py:40-44 | every well-formed record with no time and tid equal to pid comes back from its brief line `P/tag(pid): text`, by the brief pattern and by the line parser |
| LogcatRoundTrip.TimeRoundTrip | tools/logcat.py:50-54 | the same for the time layout `MM-DD time P/tag(pid): text`, for any numeric month and day and an `h:m:s.frac` time stamp |
| LogcatRoundTrip.SelfRoundTrip | tools/logcat.py:55-59 | the line the tool prints without colour comes back as its record, by the self pattern and by the line parser; with no `:tid` printed the tid is the pid. The fields must fit their columns: pid and tid below 100000, and a tag that fits its column, does not start with whitespace and does not end with a separator |
| LogcatRoundTrip.SelfLayoutOnly | tools/logcat.py:60-65 | a line that starts with a time stamp matches none of the three earlier layouts, so the line parser gives the self pattern's result |
| LogcatRoundTrip.ShortNumeral | tools/logcat.py:250 | a pid fits the 5-wide pid column exactly when it is below 100000 |
| LogcatActivity.ScanPackage | tools/logcat.py:21 | the end of a dotted package name scanned from a position lies inside the line |
| LogcatActivity.PackageEnd | tools/logcat.py:21 | the end of a package name lies after its start |
| LogcatActivity.ScanPackageSound | tools/logcat.py:21 | what the scanner accepts is a package: at least two dot-separated parts, each a letter then letters, digits or `_`, and it stops where the pattern must |
| LogcatActivity.PackageEndSound | tools/logcat.py:21 | the package recogniser accepts only package names, ending where the pattern stops |
| LogcatActivity.ScanPackageFinds | tools/logcat.py:21 | completeness: a package followed by a stopping character is found with that end |
| LogcatActivity.PackageEndFinds | tools/logcat.py:21 | completeness of the package recogniser |
| LogcatActivity.PidEnd | tools/logcat.py:23 | `\d+`: a non-empty maximal digit run, absent exactly when no digit starts there |
| LogcatActivity.Death | tools/logcat.py:67-71 | a match of the death message is a death event |
| LogcatActivity.Start1 | tools/logcat.py:72-76 | a match of the `pid:package/` start message is a start event |
| LogcatActivity.PidFieldAt | tools/logcat.py:79 | `\b pid={pid} \b`: the literal, a digit run, word boundaries on both sides |
| LogcatActivity.LineEnd | tools/logcat.py:79 | `.*` stops at the first newline |
| LogcatActivity.LastPidField | tools/logcat.py:79 | the greedy `.*` picks the last `pid=` field on the line |
| LogcatActivity.LastPidFieldIsLast | tools/logcat.py:79 | no `pid=` field starts after the chosen one on the line |
| LogcatActivity.LastPidFieldNone | tools/logcat.py:79 | the search finds no field only when no `pid=` field starts anywhere in the range |
| LogcatActivity.Start2 | tools/logcat.py:77-81 | a match of the `package ... pid=N` start message is a start event |
| LogcatActivity.ActivityEvent | tools/logcat.py:82-86 | the patterns are tried death first; the event is a death exactly when the death pattern matches |
| LogcatActivity.ActivityEventSound | tools/logcat.py:67-86 | a recognised event names a well-formed package and the text starts with the pattern's head |
| LogcatActivity.DeathRoundTrip | tools/logcat.py:67-71 | the death message built from a package and pid is recognised as that death |
| LogcatActivity.Start1RoundTrip | tools/logcat.py:72-76 | the `Start proc N:package/` message is recognised as that start |
| LogcatActivity.Start2RoundTrip | tools/logcat.py:77-81 | the `Start proc package ... pid=N` message with any newline-free middle is recognised as that start |
| LogcatFormat.ColorIndex | tools/logcat.py:104-114 | only `color0` to `color20` name palette entries, each by its number |
| LogcatFormat.ColorIndexOf | tools/logcat.py:107-114 | every `color<n>` is looked up as entry n |
| LogcatFormat.ColorCode | tools/logcat.py:91-114 | `COLOR_FORMATS.get(c, '')`: an SGR escape or nothing, and an escape for every palette name |
| LogcatFormat.PlainCodes | tools/logcat.py:150-151 | the colour prefixes are invisible: stripping escapes leaves the text |
| LogcatFormat.Spaces | tools/logcat.py:154 | the padding is n spaces |
| LogcatFormat.Clip | tools/logcat.py:146-148 | a string within the width is kept, a longer one is cut to exactly the width |
| LogcatFormat.Shown | tools/logcat.py:143-159 | the visible field has width abs(max_width) or len(s) if 0; over-long input is cut, its last character replaced by `…` with ellipsis; padding goes on the right for a negative width and on the left otherwise |
| LogcatFormat.Format | tools/logcat.py:143-159 | without colour, or with no colours given, `_format` returns exactly the visible field |
| LogcatFormat.FormatVisible | tools/logcat.py:143-159 | `_format` shows exactly that visible field once escapes are stripped, and adds no escape unless colour is on and colours are given |
| LogcatFormat.FormatPadRight | tools/logcat.py:146-157 | a short field with a negative width is the text followed by the padding to the width |
| LogcatFormat.FormatPadLeft | tools/logcat.py:146-157 | a short field with a non-negative width is the padding to the width followed by the text |
| LogcatFormat.FormatFull | tools/logcat.py:146-152 | a field that fills its width is shown without padding |
| LogcatFormat.StyledShows | tools/logcat.py:149-152 | the colour prefixes and the reset code leave the text visible unchanged |
| LogcatFormat.Utf8 | tools/logcat.py:165 | the UTF-8 encoding of a character is one to four bytes |
| LogcatFormat.TagColorIndex | tools/logcat.py:165-168 | the palette index of a tag is below 14, or in 7..20 for application tags |
| LogcatFormat.TagColor | tools/logcat.py:161-169 | no colour exactly for an empty tag or colour off; otherwise a `color<k>` name that is defined in the palette |
| LogcatFormat.TagColorByPrefix | tools/logcat.py:164-165 | tags with the same first four characters get the same colour |
| LogcatFormat.ColumnWidths | tools/logcat.py:249-253 | the pid column is 5 wide, 5+1+5 with `:tid`; the tag column is 25 wide, 19 with `:tid` |
| LogcatHighlight.StrLtIrreflexive | tools/logcat.py:179 | Python's string order is irreflexive |
| LogcatHighlight.StrLtAsymmetric | tools/logcat.py:179 | and asymmetric |
| LogcatHighlight.StrLtTotal | tools/logcat.py:179 | and total on distinct strings |
| LogcatHighlight.StrLtTransitive | tools/logcat.py:179 | and transitive |
| LogcatHighlight.PrefixIsLess | tools/logcat.py:178-179 | a proper prefix sorts before the longer string |
| LogcatHighlight.MaxStrIsMax | tools/logcat.py:179 | the chosen element is the largest of the set |
| LogcatHighlight.SortDesc | tools/logcat.py:179 | `reversed(sorted(s))` has one element per member |
| LogcatHighlight.SortDescMembers | tools/logcat.py:179 | it holds exactly the set's members |
| LogcatHighlight.SortDescSorted | tools/logcat.py:179 | it is strictly descending |
| LogcatHighlight.LongerNameFirst | tools/logcat.py:178-179 | a name comes before each of its proper prefixes, so longer matches are tried first |
| LogcatHighlight.Compile | tools/logcat.py:171-186 | the pattern built from the packages and pids is a non-empty list of alternatives |
| LogcatHighlight.PidAlts | tools/logcat.py:176-182 | the pids joined by `\|` inside the template: `pid=`, `pid: ` and `pid ` before the first pid, each with a leading `\b` and a trailing one only when there is a single pid; then the other pids bare, the last with the trailing `\b` |
| LogcatHighlight.PackageAlts | tools/logcat.py:181 | one alternative per package, in the given order, with `\b` on both sides |
| LogcatHighlight.AltEnd | tools/logcat.py:88-89 | an alternative matches its literal, with a word boundary where the template puts `\b` |
| LogcatHighlight.FirstAltAt | tools/logcat.py:177-186 | the alternation at one position: the first alternative that matches, none exactly when none matches |
| LogcatHighlight.Next | tools/logcat.py:139-140 | the next match of `search`/`sub` lies at or after the position, is what the alternation gives there, and nothing matches before it |
| LogcatHighlight.NextLeftmost | tools/logcat.py:139-140 | the match found is leftmost: no alternative matches at a position before it |
| LogcatHighlight.Search | tools/logcat.py:139 | a match found lies in the text and is what the alternation matches at its start |
| LogcatHighlight.SearchFinds | tools/logcat.py:139 | a match of any alternative anywhere makes `search` succeed |
| LogcatHighlight.BareAltFinds | tools/logcat.py:177-182 | a bare alternative's literal anywhere in the text makes `search` succeed |
| LogcatHighlight.SubFromLength | tools/logcat.py:140 | `sub` never shortens the text and lengthens it when something matched |
| LogcatHighlight.SubFromShows | tools/logcat.py:140 | with the bold and reset codes stripped, `sub` gives back the text |
| LogcatHighlight.HighlightReportsMatch | tools/logcat.py:137-141 | `_highlight` reports a match exactly when the pattern occurs, and without colour returns the text unchanged |
| LogcatHighlight.HighlightShowsText | tools/logcat.py:137-141 | highlighting only adds escape codes |
| LogcatHighlight.SearchMatch | tools/logcat.py:139 | a match found is a match of one alternative |
| LogcatHighlight.CompileSinglePid | tools/logcat.py:176-186 | one pid and no package compile to the three `pid` prefixes of the template around that pid |
| LogcatHighlight.CompilePackages | tools/logcat.py:181 | packages alone compile to the word-bounded package alternatives, longest first |
| LogcatHighlight.SinglePidNeedsPrefix | tools/logcat.py:177-186 | with one pid, every match is `pid=N`, `pid: N` or `pid N` between word boundaries |
| LogcatHighlight.PackageMatchIsWholeWord | tools/logcat.py:181 | a package match is a whole word naming a tracked package |
| LogcatHighlight.MiddlePidAlt | tools/logcat.py:177-182 | with several pids, the unparenthesised join splits the template: the middle pids become bare alternatives |
| LogcatHighlight.MiddlePidMatchesBare | tools/logcat.py:177-182 | so a middle pid matches anywhere as bare digits |
| LogcatSpec.NameSet | tools/logcat.py:132-133 | an empty option names no set member; the members of a comma-split option contain no comma |
| LogcatSpec.Reset | tools/logcat.py:268-272 | `reset` clears pids, backlog, group and pattern, keeps the rest, and leaves a valid state |
| LogcatSpec.Init | tools/logcat.py:128-135 | a new filter has printed nothing, tracks nothing and is valid |
| LogcatSpec.AddPackageAndOrPid | tools/logcat.py:171-186 | adds the given pid and package and rebuilds the pattern from the new sets; nothing else changes |
| LogcatSpec.CheckForBirthOrDeath | tools/logcat.py:196-207 | keeps validity, only grows the pids and packages, touches neither output nor group, and either keeps or empties the backlog |
| LogcatSpec.EnterGroup | tools/logcat.py:227-232 | the current group takes the record's id; the same id keeps the group, a new one starts empty and unshown |
| LogcatSpec.Process | tools/logcat.py:226-266 | keeps validity, changes only group and output, and output only grows |
| LogcatSpec.ReplayOne | tools/logcat.py:216-218 | re-checking then processing one held-back record keeps validity, grows pids and output, and never refills the backlog |
| LogcatSpec.Replay | tools/logcat.py:214-218 | the same over the backlog in order |
| LogcatSpec.CheckForTags | tools/logcat.py:209-218 | a record with a watched tag tracks its pid and empties the backlog; any other record changes nothing |
| LogcatSpec.UpdatePackagesAndPids | tools/logcat.py:220-224 | keeps validity; pids and output only grow |
| LogcatSpec.FilterRecord | tools/logcat.py:289-294 | after one record the state is valid; pids and output only grow |
| LogcatSpec.FilterLine | tools/logcat.py:275-294 | one line: an error exactly for an unrecognised line, otherwise a valid state with grown pids and output |
| LogcatSpec.Filter | tools/logcat.py:274-294 | the loop: a valid state with grown pids and output, or the first unrecognised line |
| LogcatSpecProps.UntrackedUpdateIsIdentity | tools/logcat.py:196-224 | a record that is no birth or death of a known process and has no watched tag changes nothing |
| LogcatSpecProps.HeldBackWhileUntracked | tools/logcat.py:289-294 | while no pid is tracked and none gets tracked, nothing is printed and each parsed record is appended to the backlog |
| LogcatSpecProps.BacklogNeverGrowsWhenTracked | tools/logcat.py:196-218 | once a pid is tracked, a record keeps or empties the backlog and never adds to it |
| LogcatSpecProps.ProcessOutput | tools/logcat.py:226-266 | a shown record prints the group's held lines then its own line and empties the group; otherwise its line is held and nothing is printed |
| LogcatSpecProps.ApplicationRecordPrinted | tools/logcat.py:233-264 | a record of a tracked pid is printed at once, as the last line, in the application style |
| LogcatSpecProps.OtherRecordSilent | tools/logcat.py:240-266 | an untracked record that does not match the highlight pattern and joins an unshown group prints nothing |
| LogcatSpecProps.BirthOrDeathEffect | tools/logcat.py:196-207 | an ActivityManager event about a known pid or package adds its pid and package; a start empties the backlog, a death keeps it |
| LogcatSpecProps.DeathKeepsBacklog | tools/logcat.py:205-207 | a recognised death of a known package tracks the pid and keeps the backlog |
| LogcatSpecProps.StartDropsBacklog | tools/logcat.py:205-207 | a recognised start of a known package tracks the pid and drops the backlog |
| LogcatSpecProps.FilterAppend | tools/logcat.py:274-294 | filtering two chunks of lines is filtering the first and then the second from the resulting state, stopping at an error |
| LogcatSpecProps.FilterExtend | tools/logcat.py:274-294 | one more line of the stream continues from the state the prefix left, which stays valid |
| LogcatSpecProps.ReplayExtend | tools/logcat.py:214-218 | replaying one more held-back record is one more step after the shorter replay |
| LogcatSpecProps.FilterStops | tools/logcat.py:283 | the first unrecognised line stops the filter with that line |
| LogcatObject.Group.constructor | tools/logcat.py:122-126 | a new group has no id, no lines and is not shown |
| LogcatObject.Logcat.constructor | tools/logcat.py:128-135 | the object starts in the state machine's initial state |
| LogcatObject.Logcat.Reset | tools/logcat.py:268-272 | the object's new state is `reset`'s, with a fresh group |
| LogcatObject.Logcat.AddPackageAndOrPid | tools/logcat.py:171-186 | the fields become the state machine's result |
| LogcatObject.Logcat.CheckForBirthOrDeath | tools/logcat.py:196-207 | the fields become the state machine's result |
| LogcatObject.Logcat.Process | tools/logcat.py:226-266 | the fields and the group object become the state machine's result |
| LogcatObject.Logcat.PrintGroup | tools/logcat.py:260-264 | prints the held lines then the line, and empties the group in place |
| LogcatObject.Logcat.CheckForTags | tools/logcat.py:209-218 | the backlog loop leaves the state machine's result |
| LogcatObject.Logcat.UpdatePackagesAndPids | tools/logcat.py:220-224 | the fields become the state machine's result |
| LogcatObject.Logcat.FilterLine | tools/logcat.py:275-294 | one line: the state machine's new state, or the unrecognised line as the error with the object left unchanged (the `assert` fails before anything changes) |
| LogcatObject.Logcat.Filter | tools/logcat.py:274-294 | the `filter` loop ends in the state machine's state, or stops at the first unrecognised line; the object then holds the state the lines before it reached, so their output stays printed |
| Decimal.NatToString | tools/logcat.py:176 | `str` of a non-negative number: a digit string without leading zero whose value is the number |
| Decimal.NatToStringLength | tools/logcat.py:250 | a numeral fits in k+1 digits exactly when the number is below 10^(k+1) |
| PopenNoshell.SplitCommand | popen-noshell/popen_noshell.c:390-462 | a successful split has no shell metacharacter anywhere and at least one token |
| PopenNoshell.SplitFails | popen-noshell/popen_noshell.c:416-458 | the split fails exactly for a metacharacter anywhere (inside quotes too), an unmatched quote, or no token |
| PopenNoshell.MetaFails | popen-noshell/popen_noshell.c:416-419 | any metacharacter makes the split fail |
| PopenNoshell.EmptyQuotesFail | popen-noshell/popen_noshell.c:455-458 | `''` yields no token and fails |
| PopenNoshell.QuoteInsideQuotes | popen-noshell/popen_noshell.c:435-442 | a `"` inside `'…'` is kept literally |
| PopenNoshell.ScanQuotes | popen-noshell/popen_noshell.c:435-442 | the quote state after the scan is the toggling of `'` outside `"…"` and of `"` outside `'…'` |
| PopenNoshell.ScanNonEmpty | popen-noshell/popen_noshell.c:376 | every token emitted is non-empty |
| PopenNoshell.ScanFits | popen-noshell/popen_noshell.c:405-453 | the tokens with their NULs, plus the current token, never outgrow the input |
| PopenNoshell.ScanKept | popen-noshell/popen_noshell.c:421-444 | the tokens concatenated are the input with toggling quotes and unquoted blanks removed |
| PopenNoshell.ScanAccount | popen-noshell/popen_noshell.c:412-453 | the four facts about one scan together |
| PopenNoshell.SplitAccount | popen-noshell/popen_noshell.c:451-462 | the tokens of a successful split are non-empty, concatenate to the kept characters, and fit the `strlen + 1` buffer |
| PopenNoshell.Layout | popen-noshell/popen_noshell.c:375-387 | the buffer holds each token followed by a NUL |
| PopenNoshell.Pointers | popen-noshell/popen_noshell.c:365-373 | one argv pointer per token |
| PopenNoshell.PointersReadBack | popen-noshell/popen_noshell.c:371-377 | each pointer reads back its token followed by a NUL |
| PopenNoshell.AddToken | popen-noshell/popen_noshell.c:375-387 | a started non-empty token is NUL-terminated in place and its pointer appended; otherwise nothing changes; buffer and argv stay the layout and pointers of the tokens |
| PopenNoshell.Put | popen-noshell/popen_noshell.c:421-444 | `command[j++] = c` extends the written prefix by c |
| PopenNoshell.SplitChar | popen-noshell/popen_noshell.c:412-445 | one loop iteration performs one step of the scanner on buffer, pointers and quote flags |
| PopenNoshell.ScanCommand | popen-noshell/popen_noshell.c:405-445 | the loop: stops with failure on a metacharacter; otherwise buffer, pointers and flags are those of the scan of the whole command |
| PopenNoshell.FinishSplit | popen-noshell/popen_noshell.c:446-462 | the end checks and the NULL terminator: fails exactly when the split fails, otherwise the argv is the token pointers then NULL |
| PopenNoshell.SplitCommandToArgv | popen-noshell/popen_noshell.c:390-472 | the result is NULL exactly when the split fails; otherwise a NULL-terminated argv of pointers into a fresh `strlen + 1` buffer holding the tokens |
| PopenNoshell.NullIndex | popen-noshell/popen_noshell.c:181-190 | the position of the first NULL entry |
| PopenNoshell.CopyArgv | popen-noshell/popen_noshell.c:180-206 | a fresh array with the same entries up to and including the first NULL |
| PopenNoshell.ParseMode | popen-noshell/popen_noshell.c:300-307 | `"r"` reads, `"w"` writes, anything else fails |
| K2Sort.HeapRootIsMax | k2pdfopt.c:5755-5796 | the root of a heap holds its largest key |
| K2Sort.SiftDown | k2pdfopt.c:5778-5794 | the sift loop makes the range a heap again with the new element placed, permuting the range and leaving the rest alone |
| K2Sort.BuildOne | k2pdfopt.c:5766-5794 | one heap-building step extends the heap by one position |
| K2Sort.ExtractOne | k2pdfopt.c:5769-5794 | one extraction step moves the largest key behind the heap; the last one leaves the prefix sorted and permuted |
| K2Sort.SiftRoot | k2pdfopt.c:5778-5794 | re-sifting the root after an extraction keeps the sorting invariant |
| K2Sort.HeapSort | k2pdfopt.c:5755-5796 | n < 2 changes nothing; otherwise the first n elements become a sorted permutation of themselves and the rest is unchanged |
| K2Sort.SortInts | k2pdfopt.c:5755-5796 | `sorti`: the same for ints |
| K2Sort.SortReals | k2pdfopt.c:5712-5753 | `sortd`: the same for doubles |
| K2Sort.SortByGap | k2pdfopt.c:3891-3934 | `breakinfo_sort_by_gap`: n < 2 changes nothing; otherwise the first n rows become sorted ascending by gap, a permutation of themselves, and the rest is unchanged |
| K2Sort.SortByRowPosition | k2pdfopt.c:3936-3979 | `breakinfo_sort_by_row_position`: n < 2 changes nothing; otherwise the first n rows become sorted ascending by r1, a permutation of themselves, and the rest is unchanged |
| K2Print.Pad3 | k2pdfopt.c:5579-5610 | a group below 1000 written as exactly three digits with that value |
| K2Print.RemoveCommasAppend | k2pdfopt.c:5579-5610 | removing commas distributes over concatenation |
| K2Print.DigitsValueAppend | k2pdfopt.c:5579-5610 | the value of two digit strings written one after the other |
| K2Print.GroupedShape | k2pdfopt.c:5579-5610 | the digits of a positive number are written as 1 to 3 digits without leading zero, then comma-separated groups of exactly three |
| K2Print.GroupedValue | k2pdfopt.c:5579-5610 | removing the commas gives the decimal numeral of the value |
| K2Print.CommaStringShape | k2pdfopt.c:5579-5610 | `"0"` for 0; otherwise a `-` exactly for a negative size, a well-grouped numeral, and the commas removed give the absolute value |
| K2Print.CommaPrint | k2pdfopt.c:5579-5610 | the strcat loop writes the grouped string |
| K2Rows.RowGaps | k2pdfopt.c:3683-3703 | one result row per text row |
| K2Rows.RowGapsSpan | k2pdfopt.c:3683-3703 | only gap and rowheight change; each gap reaches one line before the next row's r1, the last gap reaches r2 |
| K2Rows.RowHeightsTelescope | k2pdfopt.c:3691-3701 | rowheight[0] is r2 - r1 of row 0, and the later heights add up to the baseline distance |
| K2Rows.ColGaps | k2pdfopt.c:3705-3722 | one result column per text column |
| K2Rows.ColGapsSpan | k2pdfopt.c:3705-3722 | only gap and rowheight change; each gap reaches the next c1, each width reaches the next c1, the last ones end at c2 |
| K2Rows.GapsToNext | k2pdfopt.c:3693-3695 | the first loop sets every gap but the last |
| K2Rows.HeightsFromBaselines | k2pdfopt.c:3699-3701 | the second loop sets every height but the first from the old baselines |
| K2Rows.RowGapsSteps | k2pdfopt.c:3683-3703 | the four steps of the routine compose to the specified result |
| K2Rows.ComputeRowGaps | k2pdfopt.c:3683-3703 | n <= 0 changes nothing; otherwise the first n rows become their gaps-and-heights image, the rest unchanged |
| K2Rows.ComputeColGaps | k2pdfopt.c:3705-3722 | the same for columns |
| K2Region.TrimTo | k2pdfopt.c:2829-2874 | the trimmed end lies between the start and i2; it is i2 exactly when every visited count is <= 0; otherwise it starts a run of positive counts on the walk |
| K2Region.LeadingZeros | k2pdfopt.c:2811-2812 | the skip loop stops at the first non-zero count, or at the last count; every count before it is zero |
| K2Region.Threshold | k2pdfopt.c:2803-2813 | with `sorted` the copied counts in ascending order (a permutation of the first n) and `zeros` the number of leading zeros skipped, the threshold is `sorted[(zeros + n) / 3]`, a third of the way up the non-zero counts, and it is one of the counts |
| K2Region.Height2Calc | k2pdfopt.c:2793-2827 | 1 for n <= 0; always >= 1 and <= n; the threshold is Threshold's: `sorted[(zeros + n) / 3]` of the counts sorted in a copy with `zeros` leading zeros skipped; the result spans from the first to the last count at or above it |
| K2Bitmap.ByteWidth | k2pdfopt.c:5968-5970 | width times 3 for 24 bpp, width otherwise |
| K2Bitmap.ByteWidthWin32 | k2pdfopt.c:5868-5872 | the byte width rounded up to a multiple of 4: at least the byte width, less than 4 above it |
| K2Bitmap.RowPtrFlip | k2pdfopt.c:5977-5984 | a Win32 bitmap's row r is the native row height-1-r |
| K2Bitmap.RowPtrBounds | k2pdfopt.c:5977-5984 | every row from the top lies within bytewidth times height |
| K2Bitmap.OffInjective | k2pdfopt.c:6275-6281 | distinct pixels have distinct offsets |
| K2Bitmap.OffBounds | k2pdfopt.c:6275-6281 | every pixel offset lies in the data |
| K2Bitmap.IsGrayscale | k2pdfopt.c:6245-6255 | true exactly for 8 bpp with all three palettes the identity |
| K2Bitmap.CountBelow | k2pdfopt.c:1011-1013 | the count is at most the number of pixels |
| K2Bitmap.RowBlackCount | k2pdfopt.c:1003-1015 | the number of pixels of the row segment below the background level, between 0 and c2-c1+1 |
| K2Bitmap.RowInData | k2pdfopt.c:1009-1010 | the segment of a row of a valid bitmap lies in its data |
| K2Bitmap.XformRow | k2pdfopt.c:6278-6281 | one row of the transform is written |
| K2Bitmap.Alloc | k2pdfopt.c:5878-5901 | enough room is kept, otherwise the data becomes Win32 byte width times height with the old bytes kept |
| K2Bitmap.BecomeGrey | k2pdfopt.c:6266-6273 | the destination takes the source's size, 8 bpp and identity palettes, with room for its data |
| K2Bitmap.XformRows | k2pdfopt.c:6275-6282 | every pixel of the width-by-height area becomes `newval` of the old source pixel; other bytes are unchanged |
| K2Bitmap.ColorXform8 | k2pdfopt.c:6257-6283 | `bmp_color_xform8`: a distinct destination becomes an 8-bit grey bitmap of the source's size; every pixel is `newval` of the source pixel, in place when both are the same bitmap |
| JaKeyboard.EscapeLuaString | tools/ja_keyboard_generate.py:63-65 | the string in double quotes with its characters escaped |
| JaKeyboard.EscapeReplaces | tools/ja_keyboard_generate.py:65 | the two chained `replace` calls escape backslashes first, then quotes |
| JaKeyboard.UnescapeEscape | tools/ja_keyboard_generate.py:63-65 | undoing the escapes gives the input back |
| JaKeyboard.EscapeRoundTrip | tools/ja_keyboard_generate.py:63-65 | reading the Lua literal back gives the input |
| JaKeyboard.EscapeInjective | tools/ja_keyboard_generate.py:63-65 | distinct strings give distinct literals |
| JaKeyboard.EscapeNoNewline | tools/ja_keyboard_generate.py:63-65 | a literal of a string without newline has none |
| JaKeyboard.ReplaceAll | tools/ja_keyboard_generate.py:162 | `str.replace`: replacing a pattern by itself changes nothing, and the result keeps, or grows beyond, the length of the input when the replacement is as long, or longer |
| JaKeyboard.Joined | tools/ja_keyboard_generate.py:119 | `sep.join`: empty for no parts, non-empty when the first part is |
| JaKeyboard.JoinedAppend | tools/ja_keyboard_generate.py:119 | joining two lists puts one separator between the two joins |
| JaKeyboard.Mapping | tools/ja_keyboard_generate.py:110-115 | each element is mapped to its successor; with loop the last is mapped to the first, without it the last has no entry |
| JaKeyboard.Entry | tools/ja_keyboard_generate.py:118 | an entry starts with `[` |
| JaKeyboard.EntryTexts | tools/ja_keyboard_generate.py:117-118 | one entry per mapped pair, in order |
| JaKeyboard.OutputCycle | tools/ja_keyboard_generate.py:105-119 | empty exactly for a cycle of at most one element; otherwise the entries of the mapping joined by single spaces |
| JaKeyboard.Chars | tools/ja_keyboard_generate.py:165 | a string taken as a cycle is the list of its characters |
| JaKeyboard.FromSmallKana | tools/ja_keyboard_generate.py:54 | `FROM_SMALL_KANA` is the exact inverse of `TO_SMALL_KANA` |
| JaKeyboard.ToSmallKanaPredecessor | tools/ja_keyboard_generate.py:42-52 | each small kana is the code point just before its big kana |
| JaKeyboard.ToSmallKanaDistinct | tools/ja_keyboard_generate.py:42-52 | the small kana are distinct, so the inversion loses nothing |
| JaKeyboard.ModifiedKana | tools/ja_keyboard_generate.py:26-35 | at most the two single-code-point compositions with dakuten and handakuten |
| JaKeyboard.GenerateCycle | tools/ja_keyboard_generate.py:67-76 | starts with the normalised kana, then the small kana if any, then the modified kana; at most four |
| JaKeyboard.GenerateBasicCycle | tools/ja_keyboard_generate.py:78-93 | the normalised kana, then possibly one single-code-point kana different from the input, composed from the base (made big again) and the modifier |
| JaKeyboard.GenerateSmallKanaCycle | tools/ja_keyboard_generate.py:95-100 | the normalised kana, then its small form exactly when the base has one |
| JaKeyboard.Upper | tools/ja_keyboard_generate.py:103 | `upper` on ASCII letters |
| JaKeyboard.GenerateAlphabetShiftCycle | tools/ja_keyboard_generate.py:102-103 | the letter and its upper case |
| JaKeyboard.ShiftCycleEntries | tools/ja_keyboard_generate.py:102-119 | a letter's shift table is the two entries letter to upper and back |
| JaKeyboard.MakeKey | tools/ja_keyboard_generate.py:138-143 | the loop defaults to the popout order when not given or empty |
| JaKeyboard.DirItemsFrom | tools/ja_keyboard_generate.py:153-158 | one item per non-`\0` slot, none exactly when every slot is `\0` |
| JaKeyboard.DirItemsSound | tools/ja_keyboard_generate.py:153-158 | every item is the rendering of a non-`\0` slot at or after the start (`SlotItem`) |
| JaKeyboard.DirItemsComplete | tools/ja_keyboard_generate.py:153-158 | every non-`\0` slot is rendered |
| JaKeyboard.LabelItems | tools/ja_keyboard_generate.py:147-150 | no label items exactly when neither label is set |
| JaKeyboard.Spaces | tools/ja_keyboard_generate.py:161-162 | the indentation is that many spaces |
| JaKeyboard.RenderKeyPlain | tools/ja_keyboard_generate.py:145-162 | a key without labels renders as `name = { items }` on one line |
| JaKeyboard.RenderKeyLabelled | tools/ja_keyboard_generate.py:145-162 | with labels, the direction items go on a second line indented by len(name) + 4(indent+1), without the doubled comma |
| JaKeyboard.RenderKeyCycle | tools/ja_keyboard_generate.py:164-169 | `"nil"` exactly when the loop's cycle table is empty, that is for a one-character loop |
| PdfAlloc.Copied | pdf.c:146 | the new block starts with min(old, new) bytes of the old one |
| PdfAlloc.FootprintAdd | pdf.c:108 | a new block of ours adds its size plus the header to the total |
| PdfAlloc.FootprintRemove | pdf.c:122-124 | the total counts any one of our blocks plus the rest |
| PdfAlloc.FootprintForeign | pdf.c:137-139 | blocks without the magic header count nothing |
| PdfAlloc.Allocator.constructor | pdf.c:54-59 | at start-up nothing of ours is allocated and the total is 0 |
| PdfAlloc.Allocator.ResetMsize | pdf.c:74-79 | remembers the total and resets the extremes |
| PdfAlloc.Allocator.LogSize | pdf.c:87-97 | widens the extremes to the current total |
| PdfAlloc.Allocator.Malloc | pdf.c:99-112 | on success a block with the magic header and the size; the total grows by size plus header; logged outside a reallocation; on failure nothing changes |
| PdfAlloc.Allocator.Free | pdf.c:114-127 | NULL and foreign blocks are left alone; a block of ours is freed and its size plus header leave the total; logged outside a reallocation |
| PdfAlloc.Allocator.Realloc | pdf.c:129-155 | NULL is malloc; a foreign block is reallocated uncounted; a block of ours moves to a new block with min(old, new) bytes copied, the total changing by new - old; on failure the old block and total stay |
| PdfAlloc.Allocator.ReallocForeign | pdf.c:137-139 | the foreign branch |
| PdfAlloc.Allocator.ReallocOwn | pdf.c:140-151 | the branch for our blocks, logged once at the end |
| PdfToc.Flat | pdf.c:241-269 | one table entry per outline node |
| PdfToc.FlatShape | pdf.c:241-269 | entries are at least the walk's depth, the first is at that depth, and each is at most one deeper than the one before |
| PdfToc.WalkStep | pdf.c:243-266 | a node's entry is followed by its children's entries, then its siblings' |
| PdfToc.Toc.constructor | pdf.c:285 | an empty table |
| PdfToc.Toc.Walk | pdf.c:241-269 | appends the pre-order entries of the outline, one deeper than the caller's depth |
| PdfToc.Toc.Visit | pdf.c:244-265 | appends one node's entry, then its subtree's |
| PdfToc.GetTableOfContent | pdf.c:278-288 | the table is the pre-order list from depth 1 |
| PdfToc.TableShape | pdf.c:241-287 | one entry per node; top level at depth 1; the first entry is the first node with its page plus 1; each entry at most one deeper than the previous |
| PdfWords.FirstWord | pdf.c:356-381 | the rest after the first word is shorter than the span |
| PdfWords.FirstWordShape | pdf.c:356-381 | the word has no whitespace and is either the whole span or followed by one whitespace code point that is dropped |
| PdfWords.WordsNoSpace | pdf.c:350-401 | no word contains whitespace |
| PdfWords.WordsCount | pdf.c:350-401 | a span yields one word per whitespace code point, plus one unless it ends in whitespace |
| PdfWords.WordsConcat | pdf.c:350-401 | the words together are the span without its whitespace |
| PdfWords.WordsJoin | pdf.c:350-401 | joined by spaces the words give back the span with whitespace as spaces and one trailing whitespace dropped |
| PdfWords.ScanWord | pdf.c:356-381 | the inner loop reads the first word of the rest of the span and moves past it |
| PdfWords.SplitSpan | pdf.c:350-401 | the loop over a span yields its words |
| PdfWords.SplitLine | pdf.c:348-402 | the words of a line are its spans' words in order |
| PdfWords.LineWordsNoSpace | pdf.c:348-402 | no word of a line contains whitespace |
| PdfPack.PageNibbles | pdf.c:622-625 | the left pixel's inverted grey is the high nibble, the right one's the low; the odd last pixel leaves a low nibble 0 |
| PdfPack.PackPageRow | pdf.c:621-626 | one row: every pair packed, then the odd last pixel; nothing else changes |
| PdfPack.DrawPage | pdf.c:616-629 | every row of the blit buffer is packed from the same row of the pixmap |
| PdfPack.ReflowNibbles | pdf.c:567-572 | the same nibbles for 8-bit samples; the odd last pixel leaves a low nibble 15 |
| PdfPack.PackReflowPairs | pdf.c:565-568 | one row's pairs |
| PdfPack.DrawReflowedPage | pdf.c:564-574 | as written: pairs of rows 0..h-1, but for an odd width the last byte of rows 1..h is written from those rows, and row 0's is never written |
| PdfPack.DrawReflowedPageFixed | pdf.c:564-574 | the intended packing: every pair and every odd last byte of rows 0..h-1, nothing beyond |
| PdfPack.OddWidthCounterexample | pdf.c:571-573 | for width 3 and one row, the as-written last byte of row 0 stays 0 where the intended one is 0xFF |
| Einkfb.Replicated | einkfb.c:179-185 | each device byte carries one pixel's nibble in both halves |
| Einkfb.MakeUpdateArea | einkfb.c:190-196 | x1, y1 default to 0; x2 - x1 and y2 - y1 are width and height, defaulting to the resolution; partial for a non-zero fxtype, full otherwise |
| Einkfb.UpdateAreaKind | einkfb.c:196 | the area's kind is full exactly for fxtype 0 and is fixed by `UPDATE_AREA_MODE` |
| Einkfb.ToDeviceMode | einkfb.c:268-276 | the reader's modes 1 and 2 become the device's 2 and 1; other modes pass unchanged |
| Einkfb.FromDeviceMode | einkfb.c:282-290 | the device's modes 1 and 2 become the reader's 2 and 1; other modes pass unchanged |
| Einkfb.ModeTranslations | einkfb.c:268-290 | both translations swap 1 and 2 and keep every other mode; each undoes the other |
| Einkfb.FlatLastByte | einkfb.c:177-186 | in the device's flat buffer, for an odd width w the second byte of row i's last pair is at (i+1)·w, the first byte of the next row |
| Einkfb.FrameBuffer.ExpandRow | einkfb.c:178-186 | byte columns (w-1)/2 down to 1 of one row are spread over two device bytes each, in the model's own row; nothing else changes |
| Einkfb.FrameBuffer.Expand | einkfb.c:171-188 | rows h-1 down to 1 are expanded unless the screen is 4 bpp; in the model's separate rows, row 0 and the first two bytes of every row are never written |
| Einkfb.FrameBuffer.Update | einkfb.c:165-197 | the copy, then the update area |
| Einkfb.FrameBuffer.SetOrientation | einkfb.c:242-276 | modes outside 0..3 are an error and change nothing; otherwise the device gets the translated mode |
| Einkfb.FrameBuffer.GetOrientation | einkfb.c:278-294 | the device mode translated back, in 0..3 when the device's is |
| EinkfbH.BppSize | include/einkfb.h:25 | r·b/8 with C's truncating division |
| EinkfbH.BppMax | include/einkfb.h:26 | `1 << b` is 2^b, doubling with each bit |
| EinkfbH.URangeAsInRange | include/einkfb.h:28-29 | `U_IN_RANGE` is n = m = 0 or `IN_RANGE` with the lower bound excluded |
| EinkfbH.Orientation | include/einkfb.h:31 | portrait exactly when taller than wide |
| EinkfbH.OrientationSwap | include/einkfb.h:31 | a square is landscape, and swapping unequal sides flips the orientation |
| EinkfbH.UpdateAreaMode | include/einkfb.h:152-154 | full for the two masks and a full update, partial otherwise |
| EinkfbH.UpdateAreaKinds | include/einkfb.h:137-154 | never both partial and full; flash and invert are neither |
| EinkfbH.UpdateMode | include/einkfb.h:158-164 | full only for a full update |
| EinkfbH.ModesAgree | include/einkfb.h:137-164 | both modes are idempotent, and they differ only for the two masks |
| EinkfbH.OrientationSameClasses | include/einkfb.h:241-249 | `ORIENTATION_SAME` holds exactly for two valid orientations in the same half, so it is an equivalence with classes {portrait, portrait upside down} and {landscape, landscape upside down} |
| Text.Split | ev_replay.py:12 | `split` gives at least one part, joining the parts gives the string back, and no part contains the separator |
| Text.SplitJoin | ev_replay.py:12 | splitting joined separator-free parts gives them back |
| EvReplay.TrimLeft | ev_replay.py:30 | removes leading whitespace |
| EvReplay.TrimRight | ev_replay.py:30 | removes trailing whitespace |
| EvReplay.Strip | ev_replay.py:30 | `strip()` leaves no whitespace at either end |
| EvReplay.IntToString | ev_replay.py:15-20 | the numeral of an integer has no surrounding whitespace and no `\|` |
| EvReplay.ParseIntRoundTrip | ev_replay.py:15-20 | `int(str(i)) == i` |
| EvReplay.ParseNumeral | ev_replay.py:15-20 | `int` on a stripped field: a digit string reads as its value; a negative value needs a leading `-`; whatever parses ends with a digit |
| EvReplay.ParseIntPadded | ev_replay.py:15-20 | whitespace around a field does not change what `int` reads |
| EvReplay.SignThenBlanks | ev_replay.py:15-20 | blanks may follow the sign: `int('- 3') == -3` |
| EvReplay.ParseLinePadded | ev_replay.py:30 | `line.strip()`: whitespace around a line does not change the event read from it |
| EvReplay.FieldsEvent | ev_replay.py:12-21 | an event exactly when the first five fields parse (a sign may be followed by blanks); fields 0, 1, 2 are type, code, value and 3, 4 are seconds and microseconds; too few fields is an IndexError, raised in the order the dictionary is built |
| EvReplay.GenEvRoundTrip | ev_replay.py:11-21 | joining five integers with `\|` and parsing gives them back |
| EvReplay.GenEvExtraFields | ev_replay.py:12-21 | fields after the fifth are ignored |
| EvReplay.LittleEndianRoundTrip | ev_replay.py:39-43 | an unsigned field packed little-endian reads back |
| EvReplay.SignedRoundTrip | ev_replay.py:39-43 | a two's-complement field reads back |
| EvReplay.Pack | ev_replay.py:39-43 | `struct.pack("llHHi")`: 24 bytes exactly when seconds and microseconds fit 64 signed bits, type and code 16 unsigned bits, value 32 signed bits; otherwise an error naming the field |
| EvReplay.PackRoundTrip | ev_replay.py:39-43 | a packed event unpacks to itself |
| EvReplay.Collect | ev_replay.py:30-31 | the list comprehension: all events when every line parses |
| EvReplay.CollectSpec | ev_replay.py:30-31 | it succeeds exactly when every line parses, keeps them in order, and otherwise fails with the first line's error |
| EvReplay.Emit | ev_replay.py:36-44 | the write loop's output: no error exactly when every event packs; otherwise the error of the first event that does not pack |
| EvReplay.EmitInOrder | ev_replay.py:36-44 | when all pack, the output is the events' 24-byte records in log order |
| EvReplay.Map | ev_replay.py:30-31 | one result per line |
| EvReplay.Pipe.constructor | ev_replay.py:35 | the pipe starts empty |
| EvReplay.Pipe.Write | ev_replay.py:38 | appends the bytes |
| EvReplay.CollectMap | ev_replay.py:30-31 | the comprehension's loop computes the collected parse |
| EvReplay.WriteEvents | ev_replay.py:36-44 | writes the packed events in order up to the first that does not pack, and reports it |
| EvReplay.Replay | ev_replay.py:29-44 | a line that does not parse stops everything before any write; otherwise the events are written in order and the run succeeds exactly when all pack |
| EvReplay.ReplayInOrder | ev_replay.py:36-44 | the i-th 24-byte record unpacks to the i-th event of the log |

## Left out

- `tools/logcat.py` `main()`: argument parsing, the `adb` subprocess, stdout re-wrapping and colour
  detection from the terminal and environment are I/O. `print` is modelled as appending to `out`.
  The `assert` on an unknown line is modelled as an error result.
- Python's `re` engine is not modelled in general. Each pattern has its own recogniser. The order
  of its choices is proved against a depth-first search only for the tag repetition; the
  whitespace run in front of a tag is tried longest first by construction.
- The logcat patterns are `str` patterns without `re.ASCII`, so in the source `\d` also matches
  the other Unicode decimal digits and `\b` uses Unicode word characters. The model knows only the
  ASCII ones. A line such as `V/a(١٢): x` parses in the source but is an unrecognised line in the
  model; `org.koreaderé` has no `\b` after `r` in the source but is highlighted in the model.
  Each member below inherits that restriction:
  - LogcatParse.SkipDigits: stops at the first character outside `0`-`9`.
  - LogcatParse.DateTimeHead: the date and time fields are runs of `0`-`9`.
  - LogcatParse.ThreadtimeIds: the pid and tid fields are runs of `0`-`9`.
  - LogcatParse.SelfIds: the pid and tid fields are runs of `0`-`9`.
  - LogcatActivity.PidEnd: the pid is a run of `0`-`9`.
  - LogcatActivity.PidFieldAt: ASCII digits, and `\b` over ASCII word characters.
  - LogcatHighlight.IsWordChar: ASCII letters, digits and `_` only.
  - LogcatHighlight.Boundary: `\b` over ASCII word characters.
  - LogcatHighlight.AltEnd: its `\b` tests use ASCII word characters.
- LogcatParse.MatchBrief, LogcatParse.MatchTime: the round trips are proved for lines built from a
  record (BriefRoundTrip, TimeRoundTrip), with the pid written as `str` writes it.
- LogcatParse.MatchSelf: the round trip (SelfRoundTrip) is proved for lines printed without colour
  whose fields fit their columns. `_format` cuts a longer pid or tag, which then cannot come back.
- LogcatParse.MatchThreadtime: the round trip from a rendered threadtime line back to its record is
  not proved. Soundness (a well-formed record) is proved.
- Logcat pids are modelled as non-negative. `int()` of a `\d+` capture cannot be negative, so
  `abs` in the pattern builder changes nothing.
- popen-noshell: `fork`/`clone`/`vfork`, pipes, `dup2`, `exec`, `pclose_noshell`/`waitpid` are
  process plumbing.
  - The failures of `calloc`, `realloc`, `malloc` and `strdup` in the splitter and the argv copier
    are not modelled. The model assumes that allocation succeeds.
  - `errno` is not modelled; a failure is `None`.
- k2pdfopt.c: the floating-point reflow pipeline, the MuPDF/DjVu entry points, the allocation
  wrappers and the debug dumps are out of the model.
  - K2Region.TrimTo: `gaplen` and the derived level enter as integers. The floating-point scaling
    that produces them is not modelled.
  - K2Sort.SortReals: `double` is modelled as `real`, so NaN is not covered.
  - K2Bitmap.ColorXform8: the NULL source or destination cases are modelled by passing the same
    bitmap twice.
  - Only the 8-bit `bmp_color_xform8` is modelled; the 24-bit `bmp_color_xform` is not.
  - K2Bitmap.Alloc: the error exit for a bpp other than 8 or 24 is a precondition.
- tools/ja_keyboard_generate.py: Unicode NFC and NFD are uninterpreted function parameters. The
  jinja2 rendering, the module-level tables over the kana strings and `print` are not modelled.
- pdf.c: the Lua bindings, MuPDF calls, bounding boxes and the UTF-8 re-encoding of word characters
  are not modelled. Words are sequences of code points.
  - PdfAlloc.Allocator.LogSize: the disabled (`1==0`) logging branch is left out.
  - `sizeof(struct header)` is taken as 16, the 64-bit layout. `unsigned int` requests are bounded
    by 2^32 - 1.
- einkfb.c: the ioctls, the framebuffer opening and mapping, and the emulator branch are not
  modelled.
  - The device and shadow buffers are two-dimensional arrays, and row i of the device keeps its
    own bytes. In the source the device is one flat buffer with rows w bytes apart
    (`data[i*w + …]`). For an odd w the last pair of row i writes `data[i*w + 2*j + 1]` with
    j = (w-1)/2, which is `(i+1)*w`: byte 0 of row i+1, and `h*w`, one past the rows, for the last
    row (FlatLastByte). The model writes that byte at column w of row i instead, so it does not
    show the next row's first byte being overwritten.
  - Einkfb.FrameBuffer.ExpandRow: for an odd w it does not capture the write into byte 0 of the
    next row, as explained above.
  - Einkfb.FrameBuffer.Expand: the same; its "byte column 0 is never written" holds only in the
    model's separate rows.
  - Einkfb.FrameBuffer.Update: inherits Expand's odd-width difference.
- ev_replay.py: file and FIFO I/O and argument parsing are not modelled.
  - `struct` native sizes are taken as the LP64 little-endian layout, 24 bytes.
  - The script runs under Python 2 on byte strings, so `strip()` and `int()` see ASCII whitespace
    and ASCII digits only, as in the model. `int()` goes through `strtol`, which skips blanks
    after the sign; the model does the same (SignThenBlanks).
- `include/einkfb.h`: the struct and ioctl declarations are out of the model.
  - EinkfbH.BppSize: the 32-bit overflow of `r*b` is not modelled.
  - EinkfbH.BppMax: requires b in 0..30, where `1 << b` is defined on a 32-bit `int`.

## Findings

| source | as written | input that shows it | evidently intended | confidence | as-written member | corrected member |
|---|---|---|---|---|---|---|
| pdf.c:569-573 | for an odd width the last byte of each row is written after both row pointers have advanced, so it lands in the next row from the next row's last pixel. Row 0 never gets it, and the last iteration reads and writes one row past the buffers | width 3, height 1: the last byte of row 0 keeps its old value, and row 1 of both buffers is accessed | write each row's last byte into that row from that row's last pixel, before advancing | not executed | PdfPack.DrawReflowedPage, PdfPack.OddWidthCounterexample | PdfPack.DrawReflowedPageFixed |

=== FILE: arith.dfy ===
/** Steps of the row-offset arithmetic (`row * pitch + column`) shared by the raster loops. */
module Arith {

  lemma MulMono(a: int, b: int, c: int)
    requires 0 <= a && b <= c
    ensures a * b <= a * c
  {
    assert a * c - a * b == a * (c - b);
  }

  lemma MulNext(a: int, b: int)
    ensures a * (b + 1) == a * b + a
  {
  }
}

=== FILE: decimal.dfy ===
/** Decimal numerals: the digit runs the log layouts and event logs carry, and `str(n)` / `%d`. */
module Decimal {

  predicate IsDigit(c: char) { '0' <= c <= '9' }

  predicate IsDigits(s: string) { forall i | 0 <= i < |s| :: IsDigit(s[i]) }

  function DigitValue(c: char): (d: nat)
    requires IsDigit(c)
    ensures d < 10
  {
    c as int - '0' as int
  }

  function DigitChar(d: nat): (c: char)
    requires d < 10
    ensures IsDigit(c) && DigitValue(c) == d
  {
    ('0' as int + d) as char
  }

  /** The value of a run of decimal digits, most significant first (`int(s)` on such a run). */
  function DigitsValue(s: string): nat
    requires IsDigits(s)
  {
    if s == [] then 0 else DigitsValue(s[..|s| - 1]) * 10 + DigitValue(s[|s| - 1])
  }

  /** The shortest decimal numeral of n (`str(n)`, `"%d"`): parsing it gives n back. */
  function NatToString(n: nat): (s: string)
    ensures |s| > 0 && IsDigits(s)
    ensures DigitsValue(s) == n
    ensures s[0] == '0' ==> n == 0
  {
    if n < 10 then [DigitChar(n)]
    else
      var p := NatToString(n / 10);
      assert (p + [DigitChar(n % 10)])[..|p|] == p;
      p + [DigitChar(n % 10)]
  }

  /** A numeral has at most k digits exactly when the number is below 10^k. */
  function Pow10(k: nat): (p: nat)
    ensures p >= 1
  {
    if k == 0 then 1 else 10 * Pow10(k - 1)
  }

  lemma {:induction false} NatToStringLength(n: nat, k: nat)
    ensures |NatToString(n)| <= k + 1 <==> n < Pow10(k + 1)
  {
    if n >= 10 {
      if k > 0 {
        NatToStringLength(n / 10, k - 1);
      } else {
        assert |NatToString(n)| == |NatToString(n / 10)| + 1;
      }
    }
  }
}

=== FILE: einkfb.dfy ===
/**
 * The e-ink framebuffer driver: copying the 4-bit shadow blit buffer into the device framebuffer,
 * building the area of a display update, and the rotation modes, whose numbering differs between
 * the reader (0 portrait, 1 and 2 the two landscapes, 3 upside down) and the device (1 and 2
 * swapped). The device's ioctl calls are modelled by the fields they read and write.
 */
module Einkfb {
  import opened Wrappers
  import opened EinkfbH

  /** The device byte of the left pixel of a shadow byte: its high nibble in both halves. */
  function HighPair(b: bv8): bv8
  {
    (b & 0xF0) | ((b >> 4) & 0x0F)
  }

  /** The device byte of the right pixel of a shadow byte: its low nibble in both halves. */
  function LowPair(b: bv8): bv8
  {
    (b & 0x0F) | ((b << 4) & 0xF0)
  }

  /** Each device byte carries one pixel's nibble in both halves. */
  lemma Replicated(b: bv8)
    ensures HighPair(b) >> 4 == b >> 4 && HighPair(b) & 0x0F == b >> 4
    ensures LowPair(b) >> 4 == b & 0x0F && LowPair(b) & 0x0F == b & 0x0F
  {
  }

  /** The largest byte column the copy visits: (w - 1) / 2, which for w >= 1 is C's quotient. */
  function LastCol(w: int): int
  {
    if w >= 1 then (w - 1) / 2 else 0
  }

  /** In the device's flat buffer, whose rows are w bytes apart, the second byte of the last pair
      of row i lies at i * w + 2 * LastCol(w) + 1. For an odd width that is the first byte of row
      i + 1, which the model's own rows keep apart. */
  lemma FlatLastByte(i: int, w: int)
    requires w >= 1 && w % 2 == 1
    ensures i * w + 2 * LastCol(w) + 1 == (i + 1) * w
    ensures w >= 3 ==> 2 * LastCol(w) + 1 == w
  {
    assert 2 * LastCol(w) == w - 1;
  }

  /** `luaL_optint`: the argument when given, the default otherwise. */
  function OptInt(arg: Option<int>, fallback: int): int
  {
    if arg.Some? then arg.value else fallback
  }

  /** An `update_area_t`; its `buffer` is always NULL. */
  datatype UpdateArea = UpdateArea(x1: int, y1: int, x2: int, y2: int, whichFx: int)

  /** The area `einkUpdate` hands to the display: from (x1, y1), by default (0, 0), over width
      and height, by default the screen's resolution; a partial update for a non-zero fxtype, a full one
      otherwise. */
  function MakeUpdateArea(fxtype: int, x1: Option<int>, y1: Option<int>, width: Option<int>, height: Option<int>,
                          xres: int, yres: int): (a: UpdateArea)
    ensures a.x1 == OptInt(x1, 0) && a.y1 == OptInt(y1, 0)
    ensures a.x2 - a.x1 == OptInt(width, xres) && a.y2 - a.y1 == OptInt(height, yres)
    ensures a.whichFx == (if fxtype != 0 then FxUpdatePartial else FxUpdateFull)
  {
    var left, top := OptInt(x1, 0), OptInt(y1, 0);
    UpdateArea(left, top, left + OptInt(width, xres), top + OptInt(height, yres),
               if fxtype != 0 then FxUpdatePartial else FxUpdateFull)
  }

  /** The area's update kind is a valid one for area updates: full exactly when fxtype is 0, and
      the header's UPDATE_AREA_MODE leaves it as it is. */
  lemma UpdateAreaKind(fxtype: int, x1: Option<int>, y1: Option<int>, width: Option<int>, height: Option<int>,
                       xres: int, yres: int)
    ensures var a := MakeUpdateArea(fxtype, x1, y1, width, height, xres, yres);
      (UpdateAreaFull(a.whichFx) <==> fxtype == 0) && (UpdateAreaPart(a.whichFx) <==> fxtype != 0) &&
      UpdateAreaMode(a.whichFx) == a.whichFx
  {
  }

  /** `einkSetOrientation`'s translation from the reader's mode to the device's. */
  function ToDeviceMode(mode: int): (r: int)
    ensures (mode == 1 ==> r == 2) && (mode == 2 ==> r == 1) && (mode != 1 && mode != 2 ==> r == mode)
  {
    if mode == 1 then 2 else if mode == 2 then 1 else mode
  }

  /** `einkGetOrientation`'s translation from the device's mode to the reader's. */
  function FromDeviceMode(mode: int): (r: int)
    ensures (mode == 1 ==> r == 2) && (mode == 2 ==> r == 1) && (mode != 1 && mode != 2 ==> r == mode)
  {
    if mode == 2 then 1 else if mode == 1 then 2 else mode
  }

  /** Both translations swap 1 and 2 and keep every other mode; each undoes the other, so getting
      the orientation after setting it gives back the mode that was set. */
  lemma ModeTranslations(mode: int)
    ensures ToDeviceMode(mode) == FromDeviceMode(mode)
    ensures FromDeviceMode(ToDeviceMode(mode)) == mode && ToDeviceMode(FromDeviceMode(mode)) == mode
    ensures (mode == 1 <==> ToDeviceMode(mode) == 2) && (mode == 2 <==> ToDeviceMode(mode) == 1)
    ensures mode != 1 && mode != 2 ==> ToDeviceMode(mode) == mode
  {
  }

  /** The framebuffer state: the device framebuffer (one byte per pixel, rows of the shadow's
      width), the 4-bit shadow blit buffer (two pixels per byte) with its width and height in
      pixels, the screen's bit depth and resolution, and the device's rotation mode. */
  class FrameBuffer {
    var device: array2<bv8>
    var shadow: array2<bv8>
    var w: int
    var h: int
    var bitsPerPixel: int
    var xres: int
    var yres: int
    var deviceMode: int

    /** Every row and column the copy touches lies inside both buffers. */
    ghost predicate Valid()
      reads this
    {
      device != shadow && 0 <= h <= device.Length0 && h <= shadow.Length0 &&
      (LastCol(w) == 0 || (LastCol(w) < shadow.Length1 && 2 * LastCol(w) + 1 < device.Length1))
    }

    /** One row of the copy: byte columns LastCol(w) down to 1 of shadow row i, each spread over
        two device bytes. */
    method ExpandRow(i: int)
      requires Valid() && 1 <= i < h
      modifies device
      ensures forall j | 1 <= j <= LastCol(w) :: device[i, 2 * j] == HighPair(shadow[i, j]) && device[i, 2 * j + 1] == LowPair(shadow[i, j])
      ensures forall r, c | 0 <= r < device.Length0 && 0 <= c < device.Length1 && (r != i || c < 2 || c > 2 * LastCol(w) + 1) ::
        device[r, c] == old(device[r, c])
    {
      var j := LastCol(w);
      while j > 0
        invariant 0 <= j <= LastCol(w)
        invariant forall k | j < k <= LastCol(w) :: device[i, 2 * k] == HighPair(shadow[i, k]) && device[i, 2 * k + 1] == LowPair(shadow[i, k])
        invariant forall r, c | 0 <= r < device.Length0 && 0 <= c < device.Length1 && (r != i || c < 2 * j + 2 || c > 2 * LastCol(w) + 1) ::
          device[r, c] == old(device[r, c])
      {
        var b := shadow[i, j];
        var hi := b;
        hi := hi & 0xF0;
        hi := hi | ((b >> 4) & 0x0F);
        var lo := b;
        lo := lo & 0x0F;
        lo := lo | ((b << 4) & 0xF0);
        device[i, j * 2] := hi;
        device[i, j * 2 + 1] := lo;
        j := j - 1;
      }
    }

    /** `einkUpdate`'s copy: unless the screen itself is 4 bits deep, rows h - 1 down to 1 of the
        shadow are spread into the device framebuffer; row 0 and byte column 0 are never copied. */
    method Expand()
      requires Valid()
      modifies device
      ensures bitsPerPixel != 4 ==> forall i, j | 1 <= i < h && 1 <= j <= LastCol(w) ::
        device[i, 2 * j] == HighPair(shadow[i, j]) && device[i, 2 * j + 1] == LowPair(shadow[i, j])
      ensures forall r, c | 0 <= r < device.Length0 && 0 <= c < device.Length1 &&
        (bitsPerPixel == 4 || r == 0 || r >= h || c < 2 || c > 2 * LastCol(w) + 1) :: device[r, c] == old(device[r, c])
    {
      if bitsPerPixel != 4 {
        var i := h - 1;
        while i > 0
          invariant (if h > 0 then 0 else -1) <= i <= h - 1
          invariant forall r, j | i < r < h && 1 <= j <= LastCol(w) ::
            device[r, 2 * j] == HighPair(shadow[r, j]) && device[r, 2 * j + 1] == LowPair(shadow[r, j])
          invariant forall r, c | 0 <= r < device.Length0 && 0 <= c < device.Length1 &&
            (r <= i || r >= h || c < 2 || c > 2 * LastCol(w) + 1) :: device[r, c] == old(device[r, c])
        {
          ExpandRow(i);
          i := i - 1;
        }
      }
    }

    /** `einkUpdate`: the copy, then the area handed to the display. */
    method Update(fxtype: Option<int>, x1: Option<int>, y1: Option<int>, width: Option<int>, height: Option<int>)
      returns (area: UpdateArea)
      requires Valid()
      modifies device
      ensures area == MakeUpdateArea(OptInt(fxtype, 0), x1, y1, width, height, xres, yres)
      ensures bitsPerPixel != 4 ==> forall i, j | 1 <= i < h && 1 <= j <= LastCol(w) ::
        device[i, 2 * j] == HighPair(shadow[i, j]) && device[i, 2 * j + 1] == LowPair(shadow[i, j])
      ensures forall r, c | 0 <= r < device.Length0 && 0 <= c < device.Length1 &&
        (bitsPerPixel == 4 || r == 0 || r >= h || c < 2 || c > 2 * LastCol(w) + 1) :: device[r, c] == old(device[r, c])
    {
      Expand();
      area := MakeUpdateArea(OptInt(fxtype, 0), x1, y1, width, height, xres, yres);
    }

    /** `einkSetOrientation`: a mode outside 0 to 3 is an error and changes nothing; otherwise the
        device gets the mode in its own numbering. */
    method SetOrientation(mode: Option<int>) returns (r: Result<(), string>)
      modifies this
      ensures var m := OptInt(mode, 0);
        if 0 <= m <= 3 then r.Ok? && deviceMode == ToDeviceMode(m) else r.Err? && deviceMode == old(deviceMode)
      ensures device == old(device) && shadow == old(shadow) && w == old(w) && h == old(h)
      ensures bitsPerPixel == old(bitsPerPixel) && xres == old(xres) && yres == old(yres)
    {
      var m := OptInt(mode, 0);
      if m < 0 || m > 3 {
        return Err("Wrong rotation mode");
      }
      if m == 1 {
        m := 2;
      } else if m == 2 {
        m := 1;
      }
      deviceMode := m;
      r := Ok(());
    }

    /** `einkGetOrientation`: the device's mode in the reader's numbering. */
    method GetOrientation() returns (mode: int)
      ensures mode == FromDeviceMode(deviceMode)
      ensures 0 <= deviceMode <= 3 ==> 0 <= mode <= 3
    {
      mode := deviceMode;
      if mode == 2 {
        mode := 1;
      } else if mode == 1 {
        mode := 2;
      }
    }
  }
}

=== FILE: einkfb_h.dfy ===
/**
 * The e-ink framebuffer header's expression macros: bit-depth arithmetic, range checks, the
 * orientation of a resolution, the update kinds (`fx_type`) and the orientation classes.
 * C `int` arithmetic is 32-bit; the macros are modelled on unbounded integers where no overflow
 * can happen and say so where it can.
 */
module EinkfbH {
  const OrientPortrait := 0
  const OrientLandscape := 1

  /** The byte size of r pixels of b bits: C's `/` on `int`, which truncates toward zero. */
  function BppSize(r: int, b: int): (q: int)
    ensures r * b >= 0 ==> 0 <= q && 8 * q <= r * b < 8 * q + 8
    ensures r * b < 0 ==> q <= 0 && 8 * q - 8 < r * b <= 8 * q
  {
    var p := r * b;
    if p >= 0 then p / 8 else -((-p) / 8)
  }

  /** 2 to the power b. */
  function Pow2(b: nat): (r: int)
    ensures r >= 1
  {
    if b == 0 then 1 else 2 * Pow2(b - 1)
  }

  /** The number of values of a b-bit pixel: `1 << b` on a 32-bit `int`, which is defined for
      b from 0 to 30. */
  function BppMax(b: int): (r: int)
    requires 0 <= b <= 30
    ensures 1 <= r <= 0x4000_0000
    ensures b > 0 ==> r == 2 * BppMax(b - 1)
  {
    Pow2Mono(b, 30);
    Pow2Thirty();
    Pow2(b)
  }

  /** 2^(a + b) is 2^a times 2^b. */
  lemma {:induction false} Pow2Add(a: nat, b: nat)
    ensures Pow2(a + b) == Pow2(a) * Pow2(b)
    decreases a
  {
    if a > 0 {
      Pow2Add(a - 1, b);
    }
  }

  /** 2^30 is 0x4000_0000, the largest power of two a 32-bit `int` holds. */
  lemma Pow2Thirty()
    ensures Pow2(30) == 0x4000_0000
  {
    assert Pow2(5) == 32;
    Pow2Add(5, 5);
    Pow2Add(10, 10);
    Pow2Add(20, 10);
  }

  /** 2^a <= 2^b when a <= b. */
  lemma {:induction false} Pow2Mono(a: nat, b: nat)
    requires a <= b
    ensures Pow2(a) <= Pow2(b)
    decreases b
  {
    if a < b {
      Pow2Mono(a, b - 1);
    }
  }

  /** `U_IN_RANGE`: n is 0 with m 0, or m < n <= M. */
  predicate URange(n: int, m: int, bigM: int)
  {
    (n == 0 && m == 0) || (n > m && n <= bigM)
  }

  /** `IN_RANGE`: m <= n <= M. */
  predicate InRange(n: int, m: int, bigM: int)
  {
    n >= m && n <= bigM
  }

  /** U_IN_RANGE is IN_RANGE with the lower bound excluded, except that 0 is allowed when the
      lower bound is 0. */
  lemma URangeAsInRange(n: int, m: int, bigM: int)
    ensures URange(n, m, bigM) <==> (n == 0 && m == 0) || InRange(n, m + 1, bigM)
    ensures URange(n, m, bigM) && m != 0 ==> InRange(n, m, bigM) && n != m
  {
  }

  /** `ORIENTATION`: portrait when taller than wide, landscape otherwise. */
  function Orientation(x: int, y: int): (r: int)
    ensures r == OrientPortrait <==> y > x
    ensures r == OrientPortrait || r == OrientLandscape
  {
    if y > x then OrientPortrait else OrientLandscape
  }

  /** A square resolution is landscape, and swapping the sides of any other flips the orientation. */
  lemma OrientationSwap(x: int, y: int)
    ensures Orientation(x, x) == OrientLandscape
    ensures x != y ==> Orientation(x, y) != Orientation(y, x)
  {
  }

  /** The values of `fx_type`. */
  const FxMask := 11
  const FxBufIsMask := 14
  const FxNone := -1
  const FxFlash := 20
  const FxInvert := 21
  const FxUpdatePartial := 0
  const FxUpdateFull := 1

  /** `UPDATE_AREA_FX`: the two legacy effects valid for area updates. */
  predicate UpdateAreaFx(f: int)
  {
    f == FxMask || f == FxBufIsMask
  }

  /** `UPDATE_AREA_PART`. */
  predicate UpdateAreaPart(f: int)
  {
    f == FxNone || f == FxUpdatePartial
  }

  /** `UPDATE_AREA_FULL`. */
  predicate UpdateAreaFull(f: int)
  {
    UpdateAreaFx(f) || f == FxUpdateFull
  }

  /** `UPDATE_AREA_MODE`: full for the masks and a full update, partial for everything else. */
  function UpdateAreaMode(f: int): (r: int)
    ensures r == FxUpdateFull <==> f == FxMask || f == FxBufIsMask || f == FxUpdateFull
    ensures r == FxUpdatePartial <==> !(f == FxMask || f == FxBufIsMask || f == FxUpdateFull)
  {
    if UpdateAreaFull(f) then FxUpdateFull else FxUpdatePartial
  }

  /** An area update kind is never both partial and full; the flash and invert effects are
      neither. */
  lemma UpdateAreaKinds(f: int)
    ensures !(UpdateAreaPart(f) && UpdateAreaFull(f))
    ensures f == FxFlash || f == FxInvert ==> !UpdateAreaPart(f) && !UpdateAreaFull(f)
    ensures UpdateAreaPart(f) ==> UpdateAreaMode(f) == FxUpdatePartial
  {
  }

  /** `UPDATE_PART`. */
  predicate UpdatePart(f: int)
  {
    f == FxUpdatePartial
  }

  /** `UPDATE_FULL`. */
  predicate UpdateFull(f: int)
  {
    f == FxUpdateFull
  }

  /** `UPDATE_MODE`: full only for a full update. */
  function UpdateMode(f: int): (r: int)
    ensures r == FxUpdateFull <==> f == FxUpdateFull
    ensures r == FxUpdatePartial <==> f != FxUpdateFull
  {
    if UpdateFull(f) then FxUpdateFull else FxUpdatePartial
  }

  /** Both modes are fixed points of both mode functions, and the area mode differs from the
      display mode only for the two masks. */
  lemma ModesAgree(f: int)
    ensures UpdateMode(UpdateMode(f)) == UpdateMode(f) && UpdateAreaMode(UpdateAreaMode(f)) == UpdateAreaMode(f)
    ensures UpdateAreaMode(f) != UpdateMode(f) <==> UpdateAreaFx(f)
  {
  }

  /** The values of `orientation_t`. */
  const OrientationPortrait := 0
  const OrientationPortraitUpsideDown := 1
  const OrientationLandscape := 2
  const OrientationLandscapeUpsideDown := 3

  /** `ORIENTATION_PORTRAIT`. */
  predicate IsPortrait(o: int)
  {
    o == OrientationPortrait || o == OrientationPortraitUpsideDown
  }

  /** `ORIENTATION_LANDSCAPE`. */
  predicate IsLandscape(o: int)
  {
    o == OrientationLandscape || o == OrientationLandscapeUpsideDown
  }

  /** `ORIENTATION_SAME`: both portrait or both landscape. */
  predicate OrientationSame(o1: int, o2: int)
  {
    (IsPortrait(o1) && IsPortrait(o2)) || (IsLandscape(o1) && IsLandscape(o2))
  }

  /** Two orientations are the same exactly when both are valid and agree on o / 2, so the
      relation is an equivalence on the four orientations with the classes {portrait, portrait
      upside down} and {landscape, landscape upside down}. */
  lemma OrientationSameClasses(o1: int, o2: int, o3: int)
    ensures OrientationSame(o1, o2) <==> 0 <= o1 < 4 && 0 <= o2 < 4 && o1 / 2 == o2 / 2
    ensures 0 <= o1 < 4 <==> OrientationSame(o1, o1)
    ensures OrientationSame(o1, o2) ==> OrientationSame(o2, o1)
    ensures OrientationSame(o1, o2) && OrientationSame(o2, o3) ==> OrientationSame(o1, o3)
  {
  }
}

=== FILE: ev_replay.dfy ===
/**
 * Replaying a recorded input-event log into the emulator's event pipe. Each log line holds
 * `type|code|value|sec|usec` in decimal; the whole log is parsed first, then every event is packed
 * as a native `struct input_event` ("llHHi": two 8-byte longs, two unsigned shorts, one 4-byte
 * int, little-endian, 24 bytes) and written in log order.
 */
module EvReplay {
  import opened Wrappers
  import opened Text
  import opened Decimal

  /** An input event: its timestamp and its type, code and value. */
  datatype Event = Event(sec: int, usec: int, evType: int, code: int, value: int)

  /** Python's exceptions out of the line parser: a missing field, or a field `int` rejects. */
  datatype ParseError = IndexError | ValueError(field: nat)

  /** The ASCII whitespace `str.strip` and `int` remove. */
  predicate IsBlank(c: char)
  {
    c == ' ' || c == '\t' || c == '\n' || c == '\r' || c == '\U{000B}' || c == '\U{000C}'
  }

  function TrimLeft(s: string): (r: string)
    ensures |r| <= |s| && r == s[|s| - |r|..]
    ensures r == [] || !IsBlank(r[0])
  {
    if s != [] && IsBlank(s[0]) then TrimLeft(s[1..]) else s
  }

  function TrimRight(s: string): (r: string)
    ensures |r| <= |s| && r == s[..|r|]
    ensures r == [] || !IsBlank(r[|r| - 1])
  {
    if s != [] && IsBlank(s[|s| - 1]) then TrimRight(s[..|s| - 1]) else s
  }

  /** `str.strip()`: s without its leading and trailing whitespace. */
  function Strip(s: string): (r: string)
    ensures r == [] || (!IsBlank(r[0]) && !IsBlank(r[|r| - 1]))
  {
    TrimRight(TrimLeft(s))
  }

  /** A string that neither starts nor ends with whitespace is its own strip. */
  lemma StripClean(s: string)
    requires s == [] || (!IsBlank(s[0]) && !IsBlank(s[|s| - 1]))
    ensures Strip(s) == s
  {
  }

  /** A decimal numeral with an optional sign, which blanks may follow: its value, if it is one. */
  function ParseNumeral(t: string): (r: Option<int>)
    ensures r.Some? ==> t != [] && IsDigit(t[|t| - 1])
    ensures r.Some? && r.value < 0 ==> t[0] == '-'
    ensures t != [] && IsDigits(t) ==> r == Some(DigitsValue(t))
  {
    if t != [] && (t[0] == '-' || t[0] == '+') then
      var d := TrimLeft(t[1..]);
      if d != [] && IsDigits(d) then Some(if t[0] == '-' then -(DigitsValue(d) as int) else DigitsValue(d))
      else None
    else if t != [] && IsDigits(t) then Some(DigitsValue(t))
    else None
  }

  /** Python's `int(s)` on a decimal numeral: surrounding whitespace, an optional sign, blanks
      after it, and at least one digit. */
  function ParseInt(s: string): Option<int>
  {
    ParseNumeral(Strip(s))
  }

  /** `strip()` removes exactly the blanks around a string that neither starts nor ends with one. */
  lemma StripPadded(pre: string, t: string, post: string)
    requires forall i | 0 <= i < |pre| :: IsBlank(pre[i])
    requires forall i | 0 <= i < |post| :: IsBlank(post[i])
    requires t != [] && !IsBlank(t[0]) && !IsBlank(t[|t| - 1])
    ensures Strip(pre + t + post) == t
  {
    TrimLeftBlanks(pre, t + post);
    assert pre + t + post == pre + (t + post);
    TrimRightBlanks(t, post);
  }

  /** Blanks around a clean numeral do not change what `int` reads. */
  lemma ParseIntPadded(pre: string, t: string, post: string)
    requires forall i | 0 <= i < |pre| :: IsBlank(pre[i])
    requires forall i | 0 <= i < |post| :: IsBlank(post[i])
    requires t != [] && !IsBlank(t[0]) && !IsBlank(t[|t| - 1])
    ensures ParseInt(pre + t + post) == ParseInt(t)
  {
    StripPadded(pre, t, post);
    StripClean(t);
  }

  lemma {:induction false} TrimLeftBlanks(pre: string, u: string)
    requires forall i | 0 <= i < |pre| :: IsBlank(pre[i])
    requires u == [] || !IsBlank(u[0])
    ensures TrimLeft(pre + u) == u
  {
    if pre != [] {
      assert (pre + u)[1..] == pre[1..] + u;
      TrimLeftBlanks(pre[1..], u);
    }
  }

  lemma {:induction false} TrimRightBlanks(t: string, post: string)
    requires forall i | 0 <= i < |post| :: IsBlank(post[i])
    requires t == [] || !IsBlank(t[|t| - 1])
    ensures TrimRight(t + post) == t
  {
    if post != [] {
      assert (t + post)[..|t + post| - 1] == t + post[..|post| - 1];
      TrimRightBlanks(t, post[..|post| - 1]);
    } else {
      assert t + post == t;
    }
  }

  /** A sign may be followed by blanks: `int('- 3') == -3`. */
  lemma SignThenBlanks(sign: char, blanks: string, n: nat)
    requires sign == '-' || sign == '+'
    requires forall i | 0 <= i < |blanks| :: IsBlank(blanks[i])
    ensures ParseInt([sign] + blanks + NatToString(n)) == Some(if sign == '-' then -(n as int) else n as int)
  {
    SignBlanksDigits(sign, blanks, NatToString(n));
  }

  lemma SignBlanksDigits(sign: char, blanks: string, d: string)
    requires sign == '-' || sign == '+'
    requires forall i | 0 <= i < |blanks| :: IsBlank(blanks[i])
    requires d != [] && IsDigits(d)
    ensures ParseInt([sign] + blanks + d) == Some(if sign == '-' then -(DigitsValue(d) as int) else DigitsValue(d))
  {
    var t := [sign] + blanks + d;
    assert t[1..] == blanks + d;
    assert !IsBlank(t[0]) && !IsBlank(t[|t| - 1]);
    StripClean(t);
    TrimLeftBlanks(blanks, d);
    SignedNumeral(t, d);
  }

  lemma SignedNumeral(t: string, d: string)
    requires t != [] && (t[0] == '-' || t[0] == '+')
    requires TrimLeft(t[1..]) == d && d != [] && IsDigits(d)
    ensures ParseNumeral(t) == Some(if t[0] == '-' then -(DigitsValue(d) as int) else DigitsValue(d))
  {
  }

  /** `str(i)` for an integer: a minus sign before the digits of a negative one. */
  function IntToString(i: int): (s: string)
    ensures s != [] && !IsBlank(s[0]) && !IsBlank(s[|s| - 1]) && '|' !in s
  {
    if i < 0 then ['-'] + NatToString(-i) else NatToString(i)
  }

  /** The numeral `str` writes reads back as the same integer. */
  lemma NumeralRoundTrip(i: int)
    ensures ParseNumeral(IntToString(i)) == Some(i)
  {
    var s := IntToString(i);
    if i < 0 {
      var d := NatToString(-i);
      assert s == ['-'] + d;
      assert s[0] == '-' && s[1..] == d && IsDigits(d);
      assert TrimLeft(d) == d;
    } else {
      assert IsDigit(s[0]) && IsDigits(s);
    }
  }

  /** `int(str(i)) == i`. */
  lemma ParseIntRoundTrip(i: int)
    ensures ParseInt(IntToString(i)) == Some(i)
  {
    StripClean(IntToString(i));
    NumeralRoundTrip(i);
  }

  /** The five fields all parse. */
  predicate AllFields(values: seq<string>)
  {
    |values| >= 5 && ParseInt(values[0]).Some? && ParseInt(values[1]).Some? && ParseInt(values[2]).Some? &&
    ParseInt(values[3]).Some? && ParseInt(values[4]).Some?
  }

  /** The event of a line's fields: fields 3 and 4 are the time, fields 0, 1 and 2 the type,
      code and value. Python evaluates the dictionary's entries in that order, so a bad or missing
      time field is reported before the others; fields after the fifth are never looked at. */
  function FieldsEvent(values: seq<string>): (r: Result<Event, ParseError>)
    ensures r.Ok? <==> AllFields(values)
    ensures r.Ok? ==> r.value == Event(ParseInt(values[3]).value, ParseInt(values[4]).value,
                                       ParseInt(values[0]).value, ParseInt(values[1]).value, ParseInt(values[2]).value)
    ensures |values| < 4 ==> r == Err(IndexError)
    ensures |values| == 4 && ParseInt(values[3]).Some? ==> r == Err(IndexError)
  {
    if |values| <= 3 then Err(IndexError)
    else if ParseInt(values[3]).None? then Err(ValueError(3))
    else if |values| == 4 then Err(IndexError)
    else if ParseInt(values[4]).None? then Err(ValueError(4))
    else if ParseInt(values[0]).None? then Err(ValueError(0))
    else if ParseInt(values[1]).None? then Err(ValueError(1))
    else if ParseInt(values[2]).None? then Err(ValueError(2))
    else Ok(Event(ParseInt(values[3]).value, ParseInt(values[4]).value,
                  ParseInt(values[0]).value, ParseInt(values[1]).value, ParseInt(values[2]).value))
  }

  /** `gen_ev_from_log_entry`: the event of the line split at every `|`. */
  function GenEv(line: string): Result<Event, ParseError>
  {
    FieldsEvent(Split(line, '|'))
  }

  /** Five integers joined with `|` parse back into the event they describe. */
  lemma GenEvRoundTrip(evType: int, code: int, value: int, sec: int, usec: int)
    ensures GenEv(Join([IntToString(evType), IntToString(code), IntToString(value), IntToString(sec), IntToString(usec)], '|'))
      == Ok(Event(sec, usec, evType, code, value))
  {
    var parts := [IntToString(evType), IntToString(code), IntToString(value), IntToString(sec), IntToString(usec)];
    var ev := Event(sec, usec, evType, code, value);
    assert Split(Join(parts, '|'), '|') == parts by {
      SplitJoin(parts, '|');
    }
    assert FieldsEvent(parts) == Ok(ev) by {
      ParseIntRoundTrip(evType);
      ParseIntRoundTrip(code);
      ParseIntRoundTrip(value);
      ParseIntRoundTrip(sec);
      ParseIntRoundTrip(usec);
      FieldsEventOf(parts, ev);
    }
  }

  /** Five fields that parse to an event's numbers give that event. */
  lemma FieldsEventOf(values: seq<string>, ev: Event)
    requires |values| == 5
    requires ParseInt(values[0]) == Some(ev.evType) && ParseInt(values[1]) == Some(ev.code)
    requires ParseInt(values[2]) == Some(ev.value) && ParseInt(values[3]) == Some(ev.sec)
    requires ParseInt(values[4]) == Some(ev.usec)
    ensures FieldsEvent(values) == Ok(ev)
  {
  }

  /** Fields beyond the fifth change nothing. */
  lemma GenEvExtraFields(parts: seq<string>)
    requires |parts| >= 5 && forall i | 0 <= i < |parts| :: '|' !in parts[i]
    ensures GenEv(Join(parts, '|')) == GenEv(Join(parts[..5], '|'))
  {
    SplitJoin(parts, '|');
    SplitJoin(parts[..5], '|');
    FieldsEventPrefix(parts);
  }

  /** Only the first five fields matter. */
  lemma FieldsEventPrefix(values: seq<string>)
    requires |values| >= 5
    ensures FieldsEvent(values) == FieldsEvent(values[..5])
  {
    var p := values[..5];
    assert p[0] == values[0] && p[1] == values[1] && p[2] == values[2] && p[3] == values[3] && p[4] == values[4];
  }

  /** A byte of the packed record. */
  newtype byte = b: int | 0 <= b < 256

  /** 256 to the power n. */
  function Pow256(n: nat): (p: nat)
    ensures p >= 1
  {
    if n == 0 then 1 else 256 * Pow256(n - 1)
  }

  /** The n little-endian bytes of v modulo 256^n. */
  function LittleEndian(v: nat, n: nat): (r: seq<byte>)
    ensures |r| == n
  {
    if n == 0 then [] else [(v % 256) as byte] + LittleEndian(v / 256, n - 1)
  }

  /** The value of little-endian bytes. */
  function FromLittleEndian(s: seq<byte>): nat
  {
    if s == [] then 0 else s[0] as nat + 256 * FromLittleEndian(s[1..])
  }

  lemma {:induction false} LittleEndianRoundTrip(v: nat, n: nat)
    requires v < Pow256(n)
    ensures FromLittleEndian(LittleEndian(v, n)) == v
  {
    if n > 0 {
      var q := v / 256;
      assert v == v % 256 + 256 * q;
      assert q < Pow256(n - 1);
      LittleEndianRoundTrip(q, n - 1);
      var r := LittleEndian(v, n);
      assert r[0] as int == v % 256 && r[1..] == LittleEndian(q, n - 1);
    }
  }

  /** An integer fits n signed bytes. */
  predicate FitsSigned(v: int, n: nat)
  {
    var half := Pow256(n) as int / 2;
    -half <= v < half
  }

  /** An integer fits n unsigned bytes. */
  predicate FitsUnsigned(v: int, n: nat)
  {
    0 <= v < Pow256(n)
  }

  /** The n two's-complement bytes of v. */
  function Signed(v: int, n: nat): (r: seq<byte>)
    requires FitsSigned(v, n)
    ensures |r| == n
  {
    LittleEndian(if v < 0 then v + Pow256(n) else v, n)
  }

  /** The value of two's-complement bytes. */
  function FromSigned(s: seq<byte>): int
  {
    var u := FromLittleEndian(s);
    if u >= Pow256(|s|) / 2 then u - Pow256(|s|) else u
  }

  lemma SignedRoundTrip(v: int, n: nat)
    requires FitsSigned(v, n)
    ensures FromSigned(Signed(v, n)) == v
  {
    LittleEndianRoundTrip(if v < 0 then v + Pow256(n) else v, n);
  }

  /** `struct.pack("llHHi", sec, usec, type, code, value)`: the bytes, or the position of the
      first argument out of its range (`struct.error`). */
  function Pack(ev: Event): (r: Result<seq<byte>, nat>)
    ensures r.Ok? <==> FitsSigned(ev.sec, 8) && FitsSigned(ev.usec, 8) && FitsUnsigned(ev.evType, 2) &&
                       FitsUnsigned(ev.code, 2) && FitsSigned(ev.value, 4)
    ensures r.Ok? ==> |r.value| == 24
    ensures r.Err? ==> r.error < 5
  {
    if !FitsSigned(ev.sec, 8) then Err(0)
    else if !FitsSigned(ev.usec, 8) then Err(1)
    else if !FitsUnsigned(ev.evType, 2) then Err(2)
    else if !FitsUnsigned(ev.code, 2) then Err(3)
    else if !FitsSigned(ev.value, 4) then Err(4)
    else Ok(Signed(ev.sec, 8) + Signed(ev.usec, 8) + LittleEndian(ev.evType, 2) + LittleEndian(ev.code, 2) + Signed(ev.value, 4))
  }

  /** Reading a packed event back: the reader's side of the pipe. */
  function Unpack(b: seq<byte>): Event
    requires |b| == 24
  {
    Event(FromSigned(b[0..8]), FromSigned(b[8..16]), FromLittleEndian(b[16..18]), FromLittleEndian(b[18..20]), FromSigned(b[20..24]))
  }

  /** A packed event unpacks to itself. */
  lemma PackRoundTrip(ev: Event)
    requires Pack(ev).Ok?
    ensures Unpack(Pack(ev).value) == ev
  {
    var b := Pack(ev).value;
    assert b[0..8] == Signed(ev.sec, 8);
    assert b[8..16] == Signed(ev.usec, 8);
    assert b[16..18] == LittleEndian(ev.evType, 2);
    assert b[18..20] == LittleEndian(ev.code, 2);
    assert b[20..24] == Signed(ev.value, 4);
    SignedRoundTrip(ev.sec, 8);
    SignedRoundTrip(ev.usec, 8);
    LittleEndianRoundTrip(ev.evType, 2);
    LittleEndianRoundTrip(ev.code, 2);
    SignedRoundTrip(ev.value, 4);
  }

  /** A list comprehension that stops at the first exception: every value in order, or the
      first error. */
  function Collect<T, E>(rs: seq<Result<T, E>>): (r: Result<seq<T>, E>)
    ensures r.Ok? ==> |r.value| == |rs|
  {
    if rs == [] then Ok([])
    else match rs[0]
      case Err(e) => Err(e)
      case Ok(v) => match Collect(rs[1..]) case Err(e) => Err(e) case Ok(vs) => Ok([v] + vs)
  }

  /** Collect succeeds exactly when every result is a value, and then gives the values in order;
      otherwise it gives the error of the first result that is one. */
  lemma {:induction false} CollectSpec<T, E>(rs: seq<Result<T, E>>)
    ensures Collect(rs).Ok? <==> forall i | 0 <= i < |rs| :: rs[i].Ok?
    ensures Collect(rs).Ok? ==> forall i | 0 <= i < |rs| :: rs[i] == Ok(Collect(rs).value[i])
    ensures Collect(rs).Err? ==> exists i | 0 <= i < |rs| :: rs[i] == Err(Collect(rs).error) && forall j | 0 <= j < i :: rs[j].Ok?
  {
    if rs != [] {
      CollectSpec(rs[1..]);
      if rs[0].Ok? && Collect(rs[1..]).Err? {
        var i :| 0 <= i < |rs[1..]| && rs[1..][i] == Err(Collect(rs[1..]).error) && forall j | 0 <= j < i :: rs[1..][j].Ok?;
        assert rs[i + 1] == Err(Collect(rs).error);
        assert forall j | 0 <= j < i + 1 :: rs[j].Ok? by {
          forall j | 0 <= j < i + 1 ensures rs[j].Ok? {
            if j > 0 { assert rs[j] == rs[1..][j - 1]; }
          }
        }
      } else if rs[0].Ok? {
        forall i | 0 <= i < |rs| ensures rs[i].Ok? <==> i == 0 || rs[1..][i - 1].Ok? {}
      }
    }
  }

  /** Collecting one more result. */
  lemma {:induction false} CollectAppend<T, E>(rs: seq<Result<T, E>>, x: Result<T, E>)
    ensures Collect(rs + [x]) ==
      match Collect(rs)
      case Err(e) => Err(e)
      case Ok(vs) => (match x case Err(e) => Err(e) case Ok(v) => Ok(vs + [v]))
  {
    if rs == [] {
      assert [x][1..] == [];
      if x.Ok? {
        assert [x.value] + [] == [] + [x.value];
      }
    } else {
      assert (rs + [x])[0] == rs[0] && (rs + [x])[1..] == rs[1..] + [x];
      CollectAppend(rs[1..], x);
      if rs[0].Ok? && Collect(rs[1..]).Ok? && x.Ok? {
        assert [rs[0].value] + (Collect(rs[1..]).value + [x.value]) == [rs[0].value] + Collect(rs[1..]).value + [x.value];
      }
    }
  }

  /** Once a prefix fails, the rest is never looked at. */
  lemma {:induction false} CollectStop<T, E>(rs: seq<Result<T, E>>, k: nat)
    requires k <= |rs| && Collect(rs[..k]).Err?
    ensures Collect(rs) == Collect(rs[..k])
  {
    if k > 0 {
      var p := rs[..k];
      assert p[0] == rs[0];
      if rs[0].Ok? {
        assert p[1..] == rs[1..][..k - 1];
        CollectStop(rs[1..], k - 1);
      }
    }
  }

  /** The bytes a write loop sends for a list of packing results: each packed value in turn, up to
      the first error, which comes with them. */
  function Emit<E>(rs: seq<Result<seq<byte>, E>>): (r: (seq<byte>, Option<E>))
    ensures r.1.None? <==> forall i | 0 <= i < |rs| :: rs[i].Ok?
    ensures r.1.Some? ==> exists i | 0 <= i < |rs| :: rs[i] == Err(r.1.value) && forall j | 0 <= j < i :: rs[j].Ok?
  {
    if rs == [] then ([], None)
    else match rs[0]
      case Err(e) => ([], Some(e))
      case Ok(b) => var rest := Emit(rs[1..]); (b + rest.0, rest.1)
  }

  /** Emitting one more result after a prefix that raised nothing. */
  lemma {:induction false} EmitAppend<E>(rs: seq<Result<seq<byte>, E>>, x: Result<seq<byte>, E>)
    requires Emit(rs).1 == None
    ensures Emit(rs + [x]) == match x case Err(e) => (Emit(rs).0, Some(e)) case Ok(b) => (Emit(rs).0 + b, None)
  {
    if rs == [] {
      assert [x][1..] == [];
      if x.Ok? {
        assert x.value + [] == [] + x.value;
      }
    } else {
      assert (rs + [x])[0] == rs[0] && (rs + [x])[1..] == rs[1..] + [x];
      EmitAppend(rs[1..], x);
      if x.Ok? {
        var b := rs[0].value;
        assert b + (Emit(rs[1..]).0 + x.value) == b + Emit(rs[1..]).0 + x.value;
      }
    }
  }

  /** Once a prefix raises, the rest is never written. */
  lemma {:induction false} EmitStop<E>(rs: seq<Result<seq<byte>, E>>, k: nat)
    requires k <= |rs| && Emit(rs[..k]).1.Some?
    ensures Emit(rs) == Emit(rs[..k])
  {
    if k > 0 {
      var p := rs[..k];
      assert p[0] == rs[0];
      if rs[0].Ok? {
        assert p[1..] == rs[1..][..k - 1];
        EmitStop(rs[1..], k - 1);
      }
    }
  }

  /** When every result is a 24-byte record, record i occupies bytes 24 i to 24 i + 24. */
  lemma {:induction false} EmitInOrder<E>(rs: seq<Result<seq<byte>, E>>)
    requires forall i | 0 <= i < |rs| :: rs[i].Ok? && |rs[i].value| == 24
    ensures Emit(rs).1 == None && |Emit(rs).0| == 24 * |rs|
    ensures forall i | 0 <= i < |rs| :: Emit(rs).0[24 * i..24 * i + 24] == rs[i].value
  {
    if rs != [] {
      EmitInOrder(rs[1..]);
      var b, rest := rs[0].value, Emit(rs[1..]).0;
      assert Emit(rs).0 == b + rest;
      forall i | 0 <= i < |rs|
        ensures Emit(rs).0[24 * i..24 * i + 24] == rs[i].value
      {
        if i == 0 {
          assert (b + rest)[0..24] == b;
        } else {
          assert rs[i] == rs[1..][i - 1];
          assert (b + rest)[24 * i..24 * i + 24] == rest[24 * (i - 1)..24 * (i - 1) + 24];
        }
      }
    }
  }

  /** `[f(x) for x in xs]`. */
  function Map<A, B>(f: A -> B, xs: seq<A>): (ys: seq<B>)
    ensures |ys| == |xs|
  {
    if xs == [] then [] else [f(xs[0])] + Map(f, xs[1..])
  }

  /** Entry k of the mapped list is f of entry k. */
  lemma {:induction false} MapAt<A, B>(f: A -> B, xs: seq<A>, k: nat)
    requires k < |xs|
    ensures Map(f, xs)[k] == f(xs[k])
  {
    if k > 0 {
      MapAt(f, xs[1..], k - 1);
      assert xs[1..][k - 1] == xs[k];
    }
  }

  /** One log line, stripped and parsed. */
  function ParseLine(line: string): Result<Event, ParseError>
  {
    GenEv(Strip(line))
  }

  /** A line read with its newline, or indented, is parsed as the bare line. */
  lemma ParseLinePadded(pre: string, line: string, post: string)
    requires forall i | 0 <= i < |pre| :: IsBlank(pre[i])
    requires forall i | 0 <= i < |post| :: IsBlank(post[i])
    requires line != [] && !IsBlank(line[0]) && !IsBlank(line[|line| - 1])
    ensures ParseLine(pre + line + post) == GenEv(line)
  {
    StripPadded(pre, line, post);
  }

  /** The event pipe: the bytes written to it so far. */
  class Pipe {
    var written: seq<byte>

    constructor()
      ensures written == []
    {
      written := [];
    }

    method Write(b: seq<byte>)
      modifies this
      ensures written == old(written) + b
    {
      written := written + b;
    }
  }

  /** What stopped the replay: a log line that does not parse, or an event that does not pack. */
  datatype ReplayError = BadLine(e: ParseError) | BadEvent(arg: nat)

  /** The list comprehension `[f(x) for x in xs]`, evaluated in order, stopping at the first
      exception: all the values, or that exception. */
  method CollectMap<A, T, E>(f: A -> Result<T, E>, xs: seq<A>) returns (r: Result<seq<T>, E>)
    ensures r == Collect(Map(f, xs))
  {
    ghost var rs := Map(f, xs);
    var vs: seq<T> := [];
    var k := 0;
    while k < |xs|
      invariant 0 <= k <= |xs|
      invariant Collect(rs[..k]) == Ok(vs)
    {
      var x := f(xs[k]);
      MapAt(f, xs, k);
      assert rs[..k + 1] == rs[..k] + [rs[k]];
      CollectAppend(rs[..k], x);
      if x.Err? {
        CollectStop(rs, k + 1);
        return Err(x.error);
      }
      vs := vs + [x.value];
      k := k + 1;
    }
    assert rs[..k] == rs;
    r := Ok(vs);
  }

  /** The write loop: each event packed and written in turn, stopping at the first that does not
      pack. */
  method WriteEvents(evs: seq<Event>, pipe: Pipe) returns (failed: Option<nat>)
    modifies pipe
    ensures pipe.written == old(pipe.written) + Emit(Map(Pack, evs)).0
    ensures failed == Emit(Map(Pack, evs)).1
  {
    ghost var rs := Map(Pack, evs);
    var n := 0;
    while n < |evs|
      invariant 0 <= n <= |evs|
      invariant Emit(rs[..n]).1 == None
      invariant pipe.written == old(pipe.written) + Emit(rs[..n]).0
    {
      var p := Pack(evs[n]);
      MapAt(Pack, evs, n);
      assert rs[..n + 1] == rs[..n] + [rs[n]];
      EmitAppend(rs[..n], p);
      if p.Err? {
        EmitStop(rs, n + 1);
        return Some(p.error);
      }
      pipe.Write(p.value);
      n := n + 1;
    }
    assert rs[..n] == rs;
    failed := None;
  }

  /** The main block: parse the whole log first, so that nothing is written when a line is bad,
      then write the packed events in log order until one does not pack. */
  method Replay(lines: seq<string>, pipe: Pipe) returns (r: Result<(), ReplayError>)
    modifies pipe
    ensures var parsed := Collect(Map(ParseLine, lines));
      parsed.Err? ==> r == Err(BadLine(parsed.error)) && pipe.written == old(pipe.written)
    ensures var parsed := Collect(Map(ParseLine, lines));
      parsed.Ok? ==> pipe.written == old(pipe.written) + Emit(Map(Pack, parsed.value)).0 &&
                     (r.Ok? <==> Emit(Map(Pack, parsed.value)).1 == None)
  {
    var parsed := CollectMap(ParseLine, lines);
    if parsed.Err? {
      return Err(BadLine(parsed.error));
    }
    var failed := WriteEvents(parsed.value, pipe);
    if failed.Some? {
      return Err(BadEvent(failed.value));
    }
    r := Ok(());
  }

  /** When every event packs, the pipe receives 24 bytes per event and event i's record sits at
      bytes 24 i to 24 i + 24, reading back as that event. */
  lemma ReplayInOrder(evs: seq<Event>)
    requires forall i | 0 <= i < |evs| :: Pack(evs[i]).Ok?
    ensures Emit(Map(Pack, evs)).1 == None && |Emit(Map(Pack, evs)).0| == 24 * |evs|
    ensures forall i | 0 <= i < |evs| :: Unpack(Emit(Map(Pack, evs)).0[24 * i..24 * i + 24]) == evs[i]
  {
    var rs := Map(Pack, evs);
    forall i | 0 <= i < |evs|
      ensures rs[i].Ok? && |rs[i].value| == 24 && Unpack(rs[i].value) == evs[i]
    {
      MapAt(Pack, evs, i);
      PackRoundTrip(evs[i]);
    }
    EmitInOrder(rs);
  }
}

=== FILE: ja_keyboard.dfy ===
/**
 * The generator of the Japanese 12-key flick keyboard's tables: Lua string literals, the modifier
 * cycles of each kana (a cycle maps every kana to the next one when the modifier is pressed), the
 * small-kana table and its inverse, and the rendering of one key and of its multi-tap cycle.
 *
 * Unicode normalisation (NFC and NFD) is not modelled: the operations that use it take it as a
 * function parameter and rely on nothing about it.
 */
module JaKeyboard {
  import opened Wrappers

  /** The combining dakuten and handakuten marks. */
  const RawDakuten: char := '\U{3099}'
  const RawHandakuten: char := '\U{309A}'

  /** `str.replace(pat, rep)`: every non-overlapping occurrence of pat, scanning from the left. */
  function ReplaceAll(s: string, pat: string, rep: string): (r: string)
    requires pat != []
    ensures rep == pat ==> r == s
    ensures |rep| == |pat| ==> |r| == |s|
    ensures |rep| >= |pat| ==> |r| >= |s|
    decreases |s|
  {
    if |s| < |pat| then s
    else if s[..|pat|] == pat then
      var r := rep + ReplaceAll(s[|pat|..], pat, rep);
      assert rep == pat ==> r == s[..|pat|] + s[|pat|..] == s;
      r
    else
      var r := [s[0]] + ReplaceAll(s[1..], pat, rep);
      assert rep == pat ==> r == [s[0]] + s[1..] == s;
      r
  }

  /** A string in which pat cannot start anywhere is left unchanged by replacing pat. */
  lemma {:induction false} ReplaceAbsent(s: string, pat: string, rep: string, i: nat)
    requires i < |pat| && pat[i] !in s
    ensures ReplaceAll(s, pat, rep) == s
    decreases |s|
  {
    if |s| >= |pat| {
      assert s[..|pat|][i] == s[i];
      ReplaceAbsent(s[1..], pat, rep, i);
      assert [s[0]] + s[1..] == s;
    }
  }

  /** Replacing a one-character pattern in a concatenation replaces it in each half. */
  lemma {:induction false} ReplaceCharAppend(a: string, b: string, c: char, rep: string)
    ensures ReplaceAll(a + b, [c], rep) == ReplaceAll(a, [c], rep) + ReplaceAll(b, [c], rep)
    decreases |a|
  {
    if a != [] {
      ReplaceCharAppend(a[1..], b, c, rep);
      assert (a + b)[1..] == a[1..] + b;
      assert (a + b)[..1] == a[..1];
    } else {
      assert a + b == b;
    }
  }

  /** `escape_luastring`: a double-quoted Lua literal, after doubling backslashes and then escaping
      double quotes. */
  function EscapeLuaString(s: string): (r: string)
    ensures r == "\"" + EscapeChars(s) + "\""
  {
    EscapeReplaces(s);
    "\"" + ReplaceAll(ReplaceAll(s, "\\", "\\\\"), "\"", "\\\"") + "\""
  }

  /** One character as it appears inside the literal. */
  function EscapeChar(c: char): string
  {
    if c == '\\' then "\\\\" else if c == '"' then "\\\"" else [c]
  }

  /** The body of the literal, character by character. */
  function EscapeChars(s: string): string
  {
    if s == [] then [] else EscapeChar(s[0]) + EscapeChars(s[1..])
  }

  /** The two replacements together escape each character independently. */
  lemma {:induction false} EscapeReplaces(s: string)
    ensures ReplaceAll(ReplaceAll(s, "\\", "\\\\"), "\"", "\\\"") == EscapeChars(s)
  {
    if s != [] {
      EscapeReplaces(s[1..]);
      assert s == [s[0]] + s[1..];
      ReplaceCharAppend([s[0]], s[1..], '\\', "\\\\");
      var once := ReplaceAll([s[0]], "\\", "\\\\");
      ReplaceCharAppend(once, ReplaceAll(s[1..], "\\", "\\\\"), '"', "\\\"");
      if s[0] == '\\' {
        assert once == "\\\\";
        ReplaceAbsent(once, "\"", "\\\"", 0);
      }
    }
  }

  /** How Lua reads the body of a double-quoted literal: a backslash takes the next character
      literally. */
  function Unescape(t: string): string
    decreases |t|
  {
    if t == [] then []
    else if t[0] == '\\' && |t| >= 2 then [t[1]] + Unescape(t[2..])
    else [t[0]] + Unescape(t[1..])
  }

  /** A double-quoted literal read back; anything else is not one. */
  function UnquoteLua(t: string): Option<string>
  {
    if |t| >= 2 && t[0] == '"' && t[|t| - 1] == '"' then Some(Unescape(t[1..|t| - 1])) else None
  }

  /** Undoing the escapes recovers the string. */
  lemma {:induction false} UnescapeEscape(s: string)
    ensures Unescape(EscapeChars(s)) == s
  {
    if s != [] {
      UnescapeEscape(s[1..]);
      var e := EscapeChars(s);
      assert e == EscapeChar(s[0]) + EscapeChars(s[1..]);
      if s[0] == '\\' || s[0] == '"' {
        assert e[2..] == EscapeChars(s[1..]);
      } else {
        assert e[1..] == EscapeChars(s[1..]);
      }
      assert s == [s[0]] + s[1..];
    }
  }

  /** Reading the literal back gives the string. */
  lemma EscapeRoundTrip(s: string)
    ensures UnquoteLua(EscapeLuaString(s)) == Some(s)
  {
    UnescapeEscape(s);
    var r := EscapeLuaString(s);
    assert r[1..|r| - 1] == EscapeChars(s);
  }

  /** Different strings give different literals. */
  lemma EscapeInjective(a: string, b: string)
    requires EscapeLuaString(a) == EscapeLuaString(b)
    ensures a == b
  {
    EscapeRoundTrip(a);
    EscapeRoundTrip(b);
  }

  /** A literal holds no newline its string does not hold. */
  lemma {:induction false} EscapeNoNewline(s: string)
    requires '\n' !in s
    ensures '\n' !in EscapeLuaString(s)
  {
    EscapeCharsNoNewline(s);
  }

  lemma {:induction false} EscapeCharsNoNewline(s: string)
    requires '\n' !in s
    ensures '\n' !in EscapeChars(s)
  {
    if s != [] {
      assert s[0] in s;
      assert forall c | c in s[1..] :: c in s;
      EscapeCharsNoNewline(s[1..]);
    }
  }

  /** `sep.join(parts)`; joining no parts gives the empty string. */
  function Joined(parts: seq<string>, sep: string): (r: string)
    ensures parts == [] ==> r == []
    ensures parts != [] && parts[0] != [] ==> r != []
  {
    if parts == [] then []
    else if |parts| == 1 then parts[0]
    else parts[0] + sep + Joined(parts[1..], sep)
  }

  lemma {:induction false} JoinedAppend(a: seq<string>, b: seq<string>, sep: string)
    requires a != [] && b != []
    ensures Joined(a + b, sep) == Joined(a, sep) + sep + Joined(b, sep)
  {
    if |a| == 1 {
      assert (a + b)[1..] == b;
    } else {
      JoinedAppend(a[1..], b, sep);
      assert (a + b)[1..] == a[1..] + b;
      assert (a + b)[0] == a[0];
      calc {
        Joined(a + b, sep);
        a[0] + sep + Joined(a[1..] + b, sep);
        a[0] + sep + (Joined(a[1..], sep) + sep + Joined(b, sep));
        (a[0] + sep + Joined(a[1..], sep)) + sep + Joined(b, sep);
      }
    }
  }

  /** Python's `zip`: pairs up to the shorter length. */
  function Zip<A, B>(a: seq<A>, b: seq<B>): seq<(A, B)>
  {
    seq(if |a| < |b| then |a| else |b|, i requires 0 <= i < |a| && i < |b| => (a[i], b[i]))
  }

  /** The successor pairs of a cycle: with loop the last element maps back to the first, without
      it the last element has no successor. */
  function Mapping(cycle: seq<string>, loop: bool): (r: seq<(string, string)>)
    requires loop ==> cycle != []
    ensures |r| == if loop then |cycle| else if cycle == [] then 0 else |cycle| - 1
    ensures forall k | 0 <= k < |cycle| - 1 :: r[k] == (cycle[k], cycle[k + 1])
    ensures loop ==> r[|cycle| - 1] == (cycle[|cycle| - 1], cycle[0])
  {
    if loop then Zip(cycle, cycle[1..] + [cycle[0]])
    else Zip(cycle, if cycle == [] then [] else cycle[1..])
  }

  /** One entry of a Lua table: `[src] = dst,`. */
  function Entry(src: string, dst: string): (r: string)
    ensures r != [] && r[0] == '['
  {
    "[" + EscapeLuaString(src) + "] = " + EscapeLuaString(dst) + ","
  }

  function EntryTexts(m: seq<(string, string)>): (r: seq<string>)
    ensures |r| == |m| && forall k | 0 <= k < |m| :: r[k] == Entry(m[k].0, m[k].1)
  {
    seq(|m|, k requires 0 <= k < |m| => Entry(m[k].0, m[k].1))
  }

  /** `output_cycle`: the cycle's successor entries joined by single spaces; a one-element cycle
      gives nothing. */
  function OutputCycle(cycle: seq<string>, loop: bool): (r: string)
    requires loop ==> cycle != []
    ensures r == [] <==> |cycle| <= 1
    ensures |cycle| >= 2 ==> r == Joined(EntryTexts(Mapping(cycle, loop)), " ")
  {
    if |cycle| == 1 then ""
    else
      var m := EntryTexts(Mapping(cycle, loop));
      assert |cycle| >= 2 ==> m[0] != [];
      Joined(m, " ")
  }

  /** `list(s)` for a string: its characters as one-character strings. */
  function Chars(s: string): (r: seq<string>)
    ensures |r| == |s| && forall i | 0 <= i < |s| :: r[i] == [s[i]]
  {
    seq(|s|, i requires 0 <= i < |s| => [s[i]])
  }

  /** `TO_SMALL_KANA`: the big kana that have a small form, hiragana and katakana. */
  const ToSmallKana: map<char, char> := map[
    'あ' := 'ぁ', 'い' := 'ぃ', 'う' := 'ぅ', 'え' := 'ぇ', 'お' := 'ぉ',
    'や' := 'ゃ', 'ゆ' := 'ゅ', 'よ' := 'ょ', 'わ' := 'ゎ', 'つ' := 'っ',
    'ア' := 'ァ', 'イ' := 'ィ', 'ウ' := 'ゥ', 'エ' := 'ェ', 'オ' := 'ォ',
    'ヤ' := 'ャ', 'ユ' := 'ュ', 'ヨ' := 'ョ', 'ワ' := 'ヮ', 'ツ' := 'ッ']

  /** `FROM_SMALL_KANA`: the small kana back to their big form. */
  function FromSmallKana(): (r: map<char, char>)
    ensures r.Keys == ToSmallKana.Values
    ensures forall big | big in ToSmallKana :: r[ToSmallKana[big]] == big
    ensures forall small | small in r :: r[small] in ToSmallKana && ToSmallKana[r[small]] == small
  {
    ToSmallKanaPredecessor();
    map big | big in ToSmallKana :: ToSmallKana[big] := big
  }

  /** Every small kana is the code point just before its big form. */
  lemma ToSmallKanaPredecessor()
    ensures forall big | big in ToSmallKana :: ToSmallKana[big] as int == big as int - 1
  {
  }

  /** No two big kana share a small form. */
  lemma ToSmallKanaDistinct()
    ensures forall a, b | a in ToSmallKana && b in ToSmallKana :: ToSmallKana[a] == ToSmallKana[b] ==> a == b
  {
    var f := FromSmallKana();
    forall a, b | a in ToSmallKana && b in ToSmallKana && ToSmallKana[a] == ToSmallKana[b]
      ensures a == b
    {
      assert f[ToSmallKana[a]] == a && f[ToSmallKana[b]] == b;
    }
  }

  /** `modified_kana`: the forms with dakuten and handakuten that normalise to one code point. */
  function ModifiedKana(kana: string, nfc: string -> string): (r: seq<string>)
    ensures |r| <= 2 && forall i | 0 <= i < |r| :: |r[i]| == 1
    ensures forall i | 0 <= i < |r| :: r[i] == nfc(kana + [RawDakuten]) || r[i] == nfc(kana + [RawHandakuten])
  {
    var d := nfc(kana + [RawDakuten]);
    var h := nfc(kana + [RawHandakuten]);
    (if |d| == 1 then [d] else []) + (if |h| == 1 then [h] else [])
  }

  /** `generate_cycle`: the kana, its small form if it has one, then its modified forms. */
  function GenerateCycle(kana: string, nfc: string -> string): (r: seq<string>)
    ensures 1 <= |r| <= 4 && r[0] == nfc(kana)
    ensures |kana| == 1 && kana[0] in ToSmallKana ==> |r| >= 2 && r[1] == [ToSmallKana[kana[0]]]
    ensures forall i | 1 <= i < |r| :: |r[i]| == 1
  {
    var small := if |kana| == 1 && kana[0] in ToSmallKana then [[ToSmallKana[kana[0]]]] else [];
    [nfc(kana)] + small + ModifiedKana(kana, nfc)
  }

  /** `generate_basic_cycle`: the kana and, when it differs and is one code point, the base kana (a
      small kana taken back to its big form) combined with the modifier. The source's unpacking of
      the decomposed kana fails on an empty decomposition. */
  function GenerateBasicCycle(kana: string, modifier: string, nfc: string -> string, nfd: string -> string): (r: seq<string>)
    requires nfd(kana) != []
    ensures 1 <= |r| <= 2 && r[0] == nfc(kana)
    ensures |r| == 2 ==> r[1] != kana && |r[1]| == 1
    ensures |r| == 2 ==> exists base :: r[1] == nfc([base] + modifier) && (base == nfd(kana)[0] || base in ToSmallKana)
  {
    var b := nfd(kana)[0];
    var base := if b in FromSmallKana() then FromSmallKana()[b] else b;
    var made := nfc([base] + modifier);
    if made != kana && |made| == 1 then [nfc(kana), made] else [nfc(kana)]
  }

  /** `generate_smallkana_cycle`: the kana and the small form of its base kana, if there is one. */
  function GenerateSmallKanaCycle(kana: string, nfc: string -> string, nfd: string -> string): (r: seq<string>)
    requires nfd(kana) != []
    ensures 1 <= |r| <= 2 && r[0] == nfc(kana)
    ensures |r| == 2 <==> nfd(kana)[0] in ToSmallKana
    ensures |r| == 2 ==> |r[1]| == 1 && r[1][0] in FromSmallKana() && FromSmallKana()[r[1][0]] == nfd(kana)[0]
  {
    var base := nfd(kana)[0];
    if base in ToSmallKana then [nfc(kana), [ToSmallKana[base]]] else [nfc(kana)]
  }

  /** `str.upper` on ASCII letters; other characters are left as they are. */
  function Upper(s: string): (r: string)
    ensures |r| == |s|
    ensures forall i | 0 <= i < |s| :: 'a' <= s[i] <= 'z' ==> 'A' <= r[i] <= 'Z' && r[i] as int == s[i] as int - 32
    ensures forall i | 0 <= i < |s| :: !('a' <= s[i] <= 'z') ==> r[i] == s[i]
  {
    seq(|s|, i requires 0 <= i < |s| => if 'a' <= s[i] <= 'z' then (s[i] as int - 32) as char else s[i])
  }

  /** `generate_alphabet_shift_cycle`: a letter and its capital. */
  function GenerateAlphabetShiftCycle(letter: string): (r: seq<string>)
    ensures |r| == 2 && r[0] == letter && |r[1]| == |letter|
    ensures forall i | 0 <= i < |letter| :: 'a' <= letter[i] <= 'z' ==> 'A' <= r[1][i] <= 'Z'
  {
    [letter, Upper(letter)]
  }

  /** A lower-case letter's shift table entries map the letter to its capital and back. */
  lemma ShiftCycleEntries(c: char)
    requires 'a' <= c <= 'z'
    ensures var up := (c as int - 32) as char;
      OutputCycle(GenerateAlphabetShiftCycle([c]), true) == Entry([c], [up]) + " " + Entry([up], [c])
  {
    var up := (c as int - 32) as char;
    var cyc := GenerateAlphabetShiftCycle([c]);
    assert Upper([c]) == [up];
    assert cyc == [[c], [up]];
    var m := EntryTexts(Mapping(cyc, true));
    assert m == [Entry([c], [up]), Entry([up], [c])];
    assert m[1..] == [Entry([up], [c])];
    assert Joined(m, " ") == m[0] + " " + m[1];
  }

  /** A keypad key: its variable name, the characters of its flick directions (tap, west, north,
      east, south; `'\0'` marks an unused direction), its multi-tap cycle and its labels. */
  datatype Key = Key(name: string, popout: string, keyLabel: Option<string>, altLabel: Option<string>, loop: string)

  /** Python truthiness of an optional string: present and not empty. */
  predicate Truthy(s: Option<string>)
  {
    s.Some? && s.value != []
  }

  /** `Key(...)`: the multi-tap cycle defaults to the popout order. */
  function MakeKey(name: string, popout: string, loop: Option<string>, keyLabel: Option<string>, altLabel: Option<string>): (k: Key)
    ensures k.name == name && k.popout == popout && k.keyLabel == keyLabel && k.altLabel == altLabel
    ensures Truthy(loop) ==> k.loop == loop.value
    ensures !Truthy(loop) ==> k.loop == popout
  {
    Key(name, popout, keyLabel, altLabel, if Truthy(loop) then loop.value else popout)
  }

  /** The flick directions in the order of the popout string. */
  const Directions: seq<string> := ["", "west", "north", "east", "south"]

  /** The item of one direction: the bare literal for the tap, `direction = literal` otherwise. */
  function DirItem(i: nat, key: char): string
    requires i < |Directions|
  {
    if Directions[i] == "" then EscapeLuaString([key]) else Directions[i] + " = " + EscapeLuaString([key])
  }

  /** The direction items from slot i on: the used slots, in order. */
  function DirItemsFrom(popout: string, i: nat): (r: seq<string>)
    requires i <= |Directions|
    ensures |r| <= |Directions| - i
    ensures r == [] <==> forall j | i <= j < |Directions| && j < |popout| :: popout[j] == '\0'
    decreases |Directions| - i
  {
    if i == |Directions| || i >= |popout| then []
    else
      var rest := DirItemsFrom(popout, i + 1);
      if popout[i] == '\0' then rest else [DirItem(i, popout[i])] + rest
  }

  /** Slot j is used and t is its item. */
  predicate SlotItem(popout: string, j: nat, t: string)
  {
    j < |Directions| && j < |popout| && popout[j] != '\0' && t == DirItem(j, popout[j])
  }

  /** Every item is the item of a used slot. */
  lemma {:induction false} DirItemsSound(popout: string, i: nat)
    requires i <= |Directions|
    ensures forall t | t in DirItemsFrom(popout, i) :: exists j | i <= j :: SlotItem(popout, j, t)
    decreases |Directions| - i
  {
    if i < |Directions| && i < |popout| {
      DirItemsSound(popout, i + 1);
      var rest := DirItemsFrom(popout, i + 1);
      if popout[i] == '\0' {
        assert DirItemsFrom(popout, i) == rest;
      } else {
        var item := DirItem(i, popout[i]);
        assert DirItemsFrom(popout, i) == [item] + rest;
        assert SlotItem(popout, i, item);
        forall t | t in rest ensures exists j | i <= j :: SlotItem(popout, j, t) {
          var j :| i + 1 <= j && SlotItem(popout, j, t);
        }
      }
    }
  }

  /** Every used slot has its item. */
  lemma {:induction false} DirItemsComplete(popout: string, i: nat)
    requires i <= |Directions|
    ensures forall j | i <= j < |Directions| && j < |popout| && popout[j] != '\0' :: DirItem(j, popout[j]) in DirItemsFrom(popout, i)
    decreases |Directions| - i
  {
    if i < |Directions| && i < |popout| {
      DirItemsComplete(popout, i + 1);
      var rest := DirItemsFrom(popout, i + 1);
      var items := DirItemsFrom(popout, i);
      forall j | i <= j < |Directions| && j < |popout| && popout[j] != '\0'
        ensures DirItem(j, popout[j]) in items
      {
        if j == i {
          assert items[0] == DirItem(i, popout[i]);
        } else {
          assert DirItem(j, popout[j]) in rest;
          assert popout[i] != '\0' ==> items[1..] == rest;
        }
      }
    }
  }

  /** The label items: the label and the alternative label, when set. */
  function LabelItems(k: Key): (r: seq<string>)
    ensures r == [] <==> !Truthy(k.keyLabel) && !Truthy(k.altLabel)
  {
    (if Truthy(k.keyLabel) then ["label = " + EscapeLuaString(k.keyLabel.value)] else [])
    + (if Truthy(k.altLabel) then ["alt_label = " + EscapeLuaString(k.altLabel.value)] else [])
  }

  function Spaces(n: nat): (r: string)
    ensures |r| == n && forall i | 0 <= i < n :: r[i] == ' '
  {
    seq(n, _ => ' ')
  }

  const Gap := ", \n, "

  /** `Key.render_key`: `name = { items }`, the label items on a line of their own before the
      direction items, continued at the indentation of the level. */
  function RenderKey(k: Key, indentLevel: nat): string
  {
    var labels := LabelItems(k);
    var items := labels + (if labels != [] then ["\n"] else []) + DirItemsFrom(k.popout, 0);
    var item := k.name + " = { " + Joined(items, ", ") + " }";
    var indent := |k.name| + 4 * (indentLevel + 1);
    ReplaceAll(item, Gap, ",\n" + Spaces(indent))
  }

  /** The key's own text holds no newline. */
  predicate OneLine(k: Key)
  {
    '\n' !in k.name && '\n' !in k.popout
    && (k.keyLabel.Some? ==> '\n' !in k.keyLabel.value) && (k.altLabel.Some? ==> '\n' !in k.altLabel.value)
  }

  lemma LabelsOneLine(k: Key)
    requires OneLine(k)
    ensures forall t | t in LabelItems(k) :: '\n' !in t
  {
    if Truthy(k.keyLabel) {
      EscapeNoNewline(k.keyLabel.value);
    }
    if Truthy(k.altLabel) {
      EscapeNoNewline(k.altLabel.value);
    }
  }

  lemma {:induction false} DirItemsOneLine(popout: string, i: nat)
    requires i <= |Directions| && '\n' !in popout
    ensures forall t | t in DirItemsFrom(popout, i) :: '\n' !in t
    decreases |Directions| - i
  {
    if i < |Directions| && i < |popout| {
      DirItemsOneLine(popout, i + 1);
      var rest := DirItemsFrom(popout, i + 1);
      if popout[i] == '\0' {
        assert DirItemsFrom(popout, i) == rest;
      } else {
        assert popout[i] in popout;
        var item := DirItem(i, popout[i]);
        DirItemNoNewline(i, popout[i]);
        assert DirItemsFrom(popout, i) == [item] + rest;
      }
    }
  }

  lemma DirItemNoNewline(i: nat, key: char)
    requires i < |Directions| && key != '\n'
    ensures '\n' !in DirItem(i, key)
  {
    EscapeNoNewline([key]);
    assert '\n' !in Directions[i] + " = ";
  }

  lemma {:induction false} JoinedOneLine(parts: seq<string>, sep: string)
    requires '\n' !in sep && forall t | t in parts :: '\n' !in t
    ensures '\n' !in Joined(parts, sep)
  {
    if |parts| > 1 {
      assert parts[0] in parts;
      assert forall t | t in parts[1..] :: t in parts;
      JoinedOneLine(parts[1..], sep);
    } else if |parts| == 1 {
      assert parts[0] in parts;
    }
  }

  /** A key without labels renders its direction items on one line. */
  lemma RenderKeyPlain(k: Key, indentLevel: nat)
    requires OneLine(k) && !Truthy(k.keyLabel) && !Truthy(k.altLabel)
    ensures RenderKey(k, indentLevel) == k.name + " = { " + Joined(DirItemsFrom(k.popout, 0), ", ") + " }"
  {
    DirItemsOneLine(k.popout, 0);
    var dirs := DirItemsFrom(k.popout, 0);
    JoinedOneLine(dirs, ", ");
    var item := k.name + " = { " + Joined(dirs, ", ") + " }";
    RenderKeyPlainText(k, indentLevel);
    assert '\n' !in item;
    ReplaceAbsent(item, Gap, ",\n" + Spaces(|k.name| + 4 * (indentLevel + 1)), 2);
  }

  lemma RenderKeyPlainText(k: Key, indentLevel: nat)
    requires LabelItems(k) == []
    ensures RenderKey(k, indentLevel)
      == ReplaceAll(k.name + " = { " + Joined(DirItemsFrom(k.popout, 0), ", ") + " }",
                    Gap, ",\n" + Spaces(|k.name| + 4 * (indentLevel + 1)))
  {
    assert LabelItems(k) + [] + DirItemsFrom(k.popout, 0) == DirItemsFrom(k.popout, 0);
  }

  /** Text before the pattern that cannot start it is kept as it is. */
  lemma {:induction false} ReplaceGapPrefix(a: string, t: string, rep: string)
    requires '\n' !in a && |t| >= 2 && t[0] != '\n' && t[1] != '\n'
    ensures ReplaceAll(a + t, Gap, rep) == a + ReplaceAll(t, Gap, rep)
    decreases |a|
  {
    if |a + t| < |Gap| {
      assert ReplaceAll(t, Gap, rep) == t;
    } else if a != [] {
      var s := a + t;
      assert s[..|Gap|] != Gap by {
        assert s[2] != '\n' by {
          if 2 < |a| { assert s[2] == a[2]; assert a[2] in a; }
          else { assert s[2] == t[2 - |a|]; }
        }
      }
      assert s[1..] == a[1..] + t;
      assert forall c | c in a[1..] :: c in a;
      ReplaceGapPrefix(a[1..], t, rep);
      assert [a[0]] + a[1..] == a;
    } else {
      assert a + t == t;
    }
  }

  /** A key with labels and at least one direction puts the labels on the first line and the
      direction items on the next one, indented, with the doubled comma gone. */
  lemma RenderKeyLabelled(k: Key, indentLevel: nat)
    requires OneLine(k) && (Truthy(k.keyLabel) || Truthy(k.altLabel)) && DirItemsFrom(k.popout, 0) != []
    ensures var indent := |k.name| + 4 * (indentLevel + 1);
      RenderKey(k, indentLevel)
      == k.name + " = { " + Joined(LabelItems(k), ", ") + ",\n" + Spaces(indent) + Joined(DirItemsFrom(k.popout, 0), ", ") + " }"
  {
    LabelsOneLine(k);
    DirItemsOneLine(k.popout, 0);
    var labels := LabelItems(k);
    var dirs := DirItemsFrom(k.popout, 0);
    var indent := Spaces(|k.name| + 4 * (indentLevel + 1));
    RenderKeyText(k, indentLevel);
    LabelledReplace(k.name, labels, dirs, ",\n" + indent);
    Regroup2(k.name + " = { " + Joined(labels, ", "), ",\n", indent, Joined(dirs, ", "), " }");
  }

  lemma RenderKeyText(k: Key, indentLevel: nat)
    requires LabelItems(k) != []
    ensures RenderKey(k, indentLevel)
      == ReplaceAll(k.name + " = { " + Joined(LabelItems(k) + ["\n"] + DirItemsFrom(k.popout, 0), ", ") + " }",
                    Gap, ",\n" + Spaces(|k.name| + 4 * (indentLevel + 1)))
  {
  }

  /** The item text of a labelled key, with its one gap replaced. */
  lemma LabelledReplace(name: string, labels: seq<string>, dirs: seq<string>, rep: string)
    requires labels != [] && dirs != [] && '\n' !in name
    requires forall t | t in labels :: '\n' !in t
    requires forall t | t in dirs :: '\n' !in t
    ensures ReplaceAll(name + " = { " + Joined(labels + ["\n"] + dirs, ", ") + " }", Gap, rep)
      == name + " = { " + Joined(labels, ", ") + rep + Joined(dirs, ", ") + " }"
  {
    var x := Joined(labels, ", ");
    var y := Joined(dirs, ", ");
    JoinedOneLine(labels, ", ");
    JoinedOneLine(dirs, ", ");
    LabelledJoin(labels, dirs);
    Regroup(name, " = { ", x, Gap, y, " }");
    var a := name + " = { " + x;
    var b := y + " }";
    assert '\n' !in a && '\n' !in b;
    ReplaceOnce(a, b, rep);
    Regroup(name, " = { ", x, rep, y, " }");
  }

  /** Labels, the line break marker, then the direction items, joined: the marker sits between
      the two comma-separated runs. */
  lemma LabelledJoin(labels: seq<string>, dirs: seq<string>)
    requires labels != [] && dirs != []
    ensures Joined(labels + (if labels != [] then ["\n"] else []) + dirs, ", ")
      == Joined(labels, ", ") + Gap + Joined(dirs, ", ")
  {
    var x := Joined(labels, ", ");
    var y := Joined(dirs, ", ");
    JoinedAppend(labels, ["\n"], ", ");
    JoinedAppend(labels + ["\n"], dirs, ", ");
    GapParts();
    assert labels + (if labels != [] then ["\n"] else []) + dirs == labels + ["\n"] + dirs;
    assert Joined(["\n"], ", ") == "\n";
    Regroup3(x, ", ", "\n", ", ", y);
  }

  /** The one gap between the labels and the directions is replaced, and nothing else. */
  lemma ReplaceOnce(a: string, b: string, rep: string)
    requires '\n' !in a && '\n' !in b
    ensures ReplaceAll(a + (Gap + b), Gap, rep) == a + (rep + b)
  {
    ReplaceGapPrefix(a, Gap + b, rep);
    assert (Gap + b)[..|Gap|] == Gap && (Gap + b)[|Gap|..] == b;
    assert ReplaceAll(Gap + b, Gap, rep) == rep + ReplaceAll(b, Gap, rep);
    ReplaceAbsent(b, Gap, rep, 2);
  }

  lemma Regroup2(p: string, r1: string, r2: string, y: string, e: string)
    ensures p + (r1 + r2) + y + e == p + r1 + r2 + y + e
  {
  }

  lemma Regroup3(x: string, s1: string, n: string, s2: string, y: string)
    ensures x + s1 + n + s2 + y == x + (s1 + n + s2) + y
  {
  }

  lemma GapParts()
    ensures ", " + "\n" + ", " == Gap
  {
  }

  lemma Regroup(p: string, q: string, x: string, g: string, y: string, e: string)
    ensures p + q + (x + g + y) + e == (p + q + x) + (g + (y + e))
    ensures (p + q + x) + (g + (y + e)) == p + q + x + g + y + e
  {
  }

  /** `Key.render_key_cycle`: the key's multi-tap cycle as a Lua table, or `nil` when it has no
      entries. The source fails on an empty cycle. */
  function RenderKeyCycle(k: Key): (r: string)
    requires k.loop != []
    ensures r == "nil" <==> OutputCycle(Chars(k.loop), true) == []
    ensures r == "nil" <==> |k.loop| == 1
  {
    var c := OutputCycle(Chars(k.loop), true);
    if c != [] then "{ " + c + " }" else "nil"
  }
}

=== FILE: k2pdfopt_bitmap.dfy ===
/**
 * k2pdfopt's `WILLUSBITMAP`: 8- or 24-bit pixels stored row by row, top row first in the native
 * layout and bottom row first in the Win32 layout, with a 256-entry palette per colour.
 */
module K2Bitmap {
  import opened Arith

  datatype Kind = Native | Win32

  /** The geometry of a bitmap: width and height in pixels, bits per pixel and layout. */
  datatype Shape = Shape(width: int, height: int, bpp: int, kind: Kind)

  /** `bmp_bytewidth`: bytes per row. */
  function ByteWidth(s: Shape): (r: int)
    ensures s.bpp == 24 ==> r == 3 * s.width
    ensures s.bpp != 24 ==> r == s.width
  {
    if s.bpp == 24 then s.width * 3 else s.width
  }

  /** `bmp_bytewidth_win32`: the byte width rounded up to a multiple of 4; clearing the two low
      bits of a two's-complement int is subtracting its (non-negative) remainder modulo 4. */
  function ByteWidthWin32(s: Shape): (r: int)
    ensures r % 4 == 0 && ByteWidth(s) <= r < ByteWidth(s) + 4
  {
    var x := ByteWidth(s) + 3;
    x - x % 4
  }

  /** Which stored row holds row `row` counted from the top: the same one in the native layout,
      the one counted from the bottom in the Win32 layout. */
  function Slot(s: Shape, row: int): int
  {
    if s.kind == Win32 then s.height - 1 - row else row
  }

  /** `bmp_rowptr_from_top`: the offset of row `row`, counted from the top, in the pixel data. */
  function RowPtrFromTop(s: Shape, row: int): int
  {
    ByteWidth(s) * Slot(s, row)
  }

  /** The offset of byte i of row `row`. */
  function Off(s: Shape, row: int, i: int): int
  {
    RowPtrFromTop(s, row) + i
  }

  predicate Geometry(s: Shape)
  {
    0 <= s.width && 0 <= s.height
  }

  /** Rows counted from the top in a Win32 bitmap are the native rows counted from the bottom. */
  lemma RowPtrFlip(s: Shape, row: int)
    requires s.kind == Win32
    ensures RowPtrFromTop(s, row) == RowPtrFromTop(s.(kind := Native), s.height - 1 - row)
  {
  }

  /** Every row lies within the first ByteWidth * height bytes, in either layout. */
  lemma RowPtrBounds(s: Shape, row: int)
    requires Geometry(s) && 0 <= row < s.height
    ensures 0 <= RowPtrFromTop(s, row)
    ensures RowPtrFromTop(s, row) + ByteWidth(s) <= ByteWidth(s) * s.height
  {
    var b := ByteWidth(s);
    var k := Slot(s, row);
    MulMono(b, 0, k);
    MulMono(b, k + 1, s.height);
    MulNext(b, k);
  }

  /** Distinct bytes of distinct rows never share an offset. */
  lemma OffInjective(s: Shape, r1: int, i1: int, r2: int, i2: int)
    requires Geometry(s) && 0 <= r1 < s.height && 0 <= r2 < s.height
    requires 0 <= i1 < ByteWidth(s) && 0 <= i2 < ByteWidth(s)
    requires Off(s, r1, i1) == Off(s, r2, i2)
    ensures r1 == r2 && i1 == i2
  {
    var b := ByteWidth(s);
    var k1 := Slot(s, r1);
    var k2 := Slot(s, r2);
    if k1 < k2 {
      MulMono(b, k1 + 1, k2);
      MulNext(b, k1);
    } else if k2 < k1 {
      MulMono(b, k2 + 1, k1);
      MulNext(b, k2);
    }
  }

  /** Byte i of a row lies in range for every i below the byte width. */
  lemma OffBounds(s: Shape, row: int, i: int)
    requires Geometry(s) && 0 <= row < s.height && 0 <= i < ByteWidth(s)
    ensures 0 <= Off(s, row, i) < ByteWidth(s) * s.height
  {
    RowPtrBounds(s, row);
  }

  predicate Identity(p: seq<int>)
  {
    forall i | 0 <= i < |p| :: p[i] == i
  }

  class Bitmap {
    var red: seq<int>
    var green: seq<int>
    var blue: seq<int>
    var data: array<bv8>
    var width: int
    var height: int
    var bpp: int
    var kind: Kind

    function ShapeOf(): Shape
      reads this
    {
      Shape(width, height, bpp, kind)
    }

    /** Three palettes of 256 entries, an 8- or 24-bit geometry and room for every row. */
    ghost predicate Valid()
      reads this
    {
      |red| == 256 && |green| == 256 && |blue| == 256
      && Geometry(ShapeOf()) && (bpp == 8 || bpp == 24)
      && ByteWidth(ShapeOf()) * height <= data.Length
    }
  }

  /** `bmp_is_grayscale`: an 8-bit bitmap whose three palettes map every index to itself. */
  method IsGrayscale(bmp: Bitmap) returns (r: bool)
    requires |bmp.red| == 256 && |bmp.green| == 256 && |bmp.blue| == 256
    ensures r <==> bmp.bpp == 8 && Identity(bmp.red) && Identity(bmp.green) && Identity(bmp.blue)
  {
    if bmp.bpp != 8 {
      return false;
    }
    var i := 0;
    while i < 256
      invariant 0 <= i <= 256
      invariant forall k | 0 <= k < i :: bmp.red[k] == k && bmp.green[k] == k && bmp.blue[k] == k
    {
      if bmp.red[i] != i || bmp.green[i] != i || bmp.blue[i] != i {
        return false;
      }
      i := i + 1;
    }
    return true;
  }

  /** The number of bytes of s below level. */
  function CountBelow(s: seq<bv8>, level: int): (c: nat)
    ensures c <= |s|
  {
    if s == [] then 0 else CountBelow(s[..|s| - 1], level) + (if (s[|s| - 1] as int) < level then 1 else 0)
  }

  /** `bmpregion_row_black_count`: the pixels of row r0, columns c1..c2 of the region's 8-bit
      bitmap, darker than its background colour. */
  method RowBlackCount(bmp8: Bitmap, r0: int, c1: int, c2: int, bgcolor: int) returns (c: int)
    requires c1 <= c2 ==> (0 <= RowPtrFromTop(bmp8.ShapeOf(), r0) + c1
      && RowPtrFromTop(bmp8.ShapeOf(), r0) + c2 < bmp8.data.Length)
    ensures c1 <= c2 ==> var p := RowPtrFromTop(bmp8.ShapeOf(), r0) + c1;
      c == CountBelow(bmp8.data[p..p + (c2 - c1 + 1)], bgcolor)
    ensures c1 > c2 ==> c == 0
    ensures 0 <= c && (c1 <= c2 ==> c <= c2 - c1 + 1)
  {
    var p := RowPtrFromTop(bmp8.ShapeOf(), r0) + c1;
    var nc := c2 - c1 + 1;
    c := 0;
    var i := 0;
    while i < nc
      invariant 0 <= i && (nc > 0 ==> i <= nc)
      invariant nc > 0 ==> c == CountBelow(bmp8.data[p..p + i], bgcolor)
      invariant nc <= 0 ==> c == 0
    {
      assert bmp8.data[p..p + i + 1][..i] == bmp8.data[p..p + i];
      assert bmp8.data[p..p + i + 1][i] == bmp8.data[p + i];
      if (bmp8.data[p + i] as int) < bgcolor {
        c := c + 1;
      }
      i := i + 1;
    }
  }

  /** In a valid bitmap, the columns 0 <= c1 <= c2 < ByteWidth of any row meet what
      `bmpregion_row_black_count` needs. */
  lemma RowInData(bmp8: Bitmap, r0: int, c1: int, c2: int)
    requires bmp8.Valid() && 0 <= r0 < bmp8.height && 0 <= c1 <= c2 < ByteWidth(bmp8.ShapeOf())
    ensures 0 <= RowPtrFromTop(bmp8.ShapeOf(), r0) + c1 && RowPtrFromTop(bmp8.ShapeOf(), r0) + c2 < bmp8.data.Length
  {
    RowPtrBounds(bmp8.ShapeOf(), r0);
  }

  /** Byte j of row r of data laid out as s (0 outside the data). */
  function Pix(data: seq<bv8>, s: Shape, r: int, j: int): bv8
  {
    if 0 <= Off(s, r, j) < |data| then data[Off(s, r, j)] else 0
  }

  /** (r, j) comes before (ir, i) in the row-by-row order of `bmp_color_xform8`. */
  predicate Before(w: int, ir: int, i: int, r: int, j: int)
  {
    0 <= r && 0 <= j < w && (r < ir || (r == ir && j < i))
  }

  /** Offset p holds a pixel visited before (ir, i). */
  ghost predicate Written(s: Shape, w: int, ir: int, i: int, p: int)
  {
    exists r, j | Before(w, ir, i, r, j) :: p == Off(s, r, j)
  }

  /** The state of `bmp_color_xform8` at (ir, i): every pixel visited so far holds newval of the
      source pixel, every other byte is as it was. */
  ghost predicate Progress(d: seq<bv8>, d0: seq<bv8>, s0: seq<bv8>, ds: Shape, ss: Shape, newval: seq<bv8>, w: int, ir: int, i: int)
    requires |newval| == 256
  {
    |d| == |d0|
    && (forall r, j | Before(w, ir, i, r, j) :: Pix(d, ds, r, j) == newval[Pix(s0, ss, r, j)])
    && (forall p | 0 <= p < |d| && !Written(ds, w, ir, i, p) :: d[p] == d0[p])
  }

  /** The geometry both bitmaps must have for the transform: w pixels fit in a row of each, and
      every row of each lies in its data. */
  predicate Fits(ds: Shape, ss: Shape, w: int, h: int, dlen: int, slen: int)
  {
    Geometry(ds) && Geometry(ss) && ds.height == h && ss.height == h && 0 <= w
    && w <= ByteWidth(ds) && w <= ByteWidth(ss)
    && ByteWidth(ds) * h <= dlen && ByteWidth(ss) * h <= slen
  }

  lemma ProgressStep(d: seq<bv8>, d0: seq<bv8>, s0: seq<bv8>, ds: Shape, ss: Shape, newval: seq<bv8>, w: int, h: int, ir: int, i: int)
    requires |newval| == 256 && Fits(ds, ss, w, h, |d|, |s0|)
    requires 0 <= ir < h && 0 <= i < w && Progress(d, d0, s0, ds, ss, newval, w, ir, i)
    ensures 0 <= Off(ds, ir, i) < |d| && 0 <= Off(ss, ir, i) < |s0|
    ensures Progress(d[Off(ds, ir, i) := newval[s0[Off(ss, ir, i)]]], d0, s0, ds, ss, newval, w, ir, i + 1)
  {
    OffBounds(ds, ir, i);
    OffBounds(ss, ir, i);
    var q := Off(ds, ir, i);
    var d' := d[q := newval[s0[Off(ss, ir, i)]]];
    forall r, j | Before(w, ir, i + 1, r, j)
      ensures Pix(d', ds, r, j) == newval[Pix(s0, ss, r, j)]
    {
      if r < h {
        OffBounds(ds, r, j);
        if (r, j) != (ir, i) {
          if Off(ds, r, j) == q {
            OffInjective(ds, r, j, ir, i);
          }
        }
      }
    }
    forall p | 0 <= p < |d'| && !Written(ds, w, ir, i + 1, p)
      ensures d'[p] == d0[p]
    {
      assert Before(w, ir, i + 1, ir, i);
    }
  }

  /** Offset p holds one of the first w bytes of one of the h rows of layout s. */
  ghost predicate IsPixel(s: Shape, w: int, h: int, p: int)
  {
    exists r, j | 0 <= r < h && 0 <= j < w :: p == Off(s, r, j)
  }

  lemma ProgressStart(d0: seq<bv8>, s0: seq<bv8>, ds: Shape, ss: Shape, newval: seq<bv8>, w: int)
    requires |newval| == 256
    ensures Progress(d0, d0, s0, ds, ss, newval, w, 0, 0)
  {
  }

  /** A finished row is the start of the next one. */
  lemma ProgressRow(d: seq<bv8>, d0: seq<bv8>, s0: seq<bv8>, ds: Shape, ss: Shape, newval: seq<bv8>, w: int, ir: int)
    requires |newval| == 256 && 0 <= w && Progress(d, d0, s0, ds, ss, newval, w, ir, w)
    ensures Progress(d, d0, s0, ds, ss, newval, w, ir + 1, 0)
  {
  }

  /** The pixel about to be visited still holds its value from before the transform. */
  lemma ProgressRead(d: seq<bv8>, d0: seq<bv8>, s0: seq<bv8>, ds: Shape, ss: Shape, newval: seq<bv8>, w: int, h: int, ir: int, i: int)
    requires |newval| == 256 && Fits(ds, ss, w, h, |d|, |s0|)
    requires 0 <= ir < h && 0 <= i < w && Progress(d, d0, s0, ds, ss, newval, w, ir, i)
    ensures 0 <= Off(ds, ir, i) < |d| && d[Off(ds, ir, i)] == d0[Off(ds, ir, i)]
  {
    OffBounds(ds, ir, i);
    if Written(ds, w, ir, i, Off(ds, ir, i)) {
      var r, j :| Before(w, ir, i, r, j) && Off(ds, ir, i) == Off(ds, r, j);
      OffInjective(ds, r, j, ir, i);
    }
  }

  /** After the last row every pixel holds newval of its source pixel and every other byte is
      unchanged. */
  lemma ProgressEnd(d: seq<bv8>, d0: seq<bv8>, s0: seq<bv8>, ds: Shape, ss: Shape, newval: seq<bv8>, w: int, h: int)
    requires |newval| == 256 && Progress(d, d0, s0, ds, ss, newval, w, h, 0)
    ensures forall r, j | 0 <= r < h && 0 <= j < w :: Pix(d, ds, r, j) == newval[Pix(s0, ss, r, j)]
    ensures forall p | 0 <= p < |d| && !IsPixel(ds, w, h, p) :: d[p] == d0[p]
  {
    forall r, j | 0 <= r < h && 0 <= j < w
      ensures Pix(d, ds, r, j) == newval[Pix(s0, ss, r, j)]
    {
      assert Before(w, h, 0, r, j);
    }
  }

  /** The inner loop of `bmp_color_xform8`: row ir of the destination gets newval of each of the
      first w bytes of row ir of the source. */
  method XformRow(dd: array<bv8>, sd: array<bv8>, ds: Shape, ss: Shape, newval: seq<bv8>, w: int, h: int, ir: int,
                  ghost d0: seq<bv8>, ghost s0: seq<bv8>)
    requires |newval| == 256 && Fits(ds, ss, w, h, dd.Length, sd.Length) && 0 <= ir < h
    requires dd == sd ==> d0 == s0 && ds == ss
    requires dd != sd ==> sd[..] == s0
    requires Progress(dd[..], d0, s0, ds, ss, newval, w, ir, 0)
    modifies dd
    ensures Progress(dd[..], d0, s0, ds, ss, newval, w, ir, w)
  {
    var sp := RowPtrFromTop(ss, ir);
    var dp := RowPtrFromTop(ds, ir);
    var i := 0;
    while i < w
      invariant 0 <= i <= w && (dd != sd ==> sd[..] == s0)
      invariant Progress(dd[..], d0, s0, ds, ss, newval, w, ir, i)
    {
      ProgressStep(dd[..], d0, s0, ds, ss, newval, w, h, ir, i);
      if dd == sd {
        ProgressRead(dd[..], d0, s0, ds, ss, newval, w, h, ir, i);
      }
      assert sd[sp + i] == s0[Off(ss, ir, i)];
      dd[dp + i] := newval[sd[sp + i] as int];
      i := i + 1;
    }
  }

  /** `bmp_alloc`: room for every row at the Win32 byte width. Enough room already allocated is kept;
      otherwise the buffer is reallocated, keeping its contents. A buffer of length 0 stands for
      none. */
  method Alloc(b: Bitmap)
    requires b.bpp == 8 || b.bpp == 24
    modifies b
    ensures b.ShapeOf() == old(b.ShapeOf()) && b.red == old(b.red) && b.green == old(b.green) && b.blue == old(b.blue)
    ensures old(b.data.Length) >= ByteWidthWin32(b.ShapeOf()) * b.height ==> b.data == old(b.data)
    ensures old(b.data.Length) < ByteWidthWin32(b.ShapeOf()) * b.height ==>
      fresh(b.data) && b.data.Length == ByteWidthWin32(b.ShapeOf()) * b.height
      && b.data[..old(b.data.Length)] == old(b.data[..])
  {
    var size := ByteWidthWin32(b.ShapeOf()) * b.height;
    if b.data.Length >= size {
      return;
    }
    var grown := new bv8[size];
    forall k | 0 <= k < b.data.Length {
      grown[k] := b.data[k];
    }
    b.data := grown;
  }

  /** The part of `bmp_color_xform8` for a separate destination: it takes the source's size as an
      8-bit bitmap with the identity palettes, and room for its rows. */
  method BecomeGrey(dest: Bitmap, width: int, height: int)
    requires |dest.red| == 256 && |dest.green| == 256 && |dest.blue| == 256 && 0 <= width && 0 <= height
    modifies dest
    ensures dest.ShapeOf() == Shape(width, height, 8, old(dest.kind)) && dest.Valid()
    ensures Identity(dest.red) && Identity(dest.green) && Identity(dest.blue)
    ensures dest.data == old(dest.data) || (fresh(dest.data) && old(dest.data.Length) <= dest.data.Length
      && dest.data[..old(dest.data.Length)] == old(dest.data[..]))
  {
    dest.width := width;
    dest.height := height;
    dest.bpp := 8;
    var i := 0;
    while i < 256
      invariant 0 <= i <= 256 && |dest.red| == 256 && |dest.green| == 256 && |dest.blue| == 256
      invariant forall k | 0 <= k < i :: dest.red[k] == k && dest.green[k] == k && dest.blue[k] == k
      invariant dest.ShapeOf() == Shape(width, height, 8, old(dest.kind)) && dest.data == old(dest.data)
    {
      dest.red := dest.red[i := i];
      dest.green := dest.green[i := i];
      dest.blue := dest.blue[i := i];
      i := i + 1;
    }
    Alloc(dest);
    MulMono(dest.height, ByteWidth(dest.ShapeOf()), ByteWidthWin32(dest.ShapeOf()));
  }

  /** The outer loop of `bmp_color_xform8`, over the h rows. */
  method XformRows(dd: array<bv8>, sd: array<bv8>, ds: Shape, ss: Shape, newval: seq<bv8>, w: int, h: int)
    requires |newval| == 256 && Fits(ds, ss, w, h, dd.Length, sd.Length)
    requires dd == sd ==> ds == ss
    modifies dd
    ensures forall r, j | 0 <= r < h && 0 <= j < w :: Pix(dd[..], ds, r, j) == newval[Pix(old(sd[..]), ss, r, j)]
    ensures forall p | 0 <= p < dd.Length && !IsPixel(ds, w, h, p) :: dd[p] == old(dd[p])
  {
    ghost var d0 := dd[..];
    ghost var s0 := sd[..];
    ProgressStart(d0, s0, ds, ss, newval, w);
    var ir := 0;
    while ir < h
      invariant 0 <= ir <= h && (dd != sd ==> sd[..] == s0)
      invariant Progress(dd[..], d0, s0, ds, ss, newval, w, ir, 0)
    {
      XformRow(dd, sd, ds, ss, newval, w, h, ir, d0, s0);
      ProgressRow(dd[..], d0, s0, ds, ss, newval, w, ir);
      ir := ir + 1;
    }
    ProgressEnd(dd[..], d0, s0, ds, ss, newval, w, h);
  }

  /** `bmp_color_xform8`: every pixel of the destination becomes newval of the source pixel at the
      same row (from the top) and column. The transform works in place when the two are the same
      bitmap; otherwise the destination takes the source's size as an 8-bit grey bitmap with the
      identity palettes. The loops cover the first `width` bytes of each row. */
  method ColorXform8(dest: Bitmap, src: Bitmap, newval: seq<bv8>)
    requires |newval| == 256 && src.Valid()
    requires |dest.red| == 256 && |dest.green| == 256 && |dest.blue| == 256
    requires dest != src ==> dest.data != src.data
    modifies dest, dest.data
    ensures dest == src ==> (dest.ShapeOf() == old(dest.ShapeOf()) && dest.data == old(dest.data)
      && dest.red == old(dest.red) && dest.green == old(dest.green) && dest.blue == old(dest.blue))
    ensures dest != src ==> (dest.ShapeOf() == Shape(old(src.width), old(src.height), 8, old(dest.kind))
      && Identity(dest.red) && Identity(dest.green) && Identity(dest.blue)
      && src.ShapeOf() == old(src.ShapeOf()) && src.data == old(src.data) && src.data[..] == old(src.data[..]))
    ensures dest.Valid()
    ensures forall r, j | 0 <= r < old(src.height) && 0 <= j < old(src.width) ::
      Pix(dest.data[..], dest.ShapeOf(), r, j) == newval[Pix(old(src.data[..]), old(src.ShapeOf()), r, j)]
    ensures forall p | 0 <= p < dest.data.Length && p < old(dest.data.Length) && !IsPixel(dest.ShapeOf(), old(src.width), old(src.height), p) ::
      dest.data[p] == old(dest.data[p])
  {
    if dest != src {
      BecomeGrey(dest, src.width, src.height);
    }
    XformRows(dest.data, src.data, dest.ShapeOf(), src.ShapeOf(), newval, src.width, src.height);
  }
}

=== FILE: k2pdfopt_print.dfy ===
/**
 * `comma_print`: a `long` written in decimal with a comma between every three digits.
 */
module K2Print {
  import opened Decimal

  /** The range of a 64-bit `long`. */
  const LongMax := 0x7fff_ffff_ffff_ffff
  const LongMin := -0x8000_0000_0000_0000

  /** `"%03d"`: three digits, with leading zeros. */
  function Pad3(m: nat): (r: string)
    requires m < 1000
    ensures |r| == 3 && IsDigits(r) && DigitsValue(r) == m
  {
    var r := [DigitChar(m / 100), DigitChar(m / 10 % 10), DigitChar(m % 10)];
    assert r[..2][..1] == [r[0]] && r[..2][..0] == [] && r[..2] == [r[0], r[1]] && r[..3] == r;
    assert DigitsValue(r[..2][..1]) == m / 100;
    assert DigitsValue(r[..2]) == m / 100 * 10 + m / 10 % 10;
    assert DigitsValue(r) == (m / 100 * 10 + m / 10 % 10) * 10 + m % 10;
    r
  }

  /** The digits of v with a comma before each group of three counted from the right. */
  function Grouped(v: nat): (r: string)
  {
    if v < 1000 then NatToString(v) else Grouped(v / 1000) + "," + Pad3(v % 1000)
  }

  /** What `comma_print` writes for size. */
  function CommaString(size: int): (r: string)
  {
    if size == 0 then "0"
    else if size < 0 then "-" + Grouped(-size)
    else Grouped(size)
  }

  /** A string with its commas taken out. */
  function RemoveCommas(s: string): (r: string)
    ensures |r| <= |s|
  {
    if s == [] then []
    else RemoveCommas(s[..|s| - 1]) + (if s[|s| - 1] == ',' then [] else [s[|s| - 1]])
  }

  /** The shape of a grouped numeral: a first group of one to three digits not starting with 0,
      then groups of exactly three digits each after a comma. */
  predicate WellGrouped(s: string)
    decreases |s|
  {
    if |s| <= 3 then 1 <= |s| && IsDigits(s) && s[0] != '0'
    else s[|s| - 4] == ',' && IsDigits(s[|s| - 3..]) && WellGrouped(s[..|s| - 4])
  }

  lemma RemoveCommasAppend(s: string, t: string)
    ensures RemoveCommas(s + t) == RemoveCommas(s) + RemoveCommas(t)
    decreases |t|
  {
    if t != [] {
      assert (s + t)[..|s + t| - 1] == s + t[..|t| - 1];
      assert (s + t)[|s + t| - 1] == t[|t| - 1];
      RemoveCommasAppend(s, t[..|t| - 1]);
    } else {
      assert s + t == s;
    }
  }

  lemma RemoveCommasDigits(s: string)
    requires IsDigits(s)
    ensures RemoveCommas(s) == s
  {
    if s != [] {
      RemoveCommasDigits(s[..|s| - 1]);
    }
  }

  lemma ShiftDigit(a: int, p: int, b: int, d: int)
    ensures (a * p + b) * 10 + d == a * (10 * p) + (b * 10 + d)
  {
    calc {
      (a * p + b) * 10 + d;
      (a * p) * 10 + b * 10 + d;
      { assert (a * p) * 10 == a * (10 * p); }
      a * (10 * p) + (b * 10 + d);
    }
  }

  /** Appending digits t to a numeral s multiplies its value by 10^|t| and adds t's value. */
  lemma {:induction false} DigitsValueAppend(s: string, t: string)
    requires IsDigits(s) && IsDigits(t)
    ensures IsDigits(s + t) && DigitsValue(s + t) == DigitsValue(s) * Pow10(|t|) + DigitsValue(t)
    decreases |t|
  {
    assert IsDigits(s + t);
    if t != [] {
      var t' := t[..|t| - 1];
      assert (s + t)[..|s + t| - 1] == s + t';
      assert (s + t)[|s + t| - 1] == t[|t| - 1];
      DigitsValueAppend(s, t');
      var d := DigitValue(t[|t| - 1]);
      assert DigitsValue(s + t) == DigitsValue(s + t') * 10 + d;
      assert DigitsValue(t) == DigitsValue(t') * 10 + d;
      assert Pow10(|t|) == 10 * Pow10(|t'|);
      ShiftDigit(DigitsValue(s), Pow10(|t'|), DigitsValue(t'), d);
    } else {
      assert s + t == s;
    }
  }

  /** For a positive v, Grouped(v) is well grouped. */
  lemma {:induction false} GroupedShape(v: nat)
    requires v > 0
    ensures WellGrouped(Grouped(v))
  {
    if v < 1000 {
      NatToStringLength(v, 2);
    } else {
      var h := Grouped(v / 1000);
      var p := Pad3(v % 1000);
      GroupedShape(v / 1000);
      assert Grouped(v) == h + "," + p;
      assert (h + "," + p)[..|h + "," + p| - 4] == h;
      assert (h + "," + p)[|h + "," + p| - 3..] == p;
    }
  }

  /** Taking the commas out of Grouped(v) leaves the decimal digits of v. */
  lemma {:induction false} GroupedValue(v: nat)
    ensures var d := RemoveCommas(Grouped(v)); IsDigits(d) && DigitsValue(d) == v
  {
    if v < 1000 {
      RemoveCommasDigits(NatToString(v));
    } else {
      var h := Grouped(v / 1000);
      var p := Pad3(v % 1000);
      GroupedValue(v / 1000);
      assert Grouped(v) == h + "," + p;
      RemoveCommasAppend(h + ",", p);
      RemoveCommasAppend(h, ",");
      assert RemoveCommas(",") == [];
      assert RemoveCommas(h + ",") == RemoveCommas(h);
      RemoveCommasDigits(p);
      DigitsValueAppend(RemoveCommas(h), p);
      assert Pow10(3) == 1000;
    }
  }

  lemma WellGroupedLeads(s: string)
    requires WellGrouped(s)
    ensures |s| > 0 && IsDigit(s[0])
    decreases |s|
  {
    if |s| > 3 {
      WellGroupedLeads(s[..|s| - 4]);
    }
  }

  /** What `comma_print` promises: "0" for 0; otherwise an optional '-' then a well-grouped numeral
      whose digits, commas taken out, are those of the magnitude. */
  lemma CommaStringShape(size: int)
    ensures size == 0 ==> CommaString(size) == "0"
    ensures size != 0 ==> var s := CommaString(size);
      var g := if size < 0 then s[1..] else s;
      var d := RemoveCommas(g);
      (size < 0 <==> s[0] == '-') && WellGrouped(g) && IsDigits(d)
      && DigitsValue(d) == if size < 0 then -size else size
  {
    if size != 0 {
      var m := if size < 0 then -size else size;
      GroupedShape(m);
      GroupedValue(m);
      WellGroupedLeads(Grouped(m));
      if size < 0 {
        assert CommaString(size)[1..] == Grouped(-size);
      }
    }
  }

  /** What remains of the numeral when the loop of `comma_print` has left `rest` still to write and
      has written s so far, in i rounds. */
  function Pending(rest: nat, s: string, i: nat): string
  {
    if rest == 0 then s else if i == 0 then Grouped(rest) else Grouped(rest) + "," + s
  }

  /** One round of the loop keeps what remains to be written. */
  lemma PendingStep(v: nat, s: string, i: nat)
    requires v > 0 && (i == 0 ==> s == "")
    ensures var m := v % 1000;
      var t := (if m == v then NatToString(m) else Pad3(m)) + (if i > 0 then "," else "") + s;
      Pending((v - m) / 1000, t, i + 1) == Pending(v, s, i)
  {
    if v >= 1000 {
      assert Grouped(v) == Grouped(v / 1000) + "," + Pad3(v % 1000);
      assert (v - v % 1000) / 1000 == v / 1000 > 0;
    } else {
      assert v % 1000 == v;
    }
  }

  /** `comma_print`; the `long` argument must not be LONG_MIN, whose negation overflows. */
  method CommaPrint(size: int) returns (s: string)
    requires LongMin < size <= LongMax
    ensures s == CommaString(size)
  {
    if size == 0 {
      return "0";
    }
    var v := size;
    s := "";
    var neg := false;
    if v < 0 {
      v := -v;
      neg := true;
    }
    ghost var v0 := v;
    var i := 0;
    var m := v % 1000;
    while v != 0
      invariant 0 <= v && m == v % 1000
      invariant Pending(v, s, i) == Grouped(v0)
      invariant i == 0 ==> s == "" && v == v0 > 0
      invariant v == 0 ==> i > 0
      decreases v
    {
      PendingStep(v, s, i);
      var digits := if m == v then NatToString(m) else Pad3(m);
      s := digits + (if i > 0 then "," else "") + s;
      i := i + 1;
      v := (v - m) / 1000;
      m := v % 1000;
    }
    if neg {
      s := "-" + s;
    }
  }
}

=== FILE: k2pdfopt_region.dfy ===
/**
 * Two scans over the per-row (or per-column) counts of dark pixels of a region: `trim_to`, which
 * walks from one end towards the other until it meets the first defect big enough to keep, and
 * `height2_calc`, the height of the band of counts at or above a threshold.
 */
module K2Region {
  import K2Sort

  /** k lies on the walk from i1 towards i2, i2 itself excluded. */
  predicate OnWalk(i1: int, i2: int, k: int)
  {
    if i1 <= i2 then i1 <= k < i2 else i2 < k <= i1
  }

  /** k lies between i1 and i2, both included. */
  predicate Between(i1: int, k: int, i2: int)
  {
    if i1 <= i2 then i1 <= k <= i2 else i2 <= k <= i1
  }

  /** The direction of the walk from i1 to i2. */
  function Step(i1: int, i2: int): int
  {
    if i2 > i1 then 1 else -1
  }

  /** k, on the walk, starts a run of positive counts: it is the first position or follows a clear one. */
  predicate DefectStart(count: array<int>, i1: int, i2: int, k: int)
    requires OnWalk(i1, i2, k) && forall j | OnWalk(i1, i2, j) :: 0 <= j < count.Length
    reads count
  {
    count[k] > 0 && (k == i1 || (OnWalk(i1, i2, k - Step(i1, i2)) && count[k - Step(i1, i2)] <= 0))
  }

  function Abs(x: int): (r: nat)
    ensures r == x || r == -x
  {
    if x < 0 then -x else x
  }

  /** `trim_to`: walks from i1 towards i2 and returns the new i1. The counts must exist along the walk.
      `gaplen` is the gap length already converted to pixels and truncated; `dlevel` is the defect
      size in pixels; the count level below which a position is clear is 0. */
  method TrimTo(count: array<int>, i1: int, i2: int, gaplen: int, dlevel: int) returns (r: int)
    requires forall k | OnWalk(i1, i2, k) :: 0 <= k < count.Length
    ensures Between(i1, r, i2)
    ensures r == i2 <==> forall k | OnWalk(i1, i2, k) :: count[k] <= 0
    ensures r != i2 ==> OnWalk(i1, i2, r) && DefectStart(count, i1, i2, r)
  {
    var igaplen := if gaplen < 1 then 1 else gaplen;
    var del := Step(i1, i2);
    var defectStart := -1;
    var lastDefect := -1;
    var dcount := 0;
    r := i1;
    while r != i2
      invariant Between(i1, r, i2) && (i1 < i2 ==> del == 1) && (i2 < i1 ==> del == -1)
      invariant defectStart < 0 ==> forall k | OnWalk(i1, i2, k) && OnWalk(i1, r, k) :: count[k] <= 0
      invariant defectStart >= 0 ==> OnWalk(i1, r, defectStart) && OnWalk(i1, i2, defectStart) && DefectStart(count, i1, i2, defectStart)
      invariant lastDefect >= 0 ==> OnWalk(i1, r, lastDefect) && OnWalk(i1, i2, lastDefect) && DefectStart(count, i1, i2, lastDefect)
      invariant 0 <= dcount && (r != i1 && dcount == 0 ==> OnWalk(i1, i2, r - del) && count[r - del] <= 0)
      invariant -1 <= lastDefect && -1 <= defectStart && (dcount != 0 ==> defectStart >= 0)
      decreases (i2 - r) * del
    {
      assert OnWalk(i1, i2, r);
      if count[r] <= 0 {
        dcount := 0;
      } else {
        if dcount == 0 {
          if defectStart >= 0 {
            lastDefect := defectStart;
          }
          defectStart := r;
        }
        dcount := dcount + count[r];
        if dcount >= dlevel {
          if lastDefect >= 0 && Abs(defectStart - lastDefect) <= igaplen {
            r := lastDefect;
          } else {
            r := defectStart;
          }
          return;
        }
      }
      r := r + del;
    }
    if defectStart < 0 {
      return;
    }
    if lastDefect < 0 {
      r := defectStart;
      return;
    }
    if Abs(defectStart - lastDefect) <= igaplen {
      r := lastDefect;
    } else {
      r := defectStart;
    }
  }

  /** A fresh array holding the first n counts. */
  method CopyPrefix(rc: array<int>, n: int) returns (c: array<int>)
    requires 0 <= n <= rc.Length
    ensures fresh(c) && c[..] == rc[..n]
  {
    c := new int[n];
    forall k | 0 <= k < n {
      c[k] := rc[k];
    }
  }

  /** Sorted by value as a real is sorted as an integer. */
  lemma Ascending(s: seq<int>)
    requires 2 <= |s| ==> K2Sort.Sorted(s, (v: int) => v as real)
    ensures forall a, b | 0 <= a < b < |s| :: s[a] <= s[b]
  {
  }

  /** The threshold of `height2_calc`: the counts are sorted in a copy, the leading zeros skipped
      (all but the last), and the count a third of the way from the first non-zero one to the end
      is taken. */
  method Threshold(rc: array<int>, n: int) returns (t: int, ghost sorted: seq<int>, ghost zeros: nat)
    requires 0 < n <= rc.Length
    ensures |sorted| == n && multiset(sorted) == multiset(rc[..n])
    ensures forall a, b | 0 <= a < b < n :: sorted[a] <= sorted[b]
    ensures zeros <= n - 1 && (forall k | 0 <= k < zeros :: sorted[k] == 0) && (zeros == n - 1 || sorted[zeros] != 0)
    ensures t == sorted[(zeros + n) / 3] && t in rc[..n]
  {
    var c := CopyPrefix(rc, n);
    ghost var counts := c[..];
    assert counts == c[..n];
    K2Sort.SortInts(c, n);
    assert c[..] == c[..n];
    sorted := c[..];
    assert multiset(sorted) == multiset(counts);
    Ascending(sorted);
    var i := LeadingZeros(c, n);
    t, zeros := c[(i + n) / 3], i;
    assert t in multiset(sorted);
  }

  /** Where the run of zeros at the head of the first n counts ends, stopping at the last one. */
  method LeadingZeros(c: array<int>, n: int) returns (i: nat)
    requires 0 < n <= c.Length
    ensures i <= n - 1 && (forall k | 0 <= k < i :: c[k] == 0) && (i == n - 1 || c[i] != 0)
  {
    i := 0;
    while i < n - 1 && c[i] == 0
      invariant 0 <= i <= n - 1
      invariant forall k | 0 <= k < i :: c[k] == 0
    {
      i := i + 1;
    }
  }

  /** `height2_calc`: thresh is the count found a third of the way up the sorted non-zero counts,
      and the result is the length of the stretch from the first to the last count at or above it
      (1 when there are no counts). */
  method Height2Calc(rc: array<int>, n: int)
    returns (h2: int, ghost i1: int, ghost thresh: int, ghost sorted: seq<int>, ghost zeros: nat)
    requires n <= rc.Length
    ensures n <= 0 ==> h2 == 1
    ensures 1 <= h2 && (n > 0 ==> h2 <= n)
    ensures n > 0 ==> |sorted| == n && multiset(sorted) == multiset(rc[..n])
    ensures n > 0 ==> forall a, b | 0 <= a < b < n :: sorted[a] <= sorted[b]
    ensures n > 0 ==> zeros <= n - 1 && (forall k | 0 <= k < zeros :: sorted[k] == 0) && (zeros == n - 1 || sorted[zeros] != 0)
    ensures n > 0 ==> thresh == sorted[(zeros + n) / 3]
    ensures n > 0 ==> (thresh in rc[..n] && 0 <= i1 && i1 + h2 <= n
      && rc[i1] >= thresh && rc[i1 + h2 - 1] >= thresh
      && (forall k | 0 <= k < i1 :: rc[k] < thresh)
      && (forall k | i1 + h2 <= k < n :: rc[k] < thresh))
  {
    if n <= 0 {
      return 1, 0, 0, [], 0;
    }
    var t;
    t, sorted, zeros := Threshold(rc, n);
    var i := 0;
    while i < n - 1
      invariant 0 <= i <= n - 1
      invariant forall k | 0 <= k < i :: rc[k] < t
    {
      if rc[i] >= t {
        break;
      }
      i := i + 1;
    }
    var first := i;
    i := n - 1;
    while i > first
      invariant first <= i <= n - 1
      invariant forall k | i < k < n :: rc[k] < t
    {
      if rc[i] >= t {
        break;
      }
      i := i - 1;
    }
    h2 := i - first + 1;
    i1, thresh := first, t;
  }
}

=== FILE: k2pdfopt_rows.dfy ===
/**
 * The rows (or columns) of text k2pdfopt finds in a region, and the gaps between them.
 */
module K2Rows {

  /** `TEXTROW`, without its hyphen information: columns c1..c2 and rows r1..r2 (inclusive), the
      baseline, the gap to the next row and the row height. */
  datatype TextRow = TextRow(
    c1: int, c2: int, r1: int, r2: int, rowbase: int,
    gap: int, rowheight: int, capheight: int, h5050: int, lcheight: int)

  /** What `breakinfo_compute_row_gaps` makes of row i: its gap runs from below its baseline to
      just above the next row, the last one's to r2; its height is the distance between baselines,
      the first one's its own extent. */
  function RowGapsAt(rows: seq<TextRow>, i: int, r2: int): TextRow
    requires 0 <= i < |rows|
  {
    rows[i].(
      gap := if i < |rows| - 1 then rows[i + 1].r1 - rows[i].rowbase - 1 else r2 - rows[i].rowbase,
      rowheight := if i == 0 then rows[0].r2 - rows[0].r1 else rows[i].rowbase - rows[i - 1].rowbase)
  }

  function RowGaps(rows: seq<TextRow>, r2: int): (r: seq<TextRow>)
    ensures |r| == |rows|
  {
    seq(|rows|, i requires 0 <= i < |rows| => RowGapsAt(rows, i, r2))
  }

  /** What `breakinfo_compute_col_gaps` makes of column i: its gap runs from right of it to just
      before the next column, the last one's to c2; its "height" is the distance between left
      edges, the last one's its own width. */
  function ColGapsAt(cols: seq<TextRow>, i: int, c2: int): TextRow
    requires 0 <= i < |cols|
  {
    if i < |cols| - 1 then cols[i].(gap := cols[i + 1].c1 - cols[i].c2 - 1, rowheight := cols[i + 1].c1 - cols[i].c1)
    else cols[i].(gap := c2 - cols[i].c2, rowheight := cols[i].c2 - cols[i].c1)
  }

  function ColGaps(cols: seq<TextRow>, c2: int): (r: seq<TextRow>)
    ensures |r| == |cols|
  {
    seq(|cols|, i requires 0 <= i < |cols| => ColGapsAt(cols, i, c2))
  }

  /** Only the gap and the height of a row change. */
  predicate SameBut(t: TextRow, u: TextRow)
  {
    t.(gap := u.gap, rowheight := u.rowheight) == u
  }

  function SumHeights(rows: seq<TextRow>, lo: int, hi: int): int
    requires 0 <= lo <= hi <= |rows|
    decreases hi - lo
  {
    if lo == hi then 0 else rows[lo].rowheight + SumHeights(rows, lo + 1, hi)
  }

  function SumHeightsBack(rows: seq<TextRow>, lo: int, hi: int): int
    requires 0 <= lo <= hi <= |rows|
    decreases hi - lo
  {
    if lo == hi then 0 else SumHeightsBack(rows, lo, hi - 1) + rows[hi - 1].rowheight
  }

  lemma {:induction false} SumHeightsBackIsSum(rows: seq<TextRow>, lo: int, hi: int)
    requires 0 <= lo <= hi <= |rows|
    ensures SumHeightsBack(rows, lo, hi) == SumHeights(rows, lo, hi)
    decreases hi - lo
  {
    if lo < hi {
      SumHeightsBackIsSum(rows, lo + 1, hi);
      SumHeightsBackSplit(rows, lo, hi);
    }
  }

  lemma {:induction false} SumHeightsBackSplit(rows: seq<TextRow>, lo: int, hi: int)
    requires 0 <= lo < hi <= |rows|
    ensures SumHeightsBack(rows, lo, hi) == rows[lo].rowheight + SumHeightsBack(rows, lo + 1, hi)
    decreases hi - lo
  {
    if lo + 1 < hi {
      SumHeightsBackSplit(rows, lo, hi - 1);
    }
  }

  /** After the row gaps are computed, each gap ends just above the next row (the last one at r2),
      and nothing but gaps and heights changed. */
  lemma RowGapsSpan(rows: seq<TextRow>, r2: int, i: int)
    requires 0 <= i < |rows|
    ensures var r := RowGaps(rows, r2);
      SameBut(rows[i], r[i])
      && (i < |rows| - 1 ==> r[i].rowbase + r[i].gap + 1 == r[i + 1].r1)
      && (i == |rows| - 1 ==> r[i].rowbase + r[i].gap == r2)
  {
  }

  /** The heights add up: the first row's extent, then baseline to baseline, so the k-th baseline
      is the first one plus the heights of rows 1..k. */
  lemma {:induction false} RowHeightsTelescope(rows: seq<TextRow>, r2: int, k: int)
    requires 0 <= k < |rows|
    ensures var r := RowGaps(rows, r2);
      r[0].rowheight == rows[0].r2 - rows[0].r1
      && r[k].rowbase == r[0].rowbase + SumHeightsBack(r, 1, k + 1)
  {
    var r := RowGaps(rows, r2);
    if k > 0 {
      RowHeightsTelescope(rows, r2, k - 1);
      assert r[k].rowheight == r[k].rowbase - r[k - 1].rowbase;
    }
  }

  /** After the column gaps are computed, each gap lies between one column and the next (the
      last one up to c2), and the left edges are recovered from the first one and the widths. */
  lemma ColGapsSpan(cols: seq<TextRow>, c2: int, i: int)
    requires 0 <= i < |cols|
    ensures var r := ColGaps(cols, c2);
      SameBut(cols[i], r[i])
      && (i < |cols| - 1 ==> r[i].c2 + r[i].gap + 1 == r[i + 1].c1 && r[i].c1 + r[i].rowheight == r[i + 1].c1)
      && (i == |cols| - 1 ==> r[i].c2 + r[i].gap == c2 && r[i].c1 + r[i].rowheight == r[i].c2)
  {
  }

  /** The first loop of `breakinfo_compute_row_gaps`: each of the first n - 1 rows gets the gap
      from below its baseline to just above the next row. */
  predicate GapsToNextStep(s: seq<TextRow>, t: seq<TextRow>, n: int)
    requires 1 <= n <= |s| == |t|
  {
    (forall k | 0 <= k < n - 1 :: t[k] == s[k].(gap := s[k + 1].r1 - s[k].rowbase - 1))
    && t[n - 1..] == s[n - 1..]
  }

  /** The second loop: rows 1..n-1 get the distance from the previous baseline as their height. */
  predicate HeightsStep(s: seq<TextRow>, t: seq<TextRow>, n: int)
    requires 1 <= n <= |s| == |t|
  {
    t[0] == s[0]
    && (forall k | 1 <= k < n :: t[k] == s[k].(rowheight := s[k].rowbase - s[k - 1].rowbase))
    && t[n..] == s[n..]
  }

  method GapsToNext(rows: array<TextRow>, n: int)
    requires 1 <= n <= rows.Length
    modifies rows
    ensures GapsToNextStep(old(rows[..]), rows[..], n)
  {
    ghost var s := rows[..];
    var i := 0;
    while i < n - 1
      invariant 0 <= i <= n - 1
      invariant forall k | 0 <= k < i :: rows[k] == s[k].(gap := s[k + 1].r1 - s[k].rowbase - 1)
      invariant forall k | i <= k < rows.Length :: rows[k] == s[k]
    {
      rows[i] := rows[i].(gap := rows[i + 1].r1 - rows[i].rowbase - 1);
      i := i + 1;
    }
    assert rows[n - 1..] == s[n - 1..];
  }

  method HeightsFromBaselines(rows: array<TextRow>, n: int)
    requires 1 <= n <= rows.Length
    modifies rows
    ensures HeightsStep(old(rows[..]), rows[..], n)
  {
    ghost var s := rows[..];
    var i := 1;
    while i < n
      invariant 1 <= i <= n && rows[0] == s[0]
      invariant forall k | 1 <= k < i :: rows[k] == s[k].(rowheight := s[k].rowbase - s[k - 1].rowbase)
      invariant forall k | i <= k < rows.Length :: rows[k] == s[k]
    {
      if i > 1 {
        assert rows[i - 1] == s[i - 1].(rowheight := s[i - 1].rowbase - s[i - 2].rowbase);
      }
      assert rows[i - 1].rowbase == s[i - 1].rowbase;
      rows[i] := rows[i].(rowheight := rows[i].rowbase - rows[i - 1].rowbase);
      i := i + 1;
    }
    assert rows[n..] == s[n..];
  }

  /** The steps of `breakinfo_compute_row_gaps` in order make up RowGaps. */
  lemma RowGapsSteps(o: seq<TextRow>, o2: seq<TextRow>, o3: seq<TextRow>, f: seq<TextRow>, n: int, r2: int)
    requires 1 <= n <= |o| == |o2| == |o3|
    requires GapsToNextStep(o[0 := o[0].(rowheight := o[0].r2 - o[0].r1)], o2, n) && HeightsStep(o2, o3, n)
    requires f == o3[n - 1 := o3[n - 1].(gap := r2 - o3[n - 1].rowbase)]
    ensures f[..n] == RowGaps(o[..n], r2) && f[n..] == o[n..]
  {
    var o1 := o[0 := o[0].(rowheight := o[0].r2 - o[0].r1)];
    forall k | 0 <= k < n
      ensures f[k] == RowGapsAt(o[..n], k, r2)
    {
      if k < n - 1 {
        assert o2[k] == o1[k].(gap := o1[k + 1].r1 - o1[k].rowbase - 1);
      } else {
        assert o2[k] == o2[n - 1..][0] == o1[n - 1..][0] == o1[k];
      }
      if k > 0 {
        assert o3[k] == o2[k].(rowheight := o2[k].rowbase - o2[k - 1].rowbase);
        if k - 1 < n - 1 {
          assert o2[k - 1] == o1[k - 1].(gap := o1[k].r1 - o1[k - 1].rowbase - 1);
        }
      }
    }
    assert f[n..] == o3[n..] == o2[n..];
    assert o2[n..] == o2[n - 1..][1..] && o1[n..] == o1[n - 1..][1..];
  }

  /** `breakinfo_compute_row_gaps`, in place on the first n rows. */
  method ComputeRowGaps(rows: array<TextRow>, n: int, r2: int)
    requires n <= rows.Length
    modifies rows
    ensures n <= 0 ==> rows[..] == old(rows[..])
    ensures 0 < n ==> rows[..n] == RowGaps(old(rows[..n]), r2) && rows[n..] == old(rows[n..])
  {
    if n <= 0 {
      return;
    }
    ghost var o := rows[..];
    rows[0] := rows[0].(rowheight := rows[0].r2 - rows[0].r1);
    assert rows[..] == o[0 := o[0].(rowheight := o[0].r2 - o[0].r1)];
    GapsToNext(rows, n);
    ghost var o2 := rows[..];
    HeightsFromBaselines(rows, n);
    ghost var o3 := rows[..];
    rows[n - 1] := rows[n - 1].(gap := r2 - rows[n - 1].rowbase);
    assert rows[..] == o3[n - 1 := o3[n - 1].(gap := r2 - o3[n - 1].rowbase)];
    RowGapsSteps(o, o2, o3, rows[..], n, r2);
  }

  /** `breakinfo_compute_col_gaps`, in place on the first n columns. */
  method ComputeColGaps(cols: array<TextRow>, n: int, c2: int)
    requires n <= cols.Length
    modifies cols
    ensures n <= 0 ==> cols[..] == old(cols[..])
    ensures 0 < n ==> cols[..n] == ColGaps(old(cols[..n]), c2) && cols[n..] == old(cols[n..])
  {
    if n <= 0 {
      return;
    }
    ghost var o := cols[..n];
    var i := 0;
    while i < n - 1
      invariant 0 <= i <= n - 1 && cols[n..] == old(cols[n..])
      invariant forall k | 0 <= k < i :: cols[k] == ColGapsAt(o, k, c2)
      invariant forall k | i <= k < n :: cols[k] == o[k]
    {
      cols[i] := cols[i].(gap := cols[i + 1].c1 - cols[i].c2 - 1, rowheight := cols[i + 1].c1 - cols[i].c1);
      i := i + 1;
    }
    cols[n - 1] := cols[n - 1].(gap := c2 - cols[n - 1].c2, rowheight := cols[n - 1].c2 - cols[n - 1].c1);
    assert cols[..n] == ColGaps(o, c2);
  }
}

=== FILE: k2pdfopt_sort.dfy ===
/**
 * The heapsort of k2pdfopt. `sorti`, `sortd`, `breakinfo_sort_by_gap` and
 * `breakinfo_sort_by_row_position` are one algorithm written four times over different element types
 * and keys; here it is written once over a key function, and each of the four is an instance.
 *
 * The algorithm keeps the element being placed out of the array (the "hole" technique): building
 * the heap sifts each inner node down from n/2 - 1 to 0; then the largest element is swapped
 * behind the heap, which shrinks by one, until one element is left.
 */
module K2Sort {
  import opened K2Rows

  /** The parent of node c in the implicit binary tree. */
  function Parent(c: int): int { (c - 1) / 2 }

  /** Every node up to hi whose parent is at lo or later is no larger than that parent. */
  ghost predicate HeapFrom<T>(a: seq<T>, key: T -> real, lo: int, hi: int)
  {
    forall c {:trigger Parent(c)} | 0 < c <= hi && c < |a| && lo <= Parent(c) :: key(a[c]) <= key(a[Parent(c)])
  }

  /** The elements from b to n - 1 are sorted, and none before b is larger than any of them. */
  ghost predicate SortedTail<T>(a: seq<T>, key: T -> real, b: int, n: int)
    requires 0 <= b <= n <= |a|
  {
    (forall i, j | b <= i < j < n :: key(a[i]) <= key(a[j]))
    && (forall i, j | 0 <= i < b <= j < n :: key(a[i]) <= key(a[j]))
  }

  predicate Sorted<T>(a: seq<T>, key: T -> real)
  {
    forall i, j | 0 <= i < j < |a| :: key(a[i]) <= key(a[j])
  }

  /** The largest key among a[lo..hi]. */
  ghost function MaxKey<T>(a: seq<T>, key: T -> real, lo: int, hi: int): (m: real)
    requires 0 <= lo <= hi < |a|
    ensures forall k | lo <= k <= hi :: key(a[k]) <= m
    decreases hi - lo
  {
    if lo == hi then key(a[lo])
    else
      var m := MaxKey(a, key, lo + 1, hi);
      if key(a[lo]) > m then key(a[lo]) else m
  }

  /** The root of a heap holds its largest key. */
  lemma {:induction false} HeapRootIsMax<T>(a: seq<T>, key: T -> real, hi: int, k: int)
    requires HeapFrom(a, key, 0, hi) && 0 <= k <= hi < |a|
    ensures key(a[k]) <= key(a[0])
    decreases k
  {
    if k > 0 {
      assert key(a[k]) <= key(a[Parent(k)]);
      HeapRootIsMax(a, key, hi, Parent(k));
    }
  }

  /** While x0 is sifted down from top, the heap order holds on every edge except those leaving
      the hole at parent, and the hole's parent bounds both x0 and the hole's children. */
  ghost predicate SiftInv<T>(a: seq<T>, key: T -> real, top: int, n1: int, parent: int, x0: T)
    requires 0 <= top <= parent <= n1 < |a|
  {
    (forall c {:trigger Parent(c)} | 0 < c <= n1 && top <= Parent(c) && Parent(c) != parent ::
      key(a[c]) <= key(a[Parent(c)]))
    && (parent > top ==> key(x0) <= key(a[Parent(parent)]))
    && (parent > top && 2 * parent + 1 <= n1 ==> key(a[2 * parent + 1]) <= key(a[Parent(parent)]))
    && (parent > top && 2 * parent + 2 <= n1 ==> key(a[2 * parent + 2]) <= key(a[Parent(parent)]))
  }

  lemma SiftStart<T>(a: seq<T>, key: T -> real, top: int, n1: int, x0: T)
    requires 0 <= top <= n1 < |a| && HeapFrom(a, key, top + 1, n1)
    ensures SiftInv(a, key, top, n1, top, x0)
  {
  }

  /** Moving the larger child ch up into the hole moves the hole down to ch. */
  lemma SiftStep<T>(a: seq<T>, key: T -> real, top: int, n1: int, parent: int, ch: int, x0: T)
    requires 0 <= top <= parent < ch <= n1 < |a| && SiftInv(a, key, top, n1, parent, x0)
    requires ch == 2 * parent + 1 || ch == 2 * parent + 2
    requires ch == 2 * parent + 1 && ch < n1 ==> key(a[ch + 1]) <= key(a[ch])
    requires ch == 2 * parent + 2 ==> key(a[ch - 1]) < key(a[ch])
    requires key(x0) < key(a[ch])
    ensures SiftInv(a[parent := a[ch]], key, top, n1, ch, x0)
  {
    var b := a[parent := a[ch]];
    assert Parent(ch) == parent;
    assert 2 * ch + 1 <= n1 ==> Parent(2 * ch + 1) == ch && b[2 * ch + 1] == a[2 * ch + 1];
    assert 2 * ch + 2 <= n1 ==> Parent(2 * ch + 2) == ch && b[2 * ch + 2] == a[2 * ch + 2];
    forall c | 0 < c <= n1 && top <= Parent(c) && Parent(c) != ch
      ensures key(b[c]) <= key(b[Parent(c)])
    {
      if Parent(c) == parent {
      } else if c == parent {
      } else {
        assert b[c] == a[c] && b[Parent(c)] == a[Parent(c)];
      }
    }
  }

  /** x0 placed in the hole once it is no smaller than the hole's children completes the heap. */
  lemma SiftPlace<T>(a: seq<T>, key: T -> real, top: int, n1: int, parent: int, x0: T)
    requires 0 <= top <= parent <= n1 < |a| && SiftInv(a, key, top, n1, parent, x0)
    requires 2 * parent + 1 <= n1 ==> key(a[2 * parent + 1]) <= key(x0)
    requires 2 * parent + 2 <= n1 ==> key(a[2 * parent + 2]) <= key(x0)
    ensures HeapFrom(a[parent := x0], key, top, n1)
  {
    var b := a[parent := x0];
    forall c {:trigger Parent(c)} | 0 < c <= n1 && c < |b| && top <= Parent(c)
      ensures key(b[c]) <= key(b[Parent(c)])
    {
      if Parent(c) == parent {
        assert c == 2 * parent + 1 || c == 2 * parent + 2;
      } else if c == parent {
      } else {
        assert b[c] == a[c] && b[Parent(c)] == a[Parent(c)];
      }
    }
  }

  /** Moving the element at c up into the hole at p, and the hole down to c, keeps the multiset
      the array would hold with x0 in the hole. */
  lemma HoleMove<T>(a: seq<T>, p: int, c: int, x0: T)
    requires 0 <= p < c < |a|
    ensures multiset(a[p := a[c]][c := x0]) == multiset(a[p := x0])
  {
    var b := a[p := a[c]];
    assert multiset(b) == multiset(a) - multiset{a[p]} + multiset{a[c]};
    assert multiset(b[c := x0]) == multiset(b) - multiset{a[c]} + multiset{x0};
    assert multiset(a[p := x0]) == multiset(a) - multiset{a[p]} + multiset{x0};
  }

  /** Everything the sift-down loop keeps, for the array a started from o: only top..n1 change,
      the multiset with x0 in the hole is the one o has with x0 at top, the heap order holds
      away from the hole, and every key in the range stays within bound. */
  ghost predicate Sifting<T>(a: seq<T>, o: seq<T>, key: T -> real, top: int, n1: int, parent: int, x0: T, bound: real)
  {
    |a| == |o| && 0 <= top <= parent <= n1 < |a|
    && a[..top] == o[..top] && a[n1 + 1..] == o[n1 + 1..]
    && multiset(a[parent := x0]) == multiset(o[top := x0])
    && SiftInv(a, key, top, n1, parent, x0)
    && (forall k | top <= k <= n1 :: key(a[k]) <= bound)
  }

  lemma SiftingStep<T>(a: seq<T>, o: seq<T>, key: T -> real, top: int, n1: int, parent: int, ch: int, x0: T, bound: real)
    requires Sifting(a, o, key, top, n1, parent, x0, bound) && parent < ch <= n1
    requires ch == 2 * parent + 1 || ch == 2 * parent + 2
    requires ch == 2 * parent + 1 && ch < n1 ==> key(a[ch + 1]) <= key(a[ch])
    requires ch == 2 * parent + 2 ==> key(a[ch - 1]) < key(a[ch])
    requires key(x0) < key(a[ch])
    ensures Sifting(a[parent := a[ch]], o, key, top, n1, ch, x0, bound)
  {
    SiftStep(a, key, top, n1, parent, ch, x0);
    HoleMove(a, parent, ch, x0);
    var b := a[parent := a[ch]];
    assert b[..top] == a[..top] && b[n1 + 1..] == a[n1 + 1..];
  }

  lemma SiftingEnd<T>(a: seq<T>, o: seq<T>, key: T -> real, top: int, n1: int, parent: int, x0: T, bound: real)
    requires Sifting(a, o, key, top, n1, parent, x0, bound) && key(x0) <= bound
    requires 2 * parent + 1 <= n1 ==> key(a[2 * parent + 1]) <= key(x0)
    requires 2 * parent + 2 <= n1 ==> key(a[2 * parent + 2]) <= key(x0)
    ensures var b := a[parent := x0];
      b[..top] == o[..top] && b[n1 + 1..] == o[n1 + 1..]
      && multiset(b) == multiset(o[top := x0])
      && HeapFrom(b, key, top, n1)
      && forall k | top <= k <= n1 :: key(b[k]) <= bound
  {
    SiftPlace(a, key, top, n1, parent, x0);
    var b := a[parent := x0];
    assert b[..top] == a[..top] && b[n1 + 1..] == a[n1 + 1..];
  }

  /** `sorti`'s inner loop: x0 sifted down from the hole at top within x[top..n1], into a heap
      below top whose every other node already satisfies the heap order. */
  method SiftDown<T>(x: array<T>, key: T -> real, top: int, n1: int, x0: T, ghost bound: real)
    requires 0 <= top <= n1 < x.Length
    requires HeapFrom(x[..], key, top + 1, n1)
    requires key(x0) <= bound && forall k | top <= k <= n1 :: key(x[k]) <= bound
    modifies x
    ensures x[..top] == old(x[..top]) && x[n1 + 1..] == old(x[n1 + 1..])
    ensures multiset(x[..]) == multiset(old(x[..])[top := x0])
    ensures HeapFrom(x[..], key, top, n1)
    ensures forall k | top <= k <= n1 :: key(x[k]) <= bound
  {
    ghost var o := x[..];
    var parent := top;
    var child := top * 2 + 1;
    SiftStart(o, key, top, n1, x0);
    assert o[top := x0] == o[top := x0];
    while child <= n1
      invariant child == 2 * parent + 1
      invariant Sifting(x[..], o, key, top, n1, parent, x0, bound)
      decreases n1 - parent
    {
      if child < n1 && key(x[child]) < key(x[child + 1]) {
        child := child + 1;
      }
      if key(x0) < key(x[child]) {
        ghost var a := x[..];
        SiftingStep(a, o, key, top, n1, parent, child, x0, bound);
        x[parent] := x[child];
        assert x[..] == a[parent := a[child]];
        parent := child;
        child := child + (parent + 1);
      } else {
        assert 2 * parent + 1 <= n1 ==> key(x[2 * parent + 1]) <= key(x0);
        break;
      }
    }
    ghost var a := x[..];
    SiftingEnd(a, o, key, top, n1, parent, x0, bound);
    x[parent] := x0;
    assert x[..] == a[parent := x0];
  }

  /** The end of one extraction: a holds a heap in a[..n1] and a sorted tail; b is the array after
      the root went to n1 and the rest was sifted, so the tail grew by one. */
  lemma ExtractStep<T>(a: seq<T>, b: seq<T>, key: T -> real, n1: int, n: int)
    requires 0 < n1 < n <= |a| == |b|
    requires HeapFrom(a, key, 0, n1) && SortedTail(a, key, n1 + 1, n)
    requires b[n1] == a[0] && b[n1 + 1..] == a[n1 + 1..]
    requires forall k | 0 <= k < n1 :: key(b[k]) <= key(a[0])
    ensures SortedTail(b, key, n1, n)
  {
    forall i, j | n1 <= i < j < n
      ensures key(b[i]) <= key(b[j])
    {
      assert b[j] == a[j];
      if i > n1 {
        assert b[i] == a[i];
      }
    }
    forall i, j | 0 <= i < n1 <= j < n
      ensures key(b[i]) <= key(b[j])
    {
      if j > n1 {
        assert b[j] == a[j];
      }
    }
  }

  /** The heap order on a shorter range, from lo on, follows from the order on a longer one. */
  lemma HeapShrink<T>(a: seq<T>, b: seq<T>, key: T -> real, lo: int, hi: int)
    requires 0 <= hi < |a| == |b| && HeapFrom(a, key, lo, hi + 1)
    requires forall k | 0 <= k <= hi && lo <= k :: b[k] == a[k]
    requires forall k | 0 < k <= hi && lo <= (k - 1) / 2 :: b[k] == a[k]
    ensures HeapFrom(b, key, lo, hi)
  {
  }

  lemma MultisetPrefix<T>(a: seq<T>, b: seq<T>, n: int)
    requires 0 <= n <= |a| == |b| && multiset(a) == multiset(b) && a[n..] == b[n..]
    ensures multiset(a[..n]) == multiset(b[..n])
  {
    assert a == a[..n] + a[n..] && b == b[..n] + b[n..];
    assert multiset(a) == multiset(a[..n]) + multiset(a[n..]);
    assert multiset(b) == multiset(b[..n]) + multiset(b[n..]);
    forall e
      ensures multiset(a[..n])[e] == multiset(b[..n])[e]
    {
      assert multiset(a)[e] == multiset(a[..n])[e] + multiset(a[n..])[e];
      assert multiset(b)[e] == multiset(b[..n])[e] + multiset(b[n..])[e];
    }
  }

  /** Everything the outer loop keeps, for the array a started from o: the heap order from top
      on within a[..n1]; once the heap is built, a sorted tail behind it; a permutation of o that
      leaves everything from n on alone. */
  ghost predicate Sorting<T>(a: seq<T>, o: seq<T>, key: T -> real, n: int, top: int, n1: int)
  {
    |a| == |o| && 2 <= n <= |a| && 0 <= top <= n / 2 && 0 < n1 <= n - 1
    && (top > 0 ==> n1 == n - 1)
    && HeapFrom(a, key, top, n1)
    && (top == 0 ==> SortedTail(a, key, n1 + 1, n))
    && multiset(a) == multiset(o) && a[n..] == o[n..]
  }

  /** Building the heap: one more node sifted. */
  lemma BuildStep<T>(a: seq<T>, b: seq<T>, o: seq<T>, key: T -> real, n: int, top: int, n1: int, x0: T)
    requires 0 <= top && Sorting(a, o, key, n, top + 1, n1) && |b| == |a| && x0 == a[top]
    requires b[..top] == a[..top] && b[n1 + 1..] == a[n1 + 1..]
    requires multiset(b) == multiset(a[top := x0]) && HeapFrom(b, key, top, n1)
    ensures Sorting(b, o, key, n, top, n1)
  {
    assert a[top := a[top]] == a;
  }

  /** Before an extraction from a heap of m + 1 elements: the root goes to m, the old last element
      is the one to sift from the hole at 0, and nothing in the shrunk heap exceeds the root. */
  lemma ExtractPre<T>(a: seq<T>, o: seq<T>, key: T -> real, n: int, m: int)
    requires Sorting(a, o, key, n, 0, m) && 2 <= m
    ensures var c := a[m := a[0]];
      HeapFrom(c, key, 1, m - 1) && key(a[m]) <= key(a[0]) && forall k | 0 <= k <= m - 1 :: key(c[k]) <= key(a[0])
  {
    var c := a[m := a[0]];
    HeapShrink(a, c, key, 1, m - 1);
    HeapRootIsMax(a, key, m, m);
    forall k | 0 <= k <= m - 1
      ensures key(c[k]) <= key(a[0])
    {
      HeapRootIsMax(a, key, m, k);
    }
  }

  /** After an extraction: the heap shrank by one and the sorted tail grew by one. */
  lemma ExtractPost<T>(a: seq<T>, c: seq<T>, b: seq<T>, o: seq<T>, key: T -> real, n: int, m: int, x0: T)
    requires Sorting(a, o, key, n, 0, m) && 2 <= m && |b| == |a|
    requires c == a[m := a[0]] && x0 == a[m]
    requires b[m..] == c[m..] && multiset(b) == multiset(c[0 := x0]) && HeapFrom(b, key, 0, m - 1)
    requires forall k | 0 <= k <= m - 1 :: key(b[k]) <= key(a[0])
    ensures Sorting(b, o, key, n, 0, m - 1)
  {
    assert c[0 := a[m]] == a[0 := a[m]][m := a[0]];
    HoleMove(a[0 := a[m]], 0, m, a[0]);
    assert a[0 := a[m]][0 := a[m]][m := a[0]] == a[0 := a[m]][m := a[0]];
    assert a[0 := a[m]][0 := a[0]] == a;
    assert b[m] == a[0] by { assert b[m..][0] == c[m..][0]; }
    assert b[m + 1..] == a[m + 1..] by {
      assert b[m + 1..] == b[m..][1..] && c[m + 1..] == c[m..][1..];
    }
    ExtractStep(a, b, key, m, n);
    assert b[n..] == a[n..] by {
      assert b[n..] == b[m + 1..][n - m - 1..];
    }
  }

  /** The last extraction leaves the first n elements sorted. */
  lemma ExtractLast<T>(a: seq<T>, o: seq<T>, key: T -> real, n: int)
    requires Sorting(a, o, key, n, 0, 1)
    ensures var b := a[1 := a[0]][0 := a[1]];
      Sorted(b[..n], key) && multiset(b[..n]) == multiset(o[..n]) && b[n..] == o[n..]
  {
    var b := a[1 := a[0]][0 := a[1]];
    assert Parent(1) == 0;
    ExtractStep(a, b, key, 1, n);
    HoleMove(a[0 := a[1]], 0, 1, a[0]);
    assert a[0 := a[1]][0 := a[1]][1 := a[0]] == b;
    assert a[0 := a[1]][0 := a[0]] == a;
    assert b[n..] == a[n..];
    MultisetPrefix(b, o, n);
  }

  /** Building the heap: the node just above top is sifted down. */
  method BuildOne<T>(x: array<T>, key: T -> real, ghost o: seq<T>, n: int, top: int, n1: int)
    requires 0 <= top && Sorting(x[..], o, key, n, top + 1, n1)
    modifies x
    ensures Sorting(x[..], o, key, n, top, n1)
  {
    ghost var a := x[..];
    var x0 := x[top];
    SiftDown(x, key, top, n1, x0, MaxKey(a, key, top, n1));
    BuildStep(a, x[..], o, key, n, top, n1, x0);
  }

  /** Extracting from the heap x[0..n1]: the root goes to n1 and the old last element is sifted
      down from the root; when a single element is left it is put at 0 and the first n are sorted. */
  method ExtractOne<T>(x: array<T>, key: T -> real, ghost o: seq<T>, n: int, n1: int) returns (m: int)
    requires Sorting(x[..], o, key, n, 0, n1)
    modifies x
    ensures m == n1 - 1
    ensures m == 0 ==> Sorted(x[..n], key) && multiset(x[..n]) == multiset(o[..n]) && x[n..] == o[n..]
    ensures m > 0 ==> Sorting(x[..], o, key, n, 0, m)
  {
    ghost var a := x[..];
    var x0 := x[n1];
    x[n1] := x[0];
    m := n1 - 1;
    assert x[..] == a[m + 1 := a[0]];
    if m == 0 {
      x[0] := x0;
      assert x[..] == a[1 := a[0]][0 := a[1]];
      ExtractLast(a, o, key, n);
      return;
    }
    SiftRoot(x, key, a, o, n, m + 1, x0);
  }

  /** The rest of an extraction from a heap of m + 1 elements, once its root is at m: x0, the old
      last element, is sifted down from the root through the shrunk heap. */
  method SiftRoot<T>(x: array<T>, key: T -> real, ghost a: seq<T>, ghost o: seq<T>, n: int, m: int, x0: T)
    requires Sorting(a, o, key, n, 0, m) && 2 <= m && x0 == a[m] && x[..] == a[m := a[0]]
    modifies x
    ensures Sorting(x[..], o, key, n, 0, m - 1)
  {
    ExtractPre(a, o, key, n, m);
    ghost var c := x[..];
    SiftDown(x, key, 0, m - 1, x0, key(a[0]));
    ExtractPost(a, c, x[..], o, key, n, m, x0);
  }

  /** `sorti` and its three copies: the first n elements sorted by key, in place, by heapsort: the
      heap is built from the middle down, then its root is moved behind it one element at a time. */
  method HeapSort<T>(x: array<T>, n: int, key: T -> real)
    requires n <= x.Length
    modifies x
    ensures n < 2 ==> x[..] == old(x[..])
    ensures 2 <= n ==> Sorted(x[..n], key)
    ensures 2 <= n ==> multiset(x[..n]) == multiset(old(x[..n])) && x[n..] == old(x[n..])
  {
    if n < 2 {
      return;
    }
    ghost var o := x[..];
    var top := n / 2;
    var n1 := n - 1;
    assert Sorting(o, o, key, n, top, n1);
    while true
      invariant Sorting(x[..], o, key, n, top, n1)
      decreases top + n1
    {
      if top > 0 {
        top := top - 1;
        BuildOne(x, key, o, n, top, n1);
      } else {
        n1 := ExtractOne(x, key, o, n, n1);
        if n1 == 0 {
          return;
        }
      }
    }
  }

  /** `sorti`: integers ascending. */
  method SortInts(x: array<int>, n: int)
    requires n <= x.Length
    modifies x
    ensures n < 2 ==> x[..] == old(x[..])
    ensures 2 <= n ==> Sorted(x[..n], (v: int) => v as real)
    ensures 2 <= n ==> multiset(x[..n]) == multiset(old(x[..n])) && x[n..] == old(x[n..])
  {
    HeapSort(x, n, (v: int) => v as real);
  }

  /** `sortd`: reals ascending (doubles without NaN). */
  method SortReals(x: array<real>, n: int)
    requires n <= x.Length
    modifies x
    ensures n < 2 ==> x[..] == old(x[..])
    ensures 2 <= n ==> Sorted(x[..n], (v: real) => v)
    ensures 2 <= n ==> multiset(x[..n]) == multiset(old(x[..n])) && x[n..] == old(x[n..])
  {
    HeapSort(x, n, (v: real) => v);
  }

  /** `breakinfo_sort_by_gap`: text rows by their gap to the next row. */
  method SortByGap(rows: array<TextRow>, n: int)
    requires n <= rows.Length
    modifies rows
    ensures n < 2 ==> rows[..] == old(rows[..])
    ensures 2 <= n ==> Sorted(rows[..n], (t: TextRow) => t.gap as real)
    ensures 2 <= n ==> multiset(rows[..n]) == multiset(old(rows[..n])) && rows[n..] == old(rows[n..])
  {
    HeapSort(rows, n, (t: TextRow) => t.gap as real);
  }

  /** `breakinfo_sort_by_row_position`: text rows by their top row. */
  method SortByRowPosition(rows: array<TextRow>, n: int)
    requires n <= rows.Length
    modifies rows
    ensures n < 2 ==> rows[..] == old(rows[..])
    ensures 2 <= n ==> Sorted(rows[..n], (t: TextRow) => t.r1 as real)
    ensures 2 <= n ==> multiset(rows[..n]) == multiset(old(rows[..n])) && rows[n..] == old(rows[n..])
  {
    HeapSort(rows, n, (t: TextRow) => t.r1 as real);
  }
}

=== FILE: logcat_activity.dfy ===
/**
 * The ActivityManager messages that announce the start or the death of an application process,
 * recognised at the start of a record's text the way the three patterns of `Logcat` match them.
 *
 * A package name is `[A-Za-z][_0-9A-Za-z]*(\.[A-Za-z][_0-9A-Za-z]*)+`. In all three patterns it is
 * followed by a character that can neither continue a name nor start a new dotted part (a space or
 * a slash), so the only endpoint a backtracking engine can settle on is the greedy one, and the
 * recogniser below scans it deterministically. The `.*` before `pid=` in the second start pattern,
 * on the other hand, is a genuine choice: the engine keeps the last `pid=` field of the line.
 */
module LogcatActivity {
  import opened Wrappers
  import opened Decimal
  import opened LogcatParse
  import opened LogcatHighlight

  /** What a recognised message says: whether the process died, its package and its pid. */
  datatype AmEvent = AmEvent(death: bool, package: string, pid: nat)

  // ---------------------------------------------------------------------------------------------
  // Package names

  predicate IsLetter(c: char) { ('a' <= c <= 'z') || ('A' <= c <= 'Z') }

  /** `[_0-9A-Za-z]`. */
  predicate IsNameChar(c: char) { IsLetter(c) || IsDigit(c) || c == '_' }

  /** Every character of s[a..b] is a name character, or a dot with a letter after it inside the
      range. */
  ghost predicate NameCharsOk(s: string, a: nat, b: nat)
    requires a <= b <= |s|
  {
    forall k | a <= k < b :: IsNameChar(s[k]) || (s[k] == '.' && k + 1 < b && IsLetter(s[k + 1]))
  }

  /** s[a..b] is a package name: it starts with a letter, every dot is followed by a letter, and it
      has at least one dot. */
  ghost predicate IsPackageAt(s: string, a: nat, b: nat)
    requires a <= b <= |s|
  {
    a < b && IsLetter(s[a]) && NameCharsOk(s, a, b) && exists k | a <= k < b :: s[k] == '.'
  }

  ghost predicate IsPackage(p: string)
  {
    IsPackageAt(p, 0, |p|)
  }

  /** Scans a package name from i, inside one of its parts; dotted says whether a dot was seen. */
  function ScanPackage(s: string, i: nat, dotted: bool): (r: Option<nat>)
    requires i <= |s|
    ensures r.Some? ==> i <= r.value <= |s|
    decreases |s| - i
  {
    if i < |s| && IsNameChar(s[i]) then ScanPackage(s, i + 1, dotted)
    else if i + 1 < |s| && s[i] == '.' && IsLetter(s[i + 1]) then ScanPackage(s, i + 2, true)
    else if dotted then Some(i)
    else None
  }

  /** The greedy end of a package name starting at i, if one starts there. */
  function PackageEnd(s: string, i: nat): (r: Option<nat>)
    requires i <= |s|
    ensures r.Some? ==> i < r.value <= |s|
  {
    if i < |s| && IsLetter(s[i]) then ScanPackage(s, i + 1, false) else None
  }

  /** The character at b (if any) cannot continue a package name ending just before it. */
  predicate Stops(s: string, b: nat)
    requires b <= |s|
  {
    b == |s| || (!IsNameChar(s[b]) && !(s[b] == '.' && b + 1 < |s| && IsLetter(s[b + 1])))
  }

  /** What the scan finds from the first letter at a is a package name, and nothing can extend it;
      dot is the position of a dot seen so far, or -1 when there was none. */
  lemma {:induction false} ScanPackageSound(s: string, a: nat, i: nat, dot: int, dotted: bool)
    requires a < i <= |s| && IsLetter(s[a]) && NameCharsOk(s, a, i)
    requires (dotted <==> dot >= 0) && (dot >= 0 ==> a <= dot < i && s[dot] == '.')
    ensures var r := ScanPackage(s, i, dotted); r.Some? ==> IsPackageAt(s, a, r.value) && Stops(s, r.value)
    decreases |s| - i
  {
    if i < |s| && IsNameChar(s[i]) {
      NameCharsGrow(s, a, i, i + 1);
      ScanPackageSound(s, a, i + 1, dot, dotted);
    } else if i + 1 < |s| && s[i] == '.' && IsLetter(s[i + 1]) {
      NameCharsGrow(s, a, i, i + 2);
      ScanPackageSound(s, a, i + 2, i, true);
    }
  }

  /** A name character, or a dot and a letter, extends a run of name characters. */
  lemma NameCharsGrow(s: string, a: nat, i: nat, j: nat)
    requires a <= i < j <= i + 2 && j <= |s| && NameCharsOk(s, a, i)
    requires j == i + 1 ==> IsNameChar(s[i])
    requires j == i + 2 ==> s[i] == '.' && IsLetter(s[i + 1])
    ensures NameCharsOk(s, a, j)
  {
  }

  lemma PackageEndSound(s: string, i: nat)
    requires i <= |s|
    ensures var r := PackageEnd(s, i); r.Some? ==> IsPackageAt(s, i, r.value) && Stops(s, r.value)
  {
    if i < |s| && IsLetter(s[i]) {
      ScanPackageSound(s, i, i + 1, -1, false);
    }
  }

  /** A package name found at a ends exactly where the name ends, whenever the character after it
      cannot continue it. */
  lemma {:induction false} ScanPackageFinds(s: string, a: nat, i: nat, dotted: bool, b: nat)
    requires a < i <= b <= |s| && IsPackageAt(s, a, b)
    requires !dotted ==> forall k | a <= k < i :: s[k] != '.'
    requires b == |s| || (!IsNameChar(s[b]) && s[b] != '.')
    requires i < b ==> s[i - 1] != '.'
    ensures ScanPackage(s, i, dotted) == Some(b)
    decreases |s| - i
  {
    if i < b {
      if IsNameChar(s[i]) {
        ScanPackageFinds(s, a, i + 1, dotted, b);
      } else {
        assert s[i] == '.' && i + 1 < b && IsLetter(s[i + 1]);
        ScanPackageFinds(s, a, i + 2, true, b);
      }
    } else {
      var k :| a <= k < b && s[k] == '.';
    }
  }

  lemma PackageEndFinds(s: string, a: nat, b: nat)
    requires a <= b <= |s| && IsPackageAt(s, a, b)
    requires b == |s| || (!IsNameChar(s[b]) && s[b] != '.')
    ensures PackageEnd(s, a) == Some(b)
  {
    assert !IsDigit(s[a]);
    ScanPackageFinds(s, a, a + 1, false, b);
  }

  // ---------------------------------------------------------------------------------------------
  // Literals and numbers

  /** The literal w occurs in s at i. */
  predicate LitAt(s: string, i: nat, w: string)
  {
    i + |w| <= |s| && s[i..i + |w|] == w
  }

  /** The greedy digit run `\d+` at i: its end, when it is not empty. */
  function PidEnd(s: string, i: nat): (r: Option<nat>)
    requires i <= |s|
    ensures r.Some? ==> i < r.value <= |s| && IsDigits(s[i..r.value])
    ensures r.Some? ==> r.value == |s| || !IsDigit(s[r.value])
    ensures r.None? <==> i == |s| || !IsDigit(s[i])
  {
    var d := SkipDigits(s, i);
    if d > i then
      assert forall k | 0 <= k < d - i :: s[i..d][k] == s[i + k];
      Some(d)
    else None
  }

  function PidValue(s: string, i: nat, d: nat): nat
    requires i <= d <= |s| && IsDigits(s[i..d])
  {
    DigitsValue(s[i..d])
  }

  // ---------------------------------------------------------------------------------------------
  // The three patterns

  const DeathHead := "Process "
  const DeathPid := " (pid "
  const DeathTail := ") has died"
  const StartHead := "Start proc "

  /** `Process {package} (pid {pid}) has died`, matched at the start of s. */
  function Death(s: string): (r: Option<AmEvent>)
    ensures r.Some? ==> r.value.death
  {
    if !LitAt(s, 0, DeathHead) then None
    else
      var e := PackageEnd(s, 8);
      if e.None? || !LitAt(s, e.value, DeathPid) then None
      else
        var d := PidEnd(s, e.value + 6);
        if d.None? || !LitAt(s, d.value, DeathTail) then None
        else
          Some(AmEvent(true, s[8..e.value], PidValue(s, e.value + 6, d.value)))
  }

  /** `Start proc {pid}:{package}/`, matched at the start of s. */
  function Start1(s: string): (r: Option<AmEvent>)
    ensures r.Some? ==> !r.value.death
  {
    if !LitAt(s, 0, StartHead) then None
    else
      var d := PidEnd(s, 11);
      if d.None? || !LitAt(s, d.value, ":") then None
      else
        var e := PackageEnd(s, d.value + 1);
        if e.None? || !LitAt(s, e.value, "/") then None
        else
          Some(AmEvent(false, s[d.value + 1..e.value], PidValue(s, 11, d.value)))
  }

  /** `\bpid={pid}\b` at k: the end of the digits when it matches. The `\b` before `p` holds
      when the character before k is not a word character; the one after the digits when the
      greedy run is not followed by one (a shorter run would be followed by a digit). */
  function PidFieldAt(s: string, k: nat): (r: Option<nat>)
    requires k <= |s|
    ensures r.Some? ==> k + 4 < r.value <= |s| && IsDigits(s[k + 4..r.value])
    ensures r.Some? ==> LitAt(s, k, "pid=") && Boundary(s, k) && Boundary(s, r.value)
  {
    if !LitAt(s, k, "pid=") || (k > 0 && IsWordChar(s[k - 1])) then None
    else
      var d := PidEnd(s, k + 4);
      if d.None? || (d.value < |s| && IsWordChar(s[d.value])) then None
      else
        assert s[k..k + 4][0] == 'p' && s[d.value - 1] == s[k + 4..d.value][d.value - 1 - (k + 4)];
        d
  }

  /** The end of the line `.` can cross from i: the first newline, or the end of s. */
  function LineEnd(s: string, i: nat): (j: nat)
    requires i <= |s|
    ensures i <= j <= |s| && (j == |s| || s[j] == '\n')
    decreases |s| - i
  {
    if i == |s| || s[i] == '\n' then i else LineEnd(s, i + 1)
  }

  /** The greedy `.*` tries its longest extent first: the last k in [lo, hi] with a pid field, with
      the end of that field. */
  function LastPidField(s: string, lo: nat, hi: nat): (r: Option<(nat, nat)>)
    requires lo <= hi <= |s|
    ensures r.Some? ==> lo <= r.value.0 <= hi && PidFieldAt(s, r.value.0) == Some(r.value.1)
    decreases hi
  {
    var f := PidFieldAt(s, hi);
    if f.Some? then Some((hi, f.value))
    else if hi == lo then None
    else LastPidField(s, lo, hi - 1)
  }

  /** `Start proc {package} .*\bpid={pid}\b`, matched at the start of s. */
  function Start2(s: string): (r: Option<AmEvent>)
    ensures r.Some? ==> !r.value.death
  {
    if !LitAt(s, 0, StartHead) then None
    else
      var e := PackageEnd(s, 11);
      if e.None? || !LitAt(s, e.value, " ") then None
      else
        var p := LinePid(s, e.value + 1);
        if p.None? then None else Some(AmEvent(false, s[11..e.value], p.value))
  }

  /** The pid of the last `\bpid=\d+\b` field on the line from lo, when there is one. */
  function LinePid(s: string, lo: nat): (r: Option<nat>)
    requires lo <= |s|
  {
    var f := LastPidField(s, lo, LineEnd(s, lo));
    if f.None? then None else Some(PidValue(s, f.value.0 + 4, f.value.1))
  }

  /** The first of the three patterns that matches, in the order the model tries them. */
  function ActivityEvent(s: string): (r: Option<AmEvent>)
    ensures r.Some? && r.value.death <==> Death(s).Some?
  {
    var d := Death(s);
    if d.Some? then d
    else
      var s1 := Start1(s);
      if s1.Some? then s1 else Start2(s)
  }

  /** The line end is the first newline. */
  lemma {:induction false} LineEndFirst(s: string, i: nat)
    requires i <= |s|
    ensures forall k | i <= k < LineEnd(s, i) :: s[k] != '\n'
    decreases |s| - i
  {
    if i < |s| && s[i] != '\n' {
      LineEndFirst(s, i + 1);
    }
  }

  /** The search keeps the last pid field in the range. */
  lemma LastPidFieldIsLast(s: string, lo: nat, hi: nat)
    requires lo <= hi <= |s|
    ensures LastPidField(s, lo, hi).Some? ==>
      forall k | LastPidField(s, lo, hi).value.0 < k <= hi :: PidFieldAt(s, k).None?
  {
    if LastPidField(s, lo, hi).Some? {
      forall k | LastPidField(s, lo, hi).value.0 < k <= hi
        ensures PidFieldAt(s, k).None?
      {
        LastPidFieldAbove(s, lo, hi, k);
      }
    }
  }

  /** No pid field lies between the one the search keeps and the end of the range. */
  lemma {:induction false} LastPidFieldAbove(s: string, lo: nat, hi: nat, k: nat)
    requires lo <= hi <= |s| && LastPidField(s, lo, hi).Some? && LastPidField(s, lo, hi).value.0 < k <= hi
    ensures PidFieldAt(s, k).None?
    decreases hi
  {
    if PidFieldAt(s, hi).Some? {
      LastPidFieldHits(s, lo, hi);
    } else if k < hi {
      LastPidFieldSkips(s, lo, hi);
      LastPidFieldAbove(s, lo, hi - 1, k);
    }
  }

  lemma LastPidFieldHits(s: string, lo: nat, hi: nat)
    requires lo <= hi <= |s| && PidFieldAt(s, hi).Some?
    ensures LastPidField(s, lo, hi) == Some((hi, PidFieldAt(s, hi).value))
  {
  }

  lemma LastPidFieldSkips(s: string, lo: nat, hi: nat)
    requires lo < hi <= |s| && PidFieldAt(s, hi).None?
    ensures LastPidField(s, lo, hi) == LastPidField(s, lo, hi - 1)
  {
  }

  /** The search finds no pid field only when there is none in the range. */
  lemma LastPidFieldNone(s: string, lo: nat, hi: nat)
    requires lo <= hi <= |s|
    ensures LastPidField(s, lo, hi).None? ==> forall k | lo <= k <= hi :: PidFieldAt(s, k).None?
  {
    forall k | lo <= k <= hi && PidFieldAt(s, k).Some?
      ensures LastPidField(s, lo, hi).Some?
    {
      LastPidFieldFinds(s, lo, hi, k);
    }
  }

  /** A pid field anywhere in the range is enough for the search to succeed. */
  lemma {:induction false} LastPidFieldFinds(s: string, lo: nat, hi: nat, k: nat)
    requires lo <= k <= hi <= |s| && PidFieldAt(s, k).Some?
    ensures LastPidField(s, lo, hi).Some?
    decreases hi
  {
    if PidFieldAt(s, hi).Some? {
      LastPidFieldHits(s, lo, hi);
    } else {
      LastPidFieldFinds(s, lo, hi - 1, k);
      LastPidFieldSkips(s, lo, hi);
    }
  }

  /** Whatever is recognised names a well-formed package, and the message starts as the pattern
      that recognised it says. */
  lemma ActivityEventSound(s: string)
    ensures var r := ActivityEvent(s);
      r.Some? ==> IsPackage(r.value.package) && LitAt(s, 0, if r.value.death then DeathHead else StartHead)
  {
    if Death(s).Some? {
      PackageEndSound(s, 8);
      PackageSlice(s, 8, PackageEnd(s, 8).value);
    } else if Start1(s).Some? {
      var d := PidEnd(s, 11).value;
      PackageEndSound(s, d + 1);
      PackageSlice(s, d + 1, PackageEnd(s, d + 1).value);
    } else if Start2(s).Some? {
      PackageEndSound(s, 11);
      PackageSlice(s, 11, PackageEnd(s, 11).value);
    }
  }

  lemma PackageSlice(s: string, a: nat, b: nat)
    requires a <= b <= |s| && IsPackageAt(s, a, b)
    ensures IsPackage(s[a..b])
  {
    var p := s[a..b];
    assert forall k | 0 <= k < |p| :: p[k] == s[a + k];
    var j :| a <= j < b && s[j] == '.';
    assert p[j - a] == '.';
  }

  // ---------------------------------------------------------------------------------------------
  // Round trips: the messages ActivityManager writes are recognised with their package and pid

  /** A death message followed by whatever else the record's text carries. */
  function DeathText(package: string, pid: nat, rest: string): string
  {
    DeathHead + (package + (DeathPid + (NatToString(pid) + (DeathTail + rest))))
  }

  /** A start message of the first form followed by whatever else the text carries. */
  function Start1Text(pid: nat, package: string, rest: string): string
  {
    StartHead + (NatToString(pid) + (":" + (package + ("/" + rest))))
  }

  /** A start message of the second form: the package, a middle, the pid field, and a tail. */
  function Start2Text(package: string, middle: string, pid: nat, tail: string): string
  {
    StartHead + (package + (" " + (middle + ("pid=" + (NatToString(pid) + tail)))))
  }

  /** The literal w starts the suffix of s at i. */
  lemma TakeLit(s: string, i: nat, w: string, b: string)
    requires i <= |s| && s[i..] == w + b
    ensures LitAt(s, i, w) && s[i + |w|..] == b
  {
    assert s[i..i + |w|] == (w + b)[..|w|];
  }

  /** The digits w start the suffix of s at i, and are not followed by a digit. */
  lemma TakeDigits(s: string, i: nat, w: string, b: string)
    requires i <= |s| && s[i..] == w + b && w != [] && IsDigits(w)
    requires b == [] || !IsDigit(b[0])
    ensures PidEnd(s, i) == Some(i + |w|) && s[i..i + |w|] == w
    ensures s[i + |w|..] == b
  {
    assert s[i..i + |w|] == (w + b)[..|w|] == w;
    assert forall k | i <= k < i + |w| :: s[k] == s[i..][k - i] == w[k - i];
    SkipDigitsRun(s, i, i + |w|);
    assert s[i + |w|..] == (w + b)[|w|..];
  }

  lemma {:induction false} SkipDigitsRun(s: string, i: nat, j: nat)
    requires i <= j <= |s| && (forall k | i <= k < j :: IsDigit(s[k]))
    requires j == |s| || !IsDigit(s[j])
    ensures SkipDigits(s, i) == j
    decreases j - i
  {
    if i < j {
      SkipDigitsRun(s, i + 1, j);
    }
  }

  /** A package name starts the suffix of s at i, and the character after it cannot continue it. */
  lemma TakePackage(s: string, i: nat, p: string, b: string)
    requires i <= |s| && s[i..] == p + b
    requires IsPackage(p)
    requires b == [] || (!IsNameChar(b[0]) && b[0] != '.')
    ensures PackageEnd(s, i) == Some(i + |p|) && s[i..i + |p|] == p && s[i + |p|..] == b
  {
    assert forall k | 0 <= k < |p| :: s[i + k] == s[i..][k] == p[k];
    var j :| 0 <= j < |p| && p[j] == '.';
    assert s[i + j] == '.';
    assert IsPackageAt(s, i, i + |p|);
    assert i + |p| < |s| ==> s[i + |p|] == s[i..][|p|] == b[0];
    PackageEndFinds(s, i, i + |p|);
    assert s[i..i + |p|] == (p + b)[..|p|];
    assert s[i + |p|..] == (p + b)[|p|..];
  }

  /** The death pattern matches when its pieces are found one after the other. */
  lemma DeathPieces(s: string, package: string, pid: nat, e: nat, d: nat)
    requires LitAt(s, 0, DeathHead) && 8 <= e <= |s| && PackageEnd(s, 8) == Some(e) && s[8..e] == package
    requires LitAt(s, e, DeathPid) && PidEnd(s, e + 6) == Some(d) && DigitsValue(s[e + 6..d]) == pid
    requires LitAt(s, d, DeathTail)
    ensures Death(s) == Some(AmEvent(true, package, pid))
  {
  }

  /** The first start pattern matches when its pieces are found one after the other. */
  lemma Start1Pieces(s: string, pid: nat, package: string, d: nat, e: nat)
    requires LitAt(s, 0, StartHead) && PidEnd(s, 11) == Some(d) && DigitsValue(s[11..d]) == pid
    requires LitAt(s, d, ":") && PackageEnd(s, d + 1) == Some(e) && s[d + 1..e] == package
    requires LitAt(s, e, "/")
    ensures Start1(s) == Some(AmEvent(false, package, pid))
  {
  }

  /** The second start pattern matches when its pieces are found one after the other. */
  lemma Start2Pieces(s: string, package: string, pid: nat, e: nat, k: nat, d: nat)
    requires LitAt(s, 0, StartHead) && 11 <= e < |s| && PackageEnd(s, 11) == Some(e) && s[11..e] == package
    requires LitAt(s, e, " ") && LastPidField(s, e + 1, LineEnd(s, e + 1)) == Some((k, d))
    requires k + 4 <= d <= |s| && IsDigits(s[k + 4..d]) && DigitsValue(s[k + 4..d]) == pid
    ensures Start2(s) == Some(AmEvent(false, package, pid))
  {
    LinePidAt(s, e + 1, k, d);
    Start2Then(s, e, pid);
  }

  /** The line's pid, once its last pid field is known. */
  lemma LinePidAt(s: string, lo: nat, k: nat, d: nat)
    requires lo <= |s| && LastPidField(s, lo, LineEnd(s, lo)) == Some((k, d))
    ensures k + 4 <= d <= |s| && IsDigits(s[k + 4..d])
    ensures LinePid(s, lo) == Some(PidValue(s, k + 4, d))
  {
  }

  /** Start2, once its package end and the line's pid are known. */
  lemma Start2Then(s: string, e: nat, pid: nat)
    requires LitAt(s, 0, StartHead) && 11 <= e < |s| && PackageEnd(s, 11) == Some(e) && LitAt(s, e, " ")
    requires LinePid(s, e + 1) == Some(pid)
    ensures Start2(s) == Some(AmEvent(false, s[11..e], pid))
  {
  }

  /** A death message is recognised as the death of its package's process. */
  lemma DeathRoundTrip(package: string, pid: nat, rest: string)
    requires IsPackage(package)
    ensures ActivityEvent(DeathText(package, pid, rest)) == Some(AmEvent(true, package, pid))
  {
    var s := DeathText(package, pid, rest);
    var w := NatToString(pid);
    TakeLit(s, 0, DeathHead, package + (DeathPid + (w + (DeathTail + rest))));
    DeathFound(s, package, w, pid, rest);
  }

  /** A death message with the pid written as the digits w. */
  lemma DeathFound(s: string, package: string, w: string, pid: nat, rest: string)
    requires IsPackage(package) && LitAt(s, 0, DeathHead) && 8 <= |s|
    requires w != [] && IsDigits(w) && DigitsValue(w) == pid
    requires s[8..] == package + (DeathPid + (w + (DeathTail + rest)))
    ensures Death(s) == Some(AmEvent(true, package, pid))
  {
    var e := 8 + |package|;
    TakePackage(s, 8, package, DeathPid + (w + (DeathTail + rest)));
    DeathAfterPackage(s, package, e, w, pid, rest);
  }

  lemma DeathAfterPackage(s: string, package: string, e: nat, w: string, pid: nat, rest: string)
    requires LitAt(s, 0, DeathHead) && 8 <= e <= |s| && PackageEnd(s, 8) == Some(e) && s[8..e] == package
    requires w != [] && IsDigits(w) && DigitsValue(w) == pid
    requires s[e..] == DeathPid + (w + (DeathTail + rest))
    ensures Death(s) == Some(AmEvent(true, package, pid))
  {
    DeathPidFacts(s, e, w, rest, e + 6 + |w|);
    DeathPieces(s, package, pid, e, e + 6 + |w|);
  }

  lemma DeathPidFacts(s: string, e: nat, w: string, rest: string, d: nat)
    requires e <= |s| && s[e..] == DeathPid + (w + (DeathTail + rest)) && w != [] && IsDigits(w)
    requires d == e + 6 + |w|
    ensures d <= |s| && LitAt(s, e, DeathPid) && PidEnd(s, e + 6) == Some(d) && s[e + 6..d] == w
      && LitAt(s, d, DeathTail)
  {
    TakeLit(s, e, DeathPid, w + (DeathTail + rest));
    DigitsThenLit(s, e + 6, w, DeathTail, rest, d);
  }

  /** Digits followed by a literal that starts with a non-digit. */
  lemma DigitsThenLit(s: string, i: nat, w: string, lit: string, rest: string, d: nat)
    requires i <= |s| && s[i..] == w + (lit + rest) && w != [] && IsDigits(w) && lit != [] && !IsDigit(lit[0])
    requires d == i + |w|
    ensures d <= |s| && PidEnd(s, i) == Some(d) && s[i..d] == w && LitAt(s, d, lit)
  {
    TakeDigits(s, i, w, lit + rest);
    TakeLit(s, d, lit, rest);
  }

  /** A start message of the first form is recognised as the start of its package's process. */
  lemma Start1RoundTrip(pid: nat, package: string, rest: string)
    requires IsPackage(package)
    ensures ActivityEvent(Start1Text(pid, package, rest)) == Some(AmEvent(false, package, pid))
  {
    var w := NatToString(pid);
    var s := Start1Text(pid, package, rest);
    TakeLit(s, 0, StartHead, w + (":" + (package + ("/" + rest))));
    Start1Found(s, w, pid, package, rest);
    StartIsNotDeath(s);
  }

  /** A first-form start message with the pid written as the digits w. */
  lemma Start1Found(s: string, w: string, pid: nat, package: string, rest: string)
    requires IsPackage(package) && w != [] && IsDigits(w) && DigitsValue(w) == pid
    requires LitAt(s, 0, StartHead) && 11 <= |s| && s[11..] == w + (":" + (package + ("/" + rest)))
    ensures Start1(s) == Some(AmEvent(false, package, pid))
  {
    var d := 11 + |w|;
    DigitsThenLit(s, 11, w, ":", package + ("/" + rest), d);
    TakeLit(s, d, ":", package + ("/" + rest));
    Start1AfterPid(s, d, package, pid, rest);
  }

  /** A start message is not a death message. */
  lemma StartIsNotDeath(s: string)
    requires LitAt(s, 0, StartHead)
    ensures Death(s) == None
  {
    assert s[0] == s[..11][0] == 'S';
  }

  lemma Start1AfterPid(s: string, d: nat, package: string, pid: nat, rest: string)
    requires LitAt(s, 0, StartHead) && 11 < d < |s| && PidEnd(s, 11) == Some(d) && DigitsValue(s[11..d]) == pid
    requires LitAt(s, d, ":") && s[d + 1..] == package + ("/" + rest) && IsPackage(package)
    ensures Start1(s) == Some(AmEvent(false, package, pid))
  {
    var e := d + 1 + |package|;
    TakePackage(s, d + 1, package, "/" + rest);
    TakeLit(s, e, "/", rest);
    Start1Pieces(s, pid, package, d, e);
  }

  /** The last pid field in a range is the one the search keeps. */
  lemma LastPidFieldIs(s: string, lo: nat, hi: nat, k: nat)
    requires lo <= k <= hi <= |s| && PidFieldAt(s, k).Some?
    requires forall j | k < j <= hi :: PidFieldAt(s, j).None?
    ensures LastPidField(s, lo, hi) == Some((k, PidFieldAt(s, k).value))
  {
    LastPidFieldIsLast(s, lo, hi);
  }

  /** No `pid=` starts anywhere in w. */
  predicate NoPidField(w: string)
  {
    forall j | 0 <= j < |w| :: !LitAt(w, j, "pid=")
  }

  /** A start message of the second form is recognised as the start of its package's process, with
      the pid of its last `pid=` field: whatever the middle holds (a field such as `xpid=1` that
      `\b` rejects, or an earlier `pid=` field), as long as it stays on one line, the pid field is
      a whole word, and no other `pid=` follows. */
  lemma Start2RoundTrip(package: string, middle: string, pid: nat, tail: string)
    requires IsPackage(package)
    requires forall j | 0 <= j < |middle| :: middle[j] != '\n'
    requires middle == [] || !IsWordChar(middle[|middle| - 1])
    requires tail == [] || !IsWordChar(tail[0])
    requires NoPidField(tail)
    ensures ActivityEvent(Start2Text(package, middle, pid, tail)) == Some(AmEvent(false, package, pid))
  {
    var s := Start2Text(package, middle, pid, tail);
    var w := NatToString(pid);
    TakeLit(s, 0, StartHead, package + (" " + (middle + ("pid=" + (w + tail)))));
    StartIsNotDeath(s);
    assert Start1(s).None? by {
      assert s[11] == s[11..][0] == package[0];
      assert !IsDigit(package[0]);
    }
    Start2Found(s, package, middle, w, pid, tail);
  }

  /** A second-form start message with the pid written as the digits w. */
  lemma Start2Found(s: string, package: string, middle: string, w: string, pid: nat, tail: string)
    requires IsPackage(package) && LitAt(s, 0, StartHead) && 11 <= |s|
    requires w != [] && IsDigits(w) && DigitsValue(w) == pid
    requires s[11..] == package + (" " + (middle + ("pid=" + (w + tail))))
    requires forall j | 0 <= j < |middle| :: middle[j] != '\n'
    requires middle == [] || !IsWordChar(middle[|middle| - 1])
    requires tail == [] || !IsWordChar(tail[0])
    requires NoPidField(tail)
    ensures Start2(s) == Some(AmEvent(false, package, pid))
  {
    var e := 11 + |package|;
    var k := e + 1 + |middle|;
    var d := k + 4 + |w|;
    Start2Layout(s, package, middle, w, tail, e, k, d);
    Start2AfterLayout(s, package, middle, w, pid, tail, e, k, d);
  }

  lemma Start2AfterLayout(s: string, package: string, middle: string, w: string, pid: nat, tail: string, e: nat, k: nat, d: nat)
    requires LitAt(s, 0, StartHead) && 11 <= e < k && k == e + 1 + |middle| && d == k + 4 + |w| && d <= |s|
    requires PackageEnd(s, 11) == Some(e) && s[11..e] == package && LitAt(s, e, " ")
    requires s[e + 1..k] == middle && LitAt(s, k, "pid=") && PidEnd(s, k + 4) == Some(d)
    requires IsDigits(w) && DigitsValue(w) == pid && s[k + 4..d] == w && s[d..] == tail
    requires forall j | 0 <= j < |middle| :: middle[j] != '\n'
    requires middle == [] || !IsWordChar(middle[|middle| - 1])
    requires tail == [] || !IsWordChar(tail[0])
    requires NoPidField(tail)
    ensures Start2(s) == Some(AmEvent(false, package, pid))
  {
    Start2Search(s, e, middle, k, w, d, tail);
    Start2Pieces(s, package, pid, e, k, d);
  }

  /** The search for the pid field of a second-form start message settles on the one that follows
      the middle. */
  lemma Start2Search(s: string, e: nat, middle: string, k: nat, w: string, d: nat, tail: string)
    requires e < k && k == e + 1 + |middle| && d == k + 4 + |w| && d <= |s| && LitAt(s, e, " ")
    requires s[e + 1..k] == middle && LitAt(s, k, "pid=") && PidEnd(s, k + 4) == Some(d)
    requires IsDigits(w) && s[k + 4..d] == w && s[d..] == tail
    requires forall j | 0 <= j < |middle| :: middle[j] != '\n'
    requires middle == [] || !IsWordChar(middle[|middle| - 1])
    requires tail == [] || !IsWordChar(tail[0])
    requires NoPidField(tail)
    ensures LastPidField(s, e + 1, LineEnd(s, e + 1)) == Some((k, d))
  {
    assert s[e] == s[e..e + 1][0] == ' ';
    StartField(s, e, middle, k, d, tail);
    var hi := LineEnd(s, e + 1);
    FieldHasNoNewline(s, k, w, d);
    assert d <= hi;
    LaterFields(s, k, w, d, hi, tail);
    LastPidFieldIs(s, e + 1, hi, k);
  }

  lemma Start2Layout(s: string, package: string, middle: string, w: string, tail: string, e: nat, k: nat, d: nat)
    requires IsPackage(package) && 11 <= |s| && w != [] && IsDigits(w)
    requires s[11..] == package + (" " + (middle + ("pid=" + (w + tail))))
    requires tail == [] || !IsWordChar(tail[0])
    requires e == 11 + |package| && k == e + 1 + |middle| && d == k + 4 + |w|
    ensures d <= |s| && PackageEnd(s, 11) == Some(e) && s[11..e] == package && LitAt(s, e, " ")
      && s[e + 1..k] == middle && LitAt(s, k, "pid=") && PidEnd(s, k + 4) == Some(d)
      && s[k + 4..d] == w && s[d..] == tail
  {
    PackageThenSpace(s, package, middle + ("pid=" + (w + tail)), e);
    PidFieldLayout(s, e + 1, middle, w, tail, k, d);
  }

  lemma PackageThenSpace(s: string, package: string, rest: string, e: nat)
    requires IsPackage(package) && 11 <= |s| && s[11..] == package + (" " + rest) && e == 11 + |package|
    ensures e < |s| && PackageEnd(s, 11) == Some(e) && s[11..e] == package && LitAt(s, e, " ") && s[e + 1..] == rest
  {
    TakePackage(s, 11, package, " " + rest);
    TakeLit(s, e, " ", rest);
  }

  lemma PidFieldLayout(s: string, i: nat, middle: string, w: string, tail: string, k: nat, d: nat)
    requires i <= |s| && s[i..] == middle + ("pid=" + (w + tail)) && w != [] && IsDigits(w)
    requires tail == [] || !IsWordChar(tail[0])
    requires k == i + |middle| && d == k + 4 + |w|
    ensures d <= |s| && s[i..k] == middle && LitAt(s, k, "pid=") && PidEnd(s, k + 4) == Some(d)
      && s[k + 4..d] == w && s[d..] == tail
  {
    TakeLit(s, i, middle, "pid=" + (w + tail));
    TakeLit(s, k, "pid=", w + tail);
    TakeDigits(s, k + 4, w, tail);
  }

  /** The pid field of a second-form start message is found, and on the message's line. */
  lemma StartField(s: string, e: nat, middle: string, k: nat, d: nat, tail: string)
    requires e < k && k == e + 1 + |middle| && k + 4 < d <= |s| && s[e] == ' '
    requires s[e + 1..k] == middle && LitAt(s, k, "pid=") && PidEnd(s, k + 4) == Some(d) && s[d..] == tail
    requires forall j | 0 <= j < |middle| :: middle[j] != '\n'
    requires middle == [] || !IsWordChar(middle[|middle| - 1])
    requires tail == [] || !IsWordChar(tail[0])
    ensures PidFieldAt(s, k) == Some(d) && k <= LineEnd(s, e + 1)
  {
    assert s[k - 1] == (if middle == [] then ' ' else middle[|middle| - 1]);
    assert d < |s| ==> s[d] == tail[0];
    LineEndFirst(s, e + 1);
    assert forall j | e + 1 <= j < k :: s[j] == middle[j - e - 1];
  }

  /** A pid field holds no newline. */
  lemma FieldHasNoNewline(s: string, k: nat, w: string, d: nat)
    requires k + 4 + |w| == d <= |s| && LitAt(s, k, "pid=") && IsDigits(w) && s[k + 4..d] == w
    ensures forall j | k <= j < d :: s[j] != '\n'
  {
    forall j | k <= j < d
      ensures s[j] != '\n'
    {
      if j < k + 4 {
        assert s[j] == s[k..k + 4][j - k];
      } else {
        assert s[j] == w[j - k - 4];
      }
    }
  }

  /** After the pid field of a second-form start message there is no other. */
  lemma LaterFields(s: string, k: nat, w: string, d: nat, hi: nat, tail: string)
    requires k + 4 + |w| == d <= hi <= |s| && LitAt(s, k, "pid=") && IsDigits(w) && s[k + 4..d] == w
    requires s[d..] == tail && NoPidField(tail)
    ensures forall j | k < j <= hi :: PidFieldAt(s, j).None?
  {
    forall j | k < j <= hi
      ensures !LitAt(s, j, "pid=")
    {
      if j < d {
        assert s[j] != 'p' by {
          if j < k + 4 {
            assert s[j] == s[k..k + 4][j - k];
          } else {
            assert s[j] == w[j - k - 4];
          }
        }
      } else if j < |s| && j + 4 <= |s| {
        assert s[j..j + 4] == tail[j - d..j - d + 4];
        assert !LitAt(tail, j - d, "pid=");
      }
    }
  }
}

=== FILE: logcat_class.dfy ===
/**
 * The `Logcat` filter object: its fields are updated in place by its methods, record by record,
 * and each method leaves the object in the state the corresponding function of `LogcatSpec`
 * computes from the state before the call. Printing appends to `out`.
 */
module LogcatObject {
  import opened Wrappers
  import opened LogcatParse
  import opened LogcatFormat
  import opened LogcatHighlight
  import opened LogcatActivity
  import S = LogcatSpec
  import P = LogcatSpecProps

  /** `Logcat.Group`: the current run of records with the same pid, priority and tag. */
  class Group {
    var gid: Option<S.GroupId>
    var lines: seq<string>
    var show: bool

    constructor ()
      ensures gid == None && lines == [] && !show
    {
      gid := None;
      lines := [];
      show := false;
    }
  }

  class Logcat {
    var color: bool
    var packages: set<string>
    var tags: set<string>
    var pids: set<nat>
    var backlog: seq<Record>
    var group: Group
    var hlRx: Option<seq<Alt>>
    var out: seq<string>

    /** The object's state as a value. */
    function State(): S.State
      reads this, group
    {
      S.State(color, packages, tags, pids, backlog, S.Group(group.gid, group.lines, group.show), hlRx, out)
    }

    ghost predicate Valid()
      reads this, group
    {
      S.Valid(State())
    }

    /** A new filter: the packages and tags come as comma-separated options. */
    constructor (color: bool, packages: string, tags: string)
      ensures State() == S.Init(color, packages, tags) && Valid()
    {
      this.color := color;
      this.packages := S.NameSet(packages);
      this.tags := S.NameSet(tags);
      pids := {};
      backlog := [];
      group := new Group();
      hlRx := None;
      out := [];
      new;
      Reset();
    }

    /** `reset`: forget the pids, the backlog, the group and the pattern. */
    method Reset()
      modifies this
      ensures State() == S.Reset(old(State())) && fresh(group)
    {
      backlog := [];
      group := new Group();
      hlRx := None;
      pids := {};
    }

    /** `_add_package_and_or_pid`. */
    method AddPackageAndOrPid(package: Option<string>, pid: Option<nat>)
      modifies this
      ensures State() == S.AddPackageAndOrPid(old(State()), package, pid) && group == old(group)
    {
      if pid.Some? {
        pids := pids + {pid.value};
      }
      if package.Some? {
        packages := packages + {package.value};
      }
      hlRx := Some(Compile(packages, pids));
    }

    /** `_check_for_birth_or_death`. */
    method CheckForBirthOrDeath(rec: Record)
      modifies this
      ensures State() == S.CheckForBirthOrDeath(old(State()), rec) && group == old(group)
    {
      if rec.tag != S.ActivityManagerTag {
        return;
      }
      var m := ActivityEvent(rec.text);
      if m.None? {
        return;
      }
      if m.value.pid !in pids && m.value.package !in packages {
        return;
      }
      if !m.value.death {
        backlog := [];
      }
      AddPackageAndOrPid(Some(m.value.package), Some(m.value.pid));
    }

    /** `_process`. */
    method Process(rec: Record)
      requires hlRx.Some?
      modifies this, group
      ensures State() == S.Process(old(State()), rec) && group == old(group)
    {
      ghost var st := State();
      var gid := S.GroupId(rec.pid, rec.priority, rec.tag);
      if group.gid != Some(gid) {
        group.gid := Some(gid);
        group.lines := [];
        group.show := false;
      }
      assert S.Group(group.gid, group.lines, group.show) == S.EnterGroup(st.group, rec);
      var app := rec.pid in pids;
      if app {
        group.show := true;
      }
      var h := Highlight(color, hlRx.value, rec.text);
      if h.1 {
        group.show := true;
      }
      var line := LineOf(color, app, rec, h.0);
      if group.show {
        PrintGroup(line);
      } else {
        group.lines := group.lines + [line];
      }
    }

    /** Prints the lines the group held back, then line, and empties the group. */
    method PrintGroup(line: string)
      modifies this, group
      ensures out == old(out) + old(group.lines) + [line] && group.lines == []
      ensures group == old(group) && group.gid == old(group.gid) && group.show == old(group.show)
      ensures State() == old(State()).(out := out, group := old(State()).group.(lines := []))
    {
      var i := 0;
      while i < |group.lines|
        invariant 0 <= i <= |group.lines| && group == old(group)
        invariant State() == old(State()).(out := out)
        invariant out == old(out) + group.lines[..i]
      {
        out := out + [group.lines[i]];
        i := i + 1;
      }
      assert group.lines[..i] == group.lines;
      out := out + [line];
      group.lines := [];
    }

    /** `_check_for_tags`: the backlog is replayed record by record. */
    method CheckForTags(rec: Record)
      modifies this, group
      ensures State() == S.CheckForTags(old(State()), rec) && group == old(group)
    {
      if rec.tag !in tags {
        return;
      }
      AddPackageAndOrPid(None, Some(rec.pid));
      var records := backlog;
      backlog := [];
      ghost var st0 := State();
      var i := 0;
      while i < |records|
        invariant 0 <= i <= |records| && group == old(group)
        invariant hlRx.Some? && State() == S.Replay(st0, records[..i])
      {
        P.ReplayExtend(st0, records, i);
        CheckForBirthOrDeath(records[i]);
        Process(records[i]);
        i := i + 1;
      }
      assert records[..i] == records;
    }

    /** `_update_packages_and_pids`. */
    method UpdatePackagesAndPids(rec: Record)
      modifies this, group
      ensures State() == S.UpdatePackagesAndPids(old(State()), rec) && group == old(group)
    {
      CheckForBirthOrDeath(rec);
      CheckForTags(rec);
    }

    /** One raw line of `filter`; a line no layout recognises is returned. */
    method FilterLine(raw: string) returns (unrecognised: Option<string>)
      requires Valid()
      modifies this, group
      ensures group == old(group)
      ensures unrecognised.None? ==> S.FilterLine(old(State()), raw) == Ok(State())
      ensures unrecognised.Some? ==> S.FilterLine(old(State()), raw) == Err(unrecognised.value)
      ensures unrecognised.Some? ==> State() == old(State())
    {
      match ClassifyLine(raw) {
        case Skipped =>
        case Unrecognised(line) =>
          return Some(line);
        case Parsed(rec) =>
          UpdatePackagesAndPids(rec);
          if pids != {} {
            Process(rec);
          } else {
            backlog := backlog + [rec];
          }
      }
      return None;
    }

    /** `filter`: the raw lines in order. A line no layout recognises stops the filter and is
        returned; the object then holds the state the lines before it reached, whose output stays
        printed. */
    method Filter(raws: seq<string>) returns (unrecognised: Option<string>)
      requires Valid()
      modifies this, group
      ensures unrecognised.None? ==> S.Filter(old(State()), raws) == Ok(State())
      ensures unrecognised.Some? ==> S.Filter(old(State()), raws) == Err(unrecognised.value)
      ensures unrecognised.Some? ==> exists k | 0 <= k < |raws| ::
        S.Filter(old(State()), raws[..k]) == Ok(State()) && S.FilterLine(State(), raws[k]) == Err(unrecognised.value)
    {
      var i := 0;
      while i < |raws|
        invariant 0 <= i <= |raws| && Valid() && group == old(group)
        invariant S.Filter(old(State()), raws[..i]) == Ok(State())
      {
        ghost var mid := State();
        P.FilterExtend(old(State()), raws, i, mid);
        unrecognised := FilterLine(raws[i]);
        if unrecognised.Some? {
          P.FilterStops(old(State()), raws, i + 1, unrecognised.value);
          return;
        }
        i := i + 1;
      }
      assert raws[..i] == raws;
      return None;
    }
  }
}

=== FILE: logcat_format.dfy ===
/** Column formatting of the log normaliser: terminal colour codes, fixed-width fields with
    truncation and padding, the per-tag colour, and the layout of one output line. */
module LogcatFormat {
  import opened Wrappers
  import opened Decimal
  import opened Text
  import opened LogcatParse

  const Esc: char := '\U{1B}'
  const NbBaseColors: nat := 7
  const MaxPidLen: nat := 5
  const MaxTagLen: nat := 25

  /** A terminal "select graphic rendition" sequence: ESC, `[`, the parameters, `m`. */
  function Sgr(params: string): string
  {
    [Esc, '['] + params + "m"
  }

  /** A well-formed rendition sequence: what a terminal consumes without showing anything. */
  predicate IsSgr(code: string)
  {
    && |code| >= 3 && code[0] == Esc && code[1] == '[' && code[|code| - 1] == 'm'
    && 'm' !in code[2..|code| - 1] && Esc !in code[1..]
  }

  lemma SgrIsSgr(params: string)
    requires 'm' !in params && Esc !in params
    ensures IsSgr(Sgr(params))
  {
    var code := Sgr(params);
    assert code[2..|code| - 1] == params;
    assert code[1..] == ['['] + params + "m";
  }

  /** The `reset` format, which ends every coloured field. */
  const ResetCode: string := Sgr("0")

  lemma Assoc(a: string, b: string, c: string)
    ensures a + b + c == a + (b + c)
  {
  }

  /** The colour index n named `color<n>`, for the 21 colours the table defines. */
  function ColorIndex(name: string): (r: Option<nat>)
    ensures r.Some? ==> r.value < 3 * NbBaseColors && name == "color" + NatToString(r.value)
  {
    if |name| > 5 && name[..5] == "color" && IsDigits(name[5..]) && DigitsValue(name[5..]) < 3 * NbBaseColors
       && NatToString(DigitsValue(name[5..])) == name[5..]
    then
      assert name == name[..5] + name[5..];
      Some(DigitsValue(name[5..]))
    else None
  }

  lemma ColorIndexOf(n: nat)
    requires n < 3 * NbBaseColors
    ensures ColorIndex("color" + NatToString(n)) == Some(n)
  {
    var name := "color" + NatToString(n);
    assert name[..5] == "color" && name[5..] == NatToString(n);
  }

  /** `COLOR_FORMATS.get(name, '')`: the rendition sequence of a named format, or nothing for an
      unknown name. The 21 numbered colours are the seven base colours 31..37, dim, normal and
      bold in that order. */
  function ColorCode(name: string): (code: string)
    ensures code == "" || IsSgr(code)
    ensures ColorIndex(name).Some? ==> code != ""
  {
    if name == "reset" then SgrIsSgr("0"); ResetCode
    else if name == "bold" then SgrIsSgr("1"); Sgr("1")
    else if name == "dim" then SgrIsSgr("2"); Sgr("2")
    else if name == "reverse" then SgrIsSgr("7"); Sgr("7")
    else if name == "V" then SgrIsSgr("37;40"); Sgr("37;40")
    else if name == "D" then SgrIsSgr("30;44"); Sgr("30;44")
    else if name == "I" then SgrIsSgr("30;42"); Sgr("30;42")
    else if name == "W" then SgrIsSgr("30;43"); Sgr("30;43")
    else if name == "E" then SgrIsSgr("30;41"); Sgr("30;41")
    else if name == "F" then SgrIsSgr("30;45"); Sgr("30;45")
    else
      match ColorIndex(name)
      case None => ""
      case Some(n) =>
        var plain := NatToString(31 + n % NbBaseColors);
        var params := if n < NbBaseColors then "2;" + plain
                      else if n < 2 * NbBaseColors then plain
                      else "1;" + plain;
        assert forall i | 0 <= i < |plain| :: IsDigit(plain[i]);
        SgrIsSgr(params);
        Sgr(params)
  }

  /** The text of s as a terminal shows it: every rendition sequence removed. */
  function Plain(t: string): string
    decreases |t|
  {
    if t == [] then []
    else if t[0] == Esc then Plain(AfterCode(t[1..]))
    else [t[0]] + Plain(t[1..])
  }

  /** What follows the `m` that ends a rendition sequence. */
  function AfterCode(u: string): (r: string)
    ensures |r| <= |u|
  {
    if u == [] then [] else if u[0] == 'm' then u[1..] else AfterCode(u[1..])
  }

  lemma {:induction false} AfterCodeSkip(p: string, t: string)
    requires 'm' !in p
    ensures AfterCode(p + "m" + t) == t
  {
    if p != [] {
      assert (p + "m" + t)[1..] == p[1..] + "m" + t;
      AfterCodeSkip(p[1..], t);
    }
  }

  /** A rendition sequence in front of t shows nothing. */
  lemma PlainSgr(code: string, t: string)
    requires code == "" || IsSgr(code)
    ensures Plain(code + t) == Plain(t)
  {
    if code != "" {
      var p := code[2..|code| - 1];
      assert code == [Esc, '['] + p + "m";
      assert (code + t)[1..] == ['['] + p + "m" + t;
      assert 'm' !in ['['] + p;
      AfterCodeSkip(['['] + p, t);
      assert (code + t)[0] == Esc;
      assert Plain(code + t) == Plain(AfterCode((code + t)[1..]));
    } else {
      assert code + t == t;
    }
  }

  /** Text without escape characters shows as itself. */
  lemma {:induction false} PlainFree(a: string, t: string)
    requires Esc !in a
    ensures Plain(a + t) == a + Plain(t)
  {
    if a != [] {
      assert (a + t)[1..] == a[1..] + t;
      assert (a + t)[0] == a[0] && a[0] != Esc;
      PlainFree(a[1..], t);
      assert Plain(a + t) == [a[0]] + Plain(a[1..] + t);
      assert a == [a[0]] + a[1..];
    } else {
      assert a + t == t;
    }
  }

  /** The rendition sequences for the `+`-separated format names, the last name's first (each
      name's sequence is put in front of what is already there). */
  function Codes(names: seq<string>): (r: string)
  {
    if names == [] then "" else Codes(names[1..]) + ColorCode(names[0])
  }

  lemma {:induction false} PlainCodes(names: seq<string>, t: string)
    ensures Plain(Codes(names) + t) == Plain(t)
  {
    if names != [] {
      var c, x := Codes(names[1..]), ColorCode(names[0]);
      PlainCodes(names[1..], x + t);
      ColorShows(names[0], t);
      assert Codes(names) == c + x;
      PlainJoin(c, x, t);
    } else {
      assert Codes(names) + t == t;
    }
  }

  /** Two invisible pieces in a row are invisible together. */
  lemma PlainJoin(c: string, x: string, t: string)
    requires Plain(c + (x + t)) == Plain(x + t) && Plain(x + t) == Plain(t)
    ensures Plain(c + x + t) == Plain(t)
  {
    Assoc(c, x, t);
  }

  /** A named format shows nothing. */
  lemma ColorShows(name: string, t: string)
    ensures Plain(ColorCode(name) + t) == Plain(t)
  {
    PlainSgr(ColorCode(name), t);
  }

  function Spaces(n: nat): (r: string)
    ensures |r| == n && forall i | 0 <= i < n :: r[i] == ' '
  {
    if n == 0 then "" else Spaces(n - 1) + " "
  }

  /** The width of a field: `abs(max_width)`, or the length of the text when that is zero. */
  function Width(s: string, maxWidth: int): nat
  {
    if maxWidth == 0 then |s| else if maxWidth < 0 then -maxWidth else maxWidth
  }

  /** The text cut to width w, its last kept character replaced by an ellipsis when asked. */
  function Clip(s: string, w: nat, ellipsis: bool): (c: string)
    ensures |s| <= w ==> c == s
    ensures |s| > w ==> |c| == w
  {
    if |s| > w && w > 0 then (if ellipsis then s[..w - 1] + "…" else s[..w])
    else if |s| > w then ""
    else s
  }

  /** The text wrapped in the named renditions and a reset, when colour is on and formats are
      named. */
  function Styled(color: bool, body: string, colors: string): string
  {
    if colors != "" && color then Codes(Split(colors, '+')) + body + ResetCode else body
  }

  /** `_format`: the text cut to the field width (its last visible character replaced by an
      ellipsis when asked), wrapped in the named renditions and a reset when colour is on, and
      padded with spaces on the left for a positive width or on the right for a negative one. */
  function Format(color: bool, s: string, colors: string, ellipsis: bool, maxWidth: int): (r: string)
    ensures !(color && colors != "") ==> r == Shown(s, ellipsis, maxWidth)
  {
    var w := Width(s, maxWidth);
    var body := Clip(s, w, ellipsis);
    var styled := Styled(color, body, colors);
    if |body| < w then (if maxWidth < 0 then styled + Spaces(w - |body|) else Spaces(w - |body|) + styled)
    else styled
  }

  /** What a field of the given width shows: the whole text padded on the side the width's sign
      selects when it fits, and otherwise its first characters, the last one an ellipsis when
      asked. */
  function Shown(s: string, ellipsis: bool, maxWidth: int): (v: string)
    ensures var w := Width(s, maxWidth);
      && |v| == w
      && (|s| <= w && maxWidth < 0 ==> v == s + Spaces(w - |s|))
      && (|s| <= w && maxWidth >= 0 ==> v == Spaces(w - |s|) + s)
      && (|s| > w ==> v == if ellipsis then s[..w - 1] + "…" else s[..w])
  {
    var w := Width(s, maxWidth);
    if |s| > w then (if ellipsis then s[..w - 1] + "…" else s[..w])
    else if maxWidth < 0 then s + Spaces(w - |s|)
    else Spaces(w - |s|) + s
  }

  /** A formatted field shows exactly `Shown`, whatever renditions it carries, and shows it
      independently of what is written after it; without colour it is that text alone. */
  lemma FormatVisible(color: bool, s: string, colors: string, ellipsis: bool, maxWidth: int, t: string)
    requires Esc !in s
    ensures var r := Format(color, s, colors, ellipsis, maxWidth);
      && Plain(r + t) == Shown(s, ellipsis, maxWidth) + Plain(t)
      && (!(color && colors != "") ==> r == Shown(s, ellipsis, maxWidth))
  {
    var w := Width(s, maxWidth);
    var body := Clip(s, w, ellipsis);
    if |body| < w && maxWidth < 0 {
      FormatPadRight(color, s, colors, ellipsis, maxWidth, t);
    } else if |body| < w {
      FormatPadLeft(color, s, colors, ellipsis, maxWidth, t);
    } else {
      FormatFull(color, s, colors, ellipsis, maxWidth, t);
    }
  }

  lemma FormatPadRight(color: bool, s: string, colors: string, ellipsis: bool, maxWidth: int, t: string)
    requires Esc !in s && |Clip(s, Width(s, maxWidth), ellipsis)| < Width(s, maxWidth) && maxWidth < 0
    ensures var r := Format(color, s, colors, ellipsis, maxWidth);
      && Plain(r + t) == Shown(s, ellipsis, maxWidth) + Plain(t)
      && (!(color && colors != "") ==> r == Shown(s, ellipsis, maxWidth))
  {
    var w := Width(s, maxWidth);
    var pad := Spaces(w - |s|);
    var styled := Styled(color, s, colors);
    assert Esc !in pad;
    assert Format(color, s, colors, ellipsis, maxWidth) == styled + pad;
    assert Shown(s, ellipsis, maxWidth) == s + pad;
    StyledShows(color, s, colors, pad + t);
    PlainFree(pad, t);
    Assoc(styled, pad, t);
    Assoc(s, pad, Plain(t));
  }

  lemma FormatPadLeft(color: bool, s: string, colors: string, ellipsis: bool, maxWidth: int, t: string)
    requires Esc !in s && |Clip(s, Width(s, maxWidth), ellipsis)| < Width(s, maxWidth) && maxWidth >= 0
    ensures var r := Format(color, s, colors, ellipsis, maxWidth);
      && Plain(r + t) == Shown(s, ellipsis, maxWidth) + Plain(t)
      && (!(color && colors != "") ==> r == Shown(s, ellipsis, maxWidth))
  {
    var w := Width(s, maxWidth);
    var pad := Spaces(w - |s|);
    var styled := Styled(color, s, colors);
    assert Esc !in pad;
    assert Format(color, s, colors, ellipsis, maxWidth) == pad + styled;
    assert Shown(s, ellipsis, maxWidth) == pad + s;
    PlainFree(pad, styled + t);
    StyledShows(color, s, colors, t);
    Assoc(pad, styled, t);
    Assoc(pad, s, Plain(t));
  }

  lemma FormatFull(color: bool, s: string, colors: string, ellipsis: bool, maxWidth: int, t: string)
    requires Esc !in s && |Clip(s, Width(s, maxWidth), ellipsis)| >= Width(s, maxWidth)
    ensures var r := Format(color, s, colors, ellipsis, maxWidth);
      && Plain(r + t) == Shown(s, ellipsis, maxWidth) + Plain(t)
      && (!(color && colors != "") ==> r == Shown(s, ellipsis, maxWidth))
  {
    var w := Width(s, maxWidth);
    var body := Clip(s, w, ellipsis);
    assert Esc !in body;
    assert Shown(s, ellipsis, maxWidth) == body by {
      if |s| <= w {
        assert Spaces(0) == [];
        assert s + Spaces(0) == s && Spaces(0) + s == s;
      }
    }
    StyledShows(color, body, colors, t);
  }

  /** A styled text shows as the text itself. */
  lemma StyledShows(color: bool, body: string, colors: string, t: string)
    requires Esc !in body
    ensures Plain(Styled(color, body, colors) + t) == body + Plain(t)
  {
    if colors != "" && color {
      PlainStyled(Split(colors, '+'), body, t);
    } else {
      PlainFree(body, t);
    }
  }

  /** Renditions, an escape-free text and a reset show as that text. */
  lemma PlainStyled(names: seq<string>, body: string, t: string)
    requires Esc !in body
    ensures Plain(Codes(names) + body + ResetCode + t) == body + Plain(t)
  {
    var reset := ResetCode;
    SgrIsSgr("0");
    PlainCodes(names, body + (reset + t));
    PlainFree(body, reset + t);
    PlainSgr(reset, t);
    Assoc(Codes(names) + body, reset, t);
    Assoc(Codes(names), body, reset + t);
  }

  /** The UTF-8 encoding of one character. */
  function Utf8(c: char): (bs: seq<nat>)
    ensures 1 <= |bs| <= 4 && forall i | 0 <= i < |bs| :: bs[i] < 256
  {
    var n := c as int;
    if n < 0x80 then [n]
    else if n < 0x800 then [0xC0 + n / 64, 0x80 + n % 64]
    else if n < 0x1_0000 then [0xE0 + n / 4096, 0x80 + n / 64 % 64, 0x80 + n % 64]
    else [0xF0 + n / 0x4_0000, 0x80 + n / 4096 % 64, 0x80 + n / 64 % 64, 0x80 + n % 64]
  }

  function Utf8String(s: string): seq<nat>
  {
    if s == [] then [] else Utf8String(s[..|s| - 1]) + Utf8(s[|s| - 1])
  }

  /** The big-endian number a byte string spells (the hexadecimal digits of the bytes read back
      in base 16). */
  function BytesValue(bs: seq<nat>): nat
  {
    if bs == [] then 0 else BytesValue(bs[..|bs| - 1]) * 256 + bs[|bs| - 1]
  }

  function Min(a: nat, b: nat): nat { if a < b then a else b }

  /** The colour number of a tag: its first four characters as a UTF-8 number, modulo 14, moved
      past the dim colours for records of a tracked pid. */
  function TagColorIndex(tag: string, app: bool): (k: nat)
    ensures k < (if app then 3 else 2) * NbBaseColors && (app ==> k >= NbBaseColors)
  {
    BytesValue(Utf8String(tag[..Min(4, |tag|)])) % (2 * NbBaseColors) + if app then NbBaseColors else 0
  }

  /** `_tag_color`: no colour for an empty tag or with colour off; otherwise a `color<k>` name that
      the colour table defines, among the bold or normal ones for a tracked pid's record. */
  function TagColor(color: bool, tag: string, app: bool): (r: string)
    ensures r == "" <==> tag == "" || !color
    ensures r != "" ==> ColorIndex(r) == Some(TagColorIndex(tag, app)) && ColorCode(r) != ""
  {
    if tag == "" || !color then ""
    else
      var k := TagColorIndex(tag, app);
      ColorIndexOf(k);
      "color" + NatToString(k)
  }

  /** Tags sharing their first four characters share their colour. */
  lemma TagColorByPrefix(color: bool, t1: string, t2: string, app: bool)
    requires t1 != "" && t2 != "" && t1[..Min(4, |t1|)] == t2[..Min(4, |t2|)]
    ensures TagColor(color, t1, app) == TagColor(color, t2, app)
  {
    assert TagColorIndex(t1, app) == TagColorIndex(t2, app);
  }

  /** The formats of the pid column: reversed for a tracked pid (and dimmed when the thread is not
      the main one), dimmed otherwise. */
  function ProcFormat(app: bool, rec: Record): string
  {
    if app then (if rec.tid != rec.pid then "reverse+dim" else "reverse") else "dim"
  }

  /** The pid column: the pid right-aligned in 5, then `:tid` left-aligned in 6 when the thread is
      not the main one. */
  function ProcField(color: bool, app: bool, rec: Record): string
  {
    var f := ProcFormat(app, rec);
    Format(color, NatToString(rec.pid), f, false, MaxPidLen)
      + if rec.tid != rec.pid then Format(color, ":" + NatToString(rec.tid), f, false, -(MaxPidLen as int) - 1) else ""
  }

  /** The width of the tag column: 25, or 19 when a `:tid` column takes the difference. */
  function TagWidth(rec: Record): nat
  {
    if rec.tid != rec.pid then MaxTagLen - 1 - MaxPidLen else MaxTagLen
  }

  /** The tag column. */
  function TagField(color: bool, app: bool, rec: Record): string
  {
    Format(color, rec.tag, TagColor(color, rec.tag, app), true, TagWidth(rec))
  }

  /** One output line: `{time} {proc} {tag} {priority} {text}`, the priority shown as ` P `
      in its own colours. */
  function LineOf(color: bool, app: bool, rec: Record, text: string): string
  {
    rec.time + " " + ProcField(color, app, rec) + " " + TagField(color, app, rec) + " "
      + Format(color, [' ', rec.priority, ' '], [rec.priority], false, 0) + " " + text
  }

  lemma DigitsFree(w: string)
    requires IsDigits(w)
    ensures Esc !in w && '…' !in w
  {
    assert forall i | 0 <= i < |w| :: IsDigit(w[i]);
  }

  /** The pid column shows 5 characters, or 5 + 6 with `:tid`; the tag column shows 25, or 19
      with `:tid`, so the two always take 5 + 1 + 25 columns between them. */
  lemma ColumnWidths(color: bool, app: bool, rec: Record)
    requires Esc !in rec.tag
    ensures |Plain(ProcField(color, app, rec))| == if rec.tid != rec.pid then MaxPidLen + 1 + MaxPidLen else MaxPidLen
    ensures |Plain(TagField(color, app, rec))| == if rec.tid != rec.pid then MaxTagLen - 1 - MaxPidLen else MaxTagLen
  {
    var f := ProcFormat(app, rec);
    var ps := NatToString(rec.pid);
    DigitsFree(ps);
    var a := Format(color, ps, f, false, MaxPidLen);
    FormatVisible(color, rec.tag, TagColor(color, rec.tag, app), true, TagWidth(rec), []);
    assert TagField(color, app, rec) + [] == TagField(color, app, rec);
    if rec.tid != rec.pid {
      var ts := ":" + NatToString(rec.tid);
      DigitsFree(NatToString(rec.tid));
      assert Esc !in ts;
      var b := Format(color, ts, f, false, -(MaxPidLen as int) - 1);
      FormatVisible(color, ps, f, false, MaxPidLen, b);
      FormatVisible(color, ts, f, false, -(MaxPidLen as int) - 1, []);
      assert b + [] == b;
    } else {
      FormatVisible(color, ps, f, false, MaxPidLen, []);
      assert ProcField(color, app, rec) == a + [];
    }
  }
}

=== FILE: logcat_highlight.dfy ===
/** The highlighter of the log normaliser: a matcher compiled from the tracked packages and pids,
    searched for in a record's text, and every match wrapped in bold. The compiled pattern is a
    single group holding an alternation; it is modelled as the ordered list of its alternatives,
    each an optional word boundary, a literal and an optional word boundary. */
module LogcatHighlight {
  import opened Wrappers
  import opened Decimal
  import opened LogcatFormat

  /** Python's ordering of strings: by code point, a proper prefix first. */
  predicate StrLt(a: string, b: string)
  {
    if a == [] then b != [] else b != [] && (a[0] < b[0] || (a[0] == b[0] && StrLt(a[1..], b[1..])))
  }

  lemma {:induction false} StrLtIrreflexive(a: string)
    ensures !StrLt(a, a)
  {
    if a != [] {
      StrLtIrreflexive(a[1..]);
    }
  }

  lemma {:induction false} StrLtAsymmetric(a: string, b: string)
    requires StrLt(a, b)
    ensures !StrLt(b, a)
  {
    if a != [] && a[0] == b[0] {
      StrLtAsymmetric(a[1..], b[1..]);
    }
  }

  lemma {:induction false} StrLtTotal(a: string, b: string)
    requires a != b
    ensures StrLt(a, b) || StrLt(b, a)
  {
    if a != [] && b != [] && a[0] == b[0] {
      assert a == [a[0]] + a[1..] && b == [b[0]] + b[1..];
      StrLtTotal(a[1..], b[1..]);
    }
  }

  lemma {:induction false} StrLtTransitive(a: string, b: string, c: string)
    requires StrLt(a, b) && StrLt(b, c)
    ensures StrLt(a, c)
  {
    if a != [] && a[0] == b[0] && b[0] == c[0] {
      StrLtTransitive(a[1..], b[1..], c[1..]);
    }
  }

  /** A proper prefix comes first. */
  lemma {:induction false} PrefixIsLess(a: string, b: string)
    requires |a| < |b| && a == b[..|a|]
    ensures StrLt(a, b)
  {
    if a != [] {
      assert a[1..] == b[1..][..|a| - 1];
      PrefixIsLess(a[1..], b[1..]);
    }
  }

  predicate IsMaxOf(m: string, s: set<string>)
  {
    m in s && forall x | x in s :: x == m || StrLt(x, m)
  }

  lemma {:induction false} MaxExists(s: set<string>)
    requires s != {}
    ensures exists m :: IsMaxOf(m, s)
    decreases |s|
  {
    var y :| y in s;
    if s != {y} {
      MaxExists(s - {y});
      var m :| IsMaxOf(m, s - {y});
      if StrLt(y, m) {
        assert IsMaxOf(m, s);
      } else {
        StrLtTotal(y, m);
        forall x | x in s ensures x == y || StrLt(x, y) {
          if x != y && x != m {
            StrLtTransitive(x, m, y);
          }
        }
        assert IsMaxOf(y, s);
      }
    } else {
      assert IsMaxOf(y, s);
    }
  }

  lemma MaxUnique(s: set<string>)
    ensures forall m1, m2 | IsMaxOf(m1, s) && IsMaxOf(m2, s) :: m1 == m2
  {
    forall m1, m2 | IsMaxOf(m1, s) && IsMaxOf(m2, s) ensures m1 == m2 {
      if m1 != m2 {
        assert StrLt(m1, m2) && StrLt(m2, m1);
        StrLtAsymmetric(m1, m2);
      }
    }
  }

  function MaxStr(s: set<string>): (m: string)
    requires s != {}
    ensures m in s
  {
    MaxExists(s);
    MaxUnique(s);
    var m :| IsMaxOf(m, s);
    m
  }

  /** MaxStr gives the greatest element. */
  lemma MaxStrIsMax(s: set<string>)
    requires s != {}
    ensures IsMaxOf(MaxStr(s), s)
  {
    MaxExists(s);
    MaxUnique(s);
  }

  /** `reversed(sorted(s))`: the elements of s, greatest first. */
  function SortDesc(s: set<string>): (r: seq<string>)
    ensures |r| == |s|
    decreases |s|
  {
    if s == {} then []
    else
      var m := MaxStr(s);
      [m] + SortDesc(s - {m})
  }

  /** SortDesc lists exactly the elements of s. */
  lemma {:induction false} SortDescMembers(s: set<string>)
    ensures forall i | 0 <= i < |SortDesc(s)| :: SortDesc(s)[i] in s
    ensures forall x | x in s :: x in SortDesc(s)
    decreases |s|
  {
    if s != {} {
      var m := MaxStr(s);
      SortDescMembers(s - {m});
      var r := SortDesc(s);
      assert r == [m] + SortDesc(s - {m});
      forall x | x in s ensures x in r {
        if x != m {
          assert x in SortDesc(s - {m});
        }
      }
    }
  }

  predicate SortedDesc(r: seq<string>)
  {
    forall i, j | 0 <= i < j < |r| :: StrLt(r[j], r[i])
  }

  lemma ConsSorted(m: string, rest: seq<string>)
    requires SortedDesc(rest) && forall j | 0 <= j < |rest| :: StrLt(rest[j], m)
    ensures SortedDesc([m] + rest)
  {
    var r := [m] + rest;
    forall i, j | 0 <= i < j < |r| ensures StrLt(r[j], r[i]) {
      if i == 0 {
        assert r[j] == rest[j - 1];
      } else {
        assert r[j] == rest[j - 1] && r[i] == rest[i - 1];
      }
    }
  }

  /** The order is strictly descending, so no element is repeated. */
  lemma {:induction false} SortDescSorted(s: set<string>)
    ensures SortedDesc(SortDesc(s))
    decreases |s|
  {
    if s != {} {
      var m := MaxStr(s);
      var rest := SortDesc(s - {m});
      SortDescSorted(s - {m});
      SortDescMembers(s - {m});
      MaxStrIsMax(s);
      forall j | 0 <= j < |rest| ensures StrLt(rest[j], m) {
        assert rest[j] in s - {m};
      }
      ConsSorted(m, rest);
    }
  }

  /** A name comes before every proper prefix of it, so the longer of two overlapping names is
      tried first. */
  lemma LongerNameFirst(s: set<string>, i: nat, j: nat)
    requires var r := SortDesc(s); i < |r| && j < |r| && |r[i]| < |r[j]| && r[i] == r[j][..|r[i]|]
    ensures j < i
  {
    var r := SortDesc(s);
    SortDescSorted(s);
    PrefixIsLess(r[i], r[j]);
    if i < j {
      StrLtAsymmetric(r[i], r[j]);
    }
  }

  /** One alternative of the compiled pattern: `\b`?, a literal, `\b`?. */
  datatype Alt = Alt(lead: bool, lit: string, trail: bool)

  /** The numerals of the tracked pids (`str(abs(p))`; pids are never negative). */
  function PidStrings(pids: set<nat>): set<string>
  {
    set p | p in pids :: NatToString(p)
  }

  /** `\b pid (?:=|:?[ ]) N`: `pid=`, `pid: ` or `pid `, then the numeral, in that order. */
  function PidPrefixAlts(n: string, trail: bool): seq<Alt>
  {
    [Alt(true, "pid=" + n, trail), Alt(true, "pid: " + n, trail), Alt(true, "pid " + n, trail)]
  }

  /** The pid template filled with the unparenthesised `N1|N2|...|Nk`: the template's head
      attaches to the first numeral only and its trailing `\b` to the last only, so the numerals
      in between are alternatives of their own. */
  function PidAlts(ns: seq<string>): (r: seq<Alt>)
    ensures |r| == if ns == [] then 0 else |ns| + 2
    ensures ns != [] ==> forall i | 0 <= i < 3 :: r[i].lead && r[i].trail == (|ns| == 1)
    ensures ns != [] ==> r[0].lit == "pid=" + ns[0] && r[1].lit == "pid: " + ns[0] && r[2].lit == "pid " + ns[0]
    ensures forall i | 3 <= i < |r| :: r[i] == Alt(false, ns[i - 2], i == |r| - 1)
  {
    if |ns| == 0 then []
    else if |ns| == 1 then PidPrefixAlts(ns[0], true)
    else
      PidPrefixAlts(ns[0], false) + seq(|ns| - 2, i requires 0 <= i < |ns| - 2 => Alt(false, ns[i + 1], false))
      + [Alt(false, ns[|ns| - 1], true)]
  }

  /** `\b (?:P1|...|Pk) \b` over the packages. */
  function PackageAlts(ps: seq<string>): (r: seq<Alt>)
    ensures |r| == |ps| && forall i | 0 <= i < |r| :: r[i].lit == ps[i] && r[i].lead && r[i].trail
  {
    seq(|ps|, i requires 0 <= i < |ps| => Alt(true, ps[i], true))
  }

  /** `_add_package_and_or_pid`'s pattern: the package part, then the pid part, each left out when
      its set is empty; with both empty the pattern is an empty group, which matches the empty
      string anywhere. */
  function Compile(packages: set<string>, pids: set<nat>): (alts: seq<Alt>)
    ensures |alts| >= 1
  {
    var alts := PackageAlts(SortDesc(packages)) + PidAlts(SortDesc(PidStrings(pids)));
    if alts == [] then [Alt(false, "", false)] else alts
  }

  /** Word characters for `\b` (ASCII letters, digits and `_`). */
  predicate IsWordChar(c: char)
  {
    ('a' <= c <= 'z') || ('A' <= c <= 'Z') || ('0' <= c <= '9') || c == '_'
  }

  /** `\b` at position i. */
  predicate Boundary(s: string, i: nat)
    requires i <= |s|
  {
    (i > 0 && IsWordChar(s[i - 1])) != (i < |s| && IsWordChar(s[i]))
  }

  /** The end of a match of one alternative at i. */
  function AltEnd(a: Alt, s: string, i: nat): (r: Option<nat>)
    requires i <= |s|
    ensures r.Some? ==> r.value == i + |a.lit| <= |s| && s[i..r.value] == a.lit
    ensures r.Some? ==> (a.lead ==> Boundary(s, i)) && (a.trail ==> Boundary(s, r.value))
  {
    if (a.lead ==> Boundary(s, i)) && i + |a.lit| <= |s| && s[i..i + |a.lit|] == a.lit
       && (a.trail ==> Boundary(s, i + |a.lit|))
    then Some(i + |a.lit|) else None
  }

  /** The end of the match the alternation makes at i: its first alternative that matches there,
      skipping empty matches when the search must advance. */
  function FirstAltAt(alts: seq<Alt>, s: string, i: nat, nonEmpty: bool): (r: Option<nat>)
    requires i <= |s|
    ensures r.Some? ==> exists k | 0 <= k < |alts| :: AltEnd(alts[k], s, i) == r
    ensures r.Some? ==> i <= r.value <= |s| && (nonEmpty ==> r.value > i)
    ensures r.None? <==> forall k | 0 <= k < |alts| :: AltEnd(alts[k], s, i).None? || (nonEmpty && alts[k].lit == [])
  {
    if alts == [] then None
    else
      var e := AltEnd(alts[0], s, i);
      if e.Some? && !(nonEmpty && alts[0].lit == []) then e
      else
        var r := FirstAltAt(alts[1..], s, i, nonEmpty);
        assert forall k | 0 < k < |alts| :: alts[k] == alts[1..][k - 1];
        r
  }

  /** The leftmost match at or after pos (start and end); a search that must advance refuses an
      empty match at pos itself. */
  function Next(alts: seq<Alt>, s: string, pos: nat, mustAdvance: bool): (r: Option<(nat, nat)>)
    requires pos <= |s|
    ensures r.Some? ==> pos <= r.value.0 <= r.value.1 <= |s|
    ensures r.Some? ==> FirstAltAt(alts, s, r.value.0, mustAdvance && r.value.0 == pos) == Some(r.value.1)
    ensures (r.None? || r.value.0 > pos) ==> FirstAltAt(alts, s, pos, mustAdvance).None?
    decreases |s| - pos
  {
    var e := FirstAltAt(alts, s, pos, mustAdvance);
    if e.Some? then Some((pos, e.value))
    else if pos == |s| then None
    else Next(alts, s, pos + 1, false)
  }

  /** The match found is the leftmost one: no position k after pos and before its start, or
      after pos at all when nothing is found, has a match. */
  lemma {:induction false} NextLeftmost(alts: seq<Alt>, s: string, pos: nat, mustAdvance: bool, k: nat)
    requires pos < k <= |s|
    requires var r := Next(alts, s, pos, mustAdvance); r.None? || k < r.value.0
    ensures FirstAltAt(alts, s, k, false).None?
    decreases |s| - pos
  {
    assert FirstAltAt(alts, s, pos, mustAdvance).None?;
    if k > pos + 1 {
      NextLeftmost(alts, s, pos + 1, false, k);
    }
  }

  const Bold: string := Sgr("1")

  /** `hl_rx.sub(bold + r'\1' + reset, s[pos:])` from pos on: every match, leftmost first and
      scanning on from its end, wrapped in bold and reset; after an empty match the next one must
      advance. */
  function SubFrom(alts: seq<Alt>, s: string, pos: nat, mustAdvance: bool): string
    requires pos <= |s|
    decreases |s| - pos, if mustAdvance then 0 else 1
  {
    var m := Next(alts, s, pos, mustAdvance);
    if m.None? then s[pos..]
    else
      var b := m.value.0;
      var e := m.value.1;
      s[pos..b] + Bold + s[b..e] + ResetCode + SubFrom(alts, s, e, b == e)
  }

  /** `hl_rx.search(s)`. */
  function Search(alts: seq<Alt>, s: string): (r: Option<(nat, nat)>)
    ensures r.Some? ==> r.value.0 <= r.value.1 <= |s| && FirstAltAt(alts, s, r.value.0, false) == Some(r.value.1)
  {
    Next(alts, s, 0, false)
  }

  /** `_highlight`: without colour the text itself and whether the matcher finds something in it;
      with colour the text with every match in bold, and whether that changed the text. */
  function Highlight(color: bool, alts: seq<Alt>, s: string): (string, bool)
  {
    if !color then (s, Search(alts, s).Some?)
    else
      var ns := SubFrom(alts, s, 0, false);
      (ns, ns != s)
  }

  lemma {:induction false} SubFromLength(alts: seq<Alt>, s: string, pos: nat, mustAdvance: bool)
    requires pos <= |s|
    ensures |SubFrom(alts, s, pos, mustAdvance)| >= |s| - pos
    ensures Next(alts, s, pos, mustAdvance).Some? ==> |SubFrom(alts, s, pos, mustAdvance)| > |s| - pos
    ensures Next(alts, s, pos, mustAdvance).None? ==> SubFrom(alts, s, pos, mustAdvance) == s[pos..]
    decreases |s| - pos, if mustAdvance then 0 else 1
  {
    var m := Next(alts, s, pos, mustAdvance);
    if m.Some? {
      var b := m.value.0;
      var e := m.value.1;
      SubFromLength(alts, s, e, b == e);
    }
  }

  /** Highlighting reports a match exactly when the matcher finds one, with colour or without:
      with colour, every match adds the bold and reset sequences, so the text changes exactly
      when there is one. */
  lemma HighlightReportsMatch(color: bool, alts: seq<Alt>, s: string)
    ensures Highlight(color, alts, s).1 <==> Search(alts, s).Some?
    ensures !color ==> Highlight(color, alts, s).0 == s
  {
    SubFromLength(alts, s, 0, false);
    assert s[0..] == s;
  }

  /** Highlighting only adds renditions: on a terminal the text shows unchanged. */
  lemma {:induction false} SubFromShows(alts: seq<Alt>, s: string, pos: nat, mustAdvance: bool, t: string)
    requires pos <= |s| && Esc !in s
    ensures Plain(SubFrom(alts, s, pos, mustAdvance) + t) == s[pos..] + Plain(t)
    decreases |s| - pos, if mustAdvance then 0 else 1
  {
    var m := Next(alts, s, pos, mustAdvance);
    if m.None? {
      assert Esc !in s[pos..];
      PlainFree(s[pos..], t);
    } else {
      var b := m.value.0;
      var e := m.value.1;
      var rest := SubFrom(alts, s, e, b == e);
      assert SubFrom(alts, s, pos, mustAdvance) == s[pos..b] + Bold + s[b..e] + ResetCode + rest;
      SubFromShows(alts, s, e, b == e, t);
      MarkShows(s, pos, b, e, rest, t);
    }
  }

  /** One match wrapped in bold and reset, in front of a rest that shows as s[e..]. */
  lemma MarkShows(s: string, pos: nat, b: nat, e: nat, rest: string, t: string)
    requires pos <= b <= e <= |s| && Esc !in s && Plain(rest + t) == s[e..] + Plain(t)
    ensures Plain(s[pos..b] + Bold + s[b..e] + ResetCode + rest + t) == s[pos..] + Plain(t)
  {
    SgrIsSgr("0");
    SgrIsSgr("1");
    assert Esc !in s[pos..b] && Esc !in s[b..e];
    SubFromStep(s[pos..b], s[b..e], rest, t);
    SliceJoin(s, pos, b, e, Plain(t));
  }

  lemma SliceJoin(s: string, pos: nat, b: nat, e: nat, u: string)
    requires pos <= b <= e <= |s|
    ensures s[pos..b] + s[b..e] + (s[e..] + u) == s[pos..] + u
  {
    assert s[pos..b] + s[b..e] + s[e..] == s[pos..];
  }

  lemma SubFromStep(x: string, y: string, rest: string, t: string)
    requires Esc !in x && Esc !in y && IsSgr(Bold) && IsSgr(ResetCode)
    ensures Plain(x + Bold + y + ResetCode + rest + t) == x + y + Plain(rest + t)
  {
    Assoc(x + Bold + y + ResetCode, rest, t);
    Assoc(x + Bold + y, ResetCode, rest + t);
    Assoc(x + Bold, y, ResetCode + (rest + t));
    Assoc(x, Bold, y + (ResetCode + (rest + t)));
    PlainFree(x, Bold + (y + (ResetCode + (rest + t))));
    PlainSgr(Bold, y + (ResetCode + (rest + t)));
    PlainFree(y, ResetCode + (rest + t));
    PlainSgr(ResetCode, rest + t);
    Assoc(x, y, Plain(rest + t));
  }

  /** Whatever it marks, highlighting leaves the visible text as it was. */
  lemma HighlightShowsText(color: bool, alts: seq<Alt>, s: string)
    requires Esc !in s
    ensures Plain(Highlight(color, alts, s).0) == s
  {
    SubFromShows(alts, s, 0, false, []);
    PlainFree(s, []);
    assert s[0..] == s && SubFrom(alts, s, 0, false) + [] == SubFrom(alts, s, 0, false) && s + [] == s;
  }

  lemma SortOne(x: string)
    ensures SortDesc({x}) == [x]
  {
    var r := SortDesc({x});
    assert r[0] in {x};
  }

  /** What the search finds is a match of one of the alternatives. */
  lemma SearchMatch(alts: seq<Alt>, s: string, b: nat, e: nat)
    requires Search(alts, s) == Some((b, e))
    ensures exists k | 0 <= k < |alts| :: AltEnd(alts[k], s, b) == Some(e)
  {
    assert FirstAltAt(alts, s, b, false) == Some(e);
  }

  lemma CompileSinglePid(p: nat)
    ensures Compile({}, {p}) == PidPrefixAlts(NatToString(p), true)
  {
    var n := NatToString(p);
    assert PidStrings({p}) == {n};
    SortOne(n);
    assert SortDesc({}) == [];
  }

  lemma CompilePackages(packages: set<string>)
    requires packages != {}
    ensures Compile(packages, {}) == PackageAlts(SortDesc(packages))
  {
    assert PidStrings({}) == {};
    assert SortDesc({}) == [];
  }

  /** With one tracked pid and no package, whatever the matcher finds is `pid=`, `pid: ` or
      `pid ` followed by the pid's numeral, between word boundaries: the bare numeral never
      matches. */
  lemma SinglePidNeedsPrefix(p: nat, s: string, b: nat, e: nat)
    requires Search(Compile({}, {p}), s) == Some((b, e))
    ensures var n := NatToString(p);
      && (s[b..e] == "pid=" + n || s[b..e] == "pid: " + n || s[b..e] == "pid " + n)
      && Boundary(s, b) && Boundary(s, e)
  {
    CompileSinglePid(p);
    PrefixAltsMatch(NatToString(p), s, b, e);
  }

  /** A match of the three prefixed forms of one numeral is one of them, a whole word. */
  lemma PrefixAltsMatch(n: string, s: string, b: nat, e: nat)
    requires Search(PidPrefixAlts(n, true), s) == Some((b, e))
    ensures && (s[b..e] == "pid=" + n || s[b..e] == "pid: " + n || s[b..e] == "pid " + n)
      && Boundary(s, b) && Boundary(s, e)
  {
    var alts := PidPrefixAlts(n, true);
    SearchMatch(alts, s, b, e);
    var k :| 0 <= k < |alts| && AltEnd(alts[k], s, b) == Some(e);
  }


  /** With no tracked pid, whatever the matcher finds is a whole package name: one of the
      packages, between word boundaries. */
  lemma PackageMatchIsWholeWord(packages: set<string>, s: string, b: nat, e: nat)
    requires packages != {} && Search(Compile(packages, {}), s) == Some((b, e))
    ensures s[b..e] in packages && Boundary(s, b) && Boundary(s, e)
  {
    var ps := SortDesc(packages);
    var alts := Compile(packages, {});
    CompilePackages(packages);
    SearchMatch(alts, s, b, e);
    var k :| 0 <= k < |alts| && AltEnd(alts[k], s, b) == Some(e);
    assert alts[k] == Alt(true, ps[k], true);
    SortDescMembers(packages);
  }

  /** An alternative that matches somewhere makes the search succeed. */
  lemma SearchFinds(alts: seq<Alt>, s: string, k: nat, i: nat)
    requires k < |alts| && i <= |s| && AltEnd(alts[k], s, i).Some?
    ensures Search(alts, s).Some?
  {
    var r := Search(alts, s);
    assert FirstAltAt(alts, s, i, false).Some?;
    if r.None? || i < r.value.0 {
      NextLeftmost(alts, s, 0, false, i);
    }
  }

  lemma BareAltFinds(alts: seq<Alt>, s: string, k: nat, n: string, i: nat)
    requires k < |alts| && alts[k] == Alt(false, n, false) && i + |n| <= |s| && s[i..i + |n|] == n
    ensures Search(alts, s).Some?
  {
    SearchFinds(alts, s, k, i);
  }

  lemma MiddlePidAlt(packages: set<string>, pids: set<nat>, j: nat)
    requires var ns := SortDesc(PidStrings(pids)); 0 < j < |ns| - 1
    ensures var k := |SortDesc(packages)| + 2 + j; var alts := Compile(packages, pids);
      k < |alts| && alts[k] == Alt(false, SortDesc(PidStrings(pids))[j], false)
  {
    var ns := SortDesc(PidStrings(pids));
    var pk := PackageAlts(SortDesc(packages));
    PidAltsMiddle(ns, j);
    ConcatIndex(pk, PidAlts(ns), 2 + j);
  }

  lemma PidAltsMiddle(ns: seq<string>, j: nat)
    requires 0 < j < |ns| - 1
    ensures 2 + j < |PidAlts(ns)| && PidAlts(ns)[2 + j] == Alt(false, ns[j], false)
  {
  }

  lemma ConcatIndex(xs: seq<Alt>, ys: seq<Alt>, k: nat)
    requires k < |ys|
    ensures (xs + ys)[|xs| + k] == ys[k]
  {
  }

  /** With three tracked pids or more, the numeral of one that is neither the greatest nor the
      least is found wherever it occurs, even inside a longer number and with no `pid` in front:
      the unparenthesised list splits the template. */
  lemma MiddlePidMatchesBare(packages: set<string>, pids: set<nat>, j: nat, s: string, i: nat)
    requires var ns := SortDesc(PidStrings(pids)); 0 < j < |ns| - 1
    requires var n := SortDesc(PidStrings(pids))[j]; i + |n| <= |s| && s[i..i + |n|] == n
    ensures Search(Compile(packages, pids), s).Some?
  {
    var alts := Compile(packages, pids);
    var n := SortDesc(PidStrings(pids))[j];
    var k := |SortDesc(packages)| + 2 + j;
    assert k < |alts| && alts[k] == Alt(false, n, false) by {
      MiddlePidAlt(packages, pids, j);
    }
    BareAltFinds(alts, s, k, n, i);
  }
}

=== FILE: logcat_parse.dfy ===
/**
 * Line recognition for the log normaliser: the four fixed layouts (threadtime, brief, time and the
 * tool's own re-display layout), each recognised by hand in the order a backtracking regular
 * expression engine explores it, and the tag grammar they share.
 *
 * Every fixed part of a layout (digit runs, whitespace runs between fields that cannot start with
 * whitespace, the priority letter) has exactly one way to match, so it is consumed greedily. The
 * only choice points are the whitespace run in front of a tag (threadtime and self layouts) and the
 * tag itself: the engine tries the whitespace run longest first and, for each, the tag endpoints
 * from the longest down, and the first endpoint whose continuation matches wins. TagDfs in
 * LogcatParseProps proves that the tag's repetition visits its endpoints in that order.
 */
module LogcatParse {
  import opened Wrappers
  import opened Decimal

  /** Python's `\s` on text: the code points `str.isspace()` accepts. */
  predicate IsSpace(c: char) {
    || ('\t' <= c <= '\r')
    || ('\U{1C}' <= c <= ' ')
    || c == '\U{85}' || c == '\U{A0}' || c == '\U{1680}'
    || ('\U{2000}' <= c <= '\U{200A}')
    || c == '\U{2028}' || c == '\U{2029}' || c == '\U{202F}' || c == '\U{205F}' || c == '\U{3000}'
  }

  /** The priority letters `[VDIWEF]`. */
  predicate IsPriority(c: char) {
    c == 'V' || c == 'D' || c == 'I' || c == 'W' || c == 'E' || c == 'F'
  }

  /** The tag pattern's class `[^ :\t]`. */
  predicate IsTagChar(c: char) { c != ' ' && c != ':' && c != '\t' }

  /** The tag pattern's separator class `[: ]`. */
  predicate IsTagSep(c: char) { c == ':' || c == ' ' }

  /** A parsed log line. `tid` is `pid` when the layout carries no thread id. */
  datatype Record = Record(time: string, pid: nat, tid: nat, priority: char, tag: string, text: string)

  // ---------------------------------------------------------------------------------------------
  // Greedy runs

  /** The end of the longest `\s` run starting at i. */
  function SkipSpace(s: string, i: nat): (j: nat)
    requires i <= |s|
    ensures i <= j <= |s|
    ensures forall k | i <= k < j :: IsSpace(s[k])
    ensures j == |s| || !IsSpace(s[j])
    decreases |s| - i
  {
    if i < |s| && IsSpace(s[i]) then SkipSpace(s, i + 1) else i
  }

  /** The end of the longest `\d` run starting at i. */
  function SkipDigits(s: string, i: nat): (j: nat)
    requires i <= |s|
    ensures i <= j <= |s|
    ensures forall k | i <= k < j :: IsDigit(s[k])
    ensures j == |s| || !IsDigit(s[j])
    decreases |s| - i
  {
    if i < |s| && IsDigit(s[i]) then SkipDigits(s, i + 1) else i
  }

  /** `\d+` from i followed by the character c; the position after c on success. */
  function DigitsThen(s: string, i: nat, c: char): (r: Option<nat>)
    requires i <= |s|
    ensures r.Some? ==> i + 1 < r.value <= |s|
  {
    var a := SkipDigits(s, i);
    if i < a < |s| && s[a] == c then Some(a + 1) else None
  }

  /** `\d+` from i, at least one digit; its end on success. */
  function Digits1(s: string, i: nat): (r: Option<nat>)
    requires i <= |s|
    ensures r.Some? ==> i < r.value <= |s|
  {
    var a := SkipDigits(s, i);
    if i < a then Some(a) else None
  }

  /** `\d+ - \d+` (the month-day field) starting at i; the end on success. */
  function DateEnd(s: string, i: nat): (r: Option<nat>)
    requires i <= |s|
    ensures r.Some? ==> i < r.value <= |s|
  {
    var a := DigitsThen(s, i, '-');
    if a.None? then None else Digits1(s, a.value)
  }

  /** `\d+ : \d+ : \d+ \. \d+` (the time field) starting at i; the end on success. */
  function TimeEnd(s: string, i: nat): (r: Option<nat>)
    requires i <= |s|
    ensures r.Some? ==> i < r.value <= |s|
  {
    var a := DigitsThen(s, i, ':');
    if a.None? then None else
    var b := DigitsThen(s, a.value, ':');
    if b.None? then None else
    var c := DigitsThen(s, b.value, '.');
    if c.None? then None else
    Digits1(s, c.value)
  }

  // ---------------------------------------------------------------------------------------------
  // The tag: `(?:[^ :\t][: ](?=[^ :\t])|[^ :\t])*`

  /** Whether the repetition can consume s[i] in a tag that starts at a: a tag character, or a single
      separator whose left neighbour (inside the tag) and right neighbour (the lookahead) are tag
      characters. */
  predicate TagCharOk(s: string, a: nat, i: nat)
    requires a <= i < |s|
  {
    || IsTagChar(s[i])
    || (IsTagSep(s[i]) && a < i && IsTagChar(s[i - 1]) && i + 1 < |s| && IsTagChar(s[i + 1]))
  }

  /** The end of the longest run the tag repetition can consume from a (it can stop anywhere in
      between, see TagDfs). */
  function TagReach(s: string, a: nat, i: nat): (e: nat)
    requires a <= i <= |s|
    ensures i <= e <= |s|
    ensures forall k | i <= k < e :: TagCharOk(s, a, k)
    ensures e == |s| || !TagCharOk(s, a, e)
    decreases |s| - i
  {
    if i < |s| && TagCharOk(s, a, i) then TagReach(s, a, i + 1) else i
  }

  // ---------------------------------------------------------------------------------------------
  // What may follow the tag

  datatype TailKind =
    | ColonTail  // `\s* :[ ]? (?P<text>.*)`                           (threadtime)
    | ParenTail  // `\s* \( \s* (?P<pid>\d+) \) :[ ]? (?P<text>.*)`    (brief, time)
    | SelfTail   // `\s{2} (?P<priority>[VDIWEF]) \s{2} (?P<text>.*)`  (self)

  /** The groups a tail captures; fields a kind does not capture are left at "" and ' '. */
  datatype Tail = Tail(pid: string, priority: char, text: string)

  /** `[ ]? (?P<text>.*)` up to the end of the line: `.` excludes a newline. Dropping the optional
      space cannot help when the rest holds a newline, so the first choice decides. */
  function RestText(s: string, i: nat): (r: Option<string>)
    requires i <= |s|
    ensures r.Some? ==> '\n' !in r.value
  {
    var t := if i < |s| && s[i] == ' ' then i + 1 else i;
    if '\n' in s[t..] then None else Some(s[t..])
  }

  function TailAt(k: TailKind, s: string, e: nat): (r: Option<Tail>)
    requires e <= |s|
    ensures r.Some? ==> '\n' !in r.value.text
    ensures r.Some? && k == ParenTail ==> r.value.pid != [] && IsDigits(r.value.pid)
    ensures r.Some? && k == SelfTail ==> IsPriority(r.value.priority)
  {
    match k
    case ColonTail =>
      var w := SkipSpace(s, e);
      if w < |s| && s[w] == ':' then
        match RestText(s, w + 1)
        case Some(text) => Some(Tail("", ' ', text))
        case None => None
      else None
    case ParenTail =>
      var w := SkipSpace(s, e);
      if w < |s| && s[w] == '(' then
        var d := SkipSpace(s, w + 1);
        var d' := SkipDigits(s, d);
        if d < d' && d' + 1 < |s| && s[d'] == ')' && s[d' + 1] == ':' then
          match RestText(s, d' + 2)
          case Some(text) => Some(Tail(s[d..d'], ' ', text))
          case None => None
        else None
      else None
    case SelfTail =>
      if e + 5 <= |s| && IsSpace(s[e]) && IsSpace(s[e + 1]) && IsPriority(s[e + 2])
         && IsSpace(s[e + 3]) && IsSpace(s[e + 4]) && '\n' !in s[e + 5..]
      then Some(Tail("", s[e + 2], s[e + 5..]))
      else None
  }

  /** The largest tag end in [a, e] whose tail matches, with that tail. */
  function LastTag(k: TailKind, s: string, a: nat, e: nat): (r: Option<(nat, Tail)>)
    requires a <= e <= |s|
    ensures r.Some? ==> a <= r.value.0 <= e && TailAt(k, s, r.value.0) == Some(r.value.1)
    ensures r.Some? ==> forall x | r.value.0 < x <= e :: TailAt(k, s, x).None?
    ensures r.None? ==> forall x | a <= x <= e :: TailAt(k, s, x).None?
    decreases e
  {
    match TailAt(k, s, e)
    case Some(t) => Some((e, t))
    case None => if e == a then None else LastTag(k, s, a, e - 1)
  }

  // ---------------------------------------------------------------------------------------------
  // The shape of captured tags

  /** A tag as the pattern allows it: no tab, no leading separator, and never two separators
      (`:` or space) in a row, so neither `": "` nor a run of spaces. */
  predicate IsTag(t: string) {
    && (forall i | 0 <= i < |t| :: t[i] != '\t')
    && (t != [] ==> !IsTagSep(t[0]))
    && (forall i | 0 <= i < |t| - 1 :: !IsTagSep(t[i]) || !IsTagSep(t[i + 1]))
  }

  /** Every endpoint the repetition can reach delimits a tag of that shape. */
  lemma TagWithinReach(s: string, a: nat, e: nat)
    requires a <= |s| && a <= e <= TagReach(s, a, a)
    ensures IsTag(s[a..e])
  {
    var t := s[a..e];
    forall i | 0 <= i < |t|
      ensures t[i] != '\t' && (i == 0 ==> !IsTagSep(t[i]))
      ensures i < |t| - 1 ==> !IsTagSep(t[i]) || !IsTagSep(t[i + 1])
    {
      assert TagCharOk(s, a, a + i);
      if i < |t| - 1 {
        assert TagCharOk(s, a, a + i + 1);
      }
    }
  }

  /** The tag does not end with `:` or a space. */
  predicate NoTrailingSep(t: string) {
    t == [] || !IsTagSep(t[|t| - 1])
  }

  /** Whitespace in front of a colon tail is absorbed by its `\s*`. */
  lemma ColonTailSkipsSpace(s: string, e: nat)
    requires e < |s|
    ensures IsSpace(s[e]) ==> TailAt(ColonTail, s, e) == TailAt(ColonTail, s, e + 1)
  {
    if IsSpace(s[e]) {
      assert SkipSpace(s, e) == SkipSpace(s, e + 1);
    }
  }

  /** Before a colon tail the chosen tag never ends with a separator: the character after a
      separator inside a tag is a tag character, hence not `:`, so it would have to be whitespace,
      and then the tail also matched one character later, an endpoint tried first. */
  lemma ColonTagEnd(s: string, a: nat)
    requires a <= |s| && LastTag(ColonTail, s, a, TagReach(s, a, a)).Some?
    ensures NoTrailingSep(s[a..LastTag(ColonTail, s, a, TagReach(s, a, a)).value.0])
  {
    var e := LastTag(ColonTail, s, a, TagReach(s, a, a)).value.0;
    if e != a {
      assert s[a..e][e - a - 1] == s[e - 1];
      assert TagCharOk(s, a, e - 1);
      if e < TagReach(s, a, a) {
        assert TailAt(ColonTail, s, e + 1).None?;
        ColonTailSkipsSpace(s, e);
      }
    }
  }

  /** A tag starting at a and the tail after it, as the engine finds them. */
  function TagAndTail(k: TailKind, s: string, a: nat): (r: Option<(nat, Tail)>)
    requires a <= |s|
    ensures r.Some? ==> a <= r.value.0 <= TagReach(s, a, a) && TailAt(k, s, r.value.0) == Some(r.value.1)
    ensures r.Some? ==> IsTag(s[a..r.value.0])
    ensures r.Some? && k == ColonTail ==> NoTrailingSep(s[a..r.value.0])
  {
    var r := LastTag(k, s, a, TagReach(s, a, a));
    if r.Some? then
      TagWithinReach(s, a, r.value.0);
      if k == ColonTail then
        ColonTagEnd(s, a);
        r
      else r
    else r
  }

  /** `\s+` from b followed by a tag and a tail, the whitespace run tried from a (its longest end)
      down to one character; gives the tag's start and end and the tail. */
  function SpacedTagAndTail(k: TailKind, s: string, b: nat, a: nat): (r: Option<(nat, nat, Tail)>)
    requires b < a <= |s|
    ensures r.Some? ==> b < r.value.0 <= a && r.value.0 <= r.value.1 <= TagReach(s, r.value.0, r.value.0)
    ensures r.Some? ==> TailAt(k, s, r.value.1) == Some(r.value.2)
    ensures r.Some? ==> IsTag(s[r.value.0..r.value.1])
    ensures r.Some? && k == ColonTail ==> NoTrailingSep(s[r.value.0..r.value.1])
    decreases a
  {
    var x := TagAndTail(k, s, a);
    if x.Some? then Some((a, x.value.0, x.value.1))
    else if a == b + 1 then None
    else SpacedTagAndTail(k, s, b, a - 1)
  }

  /** What every recognised line yields: a priority letter, a tag of the allowed shape, a text
      without a newline. */
  predicate WellFormed(r: Record) {
    IsPriority(r.priority) && IsTag(r.tag) && '\n' !in r.text
  }

  // ---------------------------------------------------------------------------------------------
  // The four layouts

  /** `\d+-\d+ \s+ {time} \s+`, the start shared by the threadtime and time layouts: the start and
      end of the time field and the end of the whitespace after it. */
  function DateTimeHead(s: string): (r: Option<(nat, nat, nat)>)
    ensures r.Some? ==> r.value.0 < r.value.1 < r.value.2 <= |s|
  {
    match DateEnd(s, 0)
    case None => None
    case Some(d) =>
      var t0 := SkipSpace(s, d);
      if t0 == d then None else
      match TimeEnd(s, t0)
      case None => None
      case Some(t1) =>
        var u := SkipSpace(s, t1);
        if u == t1 then None else Some((t0, t1, u))
  }

  /** `{pid} \s+ {tid} \s+ {priority} \s+` from p0 in the threadtime layout: the ends of the pid
      and of the whitespace after it, the end of the tid, and the position of the priority. */
  function ThreadtimeIds(s: string, p0: nat): (r: Option<(nat, nat, nat, nat)>)
    requires p0 <= |s|
    ensures r.Some? ==> p0 < r.value.0 < r.value.1 < r.value.2 < r.value.3 < |s|
    ensures r.Some? ==> IsDigits(s[p0..r.value.0]) && IsDigits(s[r.value.1..r.value.2])
    ensures r.Some? ==> IsPriority(s[r.value.3])
  {
    var p1 := SkipDigits(s, p0);
    var q0 := SkipSpace(s, p1);
    var q1 := SkipDigits(s, q0);
    var r0 := SkipSpace(s, q1);
    if p1 == p0 || q0 == p1 || q1 == q0 || r0 == q1 then None
    else if r0 == |s| || !IsPriority(s[r0]) then None
    else Some((p1, q0, q1, r0))
  }

  /** `\d+-\d+ \s+ {time} \s+ {pid} \s+ {tid} \s+ {priority} \s+ {tag} \s* :[ ]? {text}`,
      e.g. `08-19 23:41:39.347 10000 10023 V KOReader: HttpInspector: onCloseWidget`. */
  function MatchThreadtime(s: string): (r: Option<Record>)
    ensures r.Some? ==> WellFormed(r.value) && NoTrailingSep(r.value.tag)
  {
    var h := DateTimeHead(s);
    if h.None? then None else
    var ids := ThreadtimeIds(s, h.value.2);
    if ids.None? then None else
    var r0 := ids.value.3;
    var g := SkipSpace(s, r0 + 1);
    if g == r0 + 1 then None else
    var x := SpacedTagAndTail(ColonTail, s, r0 + 1, g);
    if x.None? then None else
    Some(Record(s[h.value.0..h.value.1], DigitsValue(s[h.value.2..ids.value.0]),
                DigitsValue(s[ids.value.1..ids.value.2]), s[r0], s[x.value.0..x.value.1], x.value.2.text))
  }

  /** `{priority} / {tag} \s* \( \s* {pid} \) :[ ]? {text}` from u, the part the brief and time
      layouts share; the time field is given, and the thread is the process. */
  function PriorityTag(s: string, time: string, u: nat): (r: Option<Record>)
    requires u <= |s|
    ensures r.Some? ==> WellFormed(r.value) && r.value.time == time && r.value.tid == r.value.pid
  {
    if u + 1 >= |s| || !IsPriority(s[u]) || s[u + 1] != '/' then None else TagPid(s, time, s[u], u + 2)
  }

  /** `{tag} \s* \( \s* {pid} \) :[ ]? {text}` from a, after the priority letter and the `/`. */
  function TagPid(s: string, time: string, priority: char, a: nat): (r: Option<Record>)
    requires a <= |s| && IsPriority(priority)
    ensures r.Some? ==> WellFormed(r.value) && r.value.time == time && r.value.tid == r.value.pid
  {
    var x := TagAndTail(ParenTail, s, a);
    if x.None? then None else
    var pid := DigitsValue(x.value.1.pid);
    Some(Record(time, pid, pid, priority, s[a..x.value.0], x.value.1.text))
  }

  /** `{priority} / {tag} \s* \( \s* {pid} \) :[ ]? {text}`, e.g. `V/KOReader(32615): onCloseWidget`. */
  function MatchBrief(s: string): (r: Option<Record>)
    ensures r.Some? ==> WellFormed(r.value) && r.value.time == ""
  {
    PriorityTag(s, "", 0)
  }

  /** `\d+-\d+ \s+ {time} \s+ {priority} / {tag} \s* \( \s* {pid} \) :[ ]? {text}`,
      e.g. `08-18 02:24:43.331 D/KOReader( 2686): ffi.load rt.so.1`. */
  function MatchTime(s: string): (r: Option<Record>)
    ensures r.Some? ==> WellFormed(r.value)
  {
    match DateTimeHead(s)
    case None => None
    case Some((t0, t1, r0)) => PriorityTag(s, s[t0..t1], r0)
  }

  /** `{pid} (?: : {tid} )? \s+` from p0 in the tool's own layout: the end of the pid, the end of
      the optional `:tid`, and the end of the whitespace after it. The optional group is tried
      first, and giving it up cannot help, since `\s+` cannot match at a `:`. */
  function SelfIds(s: string, p0: nat): (r: Option<(nat, nat, nat)>)
    requires p0 <= |s|
    ensures r.Some? ==> p0 < r.value.0 <= r.value.1 < r.value.2 <= |s|
    ensures r.Some? ==> IsDigits(s[p0..r.value.0])
    ensures r.Some? && r.value.0 < r.value.1 ==> r.value.0 + 1 < r.value.1 && IsDigits(s[r.value.0 + 1..r.value.1])
  {
    var p1 := SkipDigits(s, p0);
    if p1 == p0 then None else
    var n := if p1 < |s| && s[p1] == ':' && SkipDigits(s, p1 + 1) > p1 + 1 then SkipDigits(s, p1 + 1) else p1;
    var g := SkipSpace(s, n);
    if g == n then None else Some((p1, n, g))
  }

  /** `{time} \s+ {pid} (?: : {tid} )? \s+ {tag} \s{2} {priority} \s{2} {text}`, the tool's own
      output, e.g. `23:41:39.347 10000:10023            KOReader  V  HttpInspector: onCloseWidget`. */
  function MatchSelf(s: string): (r: Option<Record>)
    ensures r.Some? ==> WellFormed(r.value)
  {
    match TimeEnd(s, 0)
    case None => None
    case Some(t) =>
      var p0 := SkipSpace(s, t);
      if p0 == t then None else
      match SelfIds(s, p0)
      case None => None
      case Some((p1, n, g)) => SelfRest(s, t, p0, p1, n, g)
  }

  /** The tool's own layout after the ids: the time field is s[..t], the pid s[p0..p1], the tid
      s[p1 + 1..n] when p1 < n, and the whitespace before the tag ends at g. */
  function SelfRest(s: string, t: nat, p0: nat, p1: nat, n: nat, g: nat): (r: Option<Record>)
    requires t < p0 < p1 <= n < g <= |s|
    requires IsDigits(s[p0..p1]) && (p1 < n ==> p1 + 1 < n && IsDigits(s[p1 + 1..n]))
    ensures r.Some? ==> WellFormed(r.value)
  {
    var pid := DigitsValue(s[p0..p1]);
    var tid := if p1 < n then DigitsValue(s[p1 + 1..n]) else pid;
    var x := SpacedTagAndTail(SelfTail, s, n, g);
    if x.None? then None else
    Some(Record(s[..t], pid, tid, x.value.2.priority, s[x.value.0..x.value.1], x.value.2.text))
  }

  /** What each layout captures from the line, in the order the layouts are tried: threadtime,
      brief, time, then the tool's own layout. */
  function LayoutMatches(s: string): (ms: seq<Option<Record>>)
    ensures |ms| == 4
    ensures forall k | 0 <= k < |ms| :: ms[k].Some? ==> WellFormed(ms[k].value)
  {
    [MatchThreadtime(s), MatchBrief(s), MatchTime(s), MatchSelf(s)]
  }

  /** The position of the first success in ms with its value, as `_first_match` returns the
      first pattern of its list that matches. */
  function FirstSome<T>(ms: seq<Option<T>>): (r: Option<(nat, T)>)
    ensures r.None? <==> forall k | 0 <= k < |ms| :: ms[k].None?
    ensures r.Some? ==> r.value.0 < |ms| && ms[r.value.0] == Some(r.value.1)
    ensures r.Some? ==> forall j | 0 <= j < r.value.0 :: ms[j].None?
  {
    if ms == [] then None
    else if ms[0].Some? then Some((0, ms[0].value))
    else
      var r := FirstSome(ms[1..]);
      if r.None? then None else Some((r.value.0 + 1, r.value.1))
  }

  /** A line is recognised by the first layout that matches it entirely. */
  function ParseLine(s: string): (r: Option<Record>)
    ensures r.Some? ==> WellFormed(r.value)
  {
    var m := FirstSome(LayoutMatches(s));
    if m.Some? then Some(m.value.1) else None
  }

  // ---------------------------------------------------------------------------------------------
  // Raw input lines

  function StartsWith(s: string, prefix: string): bool
  {
    |prefix| <= |s| && s[..|prefix|] == prefix
  }

  /** `line.rstrip('\n')`: every trailing newline removed. */
  function RStripNewlines(s: string): (r: string)
    ensures r <= s && (r == [] || r[|r| - 1] != '\n')
    ensures forall i | |r| <= i < |s| :: s[i] == '\n'
  {
    if s != [] && s[|s| - 1] == '\n' then RStripNewlines(s[..|s| - 1]) else s
  }

  const BeginningMarker := "--------- beginning of "

  /** What the input loop does with one raw line. */
  datatype LineKind = Skipped | Parsed(rec: Record) | Unrecognised(line: string)

  function ClassifyLine(raw: string): (k: LineKind)
    ensures k.Skipped? <==> StartsWith(raw, BeginningMarker) || RStripNewlines(raw) == []
    ensures k.Unrecognised? ==> k.line == RStripNewlines(raw) && ParseLine(k.line).None?
    ensures k.Parsed? ==> Some(k.rec) == ParseLine(RStripNewlines(raw))
  {
    if StartsWith(raw, BeginningMarker) then Skipped
    else
      var line := RStripNewlines(raw);
      if line == [] then Skipped
      else
        match ParseLine(line)
        case Some(r) => Parsed(r)
        case None => Unrecognised(line)
  }
}

=== FILE: logcat_parse_props.dfy ===
/**
 * Properties of the line recognisers: the order in which the tag's repetition tries its endpoints,
 * the shape of every tag that can be captured, and a recognised brief line.
 */
module LogcatParseProps {
  import opened Wrappers
  import opened Decimal
  import opened LogcatParse

  // ---------------------------------------------------------------------------------------------
  // The engine's exploration order for `(?:[^ :\t][: ](?=[^ :\t])|[^ :\t])*`

  /** The first alternative can be taken at i: a tag character, a separator, and a tag character
      ahead (the lookahead). */
  predicate PairAt(s: string, i: nat) {
    i + 2 < |s| && IsTagChar(s[i]) && IsTagSep(s[i + 1]) && IsTagChar(s[i + 2])
  }

  /** The second alternative can be taken at i. */
  predicate SingleAt(s: string, i: nat) {
    i < |s| && IsTagChar(s[i])
  }

  /** The endpoints a backtracking engine offers to the rest of the pattern for the greedy
      repetition resumed at i, in the order it offers them: one more iteration first (the first
      alternative before the second), giving up the iteration last. */
  function TagDfs(s: string, i: nat): seq<nat>
    requires i <= |s|
    decreases |s| - i
  {
    (if PairAt(s, i) then TagDfs(s, i + 2) else [])
    + (if SingleAt(s, i) then TagDfs(s, i + 1) else [])
    + [i]
  }

  /** hi, hi - 1, ..., lo. */
  function Descending(hi: nat, lo: nat): (r: seq<nat>)
    requires lo <= hi
    ensures |r| == hi - lo + 1
    ensures forall k | 0 <= k < |r| :: r[k] == hi - k
    decreases hi - lo
  {
    if hi == lo then [lo] else [hi] + Descending(hi - 1, lo)
  }

  lemma DescendingSnoc(hi: nat, lo: nat)
    requires lo < hi
    ensures Descending(hi, lo + 1) + [lo] == Descending(hi, lo)
  {
  }

  /** From every iteration start the engine offers exactly the endpoints from the longest possible
      one down to the start itself, each once. The requirement says that i was not reached by the
      second alternative just before a separator the first alternative could have consumed. */
  lemma {:induction false} TagDfsDescending(s: string, a: nat, i: nat)
    requires a <= i <= |s|
    requires i < |s| ==> (TagCharOk(s, a, i) <==> IsTagChar(s[i]))
    ensures TagDfs(s, i) == Descending(TagReach(s, a, i), i)
    decreases |s| - i
  {
    if PairAt(s, i) {
      assert TagCharOk(s, a, i) && TagCharOk(s, a, i + 1);
      assert TagReach(s, a, i) == TagReach(s, a, i + 2);
      TagDfsDescending(s, a, i + 2);
      assert TagDfs(s, i + 1) == [i + 1];
      DescendingSnoc(TagReach(s, a, i), i + 1);
      DescendingSnoc(TagReach(s, a, i), i);
    } else if SingleAt(s, i) {
      assert TagReach(s, a, i) == TagReach(s, a, i + 1);
      TagDfsDescending(s, a, i + 1);
      DescendingSnoc(TagReach(s, a, i), i);
    } else {
      assert TagReach(s, a, i) == i;
    }
  }

  /** The first endpoint in the order es whose continuation matches. */
  function FirstTail(k: TailKind, s: string, es: seq<nat>): Option<(nat, Tail)>
  {
    if es == [] then None
    else if es[0] <= |s| && TailAt(k, s, es[0]).Some? then Some((es[0], TailAt(k, s, es[0]).value))
    else FirstTail(k, s, es[1..])
  }

  /** The recogniser's backwards scan for a tail tries the endpoints e, e - 1, ..., a in turn. */
  lemma {:induction false} LastTagIsFirstDescending(k: TailKind, s: string, a: nat, e: nat)
    requires a <= e <= |s|
    ensures LastTag(k, s, a, e) == FirstTail(k, s, Descending(e, a))
    decreases e
  {
    if a < e {
      LastTagIsFirstDescending(k, s, a, e - 1);
      LastTagStep(k, s, a, e);
    } else {
      LastTagAtStart(k, s, e);
    }
  }

  lemma LastTagAtStart(k: TailKind, s: string, a: nat)
    requires a <= |s|
    ensures LastTag(k, s, a, a) == FirstTail(k, s, Descending(a, a))
  {
    if TailAt(k, s, a).Some? {
      LastTagHit(k, s, a, a);
    } else {
      LastTagMissAtStart(k, s, a);
    }
  }

  lemma LastTagStep(k: TailKind, s: string, a: nat, e: nat)
    requires a < e <= |s| && LastTag(k, s, a, e - 1) == FirstTail(k, s, Descending(e - 1, a))
    ensures LastTag(k, s, a, e) == FirstTail(k, s, Descending(e, a))
  {
    if TailAt(k, s, e).Some? {
      LastTagHit(k, s, a, e);
    } else {
      LastTagMissStep(k, s, a, e);
    }
  }

  lemma LastTagHit(k: TailKind, s: string, a: nat, e: nat)
    requires a <= e <= |s| && TailAt(k, s, e).Some?
    ensures LastTag(k, s, a, e) == FirstTail(k, s, Descending(e, a))
  {
    var d := Descending(e, a);
    assert d[0] == e;
  }

  lemma LastTagMissAtStart(k: TailKind, s: string, a: nat)
    requires a <= |s| && TailAt(k, s, a).None?
    ensures LastTag(k, s, a, a) == FirstTail(k, s, Descending(a, a))
  {
    var d := Descending(a, a);
    assert d[1..] == [];
  }

  lemma LastTagMissStep(k: TailKind, s: string, a: nat, e: nat)
    requires a < e <= |s| && TailAt(k, s, e).None?
    requires LastTag(k, s, a, e - 1) == FirstTail(k, s, Descending(e - 1, a))
    ensures LastTag(k, s, a, e) == FirstTail(k, s, Descending(e, a))
  {
    DescendingFirst(e, a);
    FirstTailSkips(k, s, Descending(e, a));
    LastTagSkips(k, s, a, e);
  }

  lemma DescendingFirst(hi: nat, lo: nat)
    requires lo < hi
    ensures Descending(hi, lo)[0] == hi && Descending(hi, lo)[1..] == Descending(hi - 1, lo)
  {
  }

  lemma FirstTailSkips(k: TailKind, s: string, es: seq<nat>)
    requires es != [] && es[0] <= |s| && TailAt(k, s, es[0]).None?
    ensures FirstTail(k, s, es) == FirstTail(k, s, es[1..])
  {
  }

  lemma LastTagSkips(k: TailKind, s: string, a: nat, e: nat)
    requires a < e <= |s| && TailAt(k, s, e).None?
    ensures LastTag(k, s, a, e) == LastTag(k, s, a, e - 1)
  {
  }

  /** The tag the recogniser picks is the one a backtracking engine settles on: the first endpoint,
      in the engine's order, after which the rest of the line matches. */
  lemma TagAndTailIsEngineChoice(k: TailKind, s: string, a: nat)
    requires a <= |s|
    ensures TagAndTail(k, s, a) == FirstTail(k, s, TagDfs(s, a))
  {
    TagDfsDescending(s, a, a);
    LastTagIsFirstDescending(k, s, a, TagReach(s, a, a));
  }

  /** In the brief and time layouts, on the other hand, a tag can end with a space: the character
      after it is `(`, a tag character, and no longer tag is followed by `\s*\(`. */
  lemma BriefTagMayEndWithSpace()
    ensures ParseLine("V/a (1): x") == Some(Record("", 1, 1, 'V', "a ", "x"))
  {
    var s := "V/a (1): x";
    assert SkipDigits(s, 0) == 0;
    assert DateTimeHead(s).None?;
    BriefExample(s);
    assert LayoutMatches(s)[1] == Some(Record("", 1, 1, 'V', "a ", "x"));
  }

  lemma BriefExample(s: string)
    requires s == "V/a (1): x"
    ensures MatchBrief(s) == Some(Record("", 1, 1, 'V', "a ", "x"))
  {
    BriefExampleTails(s);
    assert LastTag(ParenTail, s, 2, 7) == Some((4, Tail("1", ' ', "x")));
    assert s[2..4] == "a ";
    assert DigitsValue("1") == 1;
  }

  /** Where the example's tag may end, and the tail found at each of those ends. */
  lemma BriefExampleTails(s: string)
    requires s == "V/a (1): x"
    ensures TagReach(s, 2, 2) == 7
    ensures TailAt(ParenTail, s, 7).None? && TailAt(ParenTail, s, 6).None? && TailAt(ParenTail, s, 5).None?
    ensures TailAt(ParenTail, s, 4) == Some(Tail("1", ' ', "x"))
  {
    assert TagReach(s, 2, 7) == 7;
    assert SkipSpace(s, 7) == 7 && SkipSpace(s, 6) == 6 && SkipSpace(s, 5) == 5 && SkipSpace(s, 4) == 4;
    assert SkipDigits(s, 5) == 6;
    assert RestText(s, 8) == Some("x");
    assert s[5..6] == "1";
  }
}

=== FILE: logcat_round_trip.dfy ===
/**
 * Round trips through the brief, time and self layouts: a line written in a layout from a record
 * whose fields that layout can carry is recognised as that very record, and by the line parser as
 * a whole (the layouts tried before it do not match). The self layout is the tool's own output
 * line, written without colour.
 */
module LogcatRoundTrip {
  import opened Wrappers
  import opened Decimal
  import opened LogcatParse
  import opened LogcatFormat

  // ---------------------------------------------------------------------------------------------
  // Reading known pieces back

  /** A non-empty run of decimal digits, as `\d+` captures it. */
  predicate Numeral(w: string) { w != [] && IsDigits(w) }

  predicate AllSpace(w: string) { forall k | 0 <= k < |w| :: IsSpace(w[k]) }

  /** s holds w from position i. */
  predicate At(s: string, i: nat, w: string) { i + |w| <= |s| && Holds(s, i, w) }

  /** The characters of w match those of s from i, one at a time. */
  predicate Holds(s: string, i: nat, w: string)
    decreases |w|
  {
    w == [] || (i < |s| && s[i] == w[0] && Holds(s, i + 1, w[1..]))
  }

  lemma {:induction false} AtSuffix(s: string, i: nat)
    requires i <= |s|
    ensures At(s, i, s[i..])
    decreases |s| - i
  {
    if i < |s| {
      assert s[i..][1..] == s[i + 1..];
      AtSuffix(s, i + 1);
    }
  }

  lemma {:induction false} AtParts(s: string, i: nat, u: string, v: string)
    requires At(s, i, u + v)
    ensures At(s, i, u) && At(s, i + |u|, v)
    decreases |u|
  {
    if u == [] {
      assert u + v == v;
    } else {
      assert (u + v)[0] == u[0] && (u + v)[1..] == u[1..] + v;
      AtParts(s, i + 1, u[1..], v);
    }
  }

  lemma {:induction false} AtJoin(s: string, i: nat, u: string, v: string)
    requires At(s, i, u) && At(s, i + |u|, v)
    ensures At(s, i, u + v)
    decreases |u|
  {
    if u == [] {
      assert u + v == v;
    } else {
      assert (u + v)[0] == u[0] && (u + v)[1..] == u[1..] + v;
      AtJoin(s, i + 1, u[1..], v);
    }
  }

  lemma {:induction false} AtChar(s: string, i: nat, w: string, k: nat)
    requires At(s, i, w) && k < |w|
    ensures s[i + k] == w[k]
    decreases k
  {
    if k > 0 {
      AtChar(s, i + 1, w[1..], k - 1);
    }
  }

  lemma {:induction false} AtSlice(s: string, i: nat, w: string)
    requires At(s, i, w)
    ensures s[i..i + |w|] == w
    decreases |w|
  {
    if w != [] {
      AtSlice(s, i + 1, w[1..]);
      assert s[i..i + |w|] == [s[i]] + s[i + 1..i + |w|];
    }
  }

  lemma AtEnd(s: string, i: nat, w: string)
    requires At(s, i, w) && i + |w| == |s|
    ensures s[i..] == w
  {
    AtSlice(s, i, w);
  }

  /** A digit run followed by a non-digit is skipped exactly. */
  lemma DigitsAt(s: string, i: nat, w: string)
    requires At(s, i, w) && IsDigits(w) && (i + |w| == |s| || !IsDigit(s[i + |w|]))
    ensures SkipDigits(s, i) == i + |w|
  {
    forall k | i <= k < i + |w|
      ensures IsDigit(s[k])
    {
      AtChar(s, i, w, k - i);
    }
  }

  /** A whitespace run followed by a non-space is skipped exactly. */
  lemma SpaceAt(s: string, i: nat, w: string)
    requires At(s, i, w) && AllSpace(w) && (i + |w| == |s| || !IsSpace(s[i + |w|]))
    ensures SkipSpace(s, i) == i + |w|
  {
    forall k | i <= k < i + |w|
      ensures IsSpace(s[k])
    {
      AtChar(s, i, w, k - i);
    }
  }

  /** A time stamp `\d+:\d+:\d+\.\d+` from its four numerals. */
  function TimeText(h: string, m: string, sec: string, frac: string): string
  {
    h + ":" + m + ":" + sec + "." + frac
  }

  predicate TimeParts(h: string, m: string, sec: string, frac: string) {
    Numeral(h) && Numeral(m) && Numeral(sec) && Numeral(frac)
  }

  /** `\d+` then c, where the digits are w. */
  lemma DigitsThenAt(s: string, i: nat, w: string, c: char)
    requires At(s, i, w) && At(s, i + |w|, [c]) && Numeral(w) && !IsDigit(c)
    ensures DigitsThen(s, i, c) == Some(i + |w| + 1)
  {
    AtChar(s, i + |w|, [c], 0);
    DigitsAt(s, i, w);
  }

  /** A time stamp laid out at i, piece by piece. */
  lemma TimePieces(s: string, i: nat, h: string, m: string, sec: string, frac: string)
    requires At(s, i, TimeText(h, m, sec, frac))
    ensures At(s, i, h) && At(s, i + |h|, ":") && At(s, i + |h| + 1, m) && At(s, i + |h| + |m| + 1, ":")
    ensures At(s, i + |h| + |m| + 2, sec) && At(s, i + |h| + |m| + |sec| + 2, ".")
    ensures At(s, i + |h| + |m| + |sec| + 3, frac)
  {
    AtParts(s, i, h + ":" + m + ":" + sec + ".", frac);
    AtParts(s, i, h + ":" + m + ":" + sec, ".");
    AtParts(s, i, h + ":" + m + ":", sec);
    AtParts(s, i, h + ":" + m, ":");
    AtParts(s, i, h + ":", m);
    AtParts(s, i, h, ":");
  }

  /** `\d+` to the end of a digit run, where the digits are w. */
  lemma Digits1At(s: string, i: nat, w: string)
    requires At(s, i, w) && Numeral(w) && (i + |w| == |s| || !IsDigit(s[i + |w|]))
    ensures Digits1(s, i) == Some(i + |w|)
  {
    DigitsAt(s, i, w);
  }

  /** The time field from the ends of its four numerals. */
  lemma TimeFrom(s: string, i: nat, a: nat, b: nat, c: nat, e: nat)
    requires i <= |s| && DigitsThen(s, i, ':') == Some(a) && DigitsThen(s, a, ':') == Some(b)
    requires DigitsThen(s, b, '.') == Some(c) && Digits1(s, c) == Some(e)
    ensures TimeEnd(s, i) == Some(e)
  {
  }

  /** The time field is recognised up to its end when a non-digit follows it. */
  lemma TimeAt(s: string, i: nat, h: string, m: string, sec: string, frac: string)
    requires TimeParts(h, m, sec, frac) && At(s, i, TimeText(h, m, sec, frac))
    requires var e := i + |TimeText(h, m, sec, frac)|; e == |s| || !IsDigit(s[e])
    ensures TimeEnd(s, i) == Some(i + |TimeText(h, m, sec, frac)|)
  {
    TimePieces(s, i, h, m, sec, frac);
    var a := i + |h| + 1;
    var b := a + |m| + 1;
    var c := b + |sec| + 1;
    DigitsThenAt(s, i, h, ':');
    DigitsThenAt(s, a, m, ':');
    DigitsThenAt(s, b, sec, '.');
    Digits1At(s, c, frac);
    TimeFrom(s, i, a, b, c, c + |frac|);
  }

  // ---------------------------------------------------------------------------------------------
  // The tag and its tails

  /** Every character of a tag of the allowed shape can be consumed by the tag repetition, when a
      trailing separator is followed by a tag character. */
  lemma TagRun(s: string, a: nat, tag: string)
    requires At(s, a, tag) && IsTag(tag)
    requires !NoTrailingSep(tag) ==> a + |tag| < |s| && IsTagChar(s[a + |tag|])
    ensures forall k | a <= k < a + |tag| :: TagCharOk(s, a, k)
  {
    forall k | a <= k < a + |tag|
      ensures TagCharOk(s, a, k)
    {
      AtChar(s, a, tag, k - a);
      if a < k {
        AtChar(s, a, tag, k - 1 - a);
      }
      if k + 1 < a + |tag| {
        AtChar(s, a, tag, k + 1 - a);
      }
    }
  }

  /** The repetition's reach from a is e when everything before e can be consumed and e cannot. */
  lemma ReachIs(s: string, a: nat, e: nat)
    requires a <= e <= |s|
    requires forall k | a <= k < e :: TagCharOk(s, a, k)
    requires e == |s| || !TagCharOk(s, a, e)
    ensures TagReach(s, a, a) == e
  {
  }

  /** The engine's choice is pinned by a matching tail at e0 and none beyond it up to the reach. */
  lemma LastTagPin(k: TailKind, s: string, a: nat, e0: nat, r: nat)
    requires a <= e0 <= r <= |s| && TailAt(k, s, e0).Some?
    requires forall x | e0 < x <= r :: TailAt(k, s, x).None?
    ensures LastTag(k, s, a, r) == Some((e0, TailAt(k, s, e0).value))
  {
  }

  /** `\s* \( \s* {pid} \) :[ ]? {text}` written without optional blanks. */
  lemma ParenTailHit(s: string, e: nat, p: string, text: string)
    requires Numeral(p) && '\n' !in text
    requires At(s, e, "(" + p + "): " + text) && e + |"(" + p + "): " + text| == |s|
    ensures TailAt(ParenTail, s, e) == Some(Tail(p, ' ', text))
  {
    AtParts(s, e, "(" + p + "): ", text);
    AtParts(s, e, "(" + p, "): ");
    AtParts(s, e, "(", p);
    AtChar(s, e, "(", 0);
    var c := e + 1 + |p|;
    AtChar(s, c, "): ", 0);
    AtChar(s, c, "): ", 1);
    AtChar(s, c, "): ", 2);
    AtChar(s, e + 1, p, 0);
    AtSlice(s, e + 1, p);
    SpaceAt(s, e, "");
    SpaceAt(s, e + 1, "");
    DigitsAt(s, e + 1, p);
    AtEnd(s, c + 3, text);
  }

  /** No paren tail starts at a character that is neither whitespace nor `(`. */
  lemma ParenTailMiss(s: string, x: nat)
    requires x < |s| && !IsSpace(s[x]) && s[x] != '('
    ensures TailAt(ParenTail, s, x).None?
  {
    SpaceAt(s, x, "");
  }

  /** The brief and time layouts' `{tag} \( {pid} \): {text}` from a. */
  predicate ParenLine(s: string, a: nat, tag: string, p: string, text: string) {
    && At(s, a, tag + "(" + p + "): " + text) && a + |tag + "(" + p + "): " + text| == |s|
  }

  /** `( {pid} ): ` at e: every character up to the `:` is a tag character, and none after the
      `(` is whitespace or `(`. */
  lemma PidGroup(s: string, e: nat, p: string)
    requires Numeral(p) && At(s, e, "(" + p + "): ")
    ensures var c := e + |p| + 2;
      && s[c] == ':' && s[c + 1] == ' '
      && (forall x | e <= x < c :: IsTagChar(s[x]))
      && (forall x | e < x <= c :: !IsSpace(s[x]) && s[x] != '(')
  {
    var c := e + |p| + 2;
    AtParts(s, e, "(" + p, "): ");
    AtParts(s, e, "(", p);
    AtChar(s, e, "(", 0);
    AtChar(s, c - 1, "): ", 0);
    AtChar(s, c - 1, "): ", 1);
    AtChar(s, c - 1, "): ", 2);
    forall x | e < x < c - 1
      ensures IsDigit(s[x])
    {
      AtChar(s, e + 1, p, x - e - 1);
    }
  }

  /** The repetition runs over the tag, the `(`, the pid and the `)`, and stops at the `:` whose
      right neighbour is a blank. */
  lemma ParenReach(s: string, a: nat, tag: string, p: string, text: string)
    requires IsTag(tag) && Numeral(p) && ParenLine(s, a, tag, p, text)
    ensures var c := a + |tag| + |p| + 2;
      && c < |s| && TagReach(s, a, a) == c
      && forall x | a + |tag| < x <= c :: !IsSpace(s[x]) && s[x] != '('
  {
    var e0 := a + |tag|;
    var c := e0 + |p| + 2;
    AtParts(s, a, tag + "(" + p + "): ", text);
    assert At(s, a, tag + ("(" + p + "): ")) by {
      assert tag + "(" + p + "): " == tag + ("(" + p + "): ");
    }
    AtParts(s, a, tag, "(" + p + "): ");
    PidGroup(s, e0, p);
    AtChar(s, e0, "(" + p + "): ", 0);
    TagRun(s, a, tag);
    assert forall k | e0 <= k < c :: TagCharOk(s, a, k);
    ReachIs(s, a, c);
  }

  /** The engine settles on exactly the written tag, since no longer tag is followed by `(`. */
  lemma ParenTagAt(s: string, a: nat, tag: string, p: string, text: string)
    requires IsTag(tag) && Numeral(p) && '\n' !in text && ParenLine(s, a, tag, p, text)
    ensures TagAndTail(ParenTail, s, a) == Some((a + |tag|, Tail(p, ' ', text)))
    ensures s[a..a + |tag|] == tag
  {
    var e0 := a + |tag|;
    var c := e0 + |p| + 2;
    ParenReach(s, a, tag, p, text);
    assert At(s, a, tag + ("(" + p + "): " + text)) by {
      assert tag + "(" + p + "): " + text == tag + ("(" + p + "): " + text);
    }
    AtParts(s, a, tag, "(" + p + "): " + text);
    AtSlice(s, a, tag);
    ParenTailHit(s, e0, p, text);
    forall x | e0 < x <= c
      ensures TailAt(ParenTail, s, x).None?
    {
      ParenTailMiss(s, x);
    }
    LastTagPin(ParenTail, s, a, e0, c);
  }

  /** `{tag}({pid}): {text}` after the priority letter is the record, whatever its time. */
  lemma TagPidAt(s: string, a: nat, rec: Record)
    requires WellFormed(rec) && rec.tid == rec.pid && ParenLine(s, a, rec.tag, NatToString(rec.pid), rec.text)
    ensures TagPid(s, rec.time, rec.priority, a) == Some(rec)
  {
    TagDigitsAt(s, a, rec, NatToString(rec.pid));
  }

  /** The same, with the pid written as any digit string w that reads as it. */
  lemma TagDigitsAt(s: string, a: nat, rec: Record, w: string)
    requires WellFormed(rec) && rec.tid == rec.pid && Numeral(w) && DigitsValue(w) == rec.pid
    requires ParenLine(s, a, rec.tag, w, rec.text)
    ensures TagPid(s, rec.time, rec.priority, a) == Some(rec)
  {
    ParenTagAt(s, a, rec.tag, w, rec.text);
  }

  /** `P/{tag}({pid}): {text}` from u, the part the brief and time layouts share, is the record. */
  lemma PriorityTagAt(s: string, u: nat, a: nat, rec: Record)
    requires WellFormed(rec) && rec.tid == rec.pid && a == u + 2 && At(s, u, [rec.priority, '/'])
    requires ParenLine(s, a, rec.tag, NatToString(rec.pid), rec.text)
    ensures PriorityTag(s, rec.time, u) == Some(rec)
  {
    AtChar(s, u, [rec.priority, '/'], 0);
    AtChar(s, u, [rec.priority, '/'], 1);
    PriorityThen(s, rec.time, u);
    TagPidAt(s, a, rec);
  }

  lemma PriorityThen(s: string, time: string, u: nat)
    requires u + 1 < |s| && IsPriority(s[u]) && s[u + 1] == '/'
    ensures PriorityTag(s, time, u) == TagPid(s, time, s[u], u + 2)
  {
  }

  // ---------------------------------------------------------------------------------------------
  // Which layout a line falls to

  /** The threadtime and time layouts start with a digit. */
  lemma NoDateHead(s: string)
    requires s == [] || !IsDigit(s[0])
    ensures DateTimeHead(s).None? && MatchThreadtime(s).None? && MatchTime(s).None?
  {
    assert SkipDigits(s, 0) == 0;
  }

  /** The threadtime layout wants a pid after the time. */
  lemma NoThreadtimePid(s: string)
    requires DateTimeHead(s).Some?
    requires var u := DateTimeHead(s).value.2; u < |s| && !IsDigit(s[u])
    ensures MatchThreadtime(s).None?
  {
    assert SkipDigits(s, DateTimeHead(s).value.2) == DateTimeHead(s).value.2;
  }

  /** The brief layout wants a priority letter first. */
  lemma NoBriefPriority(s: string)
    requires s != [] && IsDigit(s[0])
    ensures MatchBrief(s).None?
  {
  }

  lemma FirstOfFour<T>(a: Option<T>, b: Option<T>, c: Option<T>, d: Option<T>)
    ensures var r := FirstSome([a, b, c, d]);
      r.Some? <==> a.Some? || b.Some? || c.Some? || d.Some?
    ensures var r := FirstSome([a, b, c, d]);
      r.Some? ==> r.value.1 == (if a.Some? then a else if b.Some? then b else if c.Some? then c else d).value
  {
    var ms := [a, b, c, d];
    assert ms[0] == a && ms[1] == b && ms[2] == c && ms[3] == d;
    var r := FirstSome(ms);
    if r.Some? {
      var k := r.value.0;
      assert k == 0 || k == 1 || k == 2 || k == 3;
    }
  }

  /** The line parser gives what the first matching layout gives. */
  lemma ParseFirst(s: string)
    ensures ParseLine(s) == if MatchThreadtime(s).Some? then MatchThreadtime(s)
      else if MatchBrief(s).Some? then MatchBrief(s)
      else if MatchTime(s).Some? then MatchTime(s)
      else MatchSelf(s)
  {
    FirstOfFour(MatchThreadtime(s), MatchBrief(s), MatchTime(s), MatchSelf(s));
  }

  // ---------------------------------------------------------------------------------------------
  // Brief

  /** A brief line, `P/tag(pid): text`. */
  function BriefLine(rec: Record): string
  {
    [rec.priority, '/'] + (rec.tag + "(" + NatToString(rec.pid) + "): " + rec.text)
  }

  /** A record of the brief layout: no time, the thread is the process. */
  predicate BriefRecord(rec: Record) {
    WellFormed(rec) && rec.time == "" && rec.tid == rec.pid
  }

  /** Every brief record comes back from its brief line, and the line parser finds it too. */
  lemma BriefRoundTrip(rec: Record)
    requires BriefRecord(rec)
    ensures MatchBrief(BriefLine(rec)) == Some(rec)
    ensures ParseLine(BriefLine(rec)) == Some(rec)
  {
    var s := BriefLine(rec);
    var p := NatToString(rec.pid);
    var rest := rec.tag + "(" + p + "): " + rec.text;
    AtSuffix(s, 0);
    assert s[0..] == s;
    AtParts(s, 0, [rec.priority, '/'], rest);
    PriorityTagAt(s, 0, 2, rec);
    // The threadtime layout wants a date where the priority letter stands.
    NoDateHead(s);
    ParseFirst(s);
  }

  // ---------------------------------------------------------------------------------------------
  // Time

  /** A time line, `MM-DD time P/tag(pid): text`, the date given by its two numerals. */
  function TimeLine(month: string, day: string, rec: Record): string
  {
    month + "-" + day + " " + rec.time + " " + [rec.priority, '/'] + (rec.tag + "(" + NatToString(rec.pid) + "): " + rec.text)
  }

  /** A record of the time layout: a time stamp, the thread is the process. */
  predicate TimeRecord(rec: Record, h: string, m: string, sec: string, frac: string) {
    WellFormed(rec) && rec.tid == rec.pid && rec.time == TimeText(h, m, sec, frac) && TimeParts(h, m, sec, frac)
  }

  /** The month-day field `\d+-\d+` at the start of a line, followed by a non-digit. */
  lemma DateAt(s: string, month: string, day: string)
    requires Numeral(month) && Numeral(day) && At(s, 0, month + "-" + day)
    requires var d := |month| + 1 + |day|; d == |s| || !IsDigit(s[d])
    ensures DateEnd(s, 0) == Some(|month| + 1 + |day|)
  {
    AtParts(s, 0, month + "-", day);
    AtParts(s, 0, month, "-");
    DigitsThenAt(s, 0, month, '-');
    DigitsAt(s, |month| + 1, day);
  }

  lemma TimeHeadThen(s: string, t0: nat, t1: nat, u: nat)
    requires DateTimeHead(s) == Some((t0, t1, u))
    ensures MatchTime(s) == PriorityTag(s, s[t0..t1], u)
  {
  }

  /** The head `\d+-\d+ \s+ {time} \s+` from its parts. */
  lemma HeadOf(s: string, d: nat, t0: nat, t1: nat, u: nat)
    requires DateEnd(s, 0) == Some(d) && d < t0 <= |s| && SkipSpace(s, d) == t0
    requires TimeEnd(s, t0) == Some(t1) && t1 < u <= |s| && SkipSpace(s, t1) == u
    ensures DateTimeHead(s) == Some((t0, t1, u))
  {
  }

  /** The head `{date} {time} ` of a time line, piece by piece. */
  lemma HeadPieces(s: string, month: string, day: string, time: string)
    requires At(s, 0, month + "-" + day + " " + time + " ")
    ensures At(s, 0, month + "-" + day) && At(s, |month| + |day| + 1, " ")
    ensures At(s, |month| + |day| + 2, time) && At(s, |month| + |day| + |time| + 2, " ")
  {
    AtParts(s, 0, month + "-" + day + " " + time, " ");
    AtParts(s, 0, month + "-" + day + " ", time);
    AtParts(s, 0, month + "-" + day, " ");
  }

  /** The date field and the blank after it, when a time follows. */
  lemma DateSpaceAt(s: string, month: string, day: string, time: string)
    requires Numeral(month) && Numeral(day) && time != [] && !IsSpace(time[0])
    requires At(s, 0, month + "-" + day) && At(s, |month| + |day| + 1, " ") && At(s, |month| + |day| + 2, time)
    ensures DateEnd(s, 0) == Some(|month| + |day| + 1) && SkipSpace(s, |month| + |day| + 1) == |month| + |day| + 2
  {
    var d := |month| + |day| + 1;
    AtChar(s, d, " ", 0);
    AtChar(s, d + 1, time, 0);
    DateAt(s, month, day);
    SpaceAt(s, d, " ");
  }

  /** The time field and the one blank after it, when a non-blank follows. */
  lemma TimeSpaceAt(s: string, t0: nat, h: string, m: string, sec: string, frac: string)
    requires TimeParts(h, m, sec, frac) && At(s, t0, TimeText(h, m, sec, frac))
    requires var t1 := t0 + |TimeText(h, m, sec, frac)|; At(s, t1, " ") && t1 + 1 < |s| && !IsSpace(s[t1 + 1])
    ensures var t1 := t0 + |TimeText(h, m, sec, frac)|; TimeEnd(s, t0) == Some(t1) && SkipSpace(s, t1) == t1 + 1
    ensures s[t0..t0 + |TimeText(h, m, sec, frac)|] == TimeText(h, m, sec, frac)
  {
    var t1 := t0 + |TimeText(h, m, sec, frac)|;
    AtChar(s, t1, " ", 0);
    TimeAt(s, t0, h, m, sec, frac);
    SpaceAt(s, t1, " ");
    AtSlice(s, t0, TimeText(h, m, sec, frac));
  }

  /** The date and time at the head of a line, followed by one blank and a non-blank. */
  lemma DateTimeAt(s: string, month: string, day: string, h: string, m: string, sec: string, frac: string, t0: nat, t1: nat)
    requires Numeral(month) && Numeral(day) && TimeParts(h, m, sec, frac)
    requires t0 == |month| + |day| + 2 && t1 == t0 + |TimeText(h, m, sec, frac)|
    requires At(s, 0, month + "-" + day + " " + TimeText(h, m, sec, frac) + " ")
    requires t1 + 1 < |s| && !IsSpace(s[t1 + 1])
    ensures DateEnd(s, 0) == Some(t0 - 1) && SkipSpace(s, t0 - 1) == t0
    ensures TimeEnd(s, t0) == Some(t1) && SkipSpace(s, t1) == t1 + 1
    ensures s[t0..t1] == TimeText(h, m, sec, frac)
  {
    var time := TimeText(h, m, sec, frac);
    HeadPieces(s, month, day, time);
    assert time[0] == h[0];
    DateSpaceAt(s, month, day, time);
    TimeSpaceAt(s, t0, h, m, sec, frac);
  }

  /** The head `{date} {time} ` of a time line is recognised, with the time field in place. */
  lemma HeadAt(s: string, month: string, day: string, h: string, m: string, sec: string, frac: string, t0: nat, t1: nat)
    requires Numeral(month) && Numeral(day) && TimeParts(h, m, sec, frac)
    requires t0 == |month| + |day| + 2 && t1 == t0 + |TimeText(h, m, sec, frac)|
    requires At(s, 0, month + "-" + day + " " + TimeText(h, m, sec, frac) + " ")
    requires t1 + 1 < |s| && !IsSpace(s[t1 + 1])
    ensures DateTimeHead(s) == Some((t0, t1, t1 + 1)) && s[t0..t1] == TimeText(h, m, sec, frac)
  {
    DateTimeAt(s, month, day, h, m, sec, frac, t0, t1);
    HeadOf(s, t0 - 1, t0, t1, t1 + 1);
  }

  /** A line laid out as `{date} {time} P/{tag}({pid}): {text}` is the record in the time layout. */
  lemma TimeLineMatch(s: string, month: string, day: string, rec: Record, h: string, m: string, sec: string, frac: string)
    requires TimeRecord(rec, h, m, sec, frac) && Numeral(month) && Numeral(day)
    requires var head := month + "-" + day + " " + rec.time + " ";
      && At(s, 0, head + [rec.priority, '/'])
      && ParenLine(s, |head| + 2, rec.tag, NatToString(rec.pid), rec.text)
    ensures MatchTime(s) == Some(rec)
  {
    var head := month + "-" + day + " " + rec.time + " ";
    var t0 := |month| + |day| + 2;
    var t1 := t0 + |TimeText(h, m, sec, frac)|;
    AtParts(s, 0, head, [rec.priority, '/']);
    AtChar(s, |head|, [rec.priority, '/'], 0);
    HeadAt(s, month, day, h, m, sec, frac, t0, t1);
    TimeHeadThen(s, t0, t1, t1 + 1);
    PriorityTagAt(s, t1 + 1, |head| + 2, rec);
  }

  /** Every time record comes back from its time line, whatever the date, and the line parser
      finds it too. */
  lemma TimeRoundTrip(month: string, day: string, rec: Record, h: string, m: string, sec: string, frac: string)
    requires TimeRecord(rec, h, m, sec, frac) && Numeral(month) && Numeral(day)
    ensures MatchTime(TimeLine(month, day, rec)) == Some(rec)
    ensures ParseLine(TimeLine(month, day, rec)) == Some(rec)
  {
    var s := TimeLine(month, day, rec);
    var head := month + "-" + day + " " + rec.time + " ";
    var rest := rec.tag + "(" + NatToString(rec.pid) + "): " + rec.text;
    AtSuffix(s, 0);
    assert s[0..] == s;
    AtParts(s, 0, head + [rec.priority, '/'], rest);
    TimeLineMatch(s, month, day, rec, h, m, sec, frac);
    // The threadtime layout wants a pid where the priority letter stands, the brief layout a
    // priority letter where the date stands.
    NoThreadtimePid(s);
    AtChar(s, 0, head + [rec.priority, '/'], 0);
    NoBriefPriority(s);
    ParseFirst(s);
  }


  // ---------------------------------------------------------------------------------------------
  // The tool's own layout

  /** The five characters between the tag and the text in the tool's own layout. */
  function PriorityGap(priority: char): string
  {
    [' ', ' ', priority, ' ', ' ']
  }

  /** A line of the tool's own layout: the time, a run of a blanks, the pid, the `:tid` part (or
      nothing), a run of b blanks, the tag, two blanks, the priority, two blanks and the text. */
  function SelfText(time: string, a: nat, p: string, ids: string, b: nat, tag: string, priority: char, text: string): string
  {
    time + Spaces(a) + p + ids + Spaces(b) + tag + PriorityGap(priority) + text
  }

  /** The `:tid` part: nothing, or a colon and a numeral. */
  predicate TidPart(ids: string) {
    ids == [] || (ids[0] == ':' && Numeral(ids[1..]))
  }

  /** What the tool's own layout captures for a `:tid` part: the thread id, or the pid again. */
  function TidOf(ids: string, pid: nat): nat
    requires TidPart(ids)
  {
    if ids == [] then pid else DigitsValue(ids[1..])
  }

  /** A self-layout line, piece by piece; the pieces start at t, p0, p1, n, g, e and e + 5. */
  lemma SelfPieces(s: string, time: string, a: nat, p: string, ids: string, b: nat, tag: string, priority: char, text: string,
                   t: nat, p0: nat, p1: nat, n: nat, g: nat, e: nat)
    requires At(s, 0, SelfText(time, a, p, ids, b, tag, priority, text))
    requires t == |time| && p0 == t + a && p1 == p0 + |p| && n == p1 + |ids| && g == n + b && e == g + |tag|
    ensures At(s, 0, time) && At(s, t, Spaces(a)) && At(s, p0, p) && At(s, p1, ids) && At(s, n, Spaces(b))
    ensures At(s, g, tag) && At(s, e, PriorityGap(priority)) && At(s, e + 5, text)
  {
    var sa := Spaces(a);
    var sb := Spaces(b);
    AtParts(s, 0, time + sa + p + ids + sb + tag + PriorityGap(priority), text);
    AtParts(s, 0, time + sa + p + ids + sb + tag, PriorityGap(priority));
    AtParts(s, 0, time + sa + p + ids + sb, tag);
    AtParts(s, 0, time + sa + p + ids, sb);
    AtParts(s, 0, time + sa + p, ids);
    AtParts(s, 0, time + sa, p);
    AtParts(s, 0, time, sa);
  }

  /** `\s{2} {priority} \s{2} {text}` up to the end of the line. */
  lemma SelfTailHit(s: string, e: nat, priority: char, text: string)
    requires IsPriority(priority) && '\n' !in text
    requires At(s, e, PriorityGap(priority)) && At(s, e + 5, text) && e + 5 + |text| == |s|
    ensures TailAt(SelfTail, s, e) == Some(Tail("", priority, text))
  {
    var w := PriorityGap(priority);
    AtChar(s, e, w, 0);
    AtChar(s, e, w, 1);
    AtChar(s, e, w, 2);
    AtChar(s, e, w, 3);
    AtChar(s, e, w, 4);
    AtEnd(s, e + 5, text);
  }

  /** A tag without a trailing separator, followed by two blanks, ends the repetition exactly, and
      the tail matches there. */
  lemma SelfTagAt(s: string, g: nat, e: nat, tag: string, priority: char, text: string)
    requires IsTag(tag) && NoTrailingSep(tag) && IsPriority(priority) && '\n' !in text
    requires e == g + |tag| && At(s, g, tag) && At(s, e, PriorityGap(priority)) && At(s, e + 5, text)
    requires e + 5 + |text| == |s|
    ensures TagAndTail(SelfTail, s, g) == Some((e, Tail("", priority, text))) && s[g..e] == tag
  {
    TagRun(s, g, tag);
    AtChar(s, e, PriorityGap(priority), 0);
    AtChar(s, e, PriorityGap(priority), 1);
    ReachIs(s, g, e);
    SelfTailHit(s, e, priority, text);
    LastTagPin(SelfTail, s, g, e, e);
    AtSlice(s, g, tag);
  }

  /** The blank run before the tag is taken whole when the tag and its tail match after it. */
  lemma SpacedHit(k: TailKind, s: string, n: nat, g: nat, e: nat, x: Tail)
    requires n < g <= |s| && TagAndTail(k, s, g) == Some((e, x))
    ensures SpacedTagAndTail(k, s, n, g) == Some((g, e, x))
  {
  }

  /** `{pid} (?: : {tid} )? \s+` over a numeral, a `:tid` part and b blanks before a non-blank. */
  lemma SelfIdsAt(s: string, p0: nat, p1: nat, n: nat, g: nat, p: string, ids: string, b: nat)
    requires Numeral(p) && TidPart(ids) && 0 < b
    requires At(s, p0, p) && At(s, p1, ids) && At(s, n, Spaces(b))
    requires p1 == p0 + |p| && n == p1 + |ids| && g == n + b && g < |s| && !IsSpace(s[g])
    ensures SelfIds(s, p0) == Some((p1, n, g))
  {
    AtChar(s, n, Spaces(b), 0);
    DigitsAt(s, p0, p);
    if ids != [] {
      AtChar(s, p1, ids, 0);
      assert At(s, p1 + 1, ids[1..]);
      DigitsAt(s, p1 + 1, ids[1..]);
    }
    SpaceAt(s, n, Spaces(b));
    SelfIdsThen(s, p0, p1, n, g);
  }

  lemma SelfIdsThen(s: string, p0: nat, p1: nat, n: nat, g: nat)
    requires p0 < p1 <= |s| && SkipDigits(s, p0) == p1 && n < g <= |s| && SkipSpace(s, n) == g
    requires n == if p1 < |s| && s[p1] == ':' && SkipDigits(s, p1 + 1) > p1 + 1 then SkipDigits(s, p1 + 1) else p1
    ensures SelfIds(s, p0) == Some((p1, n, g))
  {
  }

  /** The tool's own layout finds the time, the blanks and the ids, and goes on after them. */
  lemma SelfHeadThen(s: string, t: nat, p0: nat, p1: nat, n: nat, g: nat)
    requires TimeEnd(s, 0) == Some(t) && t < p0 && SkipSpace(s, t) == p0 && SelfIds(s, p0) == Some((p1, n, g))
    ensures MatchSelf(s) == SelfRest(s, t, p0, p1, n, g)
  {
  }

  /** What the tool's own layout captures once its ids and its tag are found. */
  lemma SelfRestAt(s: string, t: nat, p0: nat, p1: nat, n: nat, g: nat, e: nat, rec: Record)
    requires t < p0 < p1 <= n < g <= |s|
    requires IsDigits(s[p0..p1]) && (p1 < n ==> p1 + 1 < n && IsDigits(s[p1 + 1..n]))
    requires SpacedTagAndTail(SelfTail, s, n, g) == Some((g, e, Tail("", rec.priority, rec.text)))
    requires g <= e <= |s| && rec.tag == s[g..e] && rec.time == s[..t]
    requires rec.pid == DigitsValue(s[p0..p1]) && rec.tid == (if p1 < n then DigitsValue(s[p1 + 1..n]) else rec.pid)
    ensures SelfRest(s, t, p0, p1, n, g) == Some(rec)
  {
  }

  /** The captured pid, thread id and time of a self-layout line are the written ones. */
  lemma SelfFields(s: string, t: nat, p0: nat, p1: nat, n: nat, time: string, p: string, ids: string)
    requires Numeral(p) && TidPart(ids) && t == |time| && p1 == p0 + |p| && n == p1 + |ids|
    requires At(s, 0, time) && At(s, p0, p) && At(s, p1, ids)
    ensures s[..t] == time && s[p0..p1] == p
    ensures ids != [] ==> p1 + 1 < n && s[p1 + 1..n] == ids[1..]
  {
    AtSlice(s, 0, time);
    AtSlice(s, p0, p);
    if ids != [] {
      assert At(s, p1 + 1, ids[1..]);
      AtSlice(s, p1 + 1, ids[1..]);
    }
  }

  /** The time field of a self-layout line and the blanks after it. */
  lemma SelfTimeAt(s: string, t: nat, p0: nat, a: nat, p: string, h: string, m: string, sec: string, frac: string)
    requires TimeParts(h, m, sec, frac) && 0 < a && Numeral(p)
    requires t == |TimeText(h, m, sec, frac)| && p0 == t + a
    requires At(s, 0, TimeText(h, m, sec, frac)) && At(s, t, Spaces(a)) && At(s, p0, p)
    ensures TimeEnd(s, 0) == Some(t) && SkipSpace(s, t) == p0
  {
    AtChar(s, t, Spaces(a), 0);
    TimeAt(s, 0, h, m, sec, frac);
    AtChar(s, p0, p, 0);
    SpaceAt(s, t, Spaces(a));
  }

  /** The tool's own layout finds the time, the blanks, the pid, the `:tid` part and the blanks
      before the tag. */
  lemma SelfHeadAt(s: string, t: nat, p0: nat, p1: nat, n: nat, g: nat, a: nat, p: string, ids: string, b: nat,
                   h: string, m: string, sec: string, frac: string)
    requires TimeParts(h, m, sec, frac) && 0 < a && 0 < b && Numeral(p) && TidPart(ids)
    requires t == |TimeText(h, m, sec, frac)| && p0 == t + a && p1 == p0 + |p| && n == p1 + |ids| && g == n + b
    requires At(s, 0, TimeText(h, m, sec, frac)) && At(s, t, Spaces(a)) && At(s, p0, p) && At(s, p1, ids)
    requires At(s, n, Spaces(b)) && g < |s| && !IsSpace(s[g])
    ensures TimeEnd(s, 0) == Some(t) && SkipSpace(s, t) == p0 && SelfIds(s, p0) == Some((p1, n, g))
  {
    SelfTimeAt(s, t, p0, a, p, h, m, sec, frac);
    SelfIdsAt(s, p0, p1, n, g, p, ids, b);
  }

  /** After the blanks, the tool's own layout captures the written record. */
  lemma SelfRestLine(s: string, t: nat, p0: nat, p1: nat, n: nat, g: nat, e: nat, p: string, ids: string, rec: Record)
    requires Numeral(p) && TidPart(ids) && WellFormed(rec) && NoTrailingSep(rec.tag)
    requires rec.pid == DigitsValue(p) && rec.tid == TidOf(ids, rec.pid)
    requires t == |rec.time| && t < p0 && p1 == p0 + |p| && n == p1 + |ids| && n < g && e == g + |rec.tag|
    requires At(s, 0, rec.time) && At(s, p0, p) && At(s, p1, ids) && At(s, g, rec.tag)
    requires At(s, e, PriorityGap(rec.priority)) && At(s, e + 5, rec.text) && e + 5 + |rec.text| == |s|
    requires IsDigits(s[p0..p1]) && (p1 < n ==> p1 + 1 < n && IsDigits(s[p1 + 1..n]))
    ensures SelfRest(s, t, p0, p1, n, g) == Some(rec)
  {
    SelfTagAt(s, g, e, rec.tag, rec.priority, rec.text);
    SpacedHit(SelfTail, s, n, g, e, Tail("", rec.priority, rec.text));
    SelfFields(s, t, p0, p1, n, rec.time, p, ids);
    SelfRestAt(s, t, p0, p1, n, g, e, rec);
  }

  /** The pieces of a self-layout line: the time, a run of a blanks, the pid, the `:tid` part (or
      nothing), a run of b blanks, the tag, two blanks, the priority, two blanks and the text,
      starting at 0, t, p0, p1, n, g, e and e + 5. */
  predicate SelfPiecesAt(s: string, time: string, a: nat, p: string, ids: string, b: nat, tag: string, priority: char, text: string,
                         t: nat, p0: nat, p1: nat, n: nat, g: nat, e: nat)
  {
    && t == |time| && p0 == t + a && p1 == p0 + |p| && n == p1 + |ids| && g == n + b && e == g + |tag|
    && At(s, 0, time) && At(s, t, Spaces(a)) && At(s, p0, p) && At(s, p1, ids) && At(s, n, Spaces(b))
    && At(s, g, tag) && At(s, e, PriorityGap(priority)) && At(s, e + 5, text) && e + 5 + |text| == |s|
  }

  /** A line made of the pieces of the tool's own layout, whatever the lengths of its blank runs,
      gives back its time, pid, thread id, priority, tag and text, when the tag starts with a
      non-blank and does not end with a separator. */
  lemma SelfPiecesMatch(s: string, a: nat, p: string, ids: string, b: nat, rec: Record, h: string, m: string, sec: string, frac: string,
                        t: nat, p0: nat, p1: nat, n: nat, g: nat, e: nat)
    requires TimeParts(h, m, sec, frac) && rec.time == TimeText(h, m, sec, frac)
    requires 0 < a && 0 < b && Numeral(p) && TidPart(ids)
    requires WellFormed(rec) && NoTrailingSep(rec.tag) && rec.tag != [] && !IsSpace(rec.tag[0])
    requires rec.pid == DigitsValue(p) && rec.tid == TidOf(ids, rec.pid)
    requires SelfPiecesAt(s, rec.time, a, p, ids, b, rec.tag, rec.priority, rec.text, t, p0, p1, n, g, e)
    ensures MatchSelf(s) == Some(rec)
  {
    AtChar(s, g, rec.tag, 0);
    SelfHeadAt(s, t, p0, p1, n, g, a, p, ids, b, h, m, sec, frac);
    SelfHeadThen(s, t, p0, p1, n, g);
    SelfRestLine(s, t, p0, p1, n, g, e, p, ids, rec);
  }

  /** Any line of the tool's own layout gives back its record (see SelfPiecesMatch). */
  lemma SelfTextMatch(a: nat, p: string, ids: string, b: nat, rec: Record, h: string, m: string, sec: string, frac: string)
    requires TimeParts(h, m, sec, frac) && rec.time == TimeText(h, m, sec, frac)
    requires 0 < a && 0 < b && Numeral(p) && TidPart(ids)
    requires WellFormed(rec) && NoTrailingSep(rec.tag) && rec.tag != [] && !IsSpace(rec.tag[0])
    requires rec.pid == DigitsValue(p) && rec.tid == TidOf(ids, rec.pid)
    ensures MatchSelf(SelfText(rec.time, a, p, ids, b, rec.tag, rec.priority, rec.text)) == Some(rec)
  {
    var s := SelfText(rec.time, a, p, ids, b, rec.tag, rec.priority, rec.text);
    var t := |rec.time|;
    var p0 := t + a;
    var p1 := p0 + |p|;
    var n := p1 + |ids|;
    var g := n + b;
    var e := g + |rec.tag|;
    AtSuffix(s, 0);
    assert s[0..] == s;
    SelfPieces(s, rec.time, a, p, ids, b, rec.tag, rec.priority, rec.text, t, p0, p1, n, g, e);
    SelfPiecesMatch(s, a, p, ids, b, rec, h, m, sec, frac, t, p0, p1, n, g, e);
  }

  // ---------------------------------------------------------------------------------------------
  // The tool's own output read back

  /** Blank runs join. */
  lemma SpacesSum(x: nat, y: nat)
    ensures Spaces(x) + Spaces(y) == Spaces(x + y)
  {
    var l := Spaces(x) + Spaces(y);
    assert forall i | 0 <= i < x + y :: l[i] == ' ';
  }

  /** A number fits the 5-character pid column exactly when it is below 100000. */
  lemma ShortNumeral(n: nat)
    ensures |NatToString(n)| <= MaxPidLen <==> n < 100000
  {
    NatToStringLength(n, 4);
    assert Pow10(5) == 100000 by {
      assert Pow10(1) == 10 && Pow10(2) == 100 && Pow10(3) == 1000 && Pow10(4) == 10000;
    }
  }

  /** The `:tid` part of the tool's own line, without its padding. */
  function IdsOf(rec: Record): string
  {
    if rec.tid != rec.pid then ":" + NatToString(rec.tid) else ""
  }

  /** The padding of the `:tid` column, which is there only with a thread id. */
  function TidPad(rec: Record): nat
    requires |IdsOf(rec)| <= MaxPidLen + 1
  {
    if rec.tid != rec.pid then MaxPidLen + 1 - |IdsOf(rec)| else 0
  }

  /** The blanks between the ids and the tag: the padding of the `:tid` column, the separator and
      the padding of the tag column. */
  function TagGap(rec: Record): nat
    requires |IdsOf(rec)| <= MaxPidLen + 1 && |rec.tag| <= TagWidth(rec)
  {
    TidPad(rec) + 1 + TagWidth(rec) - |rec.tag|
  }

  /** A record the tool writes without loss: its time is a time stamp, its ids fit their columns,
      its tag fits its column, starts with a non-blank and does not end with a separator. */
  predicate SelfRecord(rec: Record, h: string, m: string, sec: string, frac: string) {
    && WellFormed(rec) && TimeParts(h, m, sec, frac) && rec.time == TimeText(h, m, sec, frac)
    && rec.pid < 100000 && rec.tid < 100000
    && rec.tag != [] && !IsSpace(rec.tag[0]) && NoTrailingSep(rec.tag) && |rec.tag| <= TagWidth(rec)
  }

  /** Without colour the pid column is the padded pid and the `:tid` part with its padding. */
  lemma ProcFieldPlain(app: bool, rec: Record)
    requires rec.pid < 100000 && rec.tid < 100000
    ensures |NatToString(rec.pid)| <= MaxPidLen && |IdsOf(rec)| <= MaxPidLen + 1
    ensures ProcField(false, app, rec)
      == Spaces(MaxPidLen - |NatToString(rec.pid)|) + NatToString(rec.pid) + IdsOf(rec) + Spaces(TidPad(rec))
  {
    var p := NatToString(rec.pid);
    var f := ProcFormat(app, rec);
    ShortNumeral(rec.pid);
    ShortNumeral(rec.tid);
    if rec.tid == rec.pid {
      assert Spaces(0) == [];
    }
  }

  /** Without colour the tag column is the tag padded on the left. */
  lemma TagFieldPlain(app: bool, rec: Record)
    requires |rec.tag| <= TagWidth(rec)
    ensures TagField(false, app, rec) == Spaces(TagWidth(rec) - |rec.tag|) + rec.tag
  {
  }

  /** A line of columns `{time} {proc} {tag} {priority} {text}`, column by column. */
  lemma ColumnsSplit(s: string, time: string, pf: string, tf: string, pr: string, text: string, t: nat, q: nat, r: nat)
    requires At(s, 0, time + " " + pf + " " + tf + " " + pr + " " + text)
    requires t == |time| && q == t + 1 + |pf| && r == q + 1 + |tf|
    ensures At(s, 0, time) && At(s, t, " ") && At(s, t + 1, pf) && At(s, q, " ") && At(s, q + 1, tf)
    ensures At(s, r, " ") && At(s, r + 1, pr) && At(s, r + 1 + |pr|, " ") && At(s, r + 2 + |pr|, text)
  {
    AtParts(s, 0, time + " " + pf + " " + tf + " " + pr + " ", text);
    AtParts(s, 0, time + " " + pf + " " + tf + " " + pr, " ");
    AtParts(s, 0, time + " " + pf + " " + tf + " ", pr);
    AtParts(s, 0, time + " " + pf + " " + tf, " ");
    AtParts(s, 0, time + " " + pf + " ", tf);
    AtParts(s, 0, time + " " + pf, " ");
    AtParts(s, 0, time + " ", pf);
    AtParts(s, 0, time, " ");
  }

  /** The pid column without colour, piece by piece. */
  lemma ProcPieces(s: string, i: nat, padP: nat, p: string, ids: string, tidPad: nat)
    requires At(s, i, Spaces(padP) + p + ids + Spaces(tidPad))
    ensures At(s, i, Spaces(padP)) && At(s, i + padP, p) && At(s, i + padP + |p|, ids)
    ensures At(s, i + padP + |p| + |ids|, Spaces(tidPad))
  {
    AtParts(s, i, Spaces(padP) + p + ids, Spaces(tidPad));
    AtParts(s, i, Spaces(padP) + p, ids);
    AtParts(s, i, Spaces(padP), p);
  }

  /** Adjacent blank runs are one run. */
  lemma BlankJoin(s: string, i: nat, x: nat, y: nat)
    requires At(s, i, Spaces(x)) && At(s, i + x, Spaces(y))
    ensures At(s, i, Spaces(x + y))
  {
    AtJoin(s, i, Spaces(x), Spaces(y));
    SpacesSum(x, y);
  }

  /** A blank before a blank run lengthens it. */
  lemma BlankBefore(s: string, i: nat, x: nat)
    requires At(s, i, " ") && At(s, i + 1, Spaces(x))
    ensures At(s, i, Spaces(1 + x))
  {
    assert " " == Spaces(1);
    BlankJoin(s, i, 1, x);
  }

  /** A blank after a blank run lengthens it. */
  lemma BlankAfter(s: string, i: nat, x: nat)
    requires At(s, i, Spaces(x)) && At(s, i + x, " ")
    ensures At(s, i, Spaces(x + 1))
  {
    assert " " == Spaces(1);
    BlankJoin(s, i, x, 1);
  }

  /** A blank, the shown priority and a blank are the five characters before the text. */
  lemma GapJoin(s: string, e: nat, priority: char)
    requires At(s, e, " ") && At(s, e + 1, [' ', priority, ' ']) && At(s, e + 4, " ")
    ensures At(s, e, PriorityGap(priority))
  {
    AtJoin(s, e, " ", [' ', priority, ' ']);
    AtJoin(s, e, " " + [' ', priority, ' '], " ");
    assert " " + [' ', priority, ' '] + " " == PriorityGap(priority);
  }

  /** The padded fields, read in place, are the pieces of the tool's own layout. */
  lemma FieldsPieces(s: string, time: string, text: string, padP: nat, p: string, ids: string, tidPad: nat, w: nat,
                     tag: string, priority: char, t: nat, p0: nat, p1: nat, n: nat, g: nat, e: nat)
    requires t == |time| && p0 == t + 1 + padP && p1 == p0 + |p| && n == p1 + |ids| && g == n + tidPad + 1 + w
    requires e == g + |tag|
    requires At(s, 0, time) && At(s, t, " ") && At(s, t + 1, Spaces(padP)) && At(s, p0, p) && At(s, p1, ids)
    requires At(s, n, Spaces(tidPad)) && At(s, n + tidPad, " ") && At(s, n + tidPad + 1, Spaces(w)) && At(s, g, tag)
    requires At(s, e, " ") && At(s, e + 1, [' ', priority, ' ']) && At(s, e + 4, " ") && At(s, e + 5, text)
    requires e + 5 + |text| == |s|
    ensures SelfPiecesAt(s, time, 1 + padP, p, ids, tidPad + 1 + w, tag, priority, text, t, p0, p1, n, g, e)
  {
    BlankBefore(s, t, padP);
    BlankAfter(s, n, tidPad);
    BlankJoin(s, n, tidPad + 1, w);
    GapJoin(s, e, priority);
  }

  /** Columns holding the padded fields are the pieces of the tool's own layout. */
  lemma ColumnsPieces(s: string, time: string, pf: string, tf: string, pr: string, text: string,
                      padP: nat, p: string, ids: string, tidPad: nat, w: nat, tag: string, priority: char,
                      t: nat, p0: nat, p1: nat, n: nat, g: nat, e: nat)
    requires pf == Spaces(padP) + p + ids + Spaces(tidPad) && tf == Spaces(w) + tag && pr == [' ', priority, ' ']
    requires var cols := time + " " + pf + " " + tf + " " + pr + " " + text; At(s, 0, cols) && |cols| == |s|
    requires t == |time| && p0 == t + 1 + padP && p1 == p0 + |p| && n == p1 + |ids| && g == n + tidPad + 1 + w
    requires e == g + |tag|
    ensures SelfPiecesAt(s, time, 1 + padP, p, ids, tidPad + 1 + w, tag, priority, text, t, p0, p1, n, g, e)
  {
    ColumnsSplit(s, time, pf, tf, pr, text, t, n + tidPad, e);
    ProcPieces(s, t + 1, padP, p, ids, tidPad);
    AtParts(s, n + tidPad + 1, Spaces(w), tag);
    FieldsPieces(s, time, text, padP, p, ids, tidPad, w, tag, priority, t, p0, p1, n, g, e);
  }

  /** The `:tid` part of a line is read back as the record's thread. */
  lemma IdsRead(rec: Record)
    ensures TidPart(IdsOf(rec)) && TidOf(IdsOf(rec), rec.pid) == rec.tid
  {
    if rec.tid != rec.pid {
      assert IdsOf(rec)[1..] == NatToString(rec.tid);
    }
  }

  /** The shown priority, ` P `, has no padding. */
  lemma PriorityPlain(priority: char)
    ensures Format(false, [' ', priority, ' '], [priority], false, 0) == [' ', priority, ' ']
  {
    assert Spaces(0) == [];
  }

  /** The uncoloured line of a record the tool writes without loss, column by column, cut into
      the pieces its own layout reads. */
  lemma LinePieces(s: string, rec: Record, padP: nat, p: string, w: nat,
                   t: nat, p0: nat, p1: nat, n: nat, g: nat, e: nat)
    requires rec.pid < 100000 && rec.tid < 100000 && |rec.tag| <= TagWidth(rec)
    requires |NatToString(rec.pid)| <= MaxPidLen && |IdsOf(rec)| <= MaxPidLen + 1
    requires s == rec.time + " " + (Spaces(MaxPidLen - |NatToString(rec.pid)|) + NatToString(rec.pid) + IdsOf(rec) + Spaces(TidPad(rec)))
         + " " + (Spaces(TagWidth(rec) - |rec.tag|) + rec.tag) + " " + [' ', rec.priority, ' '] + " " + rec.text
    requires p == NatToString(rec.pid) && |p| <= MaxPidLen && |IdsOf(rec)| <= MaxPidLen + 1
    requires padP == MaxPidLen - |p| && w == TagWidth(rec) - |rec.tag|
    requires t == |rec.time| && p0 == t + 1 + padP && p1 == p0 + |p| && n == p1 + |IdsOf(rec)|
    requires g == n + TidPad(rec) + 1 + w && e == g + |rec.tag|
    ensures SelfPiecesAt(s, rec.time, 1 + padP, p, IdsOf(rec), TidPad(rec) + 1 + w, rec.tag, rec.priority, rec.text, t, p0, p1, n, g, e)
  {
    var pf := Spaces(padP) + p + IdsOf(rec) + Spaces(TidPad(rec));
    var tf := Spaces(w) + rec.tag;
    var pr := [' ', rec.priority, ' '];
    WholeColumnsPieces(s, rec.time, pf, tf, pr, rec.text, padP, p, IdsOf(rec), TidPad(rec), w, rec.tag, rec.priority, t, p0, p1, n, g, e);
  }

  lemma WholeColumnsPieces(s: string, time: string, pf: string, tf: string, pr: string, text: string,
                           padP: nat, p: string, ids: string, tidPad: nat, w: nat, tag: string, priority: char,
                           t: nat, p0: nat, p1: nat, n: nat, g: nat, e: nat)
    requires pf == Spaces(padP) + p + ids + Spaces(tidPad) && tf == Spaces(w) + tag && pr == [' ', priority, ' ']
    requires s == time + " " + pf + " " + tf + " " + pr + " " + text
    requires t == |time| && p0 == t + 1 + padP && p1 == p0 + |p| && n == p1 + |ids| && g == n + tidPad + 1 + w
    requires e == g + |tag|
    ensures SelfPiecesAt(s, time, 1 + padP, p, ids, tidPad + 1 + w, tag, priority, text, t, p0, p1, n, g, e)
  {
    AtSuffix(s, 0);
    assert s[0..] == s;
    ColumnsPieces(s, time, pf, tf, pr, text, padP, p, ids, tidPad, w, tag, priority, t, p0, p1, n, g, e);
  }

  /** The uncoloured line of a record whose ids and tag fit their columns, column by column. */
  lemma LineColumns(app: bool, rec: Record)
    requires rec.pid < 100000 && rec.tid < 100000 && |rec.tag| <= TagWidth(rec)
    ensures |NatToString(rec.pid)| <= MaxPidLen && |IdsOf(rec)| <= MaxPidLen + 1
    ensures LineOf(false, app, rec, rec.text)
      == rec.time + " " + (Spaces(MaxPidLen - |NatToString(rec.pid)|) + NatToString(rec.pid) + IdsOf(rec) + Spaces(TidPad(rec)))
         + " " + (Spaces(TagWidth(rec) - |rec.tag|) + rec.tag) + " " + [' ', rec.priority, ' '] + " " + rec.text
  {
    ProcFieldPlain(app, rec);
    TagFieldPlain(app, rec);
    PriorityPlain(rec.priority);
  }

  /** Without colour, the tool's line for a record it writes without loss is read back by its own
      layout as that record. */
  lemma SelfLineMatch(s: string, app: bool, rec: Record, h: string, m: string, sec: string, frac: string)
    requires SelfRecord(rec, h, m, sec, frac) && s == LineOf(false, app, rec, rec.text)
    ensures MatchSelf(s) == Some(rec) && At(s, 0, rec.time)
  {
    LineColumns(app, rec);
    SelfColumnsMatch(s, rec, h, m, sec, frac);
  }

  /** The columns of such a line are read back as the record. */
  lemma SelfColumnsMatch(s: string, rec: Record, h: string, m: string, sec: string, frac: string)
    requires SelfRecord(rec, h, m, sec, frac)
    requires |NatToString(rec.pid)| <= MaxPidLen && |IdsOf(rec)| <= MaxPidLen + 1
    requires s == rec.time + " " + (Spaces(MaxPidLen - |NatToString(rec.pid)|) + NatToString(rec.pid) + IdsOf(rec) + Spaces(TidPad(rec)))
         + " " + (Spaces(TagWidth(rec) - |rec.tag|) + rec.tag) + " " + [' ', rec.priority, ' '] + " " + rec.text
    ensures MatchSelf(s) == Some(rec) && At(s, 0, rec.time)
  {
    var p := NatToString(rec.pid);
    var ids := IdsOf(rec);
    var padP := MaxPidLen - |p|;
    var w := TagWidth(rec) - |rec.tag|;
    var t := |rec.time|;
    var p0 := t + 1 + padP;
    var p1 := p0 + |p|;
    var n := p1 + |ids|;
    var g := n + TidPad(rec) + 1 + w;
    var e := g + |rec.tag|;
    LinePieces(s, rec, padP, p, w, t, p0, p1, n, g, e);
    IdsRead(rec);
    SelfPiecesMatch(s, 1 + padP, p, ids, TidPad(rec) + 1 + w, rec, h, m, sec, frac, t, p0, p1, n, g, e);
  }

  /** A line that starts with a time stamp falls to the tool's own layout: the other layouts want
      a `-` after the first numeral, or a priority letter first. */
  lemma SelfLayoutOnly(s: string, h: string, m: string, sec: string, frac: string)
    requires TimeParts(h, m, sec, frac) && At(s, 0, TimeText(h, m, sec, frac))
    ensures ParseLine(s) == MatchSelf(s)
  {
    TimePieces(s, 0, h, m, sec, frac);
    AtChar(s, |h|, ":", 0);
    AtChar(s, 0, h, 0);
    DigitsAt(s, 0, h);
    assert DateEnd(s, 0).None?;
    NoBriefPriority(s);
    ParseFirst(s);
  }

  /** Every record the tool writes without loss comes back from its uncoloured line, and the line
      parser finds it too. */
  lemma SelfRoundTrip(app: bool, rec: Record, h: string, m: string, sec: string, frac: string)
    requires SelfRecord(rec, h, m, sec, frac)
    ensures MatchSelf(LineOf(false, app, rec, rec.text)) == Some(rec)
    ensures ParseLine(LineOf(false, app, rec, rec.text)) == Some(rec)
  {
    var s := LineOf(false, app, rec, rec.text);
    SelfLineMatch(s, app, rec, h, m, sec, frac);
    SelfLayoutOnly(s, h, m, sec, frac);
  }
}

=== FILE: logcat_spec.dfy ===
/**
 * The `Logcat` filter as a state machine over values: what it tracks (the packages, tags and pids
 * of the application, the records held back until the first pid is known, the current group of
 * consecutive records, the compiled highlighting pattern) and the lines it prints.
 *
 * A record of the application, or one whose text mentions the application, is shown together with
 * the records of its group (same pid, priority and tag) held back before it; the other records of
 * a group that never shows are never printed.
 */
module LogcatSpec {
  import opened Wrappers
  import opened Text
  import opened LogcatParse
  import opened LogcatFormat
  import opened LogcatHighlight
  import opened LogcatActivity

  /** What makes consecutive records one group. */
  datatype GroupId = GroupId(pid: nat, priority: char, tag: string)

  /** The current group: its id (none before the first record), the lines held back, and whether
      the group is shown. */
  datatype Group = Group(gid: Option<GroupId>, lines: seq<string>, show: bool)

  /** The filter's state; out is everything printed so far, one line per element. */
  datatype State = State(
    color: bool,
    packages: set<string>,
    tags: set<string>,
    pids: set<nat>,
    backlog: seq<Record>,
    group: Group,
    hl: Option<seq<Alt>>,
    out: seq<string>)

  const ActivityManagerTag := "ActivityManager"

  /** What every reachable state satisfies: a pattern exists exactly when a pid is tracked, it is
      compiled from the tracked packages and pids, and a shown group holds nothing back. */
  predicate Valid(st: State)
  {
    (st.hl.Some? <==> st.pids != {})
    && (st.hl.Some? ==> st.hl.value == Compile(st.packages, st.pids))
    && (st.group.show ==> st.group.lines == [])
  }

  /** The set a comma-separated option names; an empty option names none. */
  function NameSet(option: string): (r: set<string>)
    ensures option == [] ==> r == {}
    ensures option != [] ==> forall n | n in r :: ',' !in n
  {
    if option == [] then {}
    else
      var parts := Split(option, ',');
      set i | 0 <= i < |parts| :: parts[i]
  }

  /** The state `reset` leaves: no pids, no backlog, a fresh group and no pattern. */
  function Reset(st: State): (r: State)
    ensures r.pids == {} && r.backlog == [] && r.group == Group(None, [], false) && r.hl.None?
    ensures Valid(r)
    ensures r.color == st.color && r.packages == st.packages && r.tags == st.tags && r.out == st.out
  {
    st.(pids := {}, backlog := [], group := Group(None, [], false), hl := None)
  }

  /** The state of a new filter. */
  function Init(color: bool, packages: string, tags: string): (r: State)
    ensures r.out == [] && r.pids == {} && r.backlog == [] && r.hl.None? && Valid(r)
    ensures r.color == color
  {
    Reset(State(color, NameSet(packages), NameSet(tags), {}, [], Group(None, [], false), None, []))
  }

  /** `_add_package_and_or_pid`: track the package and/or pid and recompile the pattern. */
  function AddPackageAndOrPid(st: State, package: Option<string>, pid: Option<nat>): (r: State)
    ensures r.pids == st.pids + (if pid.Some? then {pid.value} else {})
    ensures r.packages == st.packages + (if package.Some? then {package.value} else {})
    ensures r.hl == Some(Compile(r.packages, r.pids))
    ensures r == st.(pids := r.pids, packages := r.packages, hl := r.hl)
  {
    var pids := if pid.Some? then st.pids + {pid.value} else st.pids;
    var packages := if package.Some? then st.packages + {package.value} else st.packages;
    st.(pids := pids, packages := packages, hl := Some(Compile(packages, pids)))
  }

  /** `_check_for_birth_or_death`: an ActivityManager message about a tracked package or pid adds
      both; a start (but not a death) also drops the backlog. */
  function CheckForBirthOrDeath(st: State, rec: Record): (r: State)
    ensures Valid(st) ==> Valid(r)
    ensures st.pids <= r.pids && st.packages <= r.packages && (st.hl.Some? ==> r.hl.Some?)
    ensures r.out == st.out && r.group == st.group && r.tags == st.tags && r.color == st.color
    ensures r.backlog == st.backlog || r.backlog == []
  {
    if rec.tag != ActivityManagerTag then st
    else
      var m := ActivityEvent(rec.text);
      if m.None? then st
      else if m.value.pid !in st.pids && m.value.package !in st.packages then st
      else
        var st1 := if m.value.death then st else st.(backlog := []);
        AddPackageAndOrPid(st1, Some(m.value.package), Some(m.value.pid))
  }

  /** The group a record belongs to, entering a new one when its id differs from the current one. */
  function EnterGroup(g: Group, rec: Record): (r: Group)
    ensures r.gid == Some(GroupId(rec.pid, rec.priority, rec.tag))
    ensures g.gid == r.gid ==> r == g
    ensures g.gid != r.gid ==> r.lines == [] && !r.show
  {
    var gid := GroupId(rec.pid, rec.priority, rec.tag);
    if g.gid != Some(gid) then Group(Some(gid), [], false) else g
  }

  /** `_process`: format the record, show its group when it is an application record or its text
      is highlighted, and either print the held-back lines and the record's line, or hold it back. */
  function Process(st: State, rec: Record): (r: State)
    requires st.hl.Some?
    ensures Valid(st) ==> Valid(r)
    ensures r == st.(group := r.group, out := r.out)
    ensures st.out <= r.out
  {
    var app := rec.pid in st.pids;
    var g0 := EnterGroup(st.group, rec);
    var h := Highlight(st.color, st.hl.value, rec.text);
    var g1 := g0.(show := g0.show || app || h.1);
    var line := LineOf(st.color, app, rec, h.0);
    if g1.show then st.(group := g1.(lines := []), out := st.out + g1.lines + [line])
    else st.(group := g1.(lines := g1.lines + [line]))
  }

  /** One record of the backlog replayed. */
  function ReplayOne(st: State, rec: Record): (r: State)
    requires st.hl.Some?
    ensures r.hl.Some? && (Valid(st) ==> Valid(r))
    ensures st.pids <= r.pids && st.out <= r.out
    ensures st.backlog == [] ==> r.backlog == []
  {
    Process(CheckForBirthOrDeath(st, rec), rec)
  }

  /** The backlog records replayed in order. */
  function Replay(st: State, recs: seq<Record>): (r: State)
    requires st.hl.Some?
    ensures r.hl.Some? && (Valid(st) ==> Valid(r))
    ensures st.pids <= r.pids && st.out <= r.out
    ensures st.backlog == [] ==> r.backlog == []
  {
    if recs == [] then st else ReplayOne(Replay(st, recs[..|recs| - 1]), recs[|recs| - 1])
  }

  /** `_check_for_tags`: a record with an application tag adds its pid and replays the backlog. */
  function CheckForTags(st: State, rec: Record): (r: State)
    ensures Valid(st) ==> Valid(r)
    ensures st.pids <= r.pids && st.out <= r.out
    ensures rec.tag in st.tags ==> rec.pid in r.pids && r.backlog == []
    ensures rec.tag !in st.tags ==> r == st
  {
    if rec.tag !in st.tags then st
    else
      var st1 := AddPackageAndOrPid(st, None, Some(rec.pid));
      Replay(st1.(backlog := []), st1.backlog)
  }

  /** `_update_packages_and_pids`. */
  function UpdatePackagesAndPids(st: State, rec: Record): (r: State)
    ensures Valid(st) ==> Valid(r)
    ensures st.pids <= r.pids && st.out <= r.out
  {
    CheckForTags(CheckForBirthOrDeath(st, rec), rec)
  }

  /** One record of the input: processed once a pid is tracked, held back before. */
  function FilterRecord(st: State, rec: Record): (r: State)
    requires Valid(st)
    ensures Valid(r) && st.pids <= r.pids && st.out <= r.out
  {
    var st1 := UpdatePackagesAndPids(st, rec);
    if st1.pids != {} then Process(st1, rec) else st1.(backlog := st1.backlog + [rec])
  }

  /** One raw line of the input; a line no layout recognises stops the filter. */
  function FilterLine(st: State, raw: string): (r: Result<State, string>)
    requires Valid(st)
    ensures r.Ok? ==> Valid(r.value) && st.pids <= r.value.pids && st.out <= r.value.out
    ensures r.Err? <==> ClassifyLine(raw).Unrecognised?
  {
    match ClassifyLine(raw)
    case Skipped => Ok(st)
    case Unrecognised(line) => Err(line)
    case Parsed(rec) => Ok(FilterRecord(st, rec))
  }

  /** `filter`: the raw lines in order, stopping at the first one not recognised. */
  function Filter(st: State, raws: seq<string>): (r: Result<State, string>)
    requires Valid(st)
    ensures r.Ok? ==> Valid(r.value) && st.pids <= r.value.pids && st.out <= r.value.out
  {
    if raws == [] then Ok(st)
    else
      var r := Filter(st, raws[..|raws| - 1]);
      if r.Err? then r else FilterLine(r.value, raws[|raws| - 1])
  }
}

=== FILE: logcat_spec_props.dfy ===
/**
 * What the `Logcat` state machine promises across records: records wait in the backlog until a
 * pid is known, application records are printed with their group's held-back lines, other groups
 * stay silent, a death message does not drop the backlog, and filtering a stream in two parts is
 * filtering it at once.
 */
module LogcatSpecProps {
  import opened Wrappers
  import opened LogcatParse
  import opened LogcatFormat
  import opened LogcatHighlight
  import opened LogcatActivity
  import opened LogcatSpec

  /** Nothing in the state changes unless a pid becomes tracked. */
  lemma UntrackedUpdateIsIdentity(st: State, rec: Record)
    requires Valid(st) && UpdatePackagesAndPids(st, rec).pids == {}
    ensures UpdatePackagesAndPids(st, rec) == st
  {
    var st1 := CheckForBirthOrDeath(st, rec);
    assert st1 == st;
  }

  /** While no pid is tracked, a recognised record joins the backlog and nothing is printed. */
  lemma HeldBackWhileUntracked(st: State, raw: string)
    requires Valid(st) && FilterLine(st, raw).Ok? && FilterLine(st, raw).value.pids == {}
    ensures var r := FilterLine(st, raw).value;
      r.out == st.out
      && r.backlog == (if ClassifyLine(raw).Parsed? then st.backlog + [ClassifyLine(raw).rec] else st.backlog)
  {
    if ClassifyLine(raw).Parsed? {
      var rec := ClassifyLine(raw).rec;
      if UpdatePackagesAndPids(st, rec).pids == {} {
        UntrackedUpdateIsIdentity(st, rec);
      }
    }
  }

  /** Once a pid is tracked the backlog never grows: it stays or is emptied. */
  lemma BacklogNeverGrowsWhenTracked(st: State, rec: Record)
    requires Valid(st) && st.pids != {}
    ensures var r := FilterRecord(st, rec); r.backlog == st.backlog || r.backlog == []
  {
    var st0 := CheckForBirthOrDeath(st, rec);
    var st1 := CheckForTags(st0, rec);
    assert st1.backlog == st0.backlog || st1.backlog == [];
    assert Process(st1, rec).backlog == st1.backlog;
  }

  /** The line `_process` formats for a record. */
  function LineFor(st: State, rec: Record): string
    requires st.hl.Some?
  {
    LineOf(st.color, rec.pid in st.pids, rec, Highlight(st.color, st.hl.value, rec.text).0)
  }

  /** Whether `_process` shows the record's group. */
  predicate Shown(st: State, rec: Record)
    requires st.hl.Some?
  {
    EnterGroup(st.group, rec).show || rec.pid in st.pids || Highlight(st.color, st.hl.value, rec.text).1
  }

  /** A shown record is printed right after the lines its group held back, and the group then holds
      nothing; otherwise nothing is printed and the line is held back. */
  lemma ProcessOutput(st: State, rec: Record)
    requires st.hl.Some?
    ensures var r := Process(st, rec); var g := EnterGroup(st.group, rec);
      (Shown(st, rec) ==> r.out == st.out + g.lines + [LineFor(st, rec)] && r.group.lines == [] && r.group.show)
      && (!Shown(st, rec) ==> r.out == st.out && r.group.lines == g.lines + [LineFor(st, rec)] && !r.group.show)
  {
  }

  /** A record of a tracked pid is always printed, as the last line of the output. */
  lemma ApplicationRecordPrinted(st: State, rec: Record)
    requires st.hl.Some? && rec.pid in st.pids
    ensures var r := Process(st, rec);
      |r.out| > |st.out| && r.out[|r.out| - 1] == LineOf(st.color, true, rec, Highlight(st.color, st.hl.value, rec.text).0)
  {
    ProcessOutput(st, rec);
  }

  /** A record that is not the application's and mentions nothing tracked, in a group not shown
      yet, prints nothing. */
  lemma OtherRecordSilent(st: State, rec: Record)
    requires st.hl.Some? && rec.pid !in st.pids && !Highlight(st.color, st.hl.value, rec.text).1
    requires !EnterGroup(st.group, rec).show
    ensures Process(st, rec).out == st.out
  {
    ProcessOutput(st, rec);
  }

  /** What an ActivityManager message about a tracked package or pid does: it tracks both, and a
      death keeps the backlog while a start drops it. */
  lemma BirthOrDeathEffect(st: State, rec: Record, ev: AmEvent)
    requires rec.tag == ActivityManagerTag && ActivityEvent(rec.text) == Some(ev)
    requires ev.pid in st.pids || ev.package in st.packages
    ensures var r := CheckForBirthOrDeath(st, rec);
      r.pids == st.pids + {ev.pid} && r.packages == st.packages + {ev.package}
      && r.backlog == (if ev.death then st.backlog else [])
  {
  }

  /** A death message for a tracked package makes its pid tracked and keeps the records held back
      so far: after it, a pid is tracked while the backlog is not empty. */
  lemma DeathKeepsBacklog(st: State, package: string, pid: nat, rest: string, time: string, tid: nat, priority: char, amPid: nat)
    requires IsPackage(package) && package in st.packages
    ensures var rec := Record(time, amPid, tid, priority, ActivityManagerTag, DeathText(package, pid, rest));
      var r := CheckForBirthOrDeath(st, rec);
      pid in r.pids && r.backlog == st.backlog
  {
    DeathRoundTrip(package, pid, rest);
    var rec := Record(time, amPid, tid, priority, ActivityManagerTag, DeathText(package, pid, rest));
    BirthOrDeathEffect(st, rec, AmEvent(true, package, pid));
  }

  /** A start message for a tracked package drops the backlog. */
  lemma StartDropsBacklog(st: State, pid: nat, package: string, rest: string, time: string, tid: nat, priority: char, amPid: nat)
    requires IsPackage(package) && package in st.packages
    ensures var rec := Record(time, amPid, tid, priority, ActivityManagerTag, Start1Text(pid, package, rest));
      var r := CheckForBirthOrDeath(st, rec);
      pid in r.pids && r.backlog == []
  {
    Start1RoundTrip(pid, package, rest);
    var rec := Record(time, amPid, tid, priority, ActivityManagerTag, Start1Text(pid, package, rest));
    BirthOrDeathEffect(st, rec, AmEvent(false, package, pid));
  }

  /** Filtering a stream in two parts is filtering it at once; an unrecognised line in the first
      part stops the filter there. */
  lemma {:induction false} FilterAppend(st: State, a: seq<string>, b: seq<string>)
    requires Valid(st)
    ensures Filter(st, a + b) == (var r := Filter(st, a); if r.Err? then r else Filter(r.value, b))
    decreases |b|
  {
    if b == [] {
      assert a + b == a;
    } else {
      FilterAppend(st, a, b[..|b| - 1]);
      assert (a + b)[..|a + b| - 1] == a + b[..|b| - 1];
      assert (a + b)[|a + b| - 1] == b[|b| - 1];
    }
  }

  /** One more line of the stream: the filter continues from where the prefix left it. */
  lemma FilterExtend(st: State, raws: seq<string>, i: nat, mid: State)
    requires Valid(st) && i < |raws| && Filter(st, raws[..i]) == Ok(mid)
    ensures Valid(mid) && Filter(st, raws[..i + 1]) == FilterLine(mid, raws[i])
  {
    assert raws[..i + 1][..i] == raws[..i];
  }

  /** Once a prefix of the stream stops at an unrecognised line, the whole stream stops there. */
  lemma FilterStops(st: State, raws: seq<string>, i: nat, line: string)
    requires Valid(st) && i <= |raws| && Filter(st, raws[..i]) == Err(line)
    ensures Filter(st, raws) == Err(line)
  {
    var a, b := raws[..i], raws[i..];
    assert a + b == raws;
    FilterAppend(st, a, b);
  }

  /** One more backlog record replayed. */
  lemma ReplayExtend(st: State, recs: seq<Record>, i: nat)
    requires st.hl.Some? && i < |recs|
    ensures Replay(st, recs[..i + 1]) == ReplayOne(Replay(st, recs[..i]), recs[i])
  {
    assert recs[..i + 1][..i] == recs[..i];
  }
}

=== FILE: pdf_alloc.dfy ===
/**
 * The MuPDF allocator hooks of the PDF backend. Every block they allocate carries a header holding
 * a magic number and the block's size, and the running total `msize` counts the bytes of those
 * blocks, headers included. Calls made outside a reallocation also record the smallest and largest
 * total seen since the last reset.
 *
 * Memory is a map from the address handed to the caller to the block behind it. The result of the
 * C library's `malloc`/`realloc` is a parameter: the address it returns (0 for NULL) and the bytes
 * the new block holds before anything is copied into it.
 */
module PdfAlloc {

  const Magic: int := 0x3795d42b

  /** `sizeof(struct header)`: an `int` and a `size_t`, padded to 16 bytes on a 64-bit target. */
  const HeaderSize: int := 16

  /** `(size_t)-1`. */
  const SizeMax: int := 0xFFFF_FFFF_FFFF_FFFF

  /** The largest `unsigned int` request. */
  const UintMax: int := 0xFFFF_FFFF

  /** A block of memory: the word in front of it where the header's magic number would be, the
      size its header records, and its bytes. Blocks of other allocators have no magic number. */
  datatype Block = Block(magic: int, size: nat, data: seq<bv8>)

  /** What a block adds to the total: its size and header if it is one of ours, nothing else. */
  function Cost(b: Block): int
  {
    if b.magic == Magic then b.size + HeaderSize else 0
  }

  /** Some address of a non-empty heap. */
  ghost function Pick(h: map<nat, Block>): (p: nat)
    requires |h| > 0
    ensures p in h
  {
    assert h.Keys != {} by { assert |h.Keys| == |h|; }
    var p :| p in h; p
  }

  /** The sum of the costs of the blocks of a heap. */
  ghost function Footprint(h: map<nat, Block>): int
    decreases |h|
  {
    if |h| == 0 then 0
    else
      var p := Pick(h);
      assert |(h - {p}).Keys| < |h.Keys| by { assert (h - {p}).Keys == h.Keys - {p}; }
      Cost(h[p]) + Footprint(h - {p})
  }

  /** The footprint counts any one block plus the rest. */
  lemma {:induction false} FootprintRemove(h: map<nat, Block>, p: nat)
    requires p in h
    ensures Footprint(h) == Cost(h[p]) + Footprint(h - {p})
    decreases |h|
  {
    assert (h - {p}).Keys == h.Keys - {p};
    var q := Pick(h);
    if q != p {
      assert (h - {q}).Keys == h.Keys - {q};
      FootprintRemove(h - {q}, p);
      FootprintRemove(h - {p}, q);
      assert h - {q} - {p} == h - {p} - {q};
    }
  }

  lemma FootprintAdd(h: map<nat, Block>, p: nat, b: Block)
    requires p !in h
    ensures Footprint(h[p := b]) == Footprint(h) + Cost(b)
  {
    FootprintRemove(h[p := b], p);
    assert h[p := b] - {p} == h;
  }

  /** Rewriting a block's bytes leaves the footprint alone. */
  /** Moving a block of another allocator to a free address keeps the footprint and the sizes of
      our blocks. */
  lemma ForeignMoved(h: map<nat, Block>, ptr: nat, got: nat, b: Block, h': map<nat, Block>)
    requires ptr in h && h[ptr].magic != Magic && b.magic == h[ptr].magic
    requires got != 0 && 0 !in h && (got !in h || got == ptr) && h' == (h - {ptr})[got := b]
    requires forall p | p in h && h[p].magic == Magic :: |h[p].data| == h[p].size
    ensures 0 !in h' && Footprint(h') == Footprint(h)
    ensures forall p | p in h' && h'[p].magic == Magic :: |h'[p].data| == h'[p].size
  {
    FootprintRemove(h, ptr);
    FootprintAdd(h - {ptr}, got, b);
  }

  lemma FootprintUpdate(h: map<nat, Block>, p: nat, b: Block)
    requires p in h && Cost(b) == Cost(h[p])
    ensures Footprint(h[p := b]) == Footprint(h)
  {
    FootprintRemove(h[p := b], p);
    FootprintRemove(h, p);
    assert h[p := b] - {p} == h - {p};
  }

  /** Allocating at got, rewriting it and freeing ptr is moving the block. */
  lemma MovedBlock(h: map<nat, Block>, ptr: nat, got: nat, b0: Block, b1: Block)
    requires got != ptr
    ensures h[got := b0][got := b1] - {ptr} == (h - {ptr})[got := b1]
  {
  }

  /** A heap of other allocators' blocks counts nothing. */
  lemma {:induction false} FootprintForeign(h: map<nat, Block>)
    requires forall p | p in h :: h[p].magic != Magic
    ensures Footprint(h) == 0
    decreases |h|
  {
    if |h| > 0 {
      var p :| p in h;
      FootprintRemove(h, p);
      assert (h - {p}).Keys == h.Keys - {p};
      FootprintForeign(h - {p});
    }
  }

  /** The bytes of a reallocated block: the old bytes up to the new size, then what the new block
      held. */
  function Copied(old0: seq<bv8>, fresh0: seq<bv8>): (r: seq<bv8>)
    ensures |r| == |fresh0|
    ensures |old0| <= |fresh0| ==> r[..|old0|] == old0 && r[|old0|..] == fresh0[|old0|..]
    ensures |old0| > |fresh0| ==> r == old0[..|fresh0|]
  {
    if |old0| <= |fresh0| then old0 + fresh0[|old0|..] else old0[..|fresh0|]
  }

  class Allocator {
    var heap: map<nat, Block>
    var msize: int
    var msizePrev: int
    var msizeMax: int
    var msizeMin: int
    var msizeIniz: int
    var inRealloc: bool

    /** The total counts exactly the live blocks of ours, each of which holds the bytes its header
        records; address 0 is NULL. */
    ghost predicate Valid()
      reads this
    {
      0 !in heap
      && msize == Footprint(heap)
      && forall p | p in heap && heap[p].magic == Magic :: |heap[p].data| == heap[p].size
    }

    /** The total lies between the recorded extremes. */
    predicate Logged()
      reads this
    {
      msizeMin <= msize <= msizeMax
    }

    /** The allocator at start-up, beside the blocks other allocators already hold. */
    constructor (foreign: map<nat, Block>)
      requires 0 !in foreign && forall p | p in foreign :: foreign[p].magic != Magic
      ensures heap == foreign && msize == 0 && !inRealloc && Valid()
      ensures msizePrev == 0 && msizeMax == 0 && msizeMin == 0 && msizeIniz == 0
    {
      heap := foreign;
      msize := 0;
      msizePrev := 0;
      msizeMax := 0;
      msizeMin := 0;
      msizeIniz := 0;
      inRealloc := false;
      new;
      FootprintForeign(foreign);
    }

    /** `resetMsize`: remember the current total and forget the extremes. */
    method ResetMsize()
      modifies this
      ensures msizeIniz == old(msize) && msizePrev == 0 && msizeMax == 0 && msizeMin == SizeMax
      ensures heap == old(heap) && msize == old(msize) && inRealloc == old(inRealloc)
    {
      msizeIniz := msize;
      msizePrev := 0;
      msizeMax := 0;
      msizeMin := SizeMax;
    }

    /** `log_size`: widen the extremes to the current total. */
    method LogSize()
      modifies this
      ensures msizeMax == (if old(msizeMax) < msize then msize else old(msizeMax))
      ensures msizeMin == (if old(msizeMin) > msize then msize else old(msizeMin))
      ensures Logged()
      ensures heap == old(heap) && msize == old(msize) && inRealloc == old(inRealloc)
      ensures msizePrev == old(msizePrev) && msizeIniz == old(msizeIniz)
    {
      if msizeMax < msize {
        msizeMax := msize;
      }
      if msizeMin > msize {
        msizeMin := msize;
      }
    }

    /** `my_malloc_default`: got is what `malloc` returned for the block and its header, and the
        bytes it holds. A failure changes nothing and is not recorded. */
    method Malloc(size: nat, got: nat, garbage: seq<bv8>) returns (p: nat)
      requires Valid() && size <= UintMax && |garbage| == size
      requires got == 0 || got !in heap
      modifies this
      ensures Valid() && p == got && inRealloc == old(inRealloc)
      ensures got == 0 ==> heap == old(heap) && msize == old(msize)
      ensures got != 0 ==> heap == old(heap)[got := Block(Magic, size, garbage)]
      ensures got != 0 ==> msize == old(msize) + size + HeaderSize
      ensures got == 0 || old(inRealloc) ==> msizeMin == old(msizeMin) && msizeMax == old(msizeMax)
      ensures got != 0 && !old(inRealloc) ==> Logged()
    {
      if got == 0 {
        return 0;
      }
      FootprintAdd(heap, got, Block(Magic, size, garbage));
      heap := heap[got := Block(Magic, size, garbage)];
      msize := msize + size + HeaderSize;
      if !inRealloc {
        LogSize();
      }
      return got;
    }

    /** `my_free_default`: NULL and blocks of other allocators are left alone; a block of ours
        leaves the heap and the total. */
    method Free(ptr: nat)
      requires Valid() && (ptr == 0 || ptr in heap)
      modifies this
      ensures Valid() && inRealloc == old(inRealloc)
      ensures ptr != 0 && old(heap)[ptr].magic == Magic ==>
        heap == old(heap) - {ptr} && msize == old(msize) - old(heap)[ptr].size - HeaderSize
      ensures ptr == 0 || old(heap)[ptr].magic != Magic ==> heap == old(heap) && msize == old(msize)
      ensures old(inRealloc) ==> msizeMin == old(msizeMin) && msizeMax == old(msizeMax)
      ensures !old(inRealloc) ==> Logged()
    {
      if ptr != 0 {
        if heap[ptr].magic == Magic {
          FootprintRemove(heap, ptr);
          msize := msize - (heap[ptr].size + HeaderSize);
          heap := heap - {ptr};
        }
      }
      if !inRealloc {
        LogSize();
      }
    }

    /** `my_realloc_default`: NULL allocates; a block of another allocator goes to the C library's
        `realloc` unrecorded; a block of ours is replaced by a new one holding its bytes up to the
        new size, and the result is recorded whether or not the allocation succeeded. */
    method Realloc(ptr: nat, size: nat, got: nat, garbage: seq<bv8>) returns (newp: nat)
      requires Valid() && size <= UintMax && |garbage| == size
      requires ptr == 0 || ptr in heap
      requires got == 0 || got !in heap || (ptr != 0 && got == ptr && heap[ptr].magic != Magic)
      modifies this
      ensures Valid() && newp == got
      ensures ptr == 0 ==> inRealloc == old(inRealloc)
      ensures ptr == 0 && got == 0 ==> heap == old(heap) && msize == old(msize)
      ensures ptr == 0 && got != 0 ==>
        heap == old(heap)[got := Block(Magic, size, garbage)] && msize == old(msize) + size + HeaderSize
      ensures ptr == 0 && got != 0 && !old(inRealloc) ==> Logged()
      ensures ptr != 0 && old(heap)[ptr].magic != Magic ==>
        msize == old(msize) && msizeMin == old(msizeMin) && msizeMax == old(msizeMax) && inRealloc == old(inRealloc)
        && heap == if got == 0 then old(heap)
                   else (old(heap) - {ptr})[got := Block(old(heap)[ptr].magic, size, Copied(old(heap)[ptr].data, garbage))]
      ensures ptr != 0 && old(heap)[ptr].magic == Magic ==> !inRealloc && Logged()
      ensures ptr != 0 && old(heap)[ptr].magic == Magic && got == 0 ==> heap == old(heap) && msize == old(msize)
      ensures ptr != 0 && old(heap)[ptr].magic == Magic && got != 0 ==>
        heap == (old(heap) - {ptr})[got := Block(Magic, size, Copied(old(heap)[ptr].data, garbage))]
        && msize == old(msize) + size - old(heap)[ptr].size
    {
      if ptr == 0 {
        newp := Malloc(size, got, garbage);
      } else if heap[ptr].magic != Magic {
        newp := ReallocForeign(ptr, size, got, garbage);
      } else {
        newp := ReallocOwn(ptr, size, got, garbage);
      }
    }

    /** The C library's `realloc` on a block of another allocator: the block moves to got. */
    method ReallocForeign(ptr: nat, size: nat, got: nat, garbage: seq<bv8>) returns (newp: nat)
      requires Valid() && |garbage| == size && ptr != 0 && ptr in heap && heap[ptr].magic != Magic
      requires got == 0 || got !in heap || got == ptr
      modifies this
      ensures Valid() && newp == got
      ensures msize == old(msize) && msizeMin == old(msizeMin) && msizeMax == old(msizeMax) && inRealloc == old(inRealloc)
      ensures heap == if got == 0 then old(heap)
                     else (old(heap) - {ptr})[got := Block(old(heap)[ptr].magic, size, Copied(old(heap)[ptr].data, garbage))]
    {
      newp := got;
      if got != 0 {
        var b := Block(heap[ptr].magic, size, Copied(heap[ptr].data, garbage));
        ForeignMoved(heap, ptr, got, b, (heap - {ptr})[got := b]);
        heap := (heap - {ptr})[got := b];
      }
    }

    /** A block of ours: allocate the new block unrecorded, copy, free the old block unrecorded,
        then record. */
    method ReallocOwn(ptr: nat, size: nat, got: nat, garbage: seq<bv8>) returns (newp: nat)
      requires Valid() && size <= UintMax && |garbage| == size && ptr != 0 && ptr in heap && heap[ptr].magic == Magic
      requires got == 0 || got !in heap
      modifies this
      ensures Valid() && newp == got && !inRealloc && Logged()
      ensures got == 0 ==> heap == old(heap) && msize == old(msize)
      ensures got != 0 ==>
        heap == (old(heap) - {ptr})[got := Block(Magic, size, Copied(old(heap)[ptr].data, garbage))]
        && msize == old(msize) + size - old(heap)[ptr].size
    {
      inRealloc := true;
      var oldBlock := heap[ptr];
      newp := Malloc(size, got, garbage);
      if newp != 0 {
        FootprintUpdate(heap, newp, Block(Magic, size, Copied(oldBlock.data, garbage)));
        heap := heap[newp := Block(Magic, size, Copied(oldBlock.data, garbage))];
        Free(ptr);
        MovedBlock(old(heap), ptr, got, Block(Magic, size, garbage), Block(Magic, size, Copied(oldBlock.data, garbage)));
      }
      LogSize();
      inRealloc := false;
    }
  }
}

=== FILE: pdf_pack.dfy ===
/**
 * The packing of rendered pages into a 4-bit blit buffer: two pixels per byte, the left pixel in
 * the high nibble, each pixel the inverted top four bits of its 8-bit grey level. Rows of the blit
 * buffer are `pitch` bytes apart; rows of the source are `w` pixels apart.
 */
module PdfPack {
  /** The 4-bit grey of a 16-bit pixmap sample: the top nibble of its low byte. */
  function Gray4(v: bv16): bv8
  {
    ((v & 0xF0) >> 4) as bv8
  }

  /** `drawPage`'s byte for the pixels a and b. */
  function PagePair(a: bv16, b: bv16): bv8
  {
    ((((b & 0xF0) >> 4) | (a & 0xF0)) ^ 0xFF) as bv8
  }

  /** `drawPage`'s byte for the last pixel of an odd-width row: the low nibble is 0. */
  function PageLast(a: bv16): bv8
  {
    ((a & 0xF0) ^ 0xF0) as bv8
  }

  /** The left pixel's inverted grey is the high nibble, the right one's the low nibble; the last
      pixel of an odd row leaves a low nibble of 0. */
  lemma PageNibbles(a: bv16, b: bv16)
    ensures PagePair(a, b) >> 4 == 15 - Gray4(a) && PagePair(a, b) & 0x0F == 15 - Gray4(b)
    ensures PageLast(a) >> 4 == 15 - Gray4(a) && PageLast(a) & 0x0F == 0
  {
  }

  /** One row of `drawPage`: the pixel pairs, then the last pixel of an odd width. */
  method PackPageRow(bb: array2<bv8>, pm: array2<bv16>, y: int, w: int)
    requires 0 <= y < bb.Length0 && y < pm.Length0 && 0 <= w <= pm.Length1 && (w + 1) / 2 <= bb.Length1
    modifies bb
    ensures forall x | 0 <= x < w / 2 :: bb[y, x] == PagePair(pm[y, 2 * x], pm[y, 2 * x + 1])
    ensures w % 2 == 1 ==> bb[y, w / 2] == PageLast(pm[y, w - 1])
    ensures forall i, j | 0 <= i < bb.Length0 && 0 <= j < bb.Length1 && (i != y || j >= (w + 1) / 2) ::
      bb[i, j] == old(bb[i, j])
  {
    var x := 0;
    while x < w / 2
      invariant 0 <= x <= w / 2
      invariant forall j | 0 <= j < x :: bb[y, j] == PagePair(pm[y, 2 * j], pm[y, 2 * j + 1])
      invariant forall i, j | 0 <= i < bb.Length0 && 0 <= j < bb.Length1 && (i != y || j >= x) :: bb[i, j] == old(bb[i, j])
    {
      bb[y, x] := PagePair(pm[y, x * 2], pm[y, x * 2 + 1]);
      x := x + 1;
    }
    if w % 2 == 1 {
      bb[y, x] := PageLast(pm[y, x * 2]);
    }
  }

  /** `drawPage`'s packing loop: the blit buffer and the pixmap have the same h rows, and w pixels
      of a pixmap row fill the first (w + 1) / 2 bytes of a blit-buffer row. */
  method DrawPage(bb: array2<bv8>, pm: array2<bv16>, w: int)
    requires pm.Length0 == bb.Length0 && pm.Length1 == w && (w + 1) / 2 <= bb.Length1
    modifies bb
    ensures forall y, x | 0 <= y < bb.Length0 && 0 <= x < w / 2 :: bb[y, x] == PagePair(pm[y, 2 * x], pm[y, 2 * x + 1])
    ensures w % 2 == 1 ==> forall y | 0 <= y < bb.Length0 :: bb[y, w / 2] == PageLast(pm[y, w - 1])
    ensures forall y, x | 0 <= y < bb.Length0 && (w + 1) / 2 <= x < bb.Length1 :: bb[y, x] == old(bb[y, x])
  {
    var y := 0;
    while y < bb.Length0
      invariant 0 <= y <= bb.Length0
      invariant forall i, x | 0 <= i < y && 0 <= x < w / 2 :: bb[i, x] == PagePair(pm[i, 2 * x], pm[i, 2 * x + 1])
      invariant w % 2 == 1 ==> forall i | 0 <= i < y :: bb[i, w / 2] == PageLast(pm[i, w - 1])
      invariant forall i, x | 0 <= i < bb.Length0 && 0 <= x < bb.Length1 && (i >= y || x >= (w + 1) / 2) :: bb[i, x] == old(bb[i, x])
    {
      PackPageRow(bb, pm, y, w);
      y := y + 1;
    }
  }

  /** `drawReflowedPage`'s byte for the pixels a and b of the reflowed 8-bit bitmap. */
  function ReflowPair(a: bv8, b: bv8): bv8
  {
    (((b & 0xF0) >> 4) | (a & 0xF0)) ^ 0xFF
  }

  /** `drawReflowedPage`'s byte for the last pixel of an odd-width row: the low nibble is 15. */
  function ReflowLast(a: bv8): bv8
  {
    255 - (a & 0xF0)
  }

  /** The same nibbles for the reflowed bitmap, except that the last pixel of an odd row leaves a
      low nibble of 15. */
  lemma ReflowNibbles(a: bv8, b: bv8)
    ensures ReflowPair(a, b) >> 4 == 15 - (a >> 4) && ReflowPair(a, b) & 0x0F == 15 - (b >> 4)
    ensures ReflowLast(a) >> 4 == 15 - (a >> 4) && ReflowLast(a) & 0x0F == 0x0F
  {
  }

  /** The pixel pairs of row y of `drawReflowedPage`. */
  method PackReflowPairs(bb: array2<bv8>, pm: array2<bv8>, y: int, w: int)
    requires bb != pm && 0 <= y < bb.Length0 && y < pm.Length0 && 0 <= w <= pm.Length1 && w / 2 <= bb.Length1
    modifies bb
    ensures forall x | 0 <= x < w / 2 :: bb[y, x] == ReflowPair(pm[y, 2 * x], pm[y, 2 * x + 1])
    ensures forall i, j | 0 <= i < bb.Length0 && 0 <= j < bb.Length1 && (i != y || j >= w / 2) ::
      bb[i, j] == old(bb[i, j])
  {
    var x := 0;
    while x < w / 2
      invariant 0 <= x <= w / 2
      invariant forall j | 0 <= j < x :: bb[y, j] == ReflowPair(pm[y, 2 * j], pm[y, 2 * j + 1])
      invariant forall i, j | 0 <= i < bb.Length0 && 0 <= j < bb.Length1 && (i != y || j >= x) :: bb[i, j] == old(bb[i, j])
    {
      bb[y, x] := ReflowPair(pm[y, x * 2], pm[y, x * 2 + 1]);
      x := x + 1;
    }
  }

  /** `drawReflowedPage`'s packing loop, with both offsets 0, over the h rows of the blit buffer.
      For an odd width the last byte of a row is written after both row pointers have advanced:
      into the next row, from the next row's last pixel. Row 0 never gets its last byte, and the
      last iteration reads and writes row h, one past the h rows, which both buffers must hold
      here. */
  method DrawReflowedPage(bb: array2<bv8>, pm: array2<bv8>, w: int, h: int)
    requires bb != pm && 0 <= h && 0 <= w && w <= pm.Length1 && (w + 1) / 2 <= bb.Length1
    requires if w % 2 == 1 then h < bb.Length0 && h < pm.Length0 else h <= bb.Length0 && h <= pm.Length0
    modifies bb
    ensures forall y, x | 0 <= y < h && 0 <= x < w / 2 :: bb[y, x] == ReflowPair(pm[y, 2 * x], pm[y, 2 * x + 1])
    ensures w % 2 == 1 ==> forall y | 1 <= y <= h :: bb[y, w / 2] == ReflowLast(pm[y, w - 1])
    ensures w % 2 == 1 ==> bb[0, w / 2] == old(bb[0, w / 2])
    ensures forall y, x | 0 <= y < bb.Length0 && 0 <= x < bb.Length1 && (y >= h || x >= w / 2) && (w % 2 == 0 || x != w / 2 || y == 0 || y > h) ::
      bb[y, x] == old(bb[y, x])
  {
    var y := 0;
    while y < h
      invariant 0 <= y <= h
      invariant forall i, x | 0 <= i < y && 0 <= x < w / 2 :: bb[i, x] == ReflowPair(pm[i, 2 * x], pm[i, 2 * x + 1])
      invariant w % 2 == 1 ==> forall i | 1 <= i <= y :: bb[i, w / 2] == ReflowLast(pm[i, w - 1])
      invariant forall i, x | 0 <= i < bb.Length0 && 0 <= x < bb.Length1 && (i >= y || x >= w / 2) && (w % 2 == 0 || x != w / 2 || i == 0 || i > y) ::
        bb[i, x] == old(bb[i, x])
    {
      PackReflowPairs(bb, pm, y, w);
      if w % 2 == 1 {
        assert w / 2 * 2 == w - 1;
        bb[y + 1, w / 2] := ReflowLast(pm[y + 1, w / 2 * 2]);
      }
      y := y + 1;
    }
  }

  /** The packing `drawReflowedPage` evidently intends: each row's last byte for an odd width goes
      into that row, from that row's last pixel, so exactly the h rows are read and written. */
  method DrawReflowedPageFixed(bb: array2<bv8>, pm: array2<bv8>, w: int, h: int)
    requires bb != pm && 0 <= h <= bb.Length0 && h <= pm.Length0 && 0 <= w <= pm.Length1 && (w + 1) / 2 <= bb.Length1
    modifies bb
    ensures forall y, x | 0 <= y < h && 0 <= x < w / 2 :: bb[y, x] == ReflowPair(pm[y, 2 * x], pm[y, 2 * x + 1])
    ensures w % 2 == 1 ==> forall y | 0 <= y < h :: bb[y, w / 2] == ReflowLast(pm[y, w - 1])
    ensures forall y, x | 0 <= y < bb.Length0 && 0 <= x < bb.Length1 && (y >= h || x >= (w + 1) / 2) :: bb[y, x] == old(bb[y, x])
  {
    var y := 0;
    while y < h
      invariant 0 <= y <= h
      invariant forall i, x | 0 <= i < y && 0 <= x < w / 2 :: bb[i, x] == ReflowPair(pm[i, 2 * x], pm[i, 2 * x + 1])
      invariant w % 2 == 1 ==> forall i | 0 <= i < y :: bb[i, w / 2] == ReflowLast(pm[i, w - 1])
      invariant forall i, x | 0 <= i < bb.Length0 && 0 <= x < bb.Length1 && (i >= y || x >= (w + 1) / 2) :: bb[i, x] == old(bb[i, x])
    {
      PackReflowPairs(bb, pm, y, w);
      if w % 2 == 1 {
        bb[y, w / 2] := ReflowLast(pm[y, w - 1]);
      }
      y := y + 1;
    }
  }

  /** A row of width 3 over one blit-buffer row: as written, the last byte of row 0 keeps its old
      value (0 here) while the intended packing of a black pixel gives 0xFF, and the as-written
      loop needs a second row in both buffers. */
  method OddWidthCounterexample() returns (asWritten: bv8, intended: bv8)
    ensures asWritten == 0 && intended == 0xFF
  {
    var pm := new bv8[2, 3]((i, j) => 0);
    var bb := new bv8[2, 2]((i, j) => 0);
    DrawReflowedPage(bb, pm, 3, 1);
    asWritten := bb[0, 1];
    var fixedBb := new bv8[1, 2]((i, j) => 0);
    DrawReflowedPageFixed(fixedBb, pm, 3, 1);
    intended := fixedBb[0, 1];
  }
}

=== FILE: pdf_toc.dfy ===
/**
 * The table of contents of a PDF document: the outline tree (each entry has a first child `down`
 * and a next sibling `next`) is walked depth first and flattened into a table keyed 1, 2, 3, ...
 * of entries {page, depth, title}, pages counted from 1 and top-level entries at depth 1.
 */
module PdfToc {
  /** An outline node: its title, its 0-based destination page, its children and its siblings. */
  datatype Outline = Nil | Node(title: string, destPage: int, down: Outline, next: Outline)

  /** One row of the table. */
  datatype TocEntry = TocEntry(page: int, depth: int, title: string)

  /** The number of nodes of an outline, its children and siblings included. */
  function Size(o: Outline): (r: nat)
    ensures o.Node? ==> r > Size(o.down) + Size(o.next)
  {
    match o
    case Nil => 0
    case Node(_, _, down, next) => 1 + Size(down) + Size(next)
  }

  /** The entries the walk produces for `o` and its siblings at `depth`: a node, then its children
      one level deeper, then its siblings. */
  function Flat(o: Outline, depth: int): (r: seq<TocEntry>)
    ensures |r| == Size(o)
  {
    match o
    case Nil => []
    case Node(title, destPage, down, next) =>
      [TocEntry(destPage + 1, depth, title)] + Flat(down, depth + 1) + Flat(next, depth)
  }

  /** Every entry is at least at `depth`, the first one exactly there, and going down the table
      the depth rises by at most one level at a time. */
  lemma {:induction false} FlatShape(o: Outline, depth: int)
    ensures forall k | 0 <= k < |Flat(o, depth)| :: Flat(o, depth)[k].depth >= depth
    ensures Flat(o, depth) != [] ==> Flat(o, depth)[0].depth == depth
    ensures forall k | 0 <= k < |Flat(o, depth)| - 1 :: Flat(o, depth)[k + 1].depth <= Flat(o, depth)[k].depth + 1
  {
    match o
    case Nil =>
    case Node(title, destPage, down, next) =>
      FlatShape(down, depth + 1);
      FlatShape(next, depth);
      var e := [TocEntry(destPage + 1, depth, title)];
      var d, n := Flat(down, depth + 1), Flat(next, depth);
      var f := Flat(o, depth);
      assert f == e + d + n;
      forall k | 0 <= k < |f| - 1
        ensures f[k + 1].depth <= f[k].depth + 1
      {
        if k + 1 < 1 + |d| {
        } else if k + 1 == 1 + |d| {
          assert f[k + 1] == n[0];
        } else {
          assert f[k] == n[k - 1 - |d|] && f[k + 1] == n[k - |d|];
        }
      }
  }

  /** Walking past one node moves its entry and its children's entries from the part still to walk
      to the part walked. */
  lemma WalkStep(done: seq<TocEntry>, cur: Outline, d: int)
    requires cur.Node?
    ensures done + Flat(cur, d) == done + [TocEntry(cur.destPage + 1, d, cur.title)] + Flat(cur.down, d + 1) + Flat(cur.next, d)
  {
    var e := [TocEntry(cur.destPage + 1, d, cur.title)];
    assert Flat(cur, d) == e + Flat(cur.down, d + 1) + Flat(cur.next, d);
    assert done + (e + Flat(cur.down, d + 1) + Flat(cur.next, d)) == done + e + Flat(cur.down, d + 1) + Flat(cur.next, d);
  }

  /** The walk's state: the Lua table being filled, whose keys are 1 to count - 1 (key k holds
      `table[k - 1]`), and the next key. */
  class Toc {
    var count: int
    var table: seq<TocEntry>

    ghost predicate Valid()
      reads this
    {
      count == |table| + 1
    }

    constructor()
      ensures Valid() && table == []
    {
      count := 1;
      table := [];
    }

    /** `walkTableOfContent`: the siblings `ol`, `ol.next`, ... one level below `depth`, each
        followed by its children, stored under the next keys. */
    method Walk(ol: Outline, depth: int)
      requires Valid()
      modifies this
      ensures Valid()
      ensures table == old(table) + Flat(ol, depth + 1)
      decreases Size(ol), 1
    {
      var d := depth + 1;
      var cur := ol;
      while cur.Node?
        invariant Valid() && Size(cur) <= Size(ol)
        invariant old(table) + Flat(ol, d) == table + Flat(cur, d)
        decreases Size(cur)
      {
        WalkStep(table, cur, d);
        Visit(cur, d);
        cur := cur.next;
      }
      assert table + Flat(cur, d) == table;
    }

    /** One pass of the walk's loop: the entry of `cur` at `d` under the next key, then its
        children one level deeper. */
    method Visit(cur: Outline, d: int)
      requires Valid() && cur.Node?
      modifies this
      ensures Valid()
      ensures table == old(table) + [TocEntry(cur.destPage + 1, d, cur.title)] + Flat(cur.down, d + 1)
      decreases Size(cur), 0
    {
      table := table + [TocEntry(cur.destPage + 1, d, cur.title)];
      count := count + 1;
      if cur.down.Node? {
        Walk(cur.down, d);
      }
    }
  }

  /** `getTableOfContent`: the whole outline, keys from 1, top-level entries at depth 1. */
  method GetTableOfContent(ol: Outline) returns (table: seq<TocEntry>)
    ensures table == Flat(ol, 1)
  {
    var toc := new Toc();
    toc.Walk(ol, 0);
    table := toc.table;
  }

  /** The table has one entry per outline node, every entry's depth is at least 1, the first is
      the first top-level node, and the depth rises by at most one level from entry to entry. */
  lemma TableShape(ol: Outline)
    ensures |Flat(ol, 1)| == Size(ol)
    ensures forall k | 0 <= k < |Flat(ol, 1)| :: Flat(ol, 1)[k].depth >= 1
    ensures ol.Node? ==> Flat(ol, 1)[0] == TocEntry(ol.destPage + 1, 1, ol.title)
    ensures forall k | 0 <= k < |Flat(ol, 1)| - 1 :: Flat(ol, 1)[k + 1].depth <= Flat(ol, 1)[k].depth + 1
  {
    FlatShape(ol, 1);
  }
}

=== FILE: pdf_words.dfy ===
/**
 * The word split of a page's text: each span of characters (Unicode code points) is cut at every
 * whitespace character, the whitespace itself dropped. Two whitespace characters in a row give an
 * empty word; a span that ends in whitespace gives no empty word after it. The words of a line are
 * those of its spans, in order.
 */
module PdfWords {
  /** The code points the split treats as whitespace. */
  predicate IsSpace(c: int)
  {
    c == 0x20 || c == 0x09 || c == 0x0A || c == 0x0B || c == 0x0C || c == 0x0D || c == 0xA0 ||
    c == 0x1680 || c == 0x180E || 0x2000 <= c <= 0x200A || c == 0x202F || c == 0x205F || c == 0x3000
  }

  predicate NoSpace(s: seq<int>)
  {
    forall i | 0 <= i < |s| :: !IsSpace(s[i])
  }

  /** The word at the front of `s` and what follows the whitespace that ends it. */
  function FirstWord(s: seq<int>): (r: (seq<int>, seq<int>))
    ensures s != [] ==> |r.1| < |s|
  {
    if s == [] then ([], [])
    else if IsSpace(s[0]) then ([], s[1..])
    else
      var (w, rest) := FirstWord(s[1..]);
      ([s[0]] + w, rest)
  }

  /** The first word holds no whitespace, and is either all of `s` or ends just before a
      whitespace character, after which the rest begins. */
  lemma {:induction false} FirstWordShape(s: seq<int>)
    ensures NoSpace(FirstWord(s).0)
    ensures var (w, rest) := FirstWord(s);
      (w == s && rest == []) || (|w| < |s| && IsSpace(s[|w|]) && rest == s[|w| + 1..])
    decreases |s|
  {
    if s != [] && !IsSpace(s[0]) {
      FirstWordShape(s[1..]);
      var w := FirstWord(s[1..]).0;
      assert s[1..][|w|..] == s[|w| + 1..];
      assert s == [s[0]] + s[1..];
    }
  }

  /** A word character at the front joins the word of what follows it. */
  lemma FirstWordStep(s: seq<int>)
    requires s != [] && !IsSpace(s[0])
    ensures FirstWord(s).0 == [s[0]] + FirstWord(s[1..]).0 && FirstWord(s).1 == FirstWord(s[1..]).1
  {
  }

  /** The words of one span, in order. */
  function Words(s: seq<int>): seq<seq<int>>
    decreases |s|
  {
    if s == [] then [] else [FirstWord(s).0] + Words(FirstWord(s).1)
  }

  /** `s` with every whitespace character left out. */
  function NonSpaces(s: seq<int>): seq<int>
  {
    if s == [] then [] else (if IsSpace(s[0]) then [] else [s[0]]) + NonSpaces(s[1..])
  }

  /** The number of whitespace characters in `s`. */
  function CountSpaces(s: seq<int>): nat
  {
    if s == [] then 0 else (if IsSpace(s[0]) then 1 else 0) + CountSpaces(s[1..])
  }

  /** `s` with every whitespace character replaced by a plain space. */
  function Blanked(s: seq<int>): seq<int>
  {
    if s == [] then [] else [if IsSpace(s[0]) then 0x20 else s[0]] + Blanked(s[1..])
  }

  /** `s` without one trailing whitespace character. */
  function Trimmed(s: seq<int>): seq<int>
  {
    if s != [] && IsSpace(s[|s| - 1]) then s[..|s| - 1] else s
  }

  /** The words joined with a plain space between each two. */
  function JoinWords(ws: seq<seq<int>>): seq<int>
  {
    if ws == [] then [] else if |ws| == 1 then ws[0] else ws[0] + [0x20] + JoinWords(ws[1..])
  }

  /** All words joined. */
  function Concat(ws: seq<seq<int>>): seq<int>
  {
    if ws == [] then [] else ws[0] + Concat(ws[1..])
  }

  lemma {:induction false} NonSpacesAppend(a: seq<int>, b: seq<int>)
    ensures NonSpaces(a + b) == NonSpaces(a) + NonSpaces(b)
    decreases |a|
  {
    if a == [] {
      assert a + b == b;
    } else {
      assert (a + b)[1..] == a[1..] + b && (a + b)[0] == a[0];
      NonSpacesAppend(a[1..], b);
      var h := (if IsSpace(a[0]) then [] else [a[0]]);
      assert NonSpaces(a + b) == h + NonSpaces(a[1..] + b);
      assert NonSpaces(a) == h + NonSpaces(a[1..]);
    }
  }

  lemma {:induction false} CountSpacesAppend(a: seq<int>, b: seq<int>)
    ensures CountSpaces(a + b) == CountSpaces(a) + CountSpaces(b)
    decreases |a|
  {
    if a == [] {
      assert a + b == b;
    } else {
      assert (a + b)[1..] == a[1..] + b && (a + b)[0] == a[0];
      CountSpacesAppend(a[1..], b);
    }
  }

  lemma {:induction false} BlankedAppend(a: seq<int>, b: seq<int>)
    ensures Blanked(a + b) == Blanked(a) + Blanked(b)
    decreases |a|
  {
    if a == [] {
      assert a + b == b;
    } else {
      assert (a + b)[1..] == a[1..] + b && (a + b)[0] == a[0];
      BlankedAppend(a[1..], b);
      var h := [if IsSpace(a[0]) then 0x20 else a[0]];
      assert Blanked(a + b) == h + Blanked(a[1..] + b);
      assert Blanked(a) == h + Blanked(a[1..]);
    }
  }

  /** A run without whitespace is left as it is, and counts no whitespace. */
  lemma {:induction false} NoSpaceFacts(s: seq<int>)
    requires NoSpace(s)
    ensures NonSpaces(s) == s && Blanked(s) == s && CountSpaces(s) == 0
    decreases |s|
  {
    if s != [] {
      NoSpaceFacts(s[1..]);
    }
  }

  /** `s` is its first word, then (when there is more) the whitespace that ends it and the rest. */
  lemma FirstWordSplit(s: seq<int>)
    requires s != [] && FirstWord(s).0 != s
    ensures NoSpace(FirstWord(s).0) && |FirstWord(s).0| < |s|
    ensures s == FirstWord(s).0 + [s[|FirstWord(s).0|]] + FirstWord(s).1
    ensures IsSpace(s[|FirstWord(s).0|])
  {
    FirstWordShape(s);
    var w := FirstWord(s).0;
    assert s == s[..|w|] + [s[|w|]] + s[|w| + 1..];
  }

  lemma ConcatCons(w: seq<int>, ws: seq<seq<int>>)
    ensures Concat([w] + ws) == w + Concat(ws)
  {
    assert ([w] + ws)[1..] == ws;
  }

  lemma JoinCons(w: seq<int>, ws: seq<seq<int>>)
    requires ws != []
    ensures JoinWords([w] + ws) == w + [0x20] + JoinWords(ws)
  {
    assert ([w] + ws)[1..] == ws;
  }

  /** A word, the whitespace that ends it and the rest: the characters kept, ... */
  lemma PieceNonSpaces(w: seq<int>, sp: int, rest: seq<int>)
    requires NoSpace(w) && IsSpace(sp)
    ensures NonSpaces(w + [sp] + rest) == w + NonSpaces(rest)
  {
    NoSpaceFacts(w);
    NonSpacesAppend(w, [sp]);
    assert NonSpaces([sp]) == [];
    assert NonSpaces(w + [sp]) == w + [];
    NonSpacesAppend(w + [sp], rest);
  }

  /** ... the whitespace counted, ... */
  lemma PieceCount(w: seq<int>, sp: int, rest: seq<int>)
    requires NoSpace(w) && IsSpace(sp)
    ensures CountSpaces(w + [sp] + rest) == 1 + CountSpaces(rest)
  {
    NoSpaceFacts(w);
    CountSpacesAppend(w + [sp], rest);
    CountSpacesAppend(w, [sp]);
    assert CountSpaces([sp]) == 1;
  }

  /** ... and the whitespace made a plain space. */
  lemma PieceBlanked(w: seq<int>, sp: int, rest: seq<int>)
    requires NoSpace(w) && IsSpace(sp)
    ensures Blanked(w + [sp] + rest) == w + [0x20] + Blanked(rest)
  {
    NoSpaceFacts(w);
    BlankedAppend(w + [sp], rest);
    BlankedAppend(w, [sp]);
    assert Blanked([sp]) == [0x20];
  }

  /** No word holds a whitespace character. */
  lemma {:induction false} WordsNoSpace(s: seq<int>)
    ensures forall k | 0 <= k < |Words(s)| :: NoSpace(Words(s)[k])
    decreases |s|
  {
    if s != [] {
      FirstWordShape(s);
      WordsNoSpace(FirstWord(s).1);
    }
  }

  /** A non-empty span gives one word per whitespace character, plus one unless it ends in
      whitespace; an empty span gives none. */
  lemma {:induction false} WordsCount(s: seq<int>)
    ensures |Words(s)| == CountSpaces(s) + (if s != [] && !IsSpace(s[|s| - 1]) then 1 else 0)
    decreases |s|
  {
    if s != [] {
      var w, rest := FirstWord(s).0, FirstWord(s).1;
      WordsCount(rest);
      FirstWordShape(s);
      if w == s {
        NoSpaceFacts(w);
        assert s[|s| - 1] == w[|w| - 1];
      } else {
        FirstWordSplit(s);
        PieceCount(w, s[|w|], rest);
        if rest != [] {
          assert s[|s| - 1] == rest[|rest| - 1];
        }
      }
    }
  }

  /** The words hold exactly the span's non-whitespace characters, in order. */
  lemma {:induction false} WordsConcat(s: seq<int>)
    ensures Concat(Words(s)) == NonSpaces(s)
    decreases |s|
  {
    if s != [] {
      var w, rest := FirstWord(s).0, FirstWord(s).1;
      WordsConcat(rest);
      ConcatCons(w, Words(rest));
      FirstWordShape(s);
      if w == s {
        NoSpaceFacts(w);
      } else {
        FirstWordSplit(s);
        PieceNonSpaces(w, s[|w|], rest);
      }
    }
  }

  /** Joining the words with plain spaces gives back the span, every whitespace character made a
      plain space and a trailing one dropped. */
  lemma {:induction false} WordsJoin(s: seq<int>)
    ensures JoinWords(Words(s)) == Blanked(Trimmed(s))
    decreases |s|
  {
    if s != [] {
      var w, rest := FirstWord(s).0, FirstWord(s).1;
      FirstWordShape(s);
      if w == s {
        NoSpaceFacts(w);
        assert Words(s) == [s];
      } else {
        FirstWordSplit(s);
        var sp := s[|w|];
        if rest == [] {
          NoSpaceFacts(w);
          assert Words(s) == [w];
          assert s == w + [sp];
        } else {
          WordsJoin(rest);
          JoinCons(w, Words(rest));
          assert s[|s| - 1] == rest[|rest| - 1];
          assert Trimmed(s) == w + [sp] + Trimmed(rest);
          PieceBlanked(w, sp, Trimmed(rest));
        }
      }
    }
  }

  /** The inner loop: the characters from position i up to the next whitespace character, and the
      position after that whitespace (or the end). */
  method ScanWord(text: seq<int>, i0: int) returns (word: seq<int>, i: int)
    requires 0 <= i0 < |text|
    ensures i0 < i <= |text|
    ensures (word, text[i..]) == FirstWord(text[i0..])
  {
    word := [];
    i := i0;
    while i < |text|
      invariant i0 <= i <= |text|
      invariant word == text[i0..i]
      invariant FirstWord(text[i0..]).0 == word + FirstWord(text[i..]).0
      invariant FirstWord(text[i0..]).1 == FirstWord(text[i..]).1
    {
      if IsSpace(text[i]) {
        assert FirstWord(text[i..]) == ([], text[i + 1..]);
        FirstWordShape(text[i0..]);
        assert word + [] == word;
        i := i + 1;
        return;
      }
      FirstWordStep(text[i..]);
      assert text[i..][1..] == text[i + 1..];
      assert text[i0..i + 1] == text[i0..i] + [text[i]];
      assert word + ([text[i]] + FirstWord(text[i + 1..]).0) == (word + [text[i]]) + FirstWord(text[i + 1..]).0;
      word := word + [text[i]];
      i := i + 1;
    }
    assert word + [] == word;
  }

  /** The outer loop over one span: a word per pass until the span is used up. */
  method SplitSpan(text: seq<int>) returns (words: seq<seq<int>>)
    ensures words == Words(text)
  {
    words := [];
    var i := 0;
    while i < |text|
      invariant 0 <= i <= |text|
      invariant words + Words(text[i..]) == Words(text)
    {
      var word, next := ScanWord(text, i);
      assert Words(text[i..]) == [word] + Words(text[next..]);
      words := words + [word];
      i := next;
    }
  }

  /** The words of a line: those of each of its spans, in order. */
  function LineWords(spans: seq<seq<int>>): seq<seq<int>>
  {
    if spans == [] then [] else LineWords(spans[..|spans| - 1]) + Words(spans[|spans| - 1])
  }

  /** The numbered words of one line (`word` counts on across the line's spans). */
  method SplitLine(spans: seq<seq<int>>) returns (words: seq<seq<int>>)
    ensures words == LineWords(spans)
  {
    words := [];
    var k := 0;
    while k < |spans|
      invariant 0 <= k <= |spans|
      invariant words == LineWords(spans[..k])
    {
      var ws := SplitSpan(spans[k]);
      assert spans[..k + 1][..k] == spans[..k];
      words := words + ws;
      k := k + 1;
    }
    assert spans[..k] == spans;
  }

  /** No word of a line holds a whitespace character. */
  lemma {:induction false} LineWordsNoSpace(spans: seq<seq<int>>)
    ensures forall k | 0 <= k < |LineWords(spans)| :: NoSpace(LineWords(spans)[k])
    decreases |spans|
  {
    if spans != [] {
      LineWordsNoSpace(spans[..|spans| - 1]);
      WordsNoSpace(spans[|spans| - 1]);
    }
  }
}

=== FILE: popen_noshell.dfy ===
/**
 * The command splitter of popen-noshell: a command line is cut into arguments without a shell.
 * Blanks outside quotes separate arguments, single and double quotes group, and any shell
 * metacharacter rejects the whole command. The arguments are written one after another, each
 * terminated by NUL, into a scratch buffer one longer than the command, and the argument vector
 * points into that buffer and ends with NULL.
 *
 * Pointers into the scratch buffer are offsets; NULL is `None`.
 */
module PopenNoshell {
  import opened Wrappers

  /** The characters that would need a shell: `!\$` and the backquote, newline, `|&;()<>`. */
  predicate IsMeta(c: char)
  {
    c == '!' || c == '\\' || c == '$' || c == '`' || c == '\n' || c == '|' || c == '&' || c == ';'
    || c == '(' || c == ')' || c == '<' || c == '>'
  }

  predicate IsBlank(c: char) { c == ' ' || c == '\t' }

  predicate NoMeta(s: string) { forall i | 0 <= i < |s| :: !IsMeta(s[i]) }

  // ---------------------------------------------------------------------------------------------
  // The splitter, character by character

  /** Where the splitter stands after a prefix of the command: the finished arguments, the one
      being collected, and whether a single or a double quote is open. */
  datatype Scan = Scan(tokens: seq<string>, cur: string, inSq: bool, inDq: bool)

  /** One character of the command (a metacharacter is rejected before this step). */
  function Step(st: Scan, c: char): Scan
  {
    if IsBlank(c) then
      if st.inSq || st.inDq then st.(cur := st.cur + [c])
      else Scan(Tokens(st), [], st.inSq, st.inDq)
    else if c == '\'' && !st.inDq then st.(inSq := !st.inSq)
    else if c == '"' && !st.inSq then st.(inDq := !st.inDq)
    else st.(cur := st.cur + [c])
  }

  function ScanOf(s: string): Scan
  {
    if s == [] then Scan([], [], false, false) else Step(ScanOf(s[..|s| - 1]), s[|s| - 1])
  }

  /** The finished arguments, and the one being collected unless it is empty. */
  function Tokens(st: Scan): seq<string>
  {
    st.tokens + (if st.cur == [] then [] else [st.cur])
  }

  /** The arguments of a command, or None when the splitter fails with EINVAL: a metacharacter
      anywhere, a quote left open, or no argument at all. */
  function SplitCommand(cmd: string): (r: Option<seq<string>>)
    ensures r.Some? ==> NoMeta(cmd) && r.value != []
  {
    if !NoMeta(cmd) then None
    else
      var st := ScanOf(cmd);
      if st.inSq || st.inDq || Tokens(st) == [] then None else Some(Tokens(st))
  }

  // ---------------------------------------------------------------------------------------------
  // An independent account: which characters survive

  /** The open quotes after a prefix: a quote toggles unless it sits inside the other kind. */
  datatype Quotes = Quotes(sq: bool, dq: bool)

  function Toggle(q: Quotes, c: char): Quotes
  {
    if c == '\'' && !q.dq then q.(sq := !q.sq)
    else if c == '"' && !q.sq then q.(dq := !q.dq)
    else q
  }

  function QuotesOf(s: string): Quotes
  {
    if s == [] then Quotes(false, false) else Toggle(QuotesOf(s[..|s| - 1]), s[|s| - 1])
  }

  /** A character the splitter drops: a blank outside quotes, or a quote that toggles. */
  predicate Dropped(q: Quotes, c: char)
  {
    (IsBlank(c) && !q.sq && !q.dq) || (c == '\'' && !q.dq) || (c == '"' && !q.sq)
  }

  /** The command without the characters the splitter drops. */
  function Kept(s: string): string
  {
    if s == [] then []
    else Kept(s[..|s| - 1]) + (if Dropped(QuotesOf(s[..|s| - 1]), s[|s| - 1]) then [] else [s[|s| - 1]])
  }

  function Concat(ts: seq<string>): string
  {
    if ts == [] then [] else Concat(ts[..|ts| - 1]) + ts[|ts| - 1]
  }

  predicate AllNonEmpty(ts: seq<string>) { forall k | 0 <= k < |ts| :: ts[k] != [] }

  // ---------------------------------------------------------------------------------------------
  // The scratch buffer

  /** The buffer contents the arguments occupy: each one followed by NUL. */
  function Layout(ts: seq<string>): (r: string)
    ensures |r| == |Concat(ts)| + |ts|
  {
    if ts == [] then [] else Layout(ts[..|ts| - 1]) + ts[|ts| - 1] + ['\0']
  }

  /** Where each argument starts in the buffer. */
  function Pointers(ts: seq<string>): (r: seq<Option<nat>>)
    ensures |r| == |ts|
  {
    if ts == [] then [] else Pointers(ts[..|ts| - 1]) + [Some(|Layout(ts[..|ts| - 1])|)]
  }

  lemma ConcatSnoc(ts: seq<string>, t: string)
    ensures Concat(ts + [t]) == Concat(ts) + t && Layout(ts + [t]) == Layout(ts) + t + ['\0']
    ensures Pointers(ts + [t]) == Pointers(ts) + [Some(|Layout(ts)|)]
  {
    assert (ts + [t])[..|ts|] == ts;
  }

  /** Every pointer of the vector reads its argument back, up to the NUL after it. */
  lemma {:induction false} PointersReadBack(ts: seq<string>, k: nat)
    requires k < |ts|
    ensures Pointers(ts)[k].Some?
    ensures var o := Pointers(ts)[k].value;
      o + |ts[k]| < |Layout(ts)| && Layout(ts)[o..o + |ts[k]|] == ts[k] && Layout(ts)[o + |ts[k]|] == '\0'
  {
    var init := ts[..|ts| - 1];
    if k < |ts| - 1 {
      PointersReadBack(init, k);
      assert ts == init + [ts[|ts| - 1]];
      ConcatSnoc(init, ts[|ts| - 1]);
      var o := Pointers(init)[k].value;
      assert Layout(ts)[o..o + |ts[k]|] == Layout(init)[o..o + |ts[k]|];
    } else {
      assert ts == init + [ts[k]];
      ConcatSnoc(init, ts[k]);
    }
  }

  // ---------------------------------------------------------------------------------------------
  // What the splitter promises

  lemma TokensOf(st: Scan)
    ensures st.cur == [] ==> Tokens(st) == st.tokens
    ensures st.cur != [] ==> Tokens(st) == st.tokens + [st.cur]
    ensures Concat(Tokens(st)) == Concat(st.tokens) + st.cur
  {
    if st.cur != [] {
      ConcatSnoc(st.tokens, st.cur);
    } else {
      assert st.tokens + [] == st.tokens;
    }
  }

  /** The splitter's quote flags are the open quotes. */
  lemma {:induction false} ScanQuotes(s: string)
    ensures Quotes(ScanOf(s).inSq, ScanOf(s).inDq) == QuotesOf(s)
  {
    if s != [] {
      ScanQuotes(s[..|s| - 1]);
    }
  }

  /** Every finished argument is non-empty. */
  lemma {:induction false} ScanNonEmpty(s: string)
    ensures AllNonEmpty(ScanOf(s).tokens)
  {
    if s != [] {
      ScanNonEmpty(s[..|s| - 1]);
      TokensOf(ScanOf(s[..|s| - 1]));
    }
  }

  lemma StepFits(st: Scan, c: char)
    ensures |Layout(Step(st, c).tokens)| + |Step(st, c).cur| <= |Layout(st.tokens)| + |st.cur| + 1
  {
    TokensOf(st);
  }

  /** The buffer never runs ahead of the command. */
  lemma {:induction false} ScanFits(s: string)
    ensures |Layout(ScanOf(s).tokens)| + |ScanOf(s).cur| <= |s|
  {
    if s != [] {
      ScanFits(s[..|s| - 1]);
      StepFits(ScanOf(s[..|s| - 1]), s[|s| - 1]);
    }
  }

  /** The finished arguments and the one being collected spell the kept characters. */
  lemma {:induction false} ScanKept(s: string)
    ensures Concat(ScanOf(s).tokens) + ScanOf(s).cur == Kept(s)
  {
    if s != [] {
      var init := s[..|s| - 1];
      var c := s[|s| - 1];
      ScanKept(init);
      ScanQuotes(init);
      var st := ScanOf(init);
      var q := QuotesOf(init);
      assert Kept(s) == Kept(init) + (if Dropped(q, c) then [] else [c]);
      if IsBlank(c) && !st.inSq && !st.inDq {
        TokensOf(st);
      } else if !Dropped(q, c) {
        assert Concat(st.tokens) + (st.cur + [c]) == (Concat(st.tokens) + st.cur) + [c];
      }
    }
  }

  lemma ScanAccount(s: string)
    ensures var st := ScanOf(s);
      AllNonEmpty(st.tokens)
      && Concat(st.tokens) + st.cur == Kept(s)
      && Quotes(st.inSq, st.inDq) == QuotesOf(s)
      && |Layout(st.tokens)| + |st.cur| <= |s|
  {
    ScanQuotes(s);
    ScanNonEmpty(s);
    ScanFits(s);
    ScanKept(s);
  }

  /** When the command splits, the arguments are non-empty, they concatenate to the command
      without its dropped characters, and they fit, each with its NUL, in a buffer one longer than
      the command. */
  lemma SplitAccount(cmd: string)
    requires SplitCommand(cmd).Some?
    ensures var ts := SplitCommand(cmd).value;
      AllNonEmpty(ts) && Concat(ts) == Kept(cmd) && |Layout(ts)| <= |cmd| + 1
  {
    var st := ScanOf(cmd);
    ScanAccount(cmd);
    TokensOf(st);
  }

  lemma ConcatEmpty(ts: seq<string>)
    requires AllNonEmpty(ts)
    ensures Concat(ts) == [] <==> ts == []
  {
    if ts != [] {
      assert ts[|ts| - 1] != [];
    }
  }

  /** The splitter fails exactly when the command holds a metacharacter, leaves a quote open, or
      keeps no character at all (blanks only, or only empty quotes). */
  lemma SplitFails(cmd: string)
    ensures SplitCommand(cmd).None? <==>
      !NoMeta(cmd) || QuotesOf(cmd) != Quotes(false, false) || Kept(cmd) == []
  {
    var st := ScanOf(cmd);
    ScanAccount(cmd);
    ConcatEmpty(st.tokens);
    TokensOf(st);
  }

  /** An empty pair of quotes gives no argument, so a command of only that fails. */
  lemma EmptyQuotesFail()
    ensures SplitCommand("''") == None
  {
    assert "''"[..1] == "'";
    assert "'"[..0] == "";
  }

  /** A double quote inside single quotes is kept. */
  lemma QuoteInsideQuotes()
    ensures SplitCommand("'\"'") == Some(["\""])
  {
    var s := "'\"'";
    assert s[..2][..1] == "'" && s[..1][..0] == "";
    assert ScanOf(s[..1]) == Scan([], [], true, false);
    assert ScanOf(s[..2]) == Scan([], "\"", true, false);
    assert ScanOf(s) == Scan([], "\"", false, false);
    assert Tokens(ScanOf(s)) == ["\""];
    assert NoMeta(s) by {
      forall i | 0 <= i < |s| ensures !IsMeta(s[i]) {
        assert s[i] == '\'' || s[i] == '"';
      }
    }
  }

  // ---------------------------------------------------------------------------------------------
  // The splitter as the source writes it

  /** `_popen_noshell_add_token`: a non-empty token (its start lies before j) is NUL-terminated
      in the buffer and appended to the vector (`popen_noshell_add_ptr_to_argv`). In terms of the
      splitter, the argument being collected, cur, joins the finished ones, toks. */
  method AddToken(buf: array<char>, argv: seq<Option<nat>>, start: Option<nat>, j: nat,
                  ghost toks: seq<string>, ghost cur: string)
    returns (argv': seq<Option<nat>>, j': nat, ghost toks': seq<string>)
    requires j == |Layout(toks)| + |cur| && j < buf.Length && buf[..j] == Layout(toks) + cur
    requires start.None? ==> cur == []
    requires start.Some? ==> start.value == |Layout(toks)|
    requires argv == Pointers(toks)
    modifies buf
    ensures start.Some? && start.value < j ==>
      buf[..] == old(buf[..])[j := '\0'] && j' == j + 1 && argv' == argv + [start]
    ensures !(start.Some? && start.value < j) ==> buf[..] == old(buf[..]) && j' == j && argv' == argv
    ensures toks' == Tokens(Scan(toks, cur, false, false))
    ensures j' == |Layout(toks')| && buf[..j'] == Layout(toks') && argv' == Pointers(toks')
  {
    argv', j' := argv, j;
    TokensOf(Scan(toks, cur, false, false));
    toks' := Tokens(Scan(toks, cur, false, false));
    if start.Some? && start.value < j {
      buf[j] := '\0';
      j' := j + 1;
      argv' := argv + [start];
      ConcatSnoc(toks, cur);
      assert buf[..j'] == buf[..j] + ['\0'];
    }
  }

  /** Writes c at j, after the j characters already written. */
  method Put(buf: array<char>, j: nat, c: char, ghost written: string)
    requires j < buf.Length && buf[..j] == written
    modifies buf
    ensures buf[..j + 1] == written + [c]
  {
    buf[j] := c;
    assert buf[..j + 1] == buf[..j] + [c];
  }

  lemma MetaFails(cmd: string, i: nat)
    requires i < |cmd| && IsMeta(cmd[i])
    ensures SplitCommand(cmd).None?
  {
  }

  lemma NoMetaSnoc(cmd: string, i: nat)
    requires i < |cmd| && NoMeta(cmd[..i]) && !IsMeta(cmd[i])
    ensures NoMeta(cmd[..i + 1])
  {
    assert cmd[..i + 1] == cmd[..i] + [cmd[i]];
  }

  lemma ScanSnoc(s: string, i: nat)
    requires i < |s|
    ensures ScanOf(s[..i + 1]) == Step(ScanOf(s[..i]), s[i])
  {
    assert s[..i + 1][..i] == s[..i];
  }

  /** The body of the splitter's loop for a character that is not a metacharacter: it moves the
      splitter one `Step` and keeps the buffer and the vector in line with it. */
  method SplitChar(buf: array<char>, c: char, ptrs: seq<Option<nat>>, start: Option<nat>, j: nat,
                   inSq: bool, inDq: bool, ghost toks: seq<string>, ghost cur: string)
    returns (ptrs': seq<Option<nat>>, start': Option<nat>, j': nat, inSq': bool, inDq': bool,
             ghost toks': seq<string>, ghost cur': string)
    requires j < buf.Length && start.Some?
    requires j == |Layout(toks)| + |cur| && buf[..j] == Layout(toks) + cur
    requires start.value == |Layout(toks)| && ptrs == Pointers(toks)
    modifies buf
    ensures Scan(toks', cur', inSq', inDq') == Step(Scan(toks, cur, inSq, inDq), c)
    ensures j' <= j + 1 && j' == |Layout(toks')| + |cur'| && buf[..j'] == Layout(toks') + cur'
    ensures start'.None? ==> cur' == []
    ensures start'.Some? ==> start'.value == |Layout(toks')|
    ensures ptrs' == Pointers(toks')
  {
    ptrs', start', j', inSq', inDq', toks', cur' := ptrs, start, j, inSq, inDq, toks, cur;
    if c == ' ' || c == '\t' {
      if inSq || inDq {
        Put(buf, j, c, Layout(toks) + cur);
        j' := j + 1;
        cur' := cur + [c];
      } else {
        ptrs', j', toks' := AddToken(buf, ptrs, start, j, toks, cur);
        cur' := [];
        start' := None;
      }
    } else if c == '\'' && !inDq {
      inSq' := !inSq;
    } else if c == '"' && !inSq {
      inDq' := !inDq;
    } else {
      Put(buf, j, c, Layout(toks) + cur);
      j' := j + 1;
      cur' := cur + [c];
    }
  }

  /** `popen_noshell_split_command_to_argv`: on success the vector points at the arguments of
      `SplitCommand` in the scratch buffer and ends with NULL. The command is a C string, so it
      holds no NUL. */
  method SplitCommandToArgv(cmd: string) returns (argv: Option<seq<Option<nat>>>, buf: array<char>)
    requires '\0' !in cmd
    ensures fresh(buf) && buf.Length == |cmd| + 1
    ensures argv.None? <==> SplitCommand(cmd).None?
    ensures argv.Some? ==>
      var ts := SplitCommand(cmd).value;
      argv.value == Pointers(ts) + [None] && |Layout(ts)| <= buf.Length && buf[..|Layout(ts)|] == Layout(ts)
  {
    buf := new char[|cmd| + 1](_ => '\0');
    var ok, ptrs, start, j, inSq, inDq, toks, cur := ScanCommand(cmd, buf);
    if !ok {
      return None, buf;
    }
    argv := FinishSplit(cmd, buf, ptrs, start, j, inSq, inDq, toks, cur);
  }

  /** The splitter's loop over the command: a metacharacter stops it with a failure; otherwise every
      character has been scanned and the arguments so far copied into the scratch buffer. */
  method ScanCommand(cmd: string, buf: array<char>)
    returns (ok: bool, ptrs: seq<Option<nat>>, start: Option<nat>, j: nat, inSq: bool, inDq: bool,
             ghost toks: seq<string>, ghost cur: string)
    requires buf.Length == |cmd| + 1
    modifies buf
    ensures !ok ==> SplitCommand(cmd).None?
    ensures ok ==> NoMeta(cmd) && ScanOf(cmd) == Scan(toks, cur, inSq, inDq)
    ensures ok ==> j < buf.Length && j == |Layout(toks)| + |cur| && buf[..j] == Layout(toks) + cur
    ensures ok ==> (start.None? ==> cur == []) && (start.Some? ==> start.value == |Layout(toks)|)
    ensures ok ==> ptrs == Pointers(toks)
  {
    ptrs, start := [], None;
    inSq, inDq := false, false;
    toks, cur := [], [];
    var i := 0;
    j := 0;
    while i < |cmd|
      invariant 0 <= i <= |cmd| && j <= i
      invariant NoMeta(cmd[..i])
      invariant ScanOf(cmd[..i]) == Scan(toks, cur, inSq, inDq)
      invariant j == |Layout(toks)| + |cur| && buf[..j] == Layout(toks) + cur
      invariant start.None? ==> cur == []
      invariant start.Some? ==> start.value == |Layout(toks)|
      invariant ptrs == Pointers(toks)
    {
      if start.None? {
        start := Some(j);
      }
      var c := cmd[i];
      ScanSnoc(cmd, i);
      if IsMeta(c) {
        MetaFails(cmd, i);
        return false, ptrs, start, j, inSq, inDq, toks, cur;
      }
      NoMetaSnoc(cmd, i);
      ptrs, start, j, inSq, inDq, toks, cur := SplitChar(buf, c, ptrs, start, j, inSq, inDq, toks, cur);
      i := i + 1;
    }
    assert cmd[..i] == cmd;
    ok := true;
  }

  /** The end of the splitter: an open quote fails, the last argument is added, no argument at
      all fails, and the vector is NULL-terminated. */
  method FinishSplit(ghost cmd: string, buf: array<char>, ptrs: seq<Option<nat>>, start: Option<nat>,
                     j: nat, inSq: bool, inDq: bool, ghost toks: seq<string>, ghost cur: string)
    returns (argv: Option<seq<Option<nat>>>)
    requires NoMeta(cmd) && ScanOf(cmd) == Scan(toks, cur, inSq, inDq)
    requires j < buf.Length && j == |Layout(toks)| + |cur| && buf[..j] == Layout(toks) + cur
    requires start.None? ==> cur == []
    requires start.Some? ==> start.value == |Layout(toks)|
    requires ptrs == Pointers(toks)
    modifies buf
    ensures argv.None? <==> SplitCommand(cmd).None?
    ensures argv.Some? ==>
      var ts := SplitCommand(cmd).value;
      argv.value == Pointers(ts) + [None] && |Layout(ts)| <= buf.Length && buf[..|Layout(ts)|] == Layout(ts)
  {
    if inSq || inDq {
      return None;
    }
    var ptrs', j', toks' := AddToken(buf, ptrs, start, j, toks, cur);
    assert SplitCommand(cmd) == if toks' == [] then None else Some(toks');
    if |ptrs'| == 0 {
      return None;
    }
    argv := Some(ptrs' + [None]);
  }

  // ---------------------------------------------------------------------------------------------
  // The argument vector copier and the mode

  /** The index of the NULL that ends an argument vector. */
  function NullIndex(argv: seq<Option<string>>): (n: nat)
    requires None in argv
    ensures n < |argv| && argv[n].None? && forall k | 0 <= k < n :: argv[k].Some?
  {
    if argv[0].None? then 0 else 1 + NullIndex(argv[1..])
  }

  /** `popen_noshell_copy_argv`: a new vector one longer than the arguments, holding copies of
      them in order and a final NULL. */
  method CopyArgv(argv: array<Option<string>>) returns (copy: array<Option<string>>)
    requires None in argv[..]
    ensures fresh(copy) && copy.Length == NullIndex(argv[..]) + 1
    ensures copy[..] == argv[..copy.Length]
  {
    var size := 1;
    while argv[size - 1].Some?
      invariant 1 <= size <= NullIndex(argv[..]) + 1
      decreases NullIndex(argv[..]) + 1 - size
    {
      size := size + 1;
    }
    copy := new Option<string>[size];
    var n := 0;
    while argv[n].Some?
      invariant 0 <= n < size && copy[..n] == argv[..n]
      decreases size - n
    {
      copy[n] := Some(argv[n].value);
      n := n + 1;
    }
    copy[n] := None;
    assert copy[..] == copy[..n] + [copy[n]];
    assert argv[..size] == argv[..n] + [argv[n]];
  }

  /** Which end of the pipe the caller gets. */
  datatype Mode = Read | Write

  /** The mode argument of `popen_noshell`: "r" or "w", anything else is EINVAL. */
  function ParseMode(kind: string): (r: Option<Mode>)
    ensures r == Some(Read) <==> kind == "r"
    ensures r == Some(Write) <==> kind == "w"
    ensures r.None? <==> kind != "r" && kind != "w"
  {
    if kind == "r" then Some(Read) else if kind == "w" then Some(Write) else None
  }
}

=== FILE: text.dfy ===
/** Splitting on and joining with a separator character (`str.split(sep)`, `sep.join(parts)`). */
module Text {

  /** `sep.join(parts)`. */
  function Join(parts: seq<string>, sep: char): string
    requires |parts| >= 1
  {
    if |parts| == 1 then parts[0] else parts[0] + [sep] + Join(parts[1..], sep)
  }

  /** `s.split(sep)`: the pieces between separators, always at least one, none holding the
      separator, and joining them back gives s. */
  function Split(s: string, sep: char): (r: seq<string>)
    ensures |r| >= 1 && Join(r, sep) == s
    ensures forall i | 0 <= i < |r| :: sep !in r[i]
    ensures |r| == 1 <==> sep !in s
  {
    if s == [] then [""]
    else
      var rest := Split(s[1..], sep);
      if s[0] == sep then
        assert s == [sep] + s[1..];
        [""] + rest
      else
        assert s == [s[0]] + s[1..];
        assert |rest| > 1 ==> [s[0]] + rest[0] + [sep] + Join(rest[1..], sep) == [s[0]] + (rest[0] + [sep] + Join(rest[1..], sep));
        [[s[0]] + rest[0]] + rest[1..]
  }

  /** Splitting a join of separator-free pieces gives the pieces back. */
  lemma {:induction false} SplitJoin(parts: seq<string>, sep: char)
    requires |parts| >= 1 && forall i | 0 <= i < |parts| :: sep !in parts[i]
    ensures Split(Join(parts, sep), sep) == parts
  {
    if |parts| == 1 {
      assert sep !in Join(parts, sep);
      SplitFree(parts[0], sep);
    } else {
      SplitJoin(parts[1..], sep);
      SplitPrefix(parts[0], Join(parts[1..], sep), sep);
      assert parts == [parts[0]] + parts[1..];
    }
  }

  lemma {:induction false} SplitFree(s: string, sep: char)
    requires sep !in s
    ensures Split(s, sep) == [s]
  {
    if s != [] {
      SplitFree(s[1..], sep);
    }
  }

  /** Splitting a string that starts with a character other than the separator: the character
      joins the first piece. */
  lemma SplitCons(c: char, u: string, sep: char)
    requires c != sep
    ensures Split([c] + u, sep) == [[c] + Split(u, sep)[0]] + Split(u, sep)[1..]
  {
    assert ([c] + u)[1..] == u;
  }

  /** Splitting a string that starts with the separator: an empty first piece. */
  lemma SplitSep(u: string, sep: char)
    ensures Split([sep] + u, sep) == [""] + Split(u, sep)
  {
    assert ([sep] + u)[1..] == u;
  }

  /** A separator-free piece in front of a separator becomes the first part of the split. */
  lemma {:induction false} SplitPrefix(p: string, t: string, sep: char)
    requires sep !in p
    ensures Split(p + [sep] + t, sep) == [p] + Split(t, sep)
  {
    if p == [] {
      assert p + [sep] + t == [sep] + t;
      SplitSep(t, sep);
    } else {
      SplitPrefix(p[1..], t, sep);
      SplitPrefixStep(p, t, sep);
    }
  }

  lemma SplitPrefixStep(p: string, t: string, sep: char)
    requires p != [] && sep !in p
    requires Split(p[1..] + [sep] + t, sep) == [p[1..]] + Split(t, sep)
    ensures Split(p + [sep] + t, sep) == [p] + Split(t, sep)
  {
    var u := p[1..] + [sep] + t;
    var rest := Split(t, sep);
    assert p + [sep] + t == [p[0]] + u;
    SplitCons(p[0], u, sep);
    assert ([p[1..]] + rest)[0] == p[1..] && ([p[1..]] + rest)[1..] == rest;
    assert [p[0]] + p[1..] == p;
  }
}

=== FILE: wrappers.dfy ===
/** Failure-carrying values shared by every module of the model. */
module Wrappers {

  datatype Option<+T> = None | Some(value: T)

  /** The outcome of an operation that either produces a value or fails with an error. */
  datatype Result<+T, +E> = Ok(value: T) | Err(error: E)
}
